=== FILE: README.md ===
# gia, modelled in Dafny

This project models the decision-making core of gia, a command-line client for large language models, and proves properties of the model. The repository has three parts, and the model covers all three:

- the current client (`gia/src`);
- the older root crate (`src`), which the modules prefixed `Legacy` model;
- the small launcher window (`giagui/src/main.rs`).

The model has one module per source file. Code that updates state in place is modelled with classes whose methods carry `modifies` clauses, and its loops are methods proved against specification functions. This covers:

- the Gemini client's key rotation;
- a conversation's three parallel vectors;
- the tool registry;
- both MCP clients;
- the input-gathering configuration;
- the launcher form.

Code made of expressions is modelled as functions and lemmas. This covers:

- the tool sandbox policy;
- the executor;
- the MIME tables;
- the content-part rendering;
- the JSON-RPC messages;
- the resume decision trees.

Effects at the edges are parameters of the model. These are:

- the provider's replies, one per attempt;
- file-system answers: existence, readability, canonical paths and directory listings;
- the clock;
- generated UUIDs;
- the user's answers;
- clipboard contents;
- audio outcomes;
- the outcomes of spawned processes.

Strings are `seq<char>`. Where Rust counts bytes, the model counts UTF-8 bytes (`Base.Utf8Len`). Errors are strings: the error text that the program shows (the outermost context, followed by the cause chain).

## Model

| member | source | states |
|---|---|---|
| ApiKey.ValidateApiKeyFormat | src/api_key.rs:87-108 | an accepted key has a UTF-8 byte length of exactly 39 |
| ApiKey.ValidFormatIff | src/api_key.rs:87-108 | a key is accepted exactly when it is 39 characters long, starts with "AIza" and holds only letters, digits, '-' and '_' |
| ApiKey.WrongLengthRejected | src/api_key.rs:90-93 | a key of any other byte length is rejected whatever it contains |
| ApiKey.TestValidKey | src/api_key.rs:114-119 | the well-formed test key is accepted |
| ApiKey.TestShortKey | src/api_key.rs:121-125 | the short test key is rejected |
| ApiKey.TestWrongPrefix | src/api_key.rs:127-132 | a 39-character key with the wrong prefix is rejected |
| ApiKey.TestBadChars | src/api_key.rs:134-139 | a 39-character key holding '@' and '#' is rejected |
| ApiKey.GetApiKey | src/api_key.rs:8-23 | an accepted value is the variable's value, untrimmed; every failure is the one missing-key error |
| ApiKey.GetApiKeyAccepts | src/api_key.rs:9-21 | the variable is accepted exactly when it is set and not all whitespace |
| Gemini.NextIndex | gia/src/gemini.rs:63-65 | the next key index is always a valid index |
| Gemini.NextIndexCases | gia/src/gemini.rs:63-65 | the next index is one further on, or the first key after the last |
| Gemini.IndexAt | gia/src/gemini.rs:223-287 | the key used by attempt k is a valid index |
| Gemini.NextIndexStep | gia/src/gemini.rs:287-290 | moving to the next key gives the key of the following attempt, and the index is back at the start exactly after the n-th move |
| Gemini.OffsetsDistinct | gia/src/gemini.rs:287-304 | two different attempts among the first n use different keys |
| Gemini.AdvanceByOffset | gia/src/gemini.rs:63-65 | k moves to the next key (k at most n) land on attempt k's key |
| Gemini.FullCycleReturns | gia/src/gemini.rs:63-65 | n moves return to the start and no smaller positive number of moves does |
| Gemini.InitialKeyIndex | gia/src/gemini.rs:40-54 | the first key used is the preferred index exactly when that index names a key, else key 0 |
| Gemini.GeminiClient.New | gia/src/gemini.rs:20-61 | an empty key list is the "No API keys provided" error; otherwise every key is kept (format warnings do not drop keys) and the index is the preferred one when in range |
| Gemini.GeminiClient.Init | gia/src/gemini.rs:56-60 | the client holds the given model, keys and index and is well formed |
| Gemini.GeminiClient.NextKeyIndex | gia/src/gemini.rs:63-65 | `(current + 1) mod N`, a valid index |
| Gemini.TryChatRequest | gia/src/gemini.rs:127-209 | a failed call is the error with the chat context; a reply without text or with blank text is an error; a success carries the first text and the usage |
| Gemini.RateLimitSurvivesContext | gia/src/gemini.rs:165 | a rate-limit or overload marker in the cause is still seen after the context is added |
| Gemini.RateLimitedCallRotates | gia/src/gemini.rs:266-287 | an error naming "429", "Too Many Requests", "503" or "overloaded" rotates in both loops |
| Gemini.RateLimitBeforeAuth | gia/src/gemini.rs:266-270 | an error naming both "429" and "401" is an authentication text yet rotates, since the rate-limit test comes first |
| Gemini.AuthErrorStops | gia/src/gemini.rs:322-330 | an authentication error that is not a rate limit stops the chat loop with the fixed authentication message |
| Gemini.RotationShape | gia/src/gemini.rs:223-336 | a call makes between 1 and n attempts, all but the last rotations; success or a stop leaves the index on the last key tried; n rotations give up with the index back at the start |
| Gemini.AllRotationsExhaust | gia/src/gemini.rs:287-304 | with every attempt rate-limited the call makes exactly n attempts and fails with the exhaustion error, index back at the start |
| Gemini.FirstStopKeepsIndex | gia/src/gemini.rs:247-253 | a first attempt that succeeds or stops ends the call after one attempt with the index unchanged |
| Gemini.ChatSteps | gia/src/gemini.rs:239-335 | each reply is read by the chat loop's rule, one step per reply |
| Gemini.RequestSteps | gia/src/gemini.rs:366-402 | each reply is read by the request loop's rule, one step per reply |
| Gemini.KeysFrom | gia/src/gemini.rs:228 | the keys of the first k attempts, attempt j on key (start + j) mod n |
| Gemini.KeysFromStep | gia/src/gemini.rs:228-229 | each attempt adds its own key to the keys tried |
| Gemini.KeysTriedDistinct | gia/src/gemini.rs:287-304 | no key is tried twice within one call |
| Gemini.GeminiClient.GenerateContentWithChatMessages | gia/src/gemini.rs:214-337 | the result, the number of attempts and the final index are those of the rotation over the chat steps, with 1 to N attempts on distinct keys starting at the old index |
| Gemini.GeminiClient.GenerateContentWithRequest | gia/src/gemini.rs:339-404 | the same rotation over the request steps: no authentication branch, other errors wrapped, the shorter exhaustion message |
| Gemini.GeminiClient.CurrentApiKeyIndex | gia/src/gemini.rs:414-416 | always reports a valid key index |
| Conversation.FormatShortPlus | gia/src/conversation.rs:34-46 | the short usage form shows '+' exactly when prompt and completion counts are both known |
| Conversation.FormatShortEquals | gia/src/conversation.rs:34-46 | the short usage form shows '=' exactly when all three counts are known |
| Conversation.FormatShortUnavailable | gia/src/conversation.rs:34-46 | "N/A" stands for every combination other than the three shown ones |
| Conversation.WordEnd | gia/src/conversation.rs:86-87 | the end of a word: every character up to it is non-whitespace and the character at it is whitespace |
| Conversation.SplitWhitespace | gia/src/conversation.rs:86-87 | whitespace splitting yields only non-empty words free of whitespace |
| Conversation.TrimNonAlnum | gia/src/conversation.rs:89 | a non-empty trimmed word starts and ends with an alphanumeric; it is empty exactly when the word has no alphanumeric |
| Conversation.FilterSignificant | gia/src/conversation.rs:88-91 | only significant words (not stopwords, not punctuation) of the input are kept |
| Conversation.SlugChars | gia/src/conversation.rs:100-104 | a cleaned word holds only alphanumerics and '-', and is non-empty when the word had an alphanumeric |
| Conversation.JoinSlugText | gia/src/conversation.rs:105-106 | joining slug words with '-' stays slug text |
| Conversation.TakeChars | gia/src/conversation.rs:109-113 | taking n characters gives a prefix of at most n characters, exactly n when there are enough |
| Conversation.SlugWords | gia/src/conversation.rs:84-93 | at most five words are used, all significant |
| Conversation.SlugFromWords | gia/src/conversation.rs:99-113 | the joined, cleaned words cut to 40 characters form a non-empty slug |
| Conversation.FallbackIsSlug | gia/src/conversation.rs:95-97 | "conversation" is itself a valid slug |
| Conversation.GenerateSlug | gia/src/conversation.rs:74-114 | a slug is never empty, at most 40 characters of letters, digits and '-', and "conversation" when no significant word survives |
| Conversation.FilterStopwords | gia/src/conversation.rs:75-91 | words that are all stopwords or punctuation leave nothing |
| Conversation.SlugOfStopwords | gia/src/conversation.rs:95-97 | a prompt made only of stopwords and punctuation gets the slug "conversation" |
| Conversation.ConversationId | gia/src/conversation.rs:116-122 | the id is the slug, '-', and the first four characters of the UUID text |
| Conversation.EstimateTokenLength | gia/src/conversation.rs:208-216 | the estimate counts at least 20 per message |
| Conversation.EstimateAppend | gia/src/conversation.rs:208-216 | the estimate is additive over concatenation of message lists |
| Conversation.PartTexts | gia/src/conversation.rs:237-241 | the texts extracted from parts are at most one per part |
| Conversation.PromptTexts | gia/src/conversation.rs:251-255 | every prompt text extracted comes from a Prompt part of the message |
| Conversation.EstimateMatchesExtractedText | gia/src/conversation.rs:218-243 | for a message without media, the size estimate is the byte length of its extracted text minus the joining newlines |
| Conversation.DropCount | gia/src/conversation.rs:172-179 | the number of oldest messages removed is at most the message count |
| Conversation.TruncateNoopWhenFits | gia/src/conversation.rs:163-166 | a conversation within budget is left alone |
| Conversation.TruncateSpec | gia/src/conversation.rs:162-206 | truncation keeps at least min(n, 20) messages, ends within budget or at the 20-message floor, and drops a message only while over budget with more than 20 left |
| Conversation.Conversation.NewWithPrompt | gia/src/conversation.rs:116-135 | a new conversation has the slug-and-hash id, equal creation and update times, three empty vectors and the model name |
| Conversation.Conversation.FromValue | gia/src/conversation.rs:63-69 | a conversation rebuilt from its stored form has exactly that value |
| Conversation.Conversation.AddMessageWithUsage | gia/src/conversation.rs:142-153 | one element is pushed onto each of the three vectors and the update time is renewed; vectors in lock-step stay in lock-step, and no lock-step is demanded of a conversation loaded without usage data |
| Conversation.Conversation.TruncateIfNeeded | gia/src/conversation.rs:162-206 | completes exactly when the resource and usage vectors are long enough for the messages the truncation rule drops, and then drops the same oldest prefix from all three; a lock-step conversation always completes; id and times are unchanged; an incomplete run is the panic of `remove(0)` on an empty vector |
| Conversation.FirstUserMessage | gia/src/conversation.rs:599-602 | the first "User" message, absent exactly when no message has that role |
| Conversation.BytePrefix | gia/src/conversation.rs:607 | a string slice of n bytes is a prefix of exactly n bytes, absent where the slice would panic |
| Conversation.Preview | gia/src/conversation.rs:605-610 | a preview has at most 50 characters, is the text itself when short, else its first 47 characters and "..." |
| Conversation.PreviewAgreesOnAscii | gia/src/conversation.rs:605-610 | on ASCII text the corrected preview equals the preview as written |
| Conversation.NoBytePrefixInsideChar | gia/src/conversation.rs:607 | a 47-byte cut inside a two-byte 47th character has no prefix |
| Conversation.PreviewAsWrittenPanics | gia/src/conversation.rs:606-607 | a 50-character, 51-byte text whose 47th character is 'é' makes the slice panic, while the corrected preview keeps it whole |
| Conversation.BytePrefixFinds | gia/src/conversation.rs:607 | a prefix of exactly n bytes is the slice of n bytes |
| Conversation.PreviewAsWritten | gia/src/conversation.rs:605-610 | the preview as written: the text itself when at most 50 bytes; else, when it does not panic, a 47-byte prefix and "...", at most 50 bytes in all |
| Conversation.PreviewPanicsIff | gia/src/conversation.rs:606-607 | the preview panics exactly when the text exceeds 50 bytes and no prefix of it is exactly 47 bytes |
| Conversation.Utf8LenRepeat | gia/src/conversation.rs:606 | k copies of a character take k times its UTF-8 length |
| Conversation.PreviewAsWrittenCutsShortText | gia/src/conversation.rs:606-607 | a 27-character, 53-byte text is cut by the preview as written to "a", 23 × "é" and "...", while the corrected preview keeps it whole |
| Conversation.FromConversation | gia/src/conversation.rs:598-620 | the summary keeps id, update time and message count, has a preview exactly when a "User" message exists, and the preview is at most 50 characters |
| Conversation.FromConversationAsWritten | gia/src/conversation.rs:598-620 | the summary as written: absent exactly when a first "User" message exists and its byte cut panics; otherwise id, update time and count are kept and the preview is at most 50 bytes |
| Conversation.SummaryAgreesOnAscii | gia/src/conversation.rs:598-620 | for an ASCII first user message the summary as written is the corrected one |
| ConversationStore.LastDot | gia/src/conversation.rs:472 | the extension separator is the last '.' of a file name, or none |
| ConversationStore.JsonNameParts | gia/src/conversation.rs:421-423 | a file saved under a non-empty id is a json file whose stem is that id |
| ConversationStore.ParseUsize | gia/src/conversation.rs:450 | a parsed index never exceeds the usize range |
| ConversationStore.DigitsOfNat | gia/src/conversation.rs:450 | the decimal digits of a number read back as that number |
| ConversationStore.ParseRendered | gia/src/conversation.rs:450 | a rendered index parses back to itself |
| ConversationStore.GeneratedIdNeverIndex | gia/src/conversation.rs:116-122 | an id made by new_with_prompt never parses as an index, so it never takes the index branch |
| ConversationStore.DashNeverIndex | gia/src/conversation.rs:450 | a text with '-' after its first character does not parse as an index |
| ConversationStore.FindByName | gia/src/conversation.rs:455-458 | the first directory entry with the exact file name, none when no entry has it |
| ConversationStore.FindByNameAt | gia/src/conversation.rs:455-458 | the first entry carrying the name is the one found |
| ConversationStore.FindBySuffix | gia/src/conversation.rs:470-485 | the first json entry whose stem ends with the id, none when no entry matches |
| ConversationStore.FindBySuffixFrom | gia/src/conversation.rs:470-485 | the scan from entry k finds the first matching json entry at or after k, none when no entry from k on matches |
| ConversationStore.Deserialize | gia/src/conversation.rs:576-583 | an entry loads exactly when its content deserialises, giving that conversation; otherwise the deserialisation error |
| ConversationStore.Loadable | gia/src/conversation.rs:555-569 | at most one conversation per directory entry |
| ConversationStore.LoadableMembers | gia/src/conversation.rs:559-561 | every loadable conversation comes from a json entry that deserialises to it |
| ConversationStore.Summaries | gia/src/conversation.rs:562-564 | one summary per conversation, built by from_conversation |
| ConversationStore.InsertByTime | gia/src/conversation.rs:572 | the stable insertion step adds exactly one summary and keeps the rest |
| ConversationStore.InsertSorted | gia/src/conversation.rs:572 | inserting into a newest-first list keeps it newest first |
| ConversationStore.SortNewestFirst | gia/src/conversation.rs:572 | the sort is a permutation and newest first |
| ConversationStore.SameTime | gia/src/conversation.rs:572 | the summaries of one update time, in order, never more than the list holds |
| ConversationStore.SameTimeCons | gia/src/conversation.rs:572 | a summary in front adds itself first exactly when it has that time |
| ConversationStore.SameTimeAppend | gia/src/conversation.rs:572 | the summaries of one time in a + b are those of a, then those of b |
| ConversationStore.SameTimeOlder | gia/src/conversation.rs:572 | a list older than a time has no summary of that time |
| ConversationStore.SameTimeSnoc | gia/src/conversation.rs:572 | a summary at the end adds itself last exactly when it has that time |
| ConversationStore.NewestSameTime | gia/src/conversation.rs:572 | a summary newer than the whole list, put in front, still follows the list's summaries of its own time (there are none) |
| ConversationStore.InsertAfterSameTime | gia/src/conversation.rs:572 | the insertion step puts a summary after every summary of the same time |
| ConversationStore.SortStable | gia/src/conversation.rs:572 | the sort is stable: summaries of equal update time keep their input order |
| ConversationStore.ListConversations | gia/src/conversation.rs:548-574 | the listing is a newest-first permutation of the summaries of the loadable conversations |
| ConversationStore.LoadByIndex | gia/src/conversation.rs:493-516 | an index at or beyond the listing length is the out-of-range error carrying both numbers |
| ConversationStore.LoadConversation | gia/src/conversation.rs:448-491 | a numeric id is an index into the listing; "not found" exactly when it is not numeric, no exact file exists and no json stem ends with it |
| ConversationStore.ExactMatchWins | gia/src/conversation.rs:454-465 | a non-numeric id naming an existing file loads that file and no other, failing if it does not deserialise |
| ConversationStore.SuffixMatchFirstWins | gia/src/conversation.rs:467-488 | without an exact file, the first json entry whose stem ends with the id is loaded even when later ones match too |
| ConversationStore.SaveConversation | gia/src/conversation.rs:421-432 | after saving, the file `<id>.json` exists and holds the conversation |
| ConversationStore.SaveLoadRoundTrip | gia/src/conversation.rs:421-465 | a saved conversation loads back unchanged by its own id unless that id is numeric |
| ConversationStore.NewConversationRoundTrip | gia/src/conversation.rs:116-122 | every conversation created by new_with_prompt round-trips through save and load |
| ConversationStore.LatestOfSpec | gia/src/conversation.rs:518-546 | the scan picks the first conversation of greatest update time, and finds none only when all times are the minimum instant |
| ConversationStore.LoadableStep | gia/src/conversation.rs:529-541 | each directory entry adds its conversation to the scan when it is json and loads |
| ConversationStore.LatestStep | gia/src/conversation.rs:532-536 | a later conversation replaces the current latest only when strictly newer |
| ConversationStore.GetLatestConversation | gia/src/conversation.rs:518-546 | the loop returns the latest of the loadable conversations |
| ConversationStore.LatestHeadsListing | gia/src/conversation.rs:572 | the latest conversation's summary heads the sorted summaries |
| ConversationStore.LatestIsFirstListed | gia/src/conversation.rs:518-574 | the latest conversation heads the listing, so index 0 and "resume the latest" agree |
| LegacyConversation.EstimateTokenLength | src/conversation.rs:86-94 | the estimate counts at least 20 per message |
| LegacyConversation.EstimateUniform | src/conversation.rs:86-94 | messages of equal byte length each cost their length plus 20 |
| LegacyConversation.DropCount | src/conversation.rs:65-70 | the number of oldest messages removed is at most the message count |
| LegacyConversation.TruncateSpec | src/conversation.rs:54-84 | a fitting conversation is untouched; truncation keeps at least min(n, 2) messages, ends within budget or at the floor, and drops only while over budget with more than two left |
| LegacyConversation.FourLongMessagesKeepLastTwo | src/conversation.rs:391-404 | four 1000-byte messages against a budget of 2500 lose exactly the first two |
| LegacyConversation.Conversation.New | src/conversation.rs:34-42 | a new conversation's id is the UUID text, with equal creation and update times and no messages |
| LegacyConversation.Conversation.AddMessage | src/conversation.rs:44-52 | one stamped message is appended and the update time renewed; id and creation time are kept |
| LegacyConversation.Conversation.TruncateIfNeeded | src/conversation.rs:54-84 | the oldest prefix given by the truncation rule is dropped and nothing else changes |
| LegacyConversation.FindByName | src/conversation.rs:229-234 | the first entry with the exact file name, none when no entry has it |
| LegacyConversation.LoadConversation | src/conversation.rs:228-241 | only the exact file `<id>.json` is tried: "not found" exactly when it is absent; a success is that file's conversation; other failures are deserialisation errors |
| LegacyConversation.Loadable | src/conversation.rs:279-294 | at most one conversation per directory entry |
| LegacyConversation.FirstUserMessage | src/conversation.rs:323-326 | the first User message, absent exactly when no message has that role |
| LegacyConversation.FromConversation | src/conversation.rs:322-343 | the summary keeps id, update time and message count, has a preview exactly when a User message exists, of at most 50 characters |
| LegacyConversation.FromConversationAsWritten | src/conversation.rs:322-343 | the summary as written: absent exactly when a first User message exists and its byte cut panics; otherwise id, update time and count are kept and the preview is at most 50 bytes |
| LegacyConversation.SummaryAgreesOnAscii | src/conversation.rs:322-343 | for an ASCII first User message the summary as written is the corrected one |
| LegacyConversation.Summaries | src/conversation.rs:286-287 | one summary per conversation, built by from_conversation |
| LegacyConversation.ListConversations | src/conversation.rs:273-299 | the listing is a newest-first permutation of the summaries of the loadable files |
| LegacyConversation.FindByNameAt | src/conversation.rs:229-234 | the first entry of a given name is the one found |
| LegacyConversation.SaveConversation | src/conversation.rs:184-195 | a saved conversation loads back unchanged by its id, and the directory grows by at most one file |
| LegacyConversation.SaveKeepsOthers | src/conversation.rs:184-195 | saving leaves every other id's file as it was |
| LegacyConversation.LatestOfSpec | src/conversation.rs:243-271 | the scan picks the first conversation of greatest update time, and finds none only when every time is the minimum |
| LegacyConversation.LoadableStep | src/conversation.rs:255-267 | each directory entry adds its conversation when it is json and loads |
| LegacyConversation.LatestStep | src/conversation.rs:258-261 | a conversation replaces the current latest only when strictly newer |
| LegacyConversation.GetLatestConversation | src/conversation.rs:243-271 | the loop returns the latest of the loadable conversations |
| ContentPart.EnsureNewline | gia/src/content_part_wrapper.rs:65-69 | the result ends in a newline, and is the text itself exactly when the text already did |
| ContentPart.ToGenaiContentPart | gia/src/content_part_wrapper.rs:50-94 | media parts become binary parts carrying their MIME type and data; every other part becomes text |
| ContentPart.ExtractText | gia/src/content_part_wrapper.rs:97-107 | every text variant yields text; exactly images and audio yield none |
| ContentPart.ExtractPrompt | gia/src/content_part_wrapper.rs:110-115 | only the Prompt variant yields text, and it is the same text extract_text gives |
| ContentPart.RenderedTextKeepsBody | gia/src/content_part_wrapper.rs:50-94 | every text part renders ending with its raw text, with at most one newline added (only role and file parts) |
| ContentPart.RenderedTextHasHeader | gia/src/content_part_wrapper.rs:52-85 | every variant except plain text renders with a "### " header |
| ContentPart.RoleAndFileEndInNewline | gia/src/content_part_wrapper.rs:65-77 | role and file parts always end in a newline, and one is added only when the content lacks it |
| ContentPart.RoleHeaderMarksTasks | gia/src/content_part_wrapper.rs:60-64 | a role renders with "### Task:" exactly when it is a task |
| ContentPart.TextFileNewlineConflated | gia/src/content_part_wrapper.rs:73-77 | a file lacking a final newline renders exactly like the same file with the newline added |
| ContentPart.PromptRenderInjective | gia/src/content_part_wrapper.rs:52-54 | the prompt is recoverable from its rendered part |
| ContentPart.ToGenaiMessageContent | gia/src/content_part_wrapper.rs:128-139 | text becomes a single text part; parts map one to one in order (never merged) |
| ContentPart.MapParts | gia/src/content_part_wrapper.rs:134-135 | each part is converted in place, one output per input |
| ContentPart.ParseRole | gia/src/content_part_wrapper.rs:154-160 | "Assistant", "System" and "Tool" map to their roles exactly; every other string maps to User |
| ContentPart.RoleNameRoundTrip | gia/src/content_part_wrapper.rs:154-160 | each role's own name maps back to it |
| ContentPart.ToGenaiChatMessage | gia/src/content_part_wrapper.rs:151-169 | the message has the mapped role, the converted content and no options |
| Provider.FirstText | gia/src/gemini.rs:188-190 | the first text of a reply: present exactly when the reply has text, and then its first text |
| Provider.U32Cast | gia/src/gemini.rs:181-185 | `as u32` gives the value modulo 2^32 |
| Provider.U32CastKeepsCounts | gia/src/gemini.rs:181-185 | the cast leaves every count in u32 range unchanged |
| Provider.CastUsage | gia/src/gemini.rs:181-185 | each of the three counts is present exactly when genai reports it, and then is its u32 cast |
| Provider.WithContext | gia/src/gemini.rs:165 | an error with context starts with the context and ends with the cause |
| Provider.WithContextKeeps | gia/src/gemini.rs:257-270 | the context keeps every text of the cause, so classification still sees it |
| Provider.SplitModel | gia/src/provider.rs:45-51 | a model with "::" is split at its first "::" (the provider has none); without "::" the provider is "gemini" and the model the whole string |
| Provider.SplitAtFirstSeparatorOnly | gia/src/provider.rs:46-47 | with a provider name free of ':', the model part is everything after the first "::" |
| Provider.CreateProvider | gia/src/provider.rs:44-70 | the provider name, lowercased, selects Gemini or Ollama with the model part; any other name is the unsupported-provider error naming it as given |
| Provider.BareModelIsGemini | gia/src/provider.rs:48-51 | a model string without "::" always goes to Gemini unchanged |
| Provider.ProviderNameCaseInsensitive | gia/src/provider.rs:53 | the provider name is matched without regard to ASCII case |
| Provider.UnknownProviderRejected | gia/src/provider.rs:88-96 | "unknown::model" is rejected with the unsupported-provider error |
| LegacyProvider.CreateProvider | src/provider.rs:47-70 | accepted exactly when the provider is "gemini" in any ASCII case, giving the model part; otherwise the unsupported-provider error |
| LegacyProvider.AgreesWithGiaOnGemini | src/provider.rs:47-70 | the root crate accepts exactly the model strings gia sends to Gemini, with the same model name |
| LegacyProvider.OllamaUnsupported | src/provider.rs:56-68 | "ollama::…" is an unsupported provider in the root crate |
| Ollama.NormalizeBaseUrl | gia/src/ollama.rs:33-43 | the URL is extended to end in "/v1/", by at most four characters, and is unchanged exactly when it already ends that way |
| Ollama.NormalizeIdempotent | gia/src/ollama.rs:33-43 | normalising twice is normalising once |
| Ollama.NormalizeExamples | gia/src/ollama.rs:182-192 | the bare default URL and the one ending in "/v1" both become ".../v1/" |
| Ollama.PartTexts | gia/src/ollama.rs:67-76 | the texts of all-text parts, one per part in order |
| Ollama.MergeTextParts | gia/src/ollama.rs:52-87 | a message of more than one part, all text, becomes one text part joining them with a blank line; any other message is unchanged; role and options are kept |
| Ollama.MergeIdempotent | gia/src/ollama.rs:52-87 | a merged message is left alone by a second merge |
| Ollama.JoinByteLength | gia/src/ollama.rs:67-77 | the byte length of a join is the parts' total plus one separator per gap |
| Ollama.MergeKeepsAllText | gia/src/ollama.rs:60-84 | merging loses no text: every original part occurs in the merged text, whose length is the total plus two bytes per gap |
| Ollama.RequestMessages | gia/src/ollama.rs:128-131 | every request message is merged where needed, in order |
| Ollama.HandleReply | gia/src/ollama.rs:135-157 | a failed call is the error with context; a missing or blank first text is the no-content error; otherwise that text with default usage |
| Security.Components | gia/src/tools/security.rs:119-130 | `Path::components`: after the first component, none is empty, ".", the root or holds a '/' |
| Security.ComponentsOf | gia/src/tools/security.rs:119-130 | the components of a path's pieces: a leading empty piece is the root, a leading "." the current directory, later empty and "." pieces are dropped |
| Security.ComponentsOfAppend | gia/src/tools/security.rs:119-130 | a further piece adds a component exactly when it is neither empty nor "." |
| Security.ComponentsAppend | gia/src/tools/security.rs:119-130 | a name after one more separator is a new last component, unless it is empty or "." |
| Security.Parent | gia/src/tools/security.rs:130 | `Path::parent`: none exactly for the empty path or one ending in the root; otherwise one component fewer and a prefix of the path |
| Security.TrailingSeparators | gia/src/tools/security.rs:130 | separators at the end of a non-empty path add no component |
| Security.ParentOfChild | gia/src/tools/security.rs:130 | a name joined onto a directory, followed by any number of separators, has that directory as parent |
| Security.ParentOfName | gia/src/tools/security.rs:130-133 | a single name, with any trailing separators, is one component and has the empty path as parent ("notes.txt/" has parent "") |
| Security.NoParentOfRoot | gia/src/tools/security.rs:130-136 | "/" is the root component alone and "" has no component; neither has a parent, so the check denies them when they do not canonicalise |
| Security.ParentOfCurrentDir | gia/src/tools/security.rs:130 | ".", with any trailing separators, is the current-directory component and has the empty path as parent |
| Security.New | gia/src/tools/security.rs:58-67 | the defaults: no directory restriction, 10 MiB, web search on, commands off, 30 s, no confirmation |
| Security.WithAllowedDir | gia/src/tools/security.rs:70-77 | adds the directory's canonical form, or the path as given when it cannot be canonicalised; nothing else changes |
| Security.AllowCurrentDir | gia/src/tools/security.rs:80-84 | adds the working directory, and fails exactly when it cannot be read |
| Security.WithMaxFileSize | gia/src/tools/security.rs:87-90 | sets the size limit and nothing else |
| Security.WithAllowWebSearch | gia/src/tools/security.rs:93-96 | sets web search permission and nothing else |
| Security.WithAllowCommandExecution | gia/src/tools/security.rs:99-102 | sets command permission and nothing else |
| Security.WithCommandTimeout | gia/src/tools/security.rs:105-108 | sets the timeout and nothing else |
| Security.WithConfirmCommands | gia/src/tools/security.rs:111-114 | sets the confirmation flag and nothing else |
| Security.BuilderChain | gia/src/tools/security.rs:234-248 | the builder test's chain sets exactly the five values it names |
| Security.BuildersCommute | gia/src/tools/security.rs:87-108 | builders of different fields commute |
| Security.IsPathAllowed | gia/src/tools/security.rs:119-145 | every path is allowed with no directory configured; otherwise exactly when the path (or, failing that, its parent) canonicalises to a path under an allowed directory |
| Security.UnresolvableDenied | gia/src/tools/security.rs:126-138 | once a directory is configured, a path is denied when neither it nor its parent canonicalises |
| Security.AddingDirKeepsAllowed | gia/src/tools/security.rs:70-77 | adding a directory to a non-empty set never denies a path allowed before |
| Security.AllowedDirExample | gia/src/tools/security.rs:207-217 | with only the temporary directory allowed, a file inside it is allowed and a path elsewhere is not |
| Security.NoneBlocked | gia/src/tools/security.rs:154-158 | true exactly when no lowercased blocklist entry occurs in the text |
| Security.IsCommandAllowed | gia/src/tools/security.rs:150-161 | a command is rejected exactly when its lowercase form contains a lowercased blocklist entry |
| Security.RejectionMonotone | gia/src/tools/security.rs:150-161 | any text around a rejected command is rejected too |
| Security.AllowedByWitness | gia/src/tools/security.rs:150-161 | a lower-case command lacking some character of every entry is allowed |
| Security.ListingAllowed | gia/src/tools/security.rs:229 | "ls -la" is allowed |
| Security.GitStatusAllowed | gia/src/tools/security.rs:230 | "git status" is allowed |
| Security.CargoTestAllowed | gia/src/tools/security.rs:231 | "cargo test" is allowed |
| Security.RejectedAt | gia/src/tools/security.rs:154-158 | a blocklist entry found anywhere in the lowercased command rejects it |
| Security.UppercaseRmRejected | gia/src/tools/security.rs:224 | upper case does not slip past the blocklist |
| Security.EntryRejected | gia/src/tools/security.rs:35-54 | every blocklist entry, the fork bomb among them, is itself rejected |
| Security.ChmodRejected | gia/src/tools/security.rs:227 | "chmod -R 777 /" matches the entry "chmod -r 777" |
| Security.GitAddRejected | gia/src/tools/security.rs:39 | matching is by substring: "git add ." is rejected for the "dd" inside it |
| Registry.ToGenaiTool | gia/src/tools/registry.rs:35-39 | the descriptor carries the tool's name, description and schema |
| Registry.Registered | gia/src/tools/registry.rs:59-61 | the tool is stored under its name, replacing a namesake; every other entry is kept |
| Registry.RegisteredCount | gia/src/tools/registry.rs:59-61 | registering grows the count by one exactly when the name is new |
| Registry.LastRegistrationWins | gia/src/tools/registry.rs:59-61 | after several registrations each name maps to its last registration |
| Registry.NotRegisteredLater | gia/src/tools/registry.rs:59-61 | registrations of other names leave a name's entry alone |
| Registry.ToolRegistry.New | gia/src/tools/registry.rs:52-56 | a new registry is empty |
| Registry.ToolRegistry.Register | gia/src/tools/registry.rs:59-61 | the map becomes the registered map, keeping every tool stored under its own name |
| Registry.ToolRegistry.Get | gia/src/tools/registry.rs:64-66 | a tool is found exactly when its name is registered, and it is the one stored under that name |
| Registry.ToolRegistry.Len | gia/src/tools/registry.rs:77-79 | the count of distinct registered names |
| Registry.ToolRegistry.ToGenaiTools | gia/src/tools/registry.rs:69-74 | exactly one descriptor per registered tool, no name twice, in unspecified order |
| Registry.RegisterInOrder | gia/src/tools/registry.rs:52-61 | registering tools one by one in a fresh registry gives the map of the registrations in order |
| Executor.ExecuteToolCall | gia/src/tools/executor.rs:29-63 | every call is answered, with its own call id |
| Executor.SuccessKeepsOutput | gia/src/tools/executor.rs:42-49 | a tool that succeeds answers with its output unchanged |
| Executor.UnknownToolReported | gia/src/tools/executor.rs:56-59 | a call naming no registered tool gets the unknown-tool message |
| Executor.FailuresReadAsErrors | gia/src/tools/executor.rs:50-59 | unknown and failing tools are both reported as text beginning "Error", never as a failure |
| Executor.FailureKeepsErrorText | gia/src/tools/executor.rs:50-53 | a failing tool's answer keeps the whole error text |
| Executor.ExecuteToolCalls | gia/src/tools/executor.rs:68-78 | one response per call |
| Executor.ExecuteToolCallsAt | gia/src/tools/executor.rs:72-77 | the i-th response is the execution of the i-th call |
| Executor.ResponsesMatchCalls | gia/src/tools/executor.rs:68-78 | the responses carry exactly the calls' ids, in the same order |
| Executor.ExecuteConcat | gia/src/tools/executor.rs:68-78 | executing a batch split in two is executing the halves one after the other |
| ToolImpls.RequiredString | gia/src/tools/implementations.rs:57-58 | read from the object form of the arguments: a required string argument is present exactly when the arguments are an object whose field is a string, and then it is that string |
| ToolImpls.ReadFile | gia/src/tools/implementations.rs:56-89 | unparsable arguments, a denied path and a file over the size limit are refused in that order; success needs all checks and both reads, and gives the contents under a header naming the path |
| ToolImpls.ReadDeniedBeforeAccess | gia/src/tools/implementations.rs:63-69 | a denied path is refused whatever the file system would have answered |
| ToolImpls.ReadShowsContents | gia/src/tools/implementations.rs:88 | a successful read returns the file's text intact at the end of the output |
| ToolImpls.DefaultLimitRefusesLargeFile | gia/src/tools/implementations.rs:75-81 | with the default policy a file over 10 MiB is refused as too large |
| ToolImpls.WriteFile | gia/src/tools/implementations.rs:133-160 | unparsable arguments and a denied path are refused; success needs the path check, the directory creation and the write, and reports the byte count and path |
| ToolImpls.WriteDeniedBeforeAccess | gia/src/tools/implementations.rs:140-145 | a denied path is refused before any directory is created or byte written |
| ToolImpls.WriteReportsBytes | gia/src/tools/implementations.rs:713-731 | under the default policy a successful write reports the byte count, the character count for ASCII content |
| ToolImpls.ListPath | gia/src/tools/implementations.rs:208-210 | the path argument, or "." when it is missing or the arguments do not parse |
| ToolImpls.ItemLabels | gia/src/tools/implementations.rs:233-235 | one label per entry, in order |
| ToolImpls.ListDirectory | gia/src/tools/implementations.rs:207-244 | a denied path is refused; success needs the path check, the open and the reads, and gives the sorted entry labels one per line under a header |
| ToolImpls.ListingOrderIrrelevant | gia/src/tools/implementations.rs:238 | the listing does not depend on the order the directory yields entries |
| ToolImpls.ListingShowsEveryName | gia/src/tools/implementations.rs:229-243 | every entry's name appears in a successful listing |
| ToolImpls.UnparsableArgumentsListCurrentDirectory | gia/src/tools/implementations.rs:208-210 | arguments without a string "path" list the current directory |
| ToolImpls.SearchProviderFromEnv | gia/src/tools/implementations.rs:259-268 | exactly "brave" selects Brave and then needs the key; anything else, or nothing, selects DuckDuckGo |
| ToolImpls.SearchProviderExamples | gia/src/tools/implementations.rs:764-802 | unset gives DuckDuckGo; "brave" without a key is an error naming the variable; with a key it is Brave with that key |
| ToolImpls.ExtractTopicInfo | gia/src/tools/implementations.rs:452-463 | an item yields its text and URL exactly when both are non-empty; a group yields what its first nested topic gives |
| ToolImpls.OnlyFirstNestedTopic | gia/src/tools/implementations.rs:461 | only the first nested topic of a group is looked at |
| ToolImpls.Extracted | gia/src/tools/implementations.rs:414-423 | at most one usable item per topic |
| ToolImpls.ExtractedPrefix | gia/src/tools/implementations.rs:414-423 | the usable items of a prefix of topics are a prefix of the usable items |
| ToolImpls.ExtractedStep | gia/src/tools/implementations.rs:418 | each topic adds its item when it is usable |
| ToolImpls.ExtractedNonEmpty | gia/src/tools/implementations.rs:455 | every usable item has non-empty text and URL |
| ToolImpls.FormatDuckDuckGoResults | gia/src/tools/implementations.rs:397-430 | the loop builds the DuckDuckGo text: header, heading and abstract when present, up to five usable items, the hint when there is nothing |
| ToolImpls.AppendRelatedItems | gia/src/tools/implementations.rs:411-423 | the related-items loop skips unusable topics, numbers usable ones from 1 and stops after five |
| ToolImpls.TopicEntryShown | gia/src/tools/implementations.rs:419-420 | each of the first five usable items appears, numbered consecutively from 1 |
| ToolImpls.DuckDuckGoIgnoresLaterTopics | gia/src/tools/implementations.rs:415-417 | topics past the fifth usable one never change the text |
| ToolImpls.DuckDuckGoEmptyHint | gia/src/tools/implementations.rs:425-427 | without an abstract and related topics the text ends with the no-results hint |
| ToolImpls.FormatBraveResults | gia/src/tools/implementations.rs:432-450 | the loop builds the Brave text: header, and the hint when empty, else the first five results numbered from 1 |
| ToolImpls.AppendBraveEntries | gia/src/tools/implementations.rs:441-447 | the result loop appends the first five entries, numbered from 1 |
| ToolImpls.BraveEntriesStep | gia/src/tools/implementations.rs:441-447 | each result adds its own numbered entry |
| ToolImpls.TopicEntryAppended | gia/src/tools/implementations.rs:419-420 | numbering one more item extends the listing by that item's entry |
| ToolImpls.TopicEntriesStep | gia/src/tools/implementations.rs:419-420 | each usable item adds its own numbered entry |
| ToolImpls.BraveListsAtMostFive | gia/src/tools/implementations.rs:441 | results after the fifth never change the text |
| ToolImpls.BraveDescriptionLine | gia/src/tools/implementations.rs:443-445 | a description line is present exactly when the description is non-empty |
| ToolImpls.SearchWeb | gia/src/tools/implementations.rs:497-515 | disabled search, unparsable arguments and a query over 500 bytes are refused in that order; then the provider chosen from the environment decides the text or the error |
| ToolImpls.SearchDisabledFirst | gia/src/tools/implementations.rs:864-877 | the disabled flag is checked before the arguments and the environment |
| ToolImpls.LongQueryRefused | gia/src/tools/implementations.rs:849-862 | a 501-character query is refused even with no usable provider |
| ToolImpls.CommandReportShape | gia/src/tools/implementations.rs:656-675 | the report opens with the command line and ends with the stderr section, else the stdout section, else the no-output line |
| ToolImpls.ReportKeepsStreams | gia/src/tools/implementations.rs:660-670 | both output streams are found in the report |
| ToolImpls.ExecuteCommand | gia/src/tools/implementations.rs:592-677 | disabled execution is refused first; a blocked command is refused; a run happens only for an allowed command, confirmed when the policy asks |
| ToolImpls.DeclinedRunsNothing | gia/src/tools/implementations.rs:626-634 | a declined confirmation cancels without running |
| ToolImpls.BlockedBeforeDirectory | gia/src/tools/implementations.rs:603-616 | a blocked command is refused whatever the working directory and the answer would be |
| ToolImpls.DirectoryBeforeConfirmation | gia/src/tools/implementations.rs:618-634 | a denied working directory is refused before the user is asked |
| ToolImpls.DefaultPolicyRefusesCommands | gia/src/tools/implementations.rs:593-598 | with the default policy every command is refused as disabled |
| App.AddReported | gia/src/app.rs:485-495 | a count a reply does not report leaves the running total as it is; a reported one always makes it present |
| App.Accumulate | gia/src/app.rs:485-495 | the prompt, completion and total counts are each accumulated independently from the reply's usage |
| App.FoldIsSum | gia/src/app.rs:485-495 | a count stays absent until some reply reports it and is then the sum of every reported value |
| App.PromptCounts | gia/src/app.rs:485-488 | one prompt count per reply |
| App.CompletionCounts | gia/src/app.rs:489-492 | one completion count per reply |
| App.TotalCounts | gia/src/app.rs:493-495 | one total count per reply |
| App.UsageFolds | gia/src/app.rs:463-495 | the accumulated usage is the three counts folded separately |
| App.UsageIsReportedSum | gia/src/app.rs:463-495 | each accumulated field is absent exactly when no reply reported it, else the sum of the reported values |
| App.SearchModeDisablesGrounding | gia/src/app.rs:438-443 | with GIA_SEARCH_MODE set to anything the Google Search grounding tool is never added, whatever the model |
| App.RequestTools | gia/src/app.rs:464-470 | the offered tools are the registry's descriptors, followed by the grounding tool exactly when grounding applies |
| App.FinalText | gia/src/app.rs:499-503 | the final text is the reply's first text, or "(no text)" when it has none |
| App.LoopEnd | gia/src/app.rs:472-514 | the loop ends at the first reply that is an error or has no tool calls, or at the bound of ten |
| App.LoopEndSkips | gia/src/app.rs:472-514 | no reply before the loop's end ends it |
| App.CallsMade | gia/src/app.rs:460-472 | the loop makes between one and ten provider calls |
| App.ToolCallMessage | gia/src/app.rs:518-520 | the assistant message recording the tool calls has one part per call |
| App.ToolCallParts | gia/src/app.rs:518-520 | one part per tool call |
| App.ToolCallMessageAt | gia/src/app.rs:518-520 | the tool-call message lists the calls in their order |
| App.ToolCallPartsAt | gia/src/app.rs:518-520 | part i is the i-th tool call |
| App.ResponseMessages | gia/src/app.rs:522-527 | one tool message per tool response |
| App.ResponseMessagesAt | gia/src/app.rs:522-527 | the i-th tool message carries the i-th response |
| App.Rounds | gia/src/app.rs:472-528 | one round of messages per reply, the tools of round k answering as they stand at round k |
| App.ExecuteWithTools | gia/src/app.rs:452-534 | the outcome is the loop's specified outcome; it sends as many requests as calls made, request k carries the history plus the rounds before k (each answered by the tools as they stood in that round), and every request offers the registry's tools plus grounding when it applies |
| App.ToolLoop | gia/src/app.rs:472-534 | the loop's result is the specified outcome and the requests it sends are exactly the specified ones, round k's tools running as they stand at round k |
| App.Requests | gia/src/app.rs:479 | the first n requests, one per call |
| App.RequestsAt | gia/src/app.rs:479 | request k carries the transcript after k rounds and the offered tools |
| App.OutcomeAt | gia/src/app.rs:479-514 | when reply i is the first to end the loop, the loop makes i+1 calls and returns that reply's error with context, or its text, the usage of the first i+1 replies and one assistant wrapper |
| App.UsagePrefixIsUsageOf | gia/src/app.rs:485-495 | the usage accumulated over the first n replies is the usage of that prefix |
| App.ToolStep | gia/src/app.rs:518-527 | a tool round appends the tool-call message and then the executor's responses |
| App.AppendToolMessages | gia/src/app.rs:524-527 | the responses are appended as tool messages, in order |
| App.AtMostTenCalls | gia/src/app.rs:460-472 | the provider is never called more than ten times |
| App.AllToolRequestsExceed | gia/src/app.rs:460-533 | ten replies that all request tools exhaust the loop with the iteration error after ten calls |
| App.LoopSucceedsOnFirstPlainReply | gia/src/app.rs:472-514 | when the first reply without tool calls arrives before any error within ten, the loop succeeds with its text, one assistant wrapper and the usage of the replies so far |
| App.LoopEndIs | gia/src/app.rs:472-514 | the loop's end is the first reply that ends it |
| App.LoopSuccessShape | gia/src/app.rs:497-514 | a successful loop ended on a reply without tool calls and returns exactly one assistant wrapper holding the returned text |
| App.TranscriptGrows | gia/src/app.rs:518-527 | each request after a tool-calling reply carries the previous messages followed by that reply's round, answered by that round's tools |
| App.LaterRoundSeesOwnRun | gia/src/app.rs:518-527 | the same call in two rounds is answered differently when the tool's output changed in between, so one round's effects (a file written) show in a later round |
| App.RoundAnswersCalls | gia/src/app.rs:518-527 | a round is the tool-call message followed by one tool message per call, each answering that call under the call's id |
| App.TranscriptKeepsHistory | gia/src/app.rs:458-527 | the messages sent first stay at the head of every later request |
| App.ResourceOf | gia/src/app.rs:159-194 | every content source but the command-line prompt is recorded as a resource |
| App.BuildResources | gia/src/app.rs:157-198 | the resource loop builds the resources of the sources in order |
| App.ResourceCount | gia/src/app.rs:157-198 | one resource per source other than the prompt |
| App.ResourcesConcat | gia/src/app.rs:157-198 | the resources of a concatenation are those of each part in order |
| App.RoleRecordedByKind | gia/src/app.rs:185-192 | a role definition is recorded under its name, as a task exactly when it is one |
| App.DisabledSet | gia/src/app.rs:367-371 | the disabled set holds exactly the lowercased --tool-disable names |
| App.ToolPolicy | gia/src/app.rs:400-415 | the policy fails only when the current directory is requested and unavailable; otherwise it has a 10 MiB file limit, web search on, the configured command settings and the requested allowed directories |
| App.RegisterBuiltins | gia/src/app.rs:374-397 | each built-in tool is registered exactly when it is enabled (not disabled, and execute_command only when command execution is allowed), and nothing else |
| App.RegisterIfEnabled | gia/src/app.rs:374-397 | one registration step registers the k-th built-in tool exactly when it is enabled and keeps the registry valid |
| App.RegisteredAll | gia/src/app.rs:374-397 | after all steps the registry holds exactly the enabled built-in tools |
| App.RegistrationStep | gia/src/app.rs:374-397 | the registered-so-far invariant extends by one built-in tool |
| App.BuiltinNamesDistinct | gia/src/app.rs:374-397 | the five built-in tool names are distinct |
| App.BuiltinToolsNamed | gia/src/app.rs:374-397 | the built-in tool descriptors carry the built-in names |
| App.InitializeToolExecutor | gia/src/app.rs:360-423 | fails exactly when the policy fails; otherwise returns the policy and a registry holding exactly the enabled built-in tools |
| App.PromptUnchanged | gia/src/app.rs:536-602 | every successful branch hands back the prompt unchanged |
| App.NoSaveStartsNew | gia/src/app.rs:555-558 | with no_save the conversation is always new |
| App.ResumeLatest | gia/src/app.rs:561-591 | -R or an empty id resumes the latest loadable conversation, or starts a new one when there is none; -R wins over any id |
| App.SpecificIdLoads | gia/src/app.rs:592-600 | a specific id succeeds exactly when that conversation loads, and its failure is an error naming the id, never a new conversation |
| App.CompleteTurn | gia/src/app.rs:201-223 | the user message with its resources and default usage, then the assistant message with the reply's usage, are appended and a lock-step conversation stays lock-step; with no_save nothing is written; otherwise a failed write is "Failed to save conversation" with its cause, and a successful one stores the conversation |
| App.ContextWindowLimit | gia/src/constants.rs:8-14 | CONTEXT_WINDOW_LIMIT parsed as a usize (an optional '+' and decimal digits within range), 8000 when unset or unparsable |
| App.ContextWindowExamples | gia/src/constants.rs:8-14 | unset and "many" give 8000; "12000" gives 12000 |
| App.TruncateHistory | gia/src/app.rs:73-74 | the history is truncated to the configured limit; it completes, and keeps lock-step, whenever the conversation was lock-step |
| LegacyApp.PromptUnchanged | src/app.rs:84-135 | every successful branch hands back the prompt unchanged |
| LegacyApp.ResumeLastWins | src/app.rs:88-102 | with -R the id given makes no difference: the latest conversation is resumed, or a new one started |
| LegacyApp.NoIdStartsNew | src/app.rs:104-109 | without -R and without an id the conversation is new |
| LegacyApp.EmptyIdResumesLatest | src/app.rs:110-124 | an empty id resumes a loadable conversation with no later update time among them; a new one is started only when none has a later time than the minimum |
| LegacyApp.SpecificIdLoads | src/app.rs:125-133 | a specific id succeeds exactly when that conversation loads and yields it; its failure is an error naming the id, never a new conversation |
| LegacyApp.ResolvedIsNewOrStored | src/app.rs:84-135 | a resolved conversation is either the new one or one stored in the directory |
| LegacyApp.LoadableStored | src/app.rs:84-135 | every loadable conversation is stored in the directory |
| LegacyApp.RunTurn | src/app.rs:25-75 | blank input stops before anything changes; otherwise the history is truncated to the default budget; a failure to get the keys, choose the provider or get a reply ends the turn with that error under its context, the exchange not added; after a reply the user message and the reply are appended and the conversation saved, a failed save being "Failed to save conversation" with its cause |
| LegacyApp.AddExchange | src/app.rs:68-75 | the user message and then the reply are appended, the update time renewed, and the save either fails with "Failed to save conversation" and its cause or stores the conversation |
| LegacyApp.TurnError | src/app.rs:46-66 | the first failure among reading the keys, choosing the provider and the request, each under its context; none exactly when all three succeed |
| LegacyApp.OllamaTurnFails | src/app.rs:54-55 | an "ollama::" model ends the turn at the provider choice with the unsupported-provider error |
| LegacyApp.TurnStoresExchange | src/app.rs:43-75 | the saved conversation loads back by its id and ends with the user's input followed by the reply |
| McpClient.DisplayShape | gia/src/mcp_client.rs:566-581 | the text of an error is its kind's fixed prefix followed by its detail |
| McpClient.KindMarks | gia/src/mcp_client.rs:566-581 | the first and sixth characters of the prefix tell the error's kind |
| McpClient.MarksTellKind | gia/src/mcp_client.rs:566-581 | errors whose prefixes agree at those two characters have the same kind and prefix |
| McpClient.KindAndDetail | gia/src/mcp_client.rs:547-564 | an error is determined by its kind and detail |
| McpClient.DisplayInjective | gia/src/mcp_client.rs:566-581 | two errors that display alike are the same error |
| McpClient.Names | gia/src/mcp_client.rs:389-392 | the names of the tools, in order |
| McpClient.CatalogueShape | gia/src/mcp_client.rs:280-386 | five git tools, four each for code, web and system, none for any other category; no name repeats within a category |
| McpClient.DistinctAt | gia/src/mcp_client.rs:280-386 | names that differ at one fixed position are distinct |
| McpClient.GitCatalogue | gia/src/mcp_client.rs:281-307 | the git catalogue has five distinct tools |
| McpClient.CodeCatalogue | gia/src/mcp_client.rs:308-329 | the code catalogue has four distinct tools |
| McpClient.WebCatalogue | gia/src/mcp_client.rs:330-356 | the web catalogue has four distinct tools |
| McpClient.SystemCatalogue | gia/src/mcp_client.rs:357-378 | the system catalogue has four distinct tools |
| McpClient.CachedHolds | gia/src/mcp_client.rs:388-392 | caching tools with distinct names stores exactly those tools, each under its own name |
| McpClient.NewNameNotCached | gia/src/mcp_client.rs:434-444 | a name no listed tool has is never a key of the cache |
| McpClient.CatalogueMapHolds | gia/src/mcp_client.rs:388-392 | a tool is in the discovered cache exactly when the category's catalogue lists it |
| McpClient.MockSucceedsOnlyOnFiles | gia/src/mcp_client.rs:460-524 | the mock succeeds exactly for read_file and list_files on the file server given a string path, reporting success under the tool's name and echoing the path; every failure is an execution failure |
| McpClient.ConnectRule | gia/src/mcp_client.rs:134-206 | connecting succeeds exactly when the attempt does and, over TCP, an address is configured; a missing TCP address is an invalid-configuration error whatever the attempt |
| McpClient.Client.Init | gia/src/mcp_client.rs:119-125 | a new client holds its configuration, an empty cache, no process or stream and is not connected |
| McpClient.Client.Connect | gia/src/mcp_client.rs:134-206 | the result is the connection rule's; on success the client is connected and holds the process (stdio) or the stream (TCP); on failure nothing changes |
| McpClient.Client.Disconnect | gia/src/mcp_client.rs:209-246 | nothing happens when not connected; otherwise the process is taken even when stopping it fails, and the client is disconnected exactly when stopping succeeded; cache and stream are kept |
| McpClient.Client.Discover | gia/src/mcp_client.rs:280-392 | discovery yields the category's catalogue and caches each tool under its name |
| McpClient.Client.ListTools | gia/src/mcp_client.rs:257-401 | NotConnected when not connected; otherwise the tools listed are exactly the catalogue's, without repeats, and the cache holds the catalogue |
| McpClient.Client.CachedValues | gia/src/mcp_client.rs:275 | each cached tool once, in some order |
| McpClient.Client.CallTool | gia/src/mcp_client.rs:417-457 | NotConnected when not connected; discovery only when the name is missing and the cache empty; a name still missing is ToolNotFound, a known one runs on the mock |
| McpClient.New | gia/src/mcp_client.rs:118-131 | a client exists exactly when connecting succeeds, and is then connected with an empty cache; otherwise the connection error is returned |
| McpClient.CallNeverSucceeds | gia/src/mcp_client.rs:280-524 | no call through the client can succeed: the mock's two tools are on the file server, whose catalogue is empty |
| LegacyMcp.MessagesWellFormed | src/mcp.rs:96-127 | initialize, tools/list and tools/call are JSON-RPC 2.0 requests carrying their ids and method names, tools/call carries the tool's name and arguments, and the initialized message is a notification without an id (the tools/list and tools/call bodies are at lines 304-308 and 352-360) |
| LegacyMcp.ParseTools | src/mcp.rs:337-340 | a parsed tool list has one tool per item |
| LegacyMcp.ErrorMemberFails | src/mcp.rs:115-117 | any response with an "error" member fails, for initialize, tools/list and tools/call alike (also lines 315-317 and 364-366) |
| LegacyMcp.CallAnswersResult | src/mcp.rs:364-368 | without "error", a tool call answers with the response's "result" member |
| LegacyMcp.MissingResultFails | src/mcp.rs:320-321 | without "error" and without "result", listing tools fails |
| LegacyMcp.EncodeTools | src/mcp.rs:337-340 | one JSON item per tool |
| LegacyMcp.EncodeToolRoundTrip | src/mcp.rs:337-340 | a tool encoded as JSON parses back to itself |
| LegacyMcp.EncodeToolsRoundTrip | src/mcp.rs:337-340 | a tool list encoded as JSON parses back to itself |
| LegacyMcp.ListedToolsRoundTrip | src/mcp.rs:303-343 | the tools a server lists come back as sent, under "result.tools" or under "result.result.tools" |
| LegacyMcp.Client.New | src/mcp.rs:219-225 | a new client has no servers and no connections |
| LegacyMcp.Client.AddServer | src/mcp.rs:227-230 | the server is stored under its name, replacing a namesake; connections are untouched |
| LegacyMcp.Client.Connect | src/mcp.rs:233-290 | succeeds exactly when the server is configured, a stdio process starts and initialize succeeds; only then is the connection stored with counter 0 after sending initialize and the notification; an unknown name sends nothing |
| LegacyMcp.Client.NextRequestId | src/mcp.rs:415-422 | a connected server's counter goes up by one and is returned; any other name gets 1 and nothing changes |
| LegacyMcp.Client.ListTools | src/mcp.rs:303-343 | the request carries the next id; an unknown connection fails; otherwise the result is the transport error or the tools extracted from the response |
| LegacyMcp.Client.CallTool | src/mcp.rs:346-369 | the request carries the next id, the tool's name and arguments; an unknown connection fails; otherwise the result is the transport error or the response's result |
| LegacyMcp.Client.Disconnect | src/mcp.rs:425-431 | the connection is removed (a no-op for an unknown name) and the call succeeds |
| LegacyMcp.Client.DisconnectAll | src/mcp.rs:434-440 | no connection is left and the servers are kept |
| LegacyMcp.FirstRequestRepeatsInitializeId | src/mcp.rs:96-101 | the first request after connecting carries id 1, the id initialize already used |
| Image.LastIndexOf | gia/src/image.rs:11-13 | the index found holds the character and no later index does; none means the character does not occur |
| Image.AfterLast | gia/src/image.rs:11-13 | the text after the last occurrence is a suffix without that character |
| Image.FileName | gia/src/image.rs:11-13 | `Path::file_name`: the last normal component after empty and "." components are dropped; a name found is a non-empty, slash-free component of the path other than "." and ".." |
| Image.Segments | gia/src/image.rs:11-13 | the path split at '/' into at least one slash-free piece, the last a suffix of the path |
| Image.SegmentsShape | gia/src/image.rs:11-13 | a path without '/' is a single piece, itself; a path with one has several pieces |
| Image.Kept | gia/src/image.rs:11-13 | the components kept are pieces of the path, none empty and none "." |
| Image.SegmentsAppend | gia/src/image.rs:11-13 | joining a slash-free name onto a directory adds it as the last piece |
| Image.KeptAppend | gia/src/image.rs:11-13 | an empty or "." piece at the end is dropped; any other is kept last |
| Image.FileNameOfChild | gia/src/image.rs:11-13 | a normal name joined onto any directory is the file name |
| Image.FileNameOfPlainName | gia/src/image.rs:11-13 | a normal name is its own file name |
| Image.TrailingSlashIgnored | gia/src/image.rs:11-13 | a trailing '/' does not change the file name ("photo.jpg/" names "photo.jpg") |
| Image.CurrentDirIgnored | gia/src/image.rs:11-13 | a trailing "/." does not change the file name ("dir/." names "dir") |
| Image.NoFileNameOfDots | gia/src/image.rs:11-13 | "", "." and ".." have no file name |
| Image.NoFileNameOfRoot | gia/src/image.rs:11-13 | "/" has no file name |
| Image.NoFileNameOfParent | gia/src/image.rs:11-13 | a path ending in "/.." has no file name |
| Image.ExtensionSpec | gia/src/image.rs:11-15 | an extension found is a suffix of the file name behind a dot, with no dot or slash of its own |
| Image.AfterLastDot | gia/src/image.rs:11-13 | the text after the last '.' of a slash-free name ends the name behind that dot and holds no dot or slash |
| Image.ExtensionOfName | gia/src/image.rs:11-15 | a file named stem.ext in any directory has extension ext when the stem is non-empty and the name is not ".." |
| Image.LastIndexAfter | gia/src/image.rs:11-13 | the last occurrence before a tail free of the character is the one just before the tail |
| Image.TableMatchesList | gia/src/image.rs:17-33 | an extension has a MIME type exactly when it is in the list of supported media extensions |
| Image.MimeTypeRule | gia/src/image.rs:10-37 | no extension is "File has no extension"; otherwise a MIME type is found exactly when the lowercased extension is supported, and it is that extension's type |
| Image.CaseInsensitive | gia/src/image.rs:14 | two paths whose extensions differ only in letter case get the same answer |
| Image.MimeIgnoresTrailingComponents | gia/src/image.rs:10-37 | a trailing '/' or "/." leaves the MIME answer unchanged |
| Image.SameFileNameSameMime | gia/src/image.rs:10-15 | paths with the same file name get the same MIME answer |
| Image.UnsupportedListsFormats | gia/src/image.rs:27-32 | the unsupported-format message names the extension and every supported one |
| Image.MessageNames | gia/src/image.rs:28-32 | a message made of a head, a name, a middle and a joined list contains the name and each item |
| LegacyImage.TableMatchesList | src/image.rs:21-37 | an extension has a MIME type exactly when it is in the supported list |
| LegacyImage.TableIsGiaWithoutOpus | src/image.rs:21-38 | the root crate's table is gia's with "opus" taken out |
| LegacyImage.AgreesWithGiaExceptOpus | src/image.rs:14-41 | the two crates answer alike on every path except an "opus" file, which only gia accepts |
| LegacyImage.UnsupportedListsFormats | src/image.rs:31-36 | the unsupported-format message names the extension and every supported one |
| LegacyImage.ValidationOrder | src/image.rs:44-60 | a missing path is "not found" and a non-file "not a file" whatever the extension; a file passes exactly when its extension is supported |
| Role.DefinitionPath | gia/src/role.rs:122-129 | the path lies under <home>/.gia/<subdir>/ and ends with <name>.md |
| Role.RoleAndTaskPathsDiffer | gia/src/role.rs:132-139 | a role file and a task file never share a path |
| Role.Lookup | gia/src/role.rs:73-111 | whatever a name resolves to carries that name |
| Role.LoadAllRoles | gia/src/role.rs:64-119 | the loop returns exactly the specified items: each name's role if readable, else its task if readable, else nothing; a missing home fails |
| Role.LoadedConcat | gia/src/role.rs:73-112 | loading is done name by name: the items for a + b are those for a then those for b |
| Role.OneName | gia/src/role.rs:74-111 | one name gives its role if the role file reads, else its task if the task file reads, else nothing |
| Role.ItemsAreLookups | gia/src/role.rs:73-112 | every loaded item is what its own name resolves to, so a role shadows a task of the same name and the task flag tells which directory it came from |
| Role.AllFoundKeepsOrder | gia/src/role.rs:73-112 | when every name is found the items follow the names one for one |
| Role.MissingNameSkipped | gia/src/role.rs:110-111 | a name found in neither directory is skipped and changes nothing around it |
| Role.EmptyAndHome | gia/src/role.rs:64-67 | an empty list is an empty success whatever the environment; otherwise only a missing home directory fails |
| Input.Config.constructor | gia/src/cli.rs:31-45 | the configuration holds the given options and no gathered content yet |
| Input.Config.GetInputText | gia/src/input.rs:65-225 | a failure to read stdin ends the call with that error, keeping what was gathered before it; otherwise the call succeeds with exactly the specified gathered content |
| Input.Config.AddDefinitions | gia/src/input.rs:69-87 | the definitions the role loader finds, when any role is named, and nothing when loading fails |
| Input.Config.AddAudio | gia/src/input.rs:98-125 | the recording is appended, with the default audio prompt inserted first of all when no prompt was given; a failed recording adds nothing |
| Input.Config.AddStdin | gia/src/input.rs:172-183 | stdin's text is appended unless blank |
| Input.Config.AddClipboard | gia/src/input.rs:127-170 | a clipboard image, else non-blank clipboard text, also when the image check fails |
| Input.Config.AddTextFiles | gia/src/input.rs:185-208 | each -f file that reads and is not blank is appended, in order |
| Input.Config.AddImages | gia/src/input.rs:210-222 | every -i image is appended, in order |
| Input.RankedAppend | gia/src/input.rs:65-225 | appending content of a later stage keeps the stage order |
| Input.DefinitionsRank | gia/src/input.rs:69-87 | the definitions are all stage-0 content |
| Input.FileBlockRank | gia/src/input.rs:185-208 | the file items are all stage-5 content |
| Input.ImageBlockRank | gia/src/input.rs:210-222 | the image items are all stage-6 content |
| Input.BlockRanks | gia/src/input.rs:65-225 | each stage contributes only its own kind of content |
| Input.GatheredInOrder | gia/src/input.rs:65-225 | the content follows the stages in order (definitions, prompt, audio, clipboard, stdin, files, images), except that the default audio prompt, when used, comes first of all |
| Input.GatheredMembers | gia/src/input.rs:65-225 | every gathered item is the default audio prompt or comes from one of the stages |
| Input.PromptRule | gia/src/input.rs:89-118 | the override wins over the configured prompt; the prompts gathered are exactly the one used (when not empty) and the default audio prompt when audio stands in for it |
| Input.RoleFailureAddsNothing | gia/src/input.rs:82-85 | a failed role load only warns: no definition is gathered |
| Input.NoRoleBlockNoDefinition | gia/src/input.rs:69-87 | without a definition block nothing of stage 0 is gathered |
| Input.NoneOfRankInAll | gia/src/input.rs:65-225 | content free of a stage's kind stays free of it when the stages are joined |
| Input.NoDefinitionOutsideStageZero | gia/src/input.rs:69-87 | content with nothing of stage 0 holds no definition |
| Input.NoneOfRankAppend | gia/src/input.rs:65-225 | two blocks free of a stage's kind join into one free of it |
| Input.AudioFailureAddsNothing | gia/src/input.rs:120-123 | a failed recording only warns: neither audio nor the default prompt is gathered |
| Input.FileBlockNotBlank | gia/src/input.rs:192-200 | no gathered file text is blank |
| Input.ClipboardAndBlankRule | gia/src/input.rs:127-170 | nothing from the clipboard unless asked for; an image is preferred to text; no clipboard, stdin or file text gathered is blank |
| Input.FileBlockConcat | gia/src/input.rs:192-207 | files are read one by one: the files of a + b contribute those of a, then those of b |
| Input.FileBlockMembers | gia/src/input.rs:192-207 | the file content gathered is exactly each readable, non-blank -f file with its text |
| Input.PromptThenFiles | gia/src/input.rs:278-324 | with only a prompt and -f files, the prompt comes first, then the files' content |
| Input.PromptAndTwoFiles | gia/src/input.rs:278-324 | a prompt and two non-blank files give exactly three items: the prompt, then the files in order |
| Input.ThreeItems | gia/src/input.rs:310-321 | one item followed by two is the three items in order |
| Input.KeptItem | gia/src/input.rs:193-200 | a readable non-blank file contributes exactly its text |
| Input.TwoFiles | gia/src/input.rs:192-207 | two -f files contribute what the first does, then what the second does |
| LegacyInput.Config.constructor | src/cli.rs:11-20 | the configuration holds the given options and no gathered content yet |
| LegacyInput.Config.GetInputText | src/input.rs:38-179 | a failure to read stdin ends the call with that error, keeping what was gathered before it; otherwise the content is exactly the specified gathered content and the text returned is its legacy text |
| LegacyInput.Config.AddAudio | src/input.rs:51-78 | the recording is appended, with the default audio prompt inserted first when no prompt was given; a failed recording adds nothing |
| LegacyInput.Config.AddClipboard | src/input.rs:80-123 | a clipboard image, else non-blank clipboard text, also when the image check fails |
| LegacyInput.Config.AddStdin | src/input.rs:125-136 | stdin's text is appended unless blank |
| LegacyInput.Config.AddTextFiles | src/input.rs:138-161 | each -f file that reads and is not blank is appended, in order |
| LegacyInput.Config.AddImages | src/input.rs:163-175 | every -i image is appended, in order |
| LegacyInput.BuildLegacyInputText | src/input.rs:181-226 | the loop builds exactly the legacy text of the content |
| LegacyInput.PushContent | src/input.rs:185-222 | one round appends the item's piece, behind a blank line when the text is not empty |
| LegacyInput.PieceNotEmpty | src/input.rs:186-214 | the piece of a text item (a non-empty prompt, or any item with a header) is never empty |
| LegacyInput.JoinNotEmpty | src/input.rs:187-189 | a join whose first part is not empty is not empty |
| LegacyInput.TextIsJoinedPieces | src/input.rs:181-226 | the text is the items' pieces joined by blank lines, the separator only between two pieces, when no prompt is empty |
| LegacyInput.NonTextAddsNothing | src/input.rs:216-221 | audio, images and clipboard images leave the text as it is, wherever they stand |
| LegacyInput.LegacyTextDrop | src/input.rs:216-221 | an item without a piece can be dropped without changing the text |
| LegacyInput.FilePiece | src/input.rs:206-214 | a file's piece names the file in its header and ends with a newline |
| LegacyInput.TextContainsEachPiece | src/input.rs:181-226 | every piece appears in the text |
| LegacyInput.RankedAppend | src/input.rs:38-179 | appending content of a later stage keeps the stage order |
| LegacyInput.FileBlockRank | src/input.rs:138-161 | the file items are all stage-4 content |
| LegacyInput.ImageBlockRank | src/input.rs:163-175 | the image items are all stage-5 content |
| LegacyInput.GatheredInOrder | src/input.rs:38-179 | the content follows the stages in order (prompt, audio, clipboard, stdin, files, images), with the default audio prompt, when used, put first |
| LegacyInput.BlockRanks | src/input.rs:38-179 | each stage contributes only its own kind of content |
| LegacyInput.ClipboardBlockRank | src/input.rs:80-123 | the clipboard items are all stage-2 content |
| LegacyInput.StdinBlockRank | src/input.rs:125-136 | the stdin item is stage-3 content |
| LegacyInput.Regroup | src/input.rs:38-179 | the stages can be regrouped behind the leading block |
| LegacyInput.RankedSix | src/input.rs:38-179 | six blocks of increasing stage join in stage order |
| LegacyInput.PromptFirst | src/input.rs:42-72 | the override wins over the configured prompt; a prompt in use is the first item, and otherwise the default audio prompt is when audio stands in for it |
| LegacyInput.AllNotBlankAppend | src/input.rs:38-179 | two blocks without blank text join into one without blank text |
| LegacyInput.FileBlockNotBlank | src/input.rs:145-155 | no gathered file text is blank |
| LegacyInput.NothingBlankGathered | src/input.rs:38-179 | no clipboard, stdin or file text gathered is blank |
| LegacyInput.BlocksNotBlank | src/input.rs:38-179 | no stage contributes blank text |
| LegacyInput.ClipboardNotBlank | src/input.rs:93-114 | no clipboard text gathered is blank |
| LegacyInput.StdinNotBlank | src/input.rs:129-133 | no stdin text gathered is blank |
| LegacyInput.AllNotBlankInAll | src/input.rs:38-179 | joined blocks without blank text hold no blank text |
| LegacyInput.FileBlockMembers | src/input.rs:145-160 | the file content gathered is exactly each readable, non-blank -f file with its text; a file that does not read only warns |
| LegacyInput.AudioFailureAddsNothing | src/input.rs:73-76 | a failed recording only warns: neither audio nor the default prompt is gathered |
| LegacyInput.PromptOnly | src/input.rs:38-179 | a configuration with only a prompt yields exactly that prompt as its text |
| LegacyInput.ValidateImageSources | src/input.rs:228-249 | the loop checks the images in order and returns the specified result |
| LegacyInput.ValidateAllOk | src/input.rs:228-249 | validation succeeds exactly when every image is valid |
| LegacyInput.FirstInvalidDecides | src/input.rs:238-245 | the first invalid image decides: its error, behind the context naming its path, whatever follows |
| LegacyInput.MissingImageFails | src/input.rs:238-245 | a missing image fails with "Media file not found" behind the context naming it |
| Output.MergeLines | gia/src/output.rs:17-52 | the first pass's loop produces exactly the specified merged lines |
| Output.BulletMerge | gia/src/output.rs:27-47 | a line ending in a bullet takes the next line on: the bullet goes and a space joins them, and both lines are consumed |
| Output.BulletLine | gia/src/output.rs:27-46 | a bullet line is a marker and merges into the text before the bullet, a space and the next line |
| Output.NumberMerge | gia/src/output.rs:29-47 | a line ending in a digit and '.' takes the next line on, keeping the number |
| Output.BulletExample | gia/src/output.rs:387-395 | "Item 1•" followed by a line becomes "Item 1 " and that line |
| Output.NumberExample | gia/src/output.rs:397-404 | "1." followed by a line becomes "1. " and that line |
| Output.KeptLine | gia/src/output.rs:39-51 | a line that is not a marker, and the last line in any case, is kept as it is |
| Output.NoMarkersNoChange | gia/src/output.rs:17-52 | without markers before the last line the first pass changes nothing |
| Output.MergeCount | gia/src/output.rs:17-52 | each merge consumes two lines into one, so the pass keeps at most, and at least half of, the line count |
| Output.FirstAlnum | gia/src/output.rs:61 | the index found is the first alphanumeric character; none means there is none |
| Output.SpacingPass | gia/src/output.rs:54-80 | the second pass's loop produces exactly the specified spaced lines |
| Output.SpacedStep | gia/src/output.rs:59-79 | each line is pushed after a blank line exactly when a gap is needed before it |
| Output.NoDedentNoGap | gia/src/output.rs:54-80 | where the indentation never falls back after a non-blank line the second pass adds nothing |
| Output.SpacedShape | gia/src/output.rs:54-80 | the second pass only inserts: every line is kept, at most one blank line goes before each line but the first, and the first and last lines stay first and last |
| Output.GapRule | gia/src/output.rs:63-68 | a dedent after a non-blank line gets a blank line before it; after a blank line it does not |
| Output.TwoLines | gia/src/output.rs:59-80 | two lines are spaced by a blank line exactly when a gap is needed |
| Output.WrapText | gia/src/output.rs:16-83 | the result is the text's lines merged, spaced and joined by newlines |
| Output.AnyUpToExists | gia/src/output.rs:143-173 | some source among the first n has the property exactly when one of them does |
| Output.FileSource | gia/src/output.rs:144-172 | one source is filed under its kind and nothing else changes |
| Output.BuildFooterMetadata | gia/src/output.rs:125-189 | provider and model are the model string split at its first "::" (gemini without one); roles, tasks, image and text file names are listed in order; the clipboard, audio and stdin flags hold exactly when such a source is present; prompt and usage are carried over |
| Output.GatherMembers | gia/src/output.rs:143-173 | a name is gathered exactly when some source among the first n yields it |
| Output.DefinitionNamesMembers | gia/src/output.rs:145-151 | a name is listed under roles (or tasks) exactly when a definition of that kind with that name was loaded |
| Output.GatherOfPrefix | gia/src/output.rs:143-173 | what is gathered from the first n sources depends on those sources only |
| Output.GatherConcat | gia/src/output.rs:143-173 | gathering over a + b lists a's names before b's |
| Output.ListedConcat | gia/src/output.rs:143-173 | names are listed source by source: those of a + b are those of a, then those of b |
| Output.Skipped | gia/src/output.rs:171 | a source that yields nothing leaves the lists as they were, wherever it stands |
| Output.PromptNotListed | gia/src/output.rs:171 | a prompt adds nothing to any of the four lists |
| Output.PlainFileName | gia/src/output.rs:153-160 | a plain file name is its own base name |
| Output.FooterFilesExample | gia/src/output.rs:431-460 | an image, a text file and clipboard text list the image's and the text file's names and nothing for the clipboard |
| Clipboard.RgbaStep | gia/src/clipboard.rs:111-114 | expanding from a pixel's position gives that pixel, an opaque alpha byte, then the rest |
| Clipboard.RgbaLength | gia/src/clipboard.rs:110-115 | n whole RGB pixels expand to n RGBA pixels |
| Clipboard.RgbaPixel | gia/src/clipboard.rs:111-114 | pixel q of the expansion is pixel q of the input followed by alpha 255 |
| Clipboard.AlphaRoundTrip | gia/src/clipboard.rs:111-114 | dropping the alpha bytes gives the RGB input back, for whole pixels |
| Clipboard.Zeros | gia/src/clipboard.rs:119 | k zero bytes |
| Clipboard.Resize | gia/src/clipboard.rs:118-120 | the buffer is truncated to n bytes or padded with zero bytes up to n, its own bytes kept |
| Clipboard.ResizeSameLength | gia/src/clipboard.rs:118-120 | resizing to the length a buffer already has leaves it as it is |
| Clipboard.PrepareRgbaData | gia/src/clipboard.rs:105-122 | the result holds width×height×4 bytes: the RGB input expanded pixel by pixel when it has three bytes per pixel, else the input resized |
| Clipboard.ToU32OrZero | gia/src/clipboard.rs:126-127 | the conversion keeps a value that fits in 32 bits and gives 0 otherwise |
| Clipboard.MulMono | gia/src/clipboard.rs:125-141 | the 32-bit-converted dimensions never ask for more bytes than the real ones |
| Clipboard.RgbaForEncoding | gia/src/clipboard.rs:124-141 | the clipboard's bytes are used as they are when they fill an RGBA buffer; otherwise the manual conversion, which always fills the final buffer, so building it never fails |
| Clipboard.WellFormedUnchanged | gia/src/clipboard.rs:93-94 | a clipboard image that has four bytes per pixel fills the RGBA buffer and is encoded unchanged |
| Launcher.TrimmedLines | giagui/src/main.rs:746-751 | the loop yields each option line trimmed, blank lines dropped, in order |
| Launcher.GiaApp.constructor | giagui/src/main.rs:272-307 | the window opens with empty prompt, options, task, role and answer, every switch off, model gemini-2.5-flash-lite, speech language de-DE, and the names found in the two directories |
| Launcher.GiaApp.ExecuteGia | giagui/src/main.rs:708-794 | the arguments are the specified ones for the form before the send; afterwards task and role are cleared, the clipboard switch is off and resume is on; the run is marked executing; the notice is due exactly when recording and "-o" or "--output" is an argument |
| Launcher.GiaApp.PushFlags | giagui/src/main.rs:711-722 | --record-audio, -c, --browser-output and -R, each exactly when its switch is on, in that order |
| Launcher.GiaApp.PushSelections | giagui/src/main.rs:724-743 | --model and the model, then -t and the task, --role and the role when selected, and --tts=<language> when speech is on |
| Launcher.GiaApp.PushOptionLines | giagui/src/main.rs:745-751 | each option line trimmed, blank lines dropped, appended in order |
| Launcher.GiaApp.ClearForm | giagui/src/main.rs:796-803 | prompt, options and answer are emptied and the clipboard, browser and resume switches turned off; model, task, role and speech settings stay |
| Launcher.GiaApp.DropFiles | giagui/src/main.rs:409-423 | each dropped file with a text path becomes an option line "-f<path>", on a new line when the field does not already end in one; nothing else changes |
| Launcher.ModelAfterFlags | giagui/src/main.rs:711-726 | however many switches are on, "--model" and the model follow them directly |
| Launcher.PromptLast | giagui/src/main.rs:753-755 | the prompt is the last argument and an empty prompt adds nothing |
| Launcher.CollectMembers | giagui/src/main.rs:746-751 | a string is collected exactly when some line yields it |
| Launcher.OptionArgsMembers | giagui/src/main.rs:746-751 | an argument comes from the option lines exactly when some line trims to that non-empty argument |
| Launcher.OptionArgMember | giagui/src/main.rs:747-750 | a line yields exactly its trim, when not empty |
| Launcher.NextSendResumes | giagui/src/main.rs:757-761 | a send that follows another resumes the conversation and passes no clipboard, task or role |
| Launcher.ClearedArgs | giagui/src/main.rs:796-803 | after clearing, a send passes only the recording switch and the kept selections |
| Launcher.OutputOptionNotifies | giagui/src/main.rs:771-789 | an option line "-o" makes a recording's send show the completion notice |
| Launcher.FindInPrefix | giagui/src/main.rs:746 | a newline found in a prefix is found in the whole text |
| Launcher.NoNewlineFromHere | giagui/src/main.rs:746 | a text without a newline is a single line |
| Launcher.LinesAppendLine | giagui/src/main.rs:417-420 | appending a newline-free text to a text that is empty or ends in a newline adds it as the last line |
| Launcher.FirstNewline | giagui/src/main.rs:417 | a text ending in a newline has a first newline before its end |
| Launcher.SplitAppended | giagui/src/main.rs:417-420 | the pieces around a newline of o survive appending to o |
| Launcher.LinesAt | giagui/src/main.rs:746 | the lines of a text are the line before its first newline, then the lines after it |
| Launcher.LinesTrailingNewline | giagui/src/main.rs:417-418 | a newline after a last line that lacks one does not start a new line |
| Launcher.DroppedLines | giagui/src/main.rs:409-423 | a dropped file's option is the new last line of the options field, whatever the field held |
| Launcher.CollectOfPrefix | giagui/src/main.rs:746-751 | what the first n lines yield depends on those lines only |
| Launcher.TrimmedAlready | giagui/src/main.rs:747 | a text that neither starts nor ends with whitespace is its own trim |
| Launcher.DroppedFileArgument | giagui/src/main.rs:409-423 | a dropped file reaches gia as the option "-f<path>" after the arguments the options field gave before, when the path has no newline and does not end in whitespace |
| Launcher.LoadMdFiles | giagui/src/main.rs:310-332 | no home or unreadable directory gives no names; otherwise the names are the .md files' names without ".md", as a permutation, sorted |
| Launcher.MdNamesMembers | giagui/src/main.rs:317-325 | a name is loaded exactly when some .md file carries it, ".md" endings removed |
| Launcher.MdNamesStripped | giagui/src/main.rs:323 | no loaded name ends in ".md" |

## Left out

- Network I/O: HTTP search requests, the genai chat calls, the Ollama endpoint, the TCP and stdio transports of both MCP clients, and the MCP HTTP transport. Their outcomes are parameters.
- Process spawning, timeouts and concurrency. `execute_command`, the MCP stdio server and the launcher's `gia` subprocess appear only as given outcomes. The `join_all` fan-out of `execute_tool_calls` is modelled as the order-preserving sequential map. The launcher's worker thread, its `Arc<Mutex<…>>` state and its handling of process output are not modelled.
- Interactive prompts. `handle_auth_error` and `handle_api_key_error` open a browser or read stdin, and `request_confirmation` waits for an answer. The user's answer is a parameter; the authentication path returns its fixed error text.
- Audio capture and encoding (gia/src/audio.rs, src/audio.rs), text-to-speech, and desktop notifications. Floating-point numerics and device I/O are not modelled.
- Byte-level libraries: base64 and PNG encoding, `read_media_as_base64`, and chardetng decoding in `read_text_file`. A file read is a parameter that either yields its text or fails.
- Rendering: `textwrap::fill` and the wrap width in the second pass of `wrap_text`; `markdown_to_text`; the markdown written by `format_as_chat_markdown` and `save_markdown`; the browser preview; egui rendering and `copy_response` in the launcher.
- The launcher fields `animation_time`, `first_frame`, the logo texture and the background `fetch_ollama_models` are not modelled. `load_md_files` takes the home directory and the directory listing as one parameter.
- Unicode is not fully modelled. `char::is_alphanumeric` and `to_lowercase` are modelled for ASCII only. `is_whitespace` is the full White_Space list. `Path::join` on the home directory is plain concatenation with '/', without normalisation. The members whose results change:
- ApiKey.ValidateApiKeyFormat: accepts ASCII letters and digits only. "AIza" + "é" + 33 × "a" is 39 bytes and is accepted by gia/src/api_key.rs, but rejected here.
- ApiKey.ValidFormatIff: the if-and-only-if is over ASCII letters and digits, so it inherits the same witness.
- Security.IsCommandAllowed: lowercases ASCII only. "m\u{212A}fs" (with KELVIN SIGN) lowercases to the blocked "mkfs" in Rust, but passes here.
- Security.NoneBlocked: relies on the same ASCII lowercasing, with the same witness.
- Conversation.TrimNonAlnum, Conversation.SlugChars and Conversation.GenerateSlug: non-ASCII letters count as non-alphanumeric, so "café" gives the slug word "caf" here where Rust keeps "café".
- `Utc::now`, `Uuid::new_v4` and the random key index of a new conversation are parameters.
- Reading the environment (`GIA_SEARCH_MODE`, `GEMINI_API_KEY`, the search API keys, the context window limit) happens outside the model. The values are passed in.
- gia/src/role.rs `load_role_file` is compiled only for tests and is not modelled.
- gia/src/input.rs `validate_image_sources` is not modelled, because it calls a `validate_media_file` that gia/src/image.rs does not define. The root crate's version is modelled (`LegacyInput.ValidateImageSources`).
- src/mcp.rs `list_resources`, `read_resource`, `get_servers` and `get_connected_servers` are not modelled.
- ConversationStore `list_conversations` and the directory-listing tool are loops in the source. They are modelled as functions over the directory sequence, without a loop.
- The `split_off` fallback of the root crate's `truncate_if_needed` (src/conversation.rs:73-83) repeats the loop's exit test, so it can never run. The model leaves it out.
- Logging, spinner output and clap parsing are not modelled.
- ConversationStore.ListConversations: the directory is always readable. The errors "Failed to read conversations directory" and "Failed to read directory entry" (gia/src/conversation.rs:551-555) are not modelled; a listing never fails.
- ConversationStore.GetLatestConversation: the same two read errors (gia/src/conversation.rs:523-527) are not modelled; the scan never fails.
- LegacyConversation.ListConversations: the read_dir and entry errors of src/conversation.rs:276-280 are not modelled; a listing never fails.
- LegacyConversation.GetLatestConversation: the read_dir and entry errors of src/conversation.rs:248-252 are not modelled; the scan never fails.
- ToolImpls.RequiredString: tool arguments are read from a JSON object only. serde's derived deserializer also reads the argument struct from a JSON array of its fields (`["notes.txt"]` for read_file). That form is not modelled, so `ReadFile`, `WriteFile`, `SearchWeb` and `ExecuteCommand` refuse it as invalid arguments.
- ToolImpls.ListPath: the array form `["docs"]` lists "docs" in the source; the model reads it as having no path and lists ".".
- ToolImpls.UnparsableArgumentsListCurrentDirectory: holds of the model's object-only reading. Array-form arguments, which the source reads by position, are not covered.
- Conversation.FromConversation: the listing uses the corrected, character-based preview. The byte cut as written, which can panic and can cut text of 50 characters or fewer, is `Conversation.FromConversationAsWritten` (see Findings).
- LegacyConversation.FromConversation: the same corrected preview; the code as written is `LegacyConversation.FromConversationAsWritten`.
- LegacyConversation.LoadConversation: a file that exists but cannot be read is reported as `DeserializeFailed`. src/conversation.rs:236 fails with the context "Failed to read conversation file" instead. Directory entries carry their content, without a separate read outcome.
- App.ExecuteWithTools: within one round, every call is answered by the same tool state (`runs[k]`). The source runs a round's calls concurrently (`join_all`), so one call's effect could show in another call of the same round; that interleaving is not modelled. Effects do carry from one round to the next (`App.LaterRoundSeesOwnRun`).
- ConversationStore.LoadConversation: a file that exists but cannot be read is reported as a deserialisation failure, not as a distinct read error. Ids are joined onto the directory as plain names, without path normalisation.
- LegacyMcp.ParseTool: a tool is read from a JSON object only. serde also accepts a struct written as a JSON array of its fields; that form is not modelled.
- Base.Lines: a final line without '\n' also loses a trailing '\r', where `str::lines` keeps it. Every use of the lines in the model trims them, and '\r' is whitespace, so no result changes.
- App.AddReported: token counts are unbounded naturals. The u32 sums of gia/src/app.rs:485-495, which overflow past 2^32 - 1, are not modelled.
- Clipboard.RgbaForEncoding: `ImageBuffer::from_raw` is taken to succeed exactly when the buffer holds width × height × 4 bytes after the u32 conversion. The `usize` overflow of `width * height * 4` is not modelled. PNG and base64 encoding of the result are not modelled.
- Some tests disagree with the code, and the model follows the code:
  - gia/src/content_part_wrapper.rs:264-282 expects "=== Role: …" and "=== Prompt ===" headers, but gia/src/content_part_wrapper.rs:52-64 writes "### Role: …" and "### Prompt".
  - gia/tests/mcp_client_test.rs:36-38 lists tools on a "file" server, whose catalogue in gia/src/mcp_client.rs:280-386 is empty (`McpClient.CallNeverSucceeds`).
- The source does not always agree with itself, and each file is modelled by its own text:
  - gia/src/app.rs calls a three-argument `new_with_prompt`, and gia/src/provider.rs calls a two-argument `GeminiClient::new`. Neither matches its definition.
  - The App model uses the conversation as gia/src/conversation.rs defines it.
  - src/app.rs:46 calls `crate::api_key::get_api_keys()`, but src/api_key.rs:8 defines only `get_api_key`. `LegacyApp.RunTurn` takes the outcome of reading the keys as a parameter.
  - src/provider.rs:59 calls a two-argument `GeminiClient::new(model, keys)?`, but src/gemini.rs:64 defines a zero-argument `new()`, which fails when GEMINI_API_KEY is unset. `LegacyProvider.CreateProvider` follows the factory's own text and treats building the Gemini client as never failing.
  - src/app.rs:40 calls `conversation.build_context_prompt(&input_text)` and src/app.rs:146 calls `summary.format_for_display()`. The root crate's conversation file defines neither. `LegacyApp.RunTurn` takes the reply as a parameter, so the request text built at :40 is not modelled, and the --list output at :146 is not modelled either.

## Findings

| source | as written | input that shows it | evidently intended | confidence | as-written member | corrected member |
|---|---|---|---|---|---|---|
| gia/src/conversation.rs:606-607 | the preview tests `content.len() > 50`, a byte count, then slices `&content[..47]` at byte 47; the slice panics when byte 47 falls inside a multi-byte character (src/conversation.rs:329-330 does the same) | 46 × "a", then "é", then "bbb": 50 characters and 51 bytes, where byte 47 is inside "é" | a preview of the first 47 characters followed by "...", for text longer than 50 characters | not executed | Conversation.PreviewAsWrittenPanics | Conversation.Preview |
| gia/src/conversation.rs:606-607 | the same test counts bytes, so text of 50 characters or fewer but more than 50 bytes is still cut (src/conversation.rs:329-330 likewise) | "a" then 26 × "é": 27 characters, 53 bytes, previewed as "a", 23 × "é" and "..." | text of at most 50 characters shown whole | not executed | Conversation.PreviewAsWrittenCutsShortText | Conversation.Preview |

=== FILE: ApiKey.dfy ===
// The API-key checks of the root crate (src/api_key.rs): the accept/reject
// decision on the GEMINI_API_KEY variable and the Google key-format check.

module ApiKey {
  import opened Base

  const ApiKeyLength: nat := 39
  const ApiKeyPrefix: string := "AIza"
  const ApiKeyUrl: string := "https://makersuite.google.com/app/apikey"
  const MissingKeyError: string :=
    "GEMINI_API_KEY environment variable is required. Visit " + ApiKeyUrl + " to get your API key."

  predicate IsKeyChar(c: char)
  {
    IsAlnum(c) || c == '-' || c == '_'
  }

  /**
   * `validate_api_key_format`: the three checks in source order, each an
   * early `false`. The length is the UTF-8 byte length.
   */
  function ValidateApiKeyFormat(key: string): (ok: bool)
    ensures ok ==> Utf8Len(key) == ApiKeyLength
  {
    if Utf8Len(key) != ApiKeyLength then false
    else if !StartsWith(key, ApiKeyPrefix) then false
    else forall i :: 0 <= i < |key| ==> IsKeyChar(key[i])
  }

  /**
   * Keys `validate_api_key_format` accepts are exactly the 39-character strings that begin
   * with "AIza" and use only letters, digits, '-' and '_'. Letters and digits
   * are the ASCII ones here; the source's `is_alphanumeric` also admits
   * non-ASCII letters, which the 39-byte length check then limits.
   */
  lemma ValidFormatIff(key: string)
    ensures ValidateApiKeyFormat(key) <==>
      |key| == ApiKeyLength && StartsWith(key, ApiKeyPrefix)
      && forall i :: 0 <= i < |key| ==> IsKeyChar(key[i])
  {
    if forall i :: 0 <= i < |key| ==> IsKeyChar(key[i]) {
      Utf8LenAscii(key);
    }
    if |key| == ApiKeyLength && !(Utf8Len(key) == ApiKeyLength) {
      // a 39-char key with a wide char fails the last check anyway
      assert !(forall i :: 0 <= i < |key| ==> IsKeyChar(key[i])) by {
        if forall i :: 0 <= i < |key| ==> IsKeyChar(key[i]) {
          Utf8LenAscii(key);
        }
      }
    }
  }

  /** A key of any other byte length is rejected whatever it contains. */
  lemma WrongLengthRejected(key: string)
    requires Utf8Len(key) != ApiKeyLength
    ensures !ValidateApiKeyFormat(key)
  {
  }

  /** The keys exercised by the crate's own tests. */
  lemma TestValidKey(key: string)
    requires key == "AIza" + "SyDummyKeyForTesting123456789012345"
    ensures ValidateApiKeyFormat(key)
  {
    var prefix, rest := "AIza", "SyDummyKeyForTesting123456789012345";
    assert key[..4] == prefix;
    assert forall i :: 0 <= i < |prefix| ==> IsKeyChar(prefix[i]);
    assert forall i :: 0 <= i < |rest| ==> IsKeyChar(rest[i]);
    assert IsAscii(key);
    Utf8LenAscii(key);
  }

  lemma TestShortKey(key: string)
    requires key == "AIzaShort"
    ensures !ValidateApiKeyFormat(key)
  {
    Utf8LenAscii(key);
  }

  lemma TestWrongPrefix(key: string)
    requires key == "WRONG_DummyKeyForTesting123456789012345"
    ensures !ValidateApiKeyFormat(key)
  {
    assert key[..4] != ApiKeyPrefix by {
      assert key[0] == 'W';
    }
  }

  lemma TestBadChars(key: string)
    requires key == "AIzaSyDummy@Key#ForTesting1234567890123"
    ensures !ValidateApiKeyFormat(key)
  {
    assert !IsKeyChar(key[11]);
  }

  /**
   * `get_api_key`: `env` is the looked-up value of GEMINI_API_KEY (None when
   * unset). A value that is non-empty after trimming is returned untrimmed.
   */
  function GetApiKey(env: Option<string>): (r: Result<string, string>)
    ensures r.Ok? ==> env == Some(r.value)
    ensures r.Err? ==> r.error == MissingKeyError
  {
    match env
    case Some(key) => if Trim(key) != [] then Ok(key) else Err(MissingKeyError)
    case None => Err(MissingKeyError)
  }

  /** The variable is accepted exactly when it is set and not all whitespace. */
  lemma GetApiKeyAccepts(env: Option<string>)
    ensures GetApiKey(env).Ok? <==> env.Some? && !IsBlank(env.value)
  {
    if env.Some? {
      TrimEmptyIffBlank(env.value);
    }
  }
}

=== FILE: App.dfy ===
// The request driver of the gia client (gia/src/app.rs): the bounded
// tool-calling loop and its token accounting, the resources recorded for a
// user message, tool registration, and the choice between a new and a
// resumed conversation.

module App {
  import opened Base
  import opened Json
  import opened ContentPart
  import opened Conversation
  import opened ConversationStore
  import opened Provider
  import opened Security
  import opened Registry
  import opened Executor
  import opened ToolImpls
  import opened Sources

  // -----------------------------------------------------------------------
  // Token accounting

  /**
   * One accumulated count after a response: unchanged when the response does
   * not report it, otherwise the running total (0 when there was none) plus
   * the reported value cast to u32.
   */
  function AddReported(total: Option<nat>, reported: Option<int>): (r: Option<nat>)
    ensures reported.None? ==> r == total
    ensures reported.Some? ==> r.Some?
  {
    if reported.Some? then Some((if total.Some? then total.value else 0) + U32Cast(reported.value)) else total
  }

  /** The running usage after one more response. */
  function Accumulate(total: TokenUsage, u: GenaiUsage): (r: TokenUsage)
    ensures r.promptTokens == AddReported(total.promptTokens, u.promptTokens)
    ensures r.completionTokens == AddReported(total.completionTokens, u.completionTokens)
    ensures r.totalTokens == AddReported(total.totalTokens, u.totalTokens)
  {
    TokenUsage(AddReported(total.promptTokens, u.promptTokens),
               AddReported(total.completionTokens, u.completionTokens),
               AddReported(total.totalTokens, u.totalTokens))
  }

  /** A provider call's outcome: a chat response, or the text of its error. */
  type ProviderReply = Result<ChatResponse, string>

  /** The usage accumulated over a run of replies, starting from the default. */
  function UsageOf(replies: seq<ProviderReply>): TokenUsage
  {
    if replies == [] then DefaultUsage
    else
      var prev := UsageOf(replies[..|replies| - 1]);
      var last := replies[|replies| - 1];
      if last.Ok? then Accumulate(prev, last.value.usage) else prev
  }

  /** One count folded over a sequence of reported values, as the loop does. */
  function FoldReported(counts: seq<Option<int>>): Option<nat>
  {
    if counts == [] then None
    else AddReported(FoldReported(counts[..|counts| - 1]), counts[|counts| - 1])
  }

  /** Whether any value in the sequence was reported. */
  predicate AnyReported(counts: seq<Option<int>>)
  {
    exists i :: 0 <= i < |counts| && counts[i].Some?
  }

  /** The sum of the reported values, each cast to u32. */
  function SumReported(counts: seq<Option<int>>): nat
  {
    if counts == [] then 0
    else
      var last := counts[|counts| - 1];
      SumReported(counts[..|counts| - 1]) + (if last.Some? then U32Cast(last.value) else 0)
  }

  /** A count stays None until some reply reports it, and is then the sum of all reported values. */
  lemma {:induction false} FoldIsSum(counts: seq<Option<int>>)
    ensures FoldReported(counts).None? <==> !AnyReported(counts)
    ensures FoldReported(counts).Some? ==> FoldReported(counts).value == SumReported(counts)
    decreases |counts|
  {
    if counts != [] {
      var init := counts[..|counts| - 1];
      FoldIsSum(init);
      assert forall i :: 0 <= i < |init| ==> init[i] == counts[i];
      if FoldReported(init).None? && counts[|counts| - 1].Some? {
        assert SumReported(init) == 0 by { NoneReportedSumsToZero(init); }
      }
    }
  }

  lemma {:induction false} NoneReportedSumsToZero(counts: seq<Option<int>>)
    requires !AnyReported(counts)
    ensures SumReported(counts) == 0
    decreases |counts|
  {
    if counts != [] {
      var init := counts[..|counts| - 1];
      assert forall i :: 0 <= i < |init| ==> init[i] == counts[i];
      NoneReportedSumsToZero(init);
    }
  }

  function PromptCounts(replies: seq<ProviderReply>): (r: seq<Option<int>>)
    ensures |r| == |replies|
  {
    seq(|replies|, i requires 0 <= i < |replies| => if replies[i].Ok? then replies[i].value.usage.promptTokens else None)
  }

  function CompletionCounts(replies: seq<ProviderReply>): (r: seq<Option<int>>)
    ensures |r| == |replies|
  {
    seq(|replies|, i requires 0 <= i < |replies| => if replies[i].Ok? then replies[i].value.usage.completionTokens else None)
  }

  function TotalCounts(replies: seq<ProviderReply>): (r: seq<Option<int>>)
    ensures |r| == |replies|
  {
    seq(|replies|, i requires 0 <= i < |replies| => if replies[i].Ok? then replies[i].value.usage.totalTokens else None)
  }

  /** The accumulated usage is the three counts folded independently. */
  lemma {:induction false} UsageFolds(replies: seq<ProviderReply>)
    ensures UsageOf(replies).promptTokens == FoldReported(PromptCounts(replies))
    ensures UsageOf(replies).completionTokens == FoldReported(CompletionCounts(replies))
    ensures UsageOf(replies).totalTokens == FoldReported(TotalCounts(replies))
    decreases |replies|
  {
    if replies != [] {
      var init := replies[..|replies| - 1];
      UsageFolds(init);
      assert PromptCounts(replies)[..|replies| - 1] == PromptCounts(init);
      assert CompletionCounts(replies)[..|replies| - 1] == CompletionCounts(init);
      assert TotalCounts(replies)[..|replies| - 1] == TotalCounts(init);
    }
  }

  /**
   * Each accumulated field is None exactly when no reply reported it, and
   * otherwise the sum of every reported value.
   */
  lemma UsageIsReportedSum(replies: seq<ProviderReply>)
    ensures UsageOf(replies).promptTokens.None? <==> !AnyReported(PromptCounts(replies))
    ensures UsageOf(replies).promptTokens.Some? ==>
      UsageOf(replies).promptTokens.value == SumReported(PromptCounts(replies))
    ensures UsageOf(replies).completionTokens.None? <==> !AnyReported(CompletionCounts(replies))
    ensures UsageOf(replies).completionTokens.Some? ==>
      UsageOf(replies).completionTokens.value == SumReported(CompletionCounts(replies))
    ensures UsageOf(replies).totalTokens.None? <==> !AnyReported(TotalCounts(replies))
    ensures UsageOf(replies).totalTokens.Some? ==>
      UsageOf(replies).totalTokens.value == SumReported(TotalCounts(replies))
  {
    UsageFolds(replies);
    FoldIsSum(PromptCounts(replies));
    FoldIsSum(CompletionCounts(replies));
    FoldIsSum(TotalCounts(replies));
  }

  // -----------------------------------------------------------------------
  // Tools offered with each request

  /** A tool sent with a request: a registered function, or Gemini's search grounding. */
  datatype RequestTool = FunctionTool(tool: GenaiTool) | GoogleSearchGrounding

  /** `should_use_gemini_grounding`, with the GIA_SEARCH_MODE variable as a parameter. */
  predicate ShouldUseGeminiGrounding(model: string, searchMode: Option<string>)
  {
    searchMode.None? && (!Contains(model, "::") || StartsWith(model, "gemini"))
  }

  /** Setting GIA_SEARCH_MODE to anything turns grounding off, whatever the model. */
  lemma SearchModeDisablesGrounding(model: string, mode: string)
    ensures !ShouldUseGeminiGrounding(model, Some(mode))
  {
  }

  /** The registry's tools, then the grounding tool when it applies. */
  predicate OffersTools(tools: seq<RequestTool>, registry: ToolRegistry, grounding: bool)
    reads registry
  {
    |tools| == registry.Len() + (if grounding then 1 else 0)
    && (forall i :: 0 <= i < registry.Len() ==>
          tools[i].FunctionTool? && tools[i].tool.name in registry.tools
          && tools[i].tool == ToGenaiTool(registry.tools[tools[i].tool.name]))
    && (forall n :: n in registry.tools ==> exists i :: 0 <= i < registry.Len() && tools[i] == FunctionTool(ToGenaiTool(registry.tools[n])))
    && (grounding ==> tools[|tools| - 1] == GoogleSearchGrounding)
  }

  /** The tool list built before the loop: the registry's descriptors, then grounding if it applies. */
  method RequestTools(registry: ToolRegistry, model: string, searchMode: Option<string>) returns (tools: seq<RequestTool>)
    requires registry.Valid()
    ensures OffersTools(tools, registry, ShouldUseGeminiGrounding(model, searchMode))
  {
    var descriptors := registry.ToGenaiTools();
    var functions := seq(|descriptors|, i requires 0 <= i < |descriptors| => FunctionTool(descriptors[i]));
    forall n | n in registry.tools
      ensures exists i :: 0 <= i < registry.Len() && functions[i] == FunctionTool(ToGenaiTool(registry.tools[n]))
    {
      assert ToGenaiTool(registry.tools[n]) in descriptors;
      var i :| 0 <= i < |descriptors| && descriptors[i] == ToGenaiTool(registry.tools[n]);
      assert functions[i] == FunctionTool(ToGenaiTool(registry.tools[n]));
    }
    if ShouldUseGeminiGrounding(model, searchMode) {
      tools := functions + [GoogleSearchGrounding];
    } else {
      tools := functions;
    }
    assert forall i :: 0 <= i < |functions| ==> tools[i] == functions[i];
  }

  // -----------------------------------------------------------------------
  // The tool-calling loop

  const MaxToolIterations: nat := 10
  const NoTextPlaceholder: string := "(no text)"
  const ToolRequestContext: string := "Failed to generate content with tools"
  const ExceededIterations: string := "Tool execution loop exceeded maximum iterations (10)"

  /** A request as the loop sends it: the messages so far and the tools offered. */
  datatype ChatRequest = ChatRequest(messages: seq<ChatMessage>, tools: seq<RequestTool>)

  /** What the loop returns: the final text, the accumulated usage and the new wrappers. */
  datatype LoopOutput = LoopOutput(text: string, usage: TokenUsage, wrappers: seq<ChatMessageWrapper>)

  /** The stored form of an assistant reply. */
  function AssistantWrapper(text: string): ChatMessageWrapper
  {
    ChatMessageWrapper("Assistant", TextContent(text))
  }

  /** The reply's first text, or the placeholder when it has none. */
  function FinalText(resp: ChatResponse): (t: string)
    ensures resp.texts != [] ==> t == resp.texts[0]
    ensures resp.texts == [] ==> t == NoTextPlaceholder
  {
    match FirstText(resp)
    case Some(t) => t
    case None => NoTextPlaceholder
  }

  /** A reply ends the loop when it is an error or requests no tools. */
  predicate EndsLoop(reply: ProviderReply)
  {
    reply.Err? || reply.value.toolCalls == []
  }

  /** The index of the first reply, from `i` on, that ends the loop; the bound when none does. */
  function LoopEnd(replies: seq<ProviderReply>, i: nat): (e: nat)
    requires |replies| >= MaxToolIterations
    ensures i <= MaxToolIterations ==> i <= e
    ensures e <= MaxToolIterations || e == i
    ensures e < MaxToolIterations ==> EndsLoop(replies[e])
    decreases MaxToolIterations - i
  {
    if i >= MaxToolIterations then i
    else if EndsLoop(replies[i]) then i
    else LoopEnd(replies, i + 1)
  }

  /** No reply before the loop's end ends it. */
  lemma {:induction false} LoopEndSkips(replies: seq<ProviderReply>, i: nat)
    requires |replies| >= MaxToolIterations
    ensures forall j :: i <= j < LoopEnd(replies, i) && j < MaxToolIterations ==> !EndsLoop(replies[j])
    decreases MaxToolIterations - i
  {
    if i < MaxToolIterations && !EndsLoop(replies[i]) {
      LoopEndSkips(replies, i + 1);
    }
  }

  /** How many provider calls the loop makes. */
  function CallsMade(replies: seq<ProviderReply>): (n: nat)
    requires |replies| >= MaxToolIterations
    ensures 1 <= n <= MaxToolIterations
  {
    var e := LoopEnd(replies, 0);
    if e < MaxToolIterations then e + 1 else MaxToolIterations
  }

  /** The assistant message that records the requested tool calls, in order. */
  function ToolCallMessage(calls: seq<ToolCall>): (m: ChatMessage)
    ensures m.role == Assistant && |m.parts| == |calls|
  {
    ChatMessage(Assistant, ToolCallParts(calls), None)
  }

  function ToolCallParts(calls: seq<ToolCall>): (ps: seq<GenaiPart>)
    ensures |ps| == |calls|
  {
    if calls == [] then [] else ToolCallParts(calls[..|calls| - 1]) + [ToolCallPart(calls[|calls| - 1])]
  }

  /** The tool-call message lists the calls in order, one part each. */
  lemma {:induction false} ToolCallMessageAt(calls: seq<ToolCall>)
    ensures forall i :: 0 <= i < |calls| ==> ToolCallMessage(calls).parts[i] == ToolCallPart(calls[i])
  {
    ToolCallPartsAt(calls);
  }

  lemma {:induction false} ToolCallPartsAt(calls: seq<ToolCall>)
    ensures forall i :: 0 <= i < |calls| ==> ToolCallParts(calls)[i] == ToolCallPart(calls[i])
  {
    if calls != [] {
      ToolCallPartsAt(calls[..|calls| - 1]);
    }
  }

  /** One tool message per response, in order. */
  function ResponseMessages(rs: seq<ToolResponse>): (ms: seq<ChatMessage>)
    ensures |ms| == |rs|
  {
    if rs == [] then []
    else ResponseMessages(rs[..|rs| - 1]) + [ChatMessage(ChatRole.Tool, [ToolResponsePart(rs[|rs| - 1])], None)]
  }

  /** The `i`-th tool message carries the `i`-th response. */
  lemma {:induction false} ResponseMessagesAt(rs: seq<ToolResponse>)
    ensures forall i :: 0 <= i < |rs| ==>
      ResponseMessages(rs)[i] == ChatMessage(ChatRole.Tool, [ToolResponsePart(rs[i])], None)
  {
    if rs != [] {
      ResponseMessagesAt(rs[..|rs| - 1]);
    }
  }

  function CallsOf(reply: ProviderReply): seq<ToolCall>
  {
    if reply.Ok? then reply.value.toolCalls else []
  }

  /**
   * The messages a tool-calling reply adds: the assistant's tool-call
   * message, then one tool message per executor response, in order.
   */
  function ToolRound(toolMap: map<string, Tool>, ctx: SecurityContext, run: ToolRun, calls: seq<ToolCall>): seq<ChatMessage>
  {
    [ToolCallMessage(calls)] + ResponseMessages(ExecuteToolCalls(toolMap, ctx, calls, run))
  }

  /**
   * The round each reply would add: its tool calls (none for an error) and
   * their responses. The tools of round `i` run as `runs[i]` says, so what
   * one round's tools did (a file written, say) can show in a later round.
   */
  function Rounds(replies: seq<ProviderReply>, toolMap: map<string, Tool>, ctx: SecurityContext, runs: seq<ToolRun>)
    : (rounds: seq<seq<ChatMessage>>)
    requires |runs| == |replies|
    ensures |rounds| == |replies|
  {
    seq(|replies|, i requires 0 <= i < |replies| => ToolRound(toolMap, ctx, runs[i], CallsOf(replies[i])))
  }

  /** The messages sent with the `k`-th request: the history, then the rounds of the earlier replies. */
  function Transcript(messages: seq<ChatMessage>, rounds: seq<seq<ChatMessage>>, k: nat): seq<ChatMessage>
    requires k <= |rounds|
  {
    if k == 0 then messages else Transcript(messages, rounds, k - 1) + rounds[k - 1]
  }

  /** What `execute_with_tools` returns for a run of provider replies. */
  function ToolLoopOutcome(replies: seq<ProviderReply>): Result<LoopOutput, string>
    requires |replies| >= MaxToolIterations
  {
    var e := LoopEnd(replies, 0);
    if e >= MaxToolIterations then Err(ExceededIterations)
    else
      match replies[e]
      case Err(msg) => Err(WithContext(ToolRequestContext, msg))
      case Ok(resp) =>
        Ok(LoopOutput(FinalText(resp), UsagePrefix(replies, e + 1), [AssistantWrapper(FinalText(resp))]))
  }

  /**
   * `execute_with_tools`: at most ten provider calls. A reply without tool
   * calls ends the loop with its text; a reply with tool calls adds the
   * assistant's tool-call message and one tool message per response to the
   * messages of the next request. `replies[k]` is the provider's answer to
   * the `k`-th request, and `runs[k]` is how the tools behave when the
   * executor answers that reply's calls; `sent` are the requests made.
   */
  method ExecuteWithTools(replies: seq<ProviderReply>, messages: seq<ChatMessage>, registry: ToolRegistry,
                          ctx: SecurityContext, runs: seq<ToolRun>, model: string, searchMode: Option<string>)
    returns (r: Result<LoopOutput, string>, sent: seq<ChatRequest>)
    requires |replies| >= MaxToolIterations && |runs| == |replies|
    requires registry.Valid()
    ensures r == ToolLoopOutcome(replies)
    ensures |sent| == CallsMade(replies)
    ensures forall k :: 0 <= k < |sent| ==>
      sent[k].messages == Transcript(messages, Rounds(replies, registry.tools, ctx, runs), k)
      && OffersTools(sent[k].tools, registry, ShouldUseGeminiGrounding(model, searchMode))
  {
    var offered := RequestTools(registry, model, searchMode);
    r, sent := ToolLoop(replies, messages, registry.tools, ctx, runs, offered, Rounds(replies, registry.tools, ctx, runs));
    RequestsAt(messages, Rounds(replies, registry.tools, ctx, runs), offered, |sent|);
  }

  /** The loop of `execute_with_tools`, once the tools to offer are fixed. */
  method ToolLoop(replies: seq<ProviderReply>, messages: seq<ChatMessage>, toolMap: map<string, Tool>,
                  ctx: SecurityContext, runs: seq<ToolRun>, offered: seq<RequestTool>, ghost rounds: seq<seq<ChatMessage>>)
    returns (r: Result<LoopOutput, string>, sent: seq<ChatRequest>)
    requires |replies| >= MaxToolIterations && |rounds| == |replies| && |runs| == |replies|
    requires forall i :: 0 <= i < |replies| && replies[i].Ok? ==>
      rounds[i] == ToolRound(toolMap, ctx, runs[i], replies[i].value.toolCalls)
    ensures r == ToolLoopOutcome(replies)
    ensures |sent| == CallsMade(replies)
    ensures sent == Requests(messages, rounds, offered, CallsMade(replies))
  {
    var total := DefaultUsage;
    var msgs := messages;
    sent := [];
    var iteration := 0;
    while iteration < MaxToolIterations
      invariant 0 <= iteration <= MaxToolIterations
      invariant |sent| == iteration
      invariant LoopEnd(replies, 0) == LoopEnd(replies, iteration)
      invariant msgs == Transcript(messages, rounds, iteration)
      invariant sent == Requests(messages, rounds, offered, iteration)
      invariant total == UsagePrefix(replies, iteration)
    {
      sent := sent + [ChatRequest(msgs, offered)];
      var reply := replies[iteration];
      if reply.Err? {
        r := Err(WithContext(ToolRequestContext, reply.error));
        OutcomeAt(replies, iteration);
        return;
      }
      var resp := reply.value;
      total := Accumulate(total, resp.usage);
      if resp.toolCalls == [] {
        var text := FinalText(resp);
        var wrappers := [AssistantWrapper(text)];
        r := Ok(LoopOutput(text, total, wrappers));
        OutcomeAt(replies, iteration);
        return;
      }
      msgs := ToolStep(msgs, toolMap, ctx, runs[iteration], resp.toolCalls);
      iteration := iteration + 1;
    }
    r := Err(ExceededIterations);
  }

  /** The first `n` requests: each carries its transcript and the tools offered. */
  function Requests(messages: seq<ChatMessage>, rounds: seq<seq<ChatMessage>>, offered: seq<RequestTool>, n: nat)
    : (rs: seq<ChatRequest>)
    requires n <= |rounds|
    ensures |rs| == n
  {
    if n == 0 then [] else Requests(messages, rounds, offered, n - 1) + [ChatRequest(Transcript(messages, rounds, n - 1), offered)]
  }

  lemma {:induction false} RequestsAt(messages: seq<ChatMessage>, rounds: seq<seq<ChatMessage>>, offered: seq<RequestTool>, n: nat)
    requires n <= |rounds|
    ensures forall k :: 0 <= k < n ==>
      Requests(messages, rounds, offered, n)[k] == ChatRequest(Transcript(messages, rounds, k), offered)
  {
    if n > 0 {
      RequestsAt(messages, rounds, offered, n - 1);
    }
  }

  /** The outcome when the reply at `i` is the first to end the loop. */
  lemma OutcomeAt(replies: seq<ProviderReply>, i: nat)
    requires |replies| >= MaxToolIterations && i < MaxToolIterations
    requires LoopEnd(replies, 0) == LoopEnd(replies, i) && EndsLoop(replies[i])
    ensures LoopEnd(replies, 0) == i && CallsMade(replies) == i + 1
    ensures replies[i].Err? ==> ToolLoopOutcome(replies) == Err(WithContext(ToolRequestContext, replies[i].error))
    ensures replies[i].Ok? ==>
      (ToolLoopOutcome(replies)
         == Ok(LoopOutput(FinalText(replies[i].value), UsagePrefix(replies, i + 1), [AssistantWrapper(FinalText(replies[i].value))])))
  {
  }

  /** The usage accumulated over the first `n` replies, counted by position. */
  function UsagePrefix(replies: seq<ProviderReply>, n: nat): TokenUsage
    requires n <= |replies|
  {
    if n == 0 then DefaultUsage
    else
      var prev := UsagePrefix(replies, n - 1);
      if replies[n - 1].Ok? then Accumulate(prev, replies[n - 1].value.usage) else prev
  }

  lemma {:induction false} UsagePrefixIsUsageOf(replies: seq<ProviderReply>, n: nat)
    requires n <= |replies|
    ensures UsagePrefix(replies, n) == UsageOf(replies[..n])
  {
    if n > 0 {
      UsagePrefixIsUsageOf(replies, n - 1);
      assert replies[..n][..n - 1] == replies[..n - 1];
    }
  }

  /** One tool round of `execute_with_tools`: the tool-call message, then the executor's responses. */
  method ToolStep(msgs: seq<ChatMessage>, toolMap: map<string, Tool>, ctx: SecurityContext, run: ToolRun,
                  calls: seq<ToolCall>) returns (next: seq<ChatMessage>)
    ensures next == msgs + ToolRound(toolMap, ctx, run, calls)
  {
    next := msgs + [ToolCallMessage(calls)];
    var responses := ExecuteToolCalls(toolMap, ctx, calls, run);
    next := AppendToolMessages(next, responses);
  }

  /** The inner loop of `execute_with_tools`: one tool message per response, in order. */
  method AppendToolMessages(msgs: seq<ChatMessage>, responses: seq<ToolResponse>) returns (out: seq<ChatMessage>)
    ensures out == msgs + ResponseMessages(responses)
  {
    out := msgs;
    for j := 0 to |responses|
      invariant out == msgs + ResponseMessages(responses[..j])
    {
      assert responses[..j + 1][..j] == responses[..j];
      out := out + [ChatMessage(ChatRole.Tool, [ToolResponsePart(responses[j])], None)];
    }
    assert responses[..|responses|] == responses;
  }

  /** The loop never calls the provider more than ten times. */
  lemma AtMostTenCalls(replies: seq<ProviderReply>)
    requires |replies| >= MaxToolIterations
    ensures CallsMade(replies) <= MaxToolIterations
  {
  }

  /** Ten replies that all request tools exhaust the loop: ten calls, then the iteration error. */
  lemma AllToolRequestsExceed(replies: seq<ProviderReply>)
    requires |replies| >= MaxToolIterations
    requires forall j :: 0 <= j < MaxToolIterations ==> replies[j].Ok? && replies[j].value.toolCalls != []
    ensures ToolLoopOutcome(replies) == Err(ExceededIterations)
    ensures CallsMade(replies) == MaxToolIterations
  {
    assert LoopEnd(replies, 0) >= MaxToolIterations;
  }

  /**
   * The loop succeeds exactly when, within ten replies, one without tool
   * calls arrives before any error; it then returns that reply's first text
   * (or the placeholder) and exactly one assistant wrapper holding it.
   */
  lemma LoopSucceedsOnFirstPlainReply(replies: seq<ProviderReply>, e: nat)
    requires |replies| >= MaxToolIterations
    requires e < MaxToolIterations
    requires forall j :: 0 <= j < e ==> replies[j].Ok? && replies[j].value.toolCalls != []
    requires replies[e].Ok? && replies[e].value.toolCalls == []
    ensures ToolLoopOutcome(replies).Ok?
    ensures ToolLoopOutcome(replies).value.text == FinalText(replies[e].value)
    ensures ToolLoopOutcome(replies).value.wrappers == [AssistantWrapper(FinalText(replies[e].value))]
    ensures ToolLoopOutcome(replies).value.usage == UsageOf(replies[..e + 1])
    ensures CallsMade(replies) == e + 1
  {
    LoopEndIs(replies, 0, e);
    UsagePrefixIsUsageOf(replies, e + 1);
  }

  lemma {:induction false} LoopEndIs(replies: seq<ProviderReply>, i: nat, e: nat)
    requires |replies| >= MaxToolIterations
    requires i <= e < MaxToolIterations
    requires forall j :: i <= j < e ==> !EndsLoop(replies[j])
    requires EndsLoop(replies[e])
    ensures LoopEnd(replies, i) == e
    decreases e - i
  {
    if i < e {
      LoopEndIs(replies, i + 1, e);
    }
  }

  /** A successful loop's result is always the reply text or the placeholder. */
  lemma LoopSuccessShape(replies: seq<ProviderReply>)
    requires |replies| >= MaxToolIterations
    requires ToolLoopOutcome(replies).Ok?
    ensures var e := LoopEnd(replies, 0);
      e < MaxToolIterations && replies[e].Ok? && replies[e].value.toolCalls == []
      && ToolLoopOutcome(replies).value.wrappers == [AssistantWrapper(ToolLoopOutcome(replies).value.text)]
  {
    var e := LoopEnd(replies, 0);
    assert e < MaxToolIterations && replies[e].Ok?;
  }

  /**
   * Each request after a tool-calling reply carries the previous messages,
   * the assistant's tool-call message, and one tool message per call, in
   * order, each holding the executor's response to that call under the
   * call's id, as the tools behave in that round.
   */
  lemma TranscriptGrows(messages: seq<ChatMessage>, replies: seq<ProviderReply>, toolMap: map<string, Tool>,
                        ctx: SecurityContext, runs: seq<ToolRun>, k: nat)
    requires k < |replies| && replies[k].Ok? && |runs| == |replies|
    ensures var rounds := Rounds(replies, toolMap, ctx, runs);
      Transcript(messages, rounds, k + 1)
        == Transcript(messages, rounds, k) + ToolRound(toolMap, ctx, runs[k], replies[k].value.toolCalls)
  {
    var rounds := Rounds(replies, toolMap, ctx, runs);
    assert rounds[k] == ToolRound(toolMap, ctx, runs[k], replies[k].value.toolCalls);
  }

  /**
   * Rounds are answered by the tools as they are at that round: the same
   * call made in two rounds gets different answers when the tool's output
   * has changed in between (a file read after another round wrote it).
   */
  lemma LaterRoundSeesOwnRun(replies: seq<ProviderReply>, toolMap: map<string, Tool>, ctx: SecurityContext,
                             runs: seq<ToolRun>, i: nat, j: nat, call: ToolCall)
    requires |runs| == |replies| && i < |replies| && j < |replies|
    requires replies[i].Ok? && replies[i].value.toolCalls == [call]
    requires replies[j].Ok? && replies[j].value.toolCalls == [call]
    requires call.fnName in toolMap
    requires runs[i](toolMap[call.fnName], call.fnArguments, ctx).Ok?
    requires runs[j](toolMap[call.fnName], call.fnArguments, ctx).Ok?
    requires runs[i](toolMap[call.fnName], call.fnArguments, ctx) != runs[j](toolMap[call.fnName], call.fnArguments, ctx)
    ensures Rounds(replies, toolMap, ctx, runs)[i] != Rounds(replies, toolMap, ctx, runs)[j]
  {
    var rounds: seq<seq<ChatMessage>> := Rounds(replies, toolMap, ctx, runs);
    RoundAnswersCalls(toolMap, ctx, runs[i], [call]);
    RoundAnswersCalls(toolMap, ctx, runs[j], [call]);
    SuccessKeepsOutput(toolMap, ctx, call, runs[i]);
    SuccessKeepsOutput(toolMap, ctx, call, runs[j]);
    var mi: ChatMessage, mj: ChatMessage := rounds[i][1], rounds[j][1];
    assert mi.parts[0].response.content != mj.parts[0].response.content;
  }

  /** A round is the call message followed by one tool message per call, answering it. */
  lemma RoundAnswersCalls(toolMap: map<string, Tool>, ctx: SecurityContext, run: ToolRun, calls: seq<ToolCall>)
    ensures var round := ToolRound(toolMap, ctx, run, calls);
      var rs := ExecuteToolCalls(toolMap, ctx, calls, run);
      |round| == 1 + |calls| && round[0] == ToolCallMessage(calls)
      && forall i :: 0 <= i < |calls| ==>
        round[1 + i] == ChatMessage(ChatRole.Tool, [ToolResponsePart(rs[i])], None)
        && rs[i].callId == calls[i].callId
  {
    var round := ToolRound(toolMap, ctx, run, calls);
    var rs := ExecuteToolCalls(toolMap, ctx, calls, run);
    ExecuteToolCallsAt(toolMap, ctx, calls, run);
    ResponseMessagesAt(rs);
    assert forall i :: 0 <= i < |calls| ==> round[1 + i] == round[1..][i];
  }

  /** The history sent first is kept at the head of every later request. */
  lemma {:induction false} TranscriptKeepsHistory(messages: seq<ChatMessage>, rounds: seq<seq<ChatMessage>>, k: nat)
    requires k <= |rounds|
    ensures |messages| <= |Transcript(messages, rounds, k)|
    ensures Transcript(messages, rounds, k)[..|messages|] == messages
  {
    if k > 0 {
      TranscriptKeepsHistory(messages, rounds, k - 1);
      PrefixOfAppend(Transcript(messages, rounds, k - 1), rounds[k - 1], |messages|);
    }
  }

  // -----------------------------------------------------------------------
  // Resources of the user message

  /** The resource a content source is recorded as; the prompt is not recorded. */
  function ResourceOf(s: ContentSource): (r: Option<ResourceInfo>)
    ensures r.None? <==> s.CommandLinePrompt?
  {
    match s
    case ImageFile(p) => Some(ResourceInfo(ResourceType.Image, Some(p)))
    case AudioRecording(p) => Some(ResourceInfo(ResourceType.Audio, Some(p)))
    case TextFile(p, _) => Some(ResourceInfo(ResourceType.TextFile, Some(p)))
    case ClipboardText(_) => Some(ResourceInfo(ResourceType.ClipboardText, None))
    case ClipboardImage => Some(ResourceInfo(ResourceType.ClipboardImage, None))
    case StdinText(_) => Some(ResourceInfo(ResourceType.Stdin, None))
    case RoleDefinition(name, _, isTask) =>
      Some(ResourceInfo(if isTask then ResourceType.Task else ResourceType.Role, Some(name)))
    case CommandLinePrompt(_) => None
  }

  /** The resources of a list of sources, in source order. */
  function ResourcesOf(sources: seq<ContentSource>): seq<ResourceInfo>
  {
    if sources == [] then []
    else
      var last := ResourceOf(sources[|sources| - 1]);
      ResourcesOf(sources[..|sources| - 1]) + (if last.Some? then [last.value] else [])
  }

  /** The number of sources that are not the command-line prompt. */
  function RecordedCount(sources: seq<ContentSource>): nat
  {
    if sources == [] then 0
    else RecordedCount(sources[..|sources| - 1]) + (if sources[|sources| - 1].CommandLinePrompt? then 0 else 1)
  }

  /** The resource loop of `run_app`. */
  method BuildResources(sources: seq<ContentSource>) returns (resources: seq<ResourceInfo>)
    ensures resources == ResourcesOf(sources)
  {
    resources := [];
    for i := 0 to |sources|
      invariant resources == ResourcesOf(sources[..i])
    {
      assert sources[..i + 1][..i] == sources[..i];
      var resource := ResourceOf(sources[i]);
      if resource.Some? {
        resources := resources + [resource.value];
      }
    }
    assert sources[..|sources|] == sources;
  }

  /** One resource per source other than the prompt. */
  lemma {:induction false} ResourceCount(sources: seq<ContentSource>)
    ensures |ResourcesOf(sources)| == RecordedCount(sources)
    decreases |sources|
  {
    if sources != [] {
      ResourceCount(sources[..|sources| - 1]);
    }
  }

  /** The resources of a concatenation are those of each part, in order. */
  lemma {:induction false} ResourcesConcat(a: seq<ContentSource>, b: seq<ContentSource>)
    ensures ResourcesOf(a + b) == ResourcesOf(a) + ResourcesOf(b)
    decreases |b|
  {
    if b == [] {
      assert a + b == a;
    } else {
      var b' := b[..|b| - 1];
      assert (a + b)[..|a + b| - 1] == a + b';
      ResourcesConcat(a, b');
    }
  }

  /** A role definition is recorded under its name, as a task exactly when it is one. */
  lemma RoleRecordedByKind(name: string, definition: string, isTask: bool)
    ensures ResourcesOf([Sources.RoleDefinition(name, definition, isTask)])
      == [ResourceInfo(if isTask then ResourceType.Task else ResourceType.Role, Some(name))]
  {
    assert [Sources.RoleDefinition(name, definition, isTask)][..0] == [];
  }

  // -----------------------------------------------------------------------
  // Tool registration

  const BuiltinTools: seq<Tool> := [ReadFileToolDescriptor, WriteFileToolDescriptor,
    ListDirectoryToolDescriptor, SearchWebToolDescriptor, ExecuteCommandToolDescriptor]

  /** The `--tool-disable` names, lowercased. */
  function DisabledSet(names: seq<string>): (d: set<string>)
    ensures forall n :: n in names ==> ToLower(n) in d
    ensures forall x :: x in d ==> exists n :: n in names && ToLower(n) == x
  {
    set n | n in names :: ToLower(n)
  }

  /** Whether a built-in tool is registered: not disabled, and for commands also allowed. */
  predicate Enabled(t: Tool, disabled: set<string>, allowCommands: bool)
  {
    t.name !in disabled && (t.name != "execute_command" || allowCommands)
  }

  /** The tool-related command-line settings that `initialize_tool_executor` reads. */
  datatype ToolSettings = ToolSettings(
    toolDisable: seq<string>,
    allowCommandExecution: bool,
    commandTimeout: nat,
    confirmCommands: bool,
    toolAllowCwd: bool,
    toolAllowedDir: Option<string>)

  /** The policy `initialize_tool_executor` builds; `cwd` and `canonicalDir` stand for the file system's answers. */
  function ToolPolicy(s: ToolSettings, cwd: Result<PathBuf, string>, canonicalDir: Option<PathBuf>): (r: Result<SecurityContext, string>)
    ensures r.Err? <==> s.toolAllowCwd && cwd.Err?
    ensures r.Ok? ==>
      r.value.maxFileSize == 10485760 && r.value.allowWebSearch
      && r.value.allowCommandExecution == s.allowCommandExecution
      && r.value.commandTimeoutSecs == s.commandTimeout
      && r.value.confirmCommands == s.confirmCommands
      && r.value.allowedDirs ==
           (if s.toolAllowCwd then {cwd.value} else {})
           + (if s.toolAllowedDir.Some? then {if canonicalDir.Some? then canonicalDir.value else Components(s.toolAllowedDir.value)} else {})
  {
    var base := WithConfirmCommands(WithCommandTimeout(WithAllowCommandExecution(WithAllowWebSearch(
      WithMaxFileSize(New(), 10 * 1024 * 1024), true), s.allowCommandExecution), s.commandTimeout), s.confirmCommands);
    var withCwd := if s.toolAllowCwd then AllowCurrentDir(base, cwd) else Ok(base);
    match withCwd
    case Err(e) => Err(WithContext("Failed to allow current directory", e))
    case Ok(c) =>
      Ok(if s.toolAllowedDir.Some? then WithAllowedDir(c, s.toolAllowedDir.value, canonicalDir) else c)
  }

  /**
   * The registration part of `initialize_tool_executor`: each built-in tool
   * in turn unless its name is disabled, `execute_command` only when command
   * execution is allowed.
   */
  method RegisterBuiltins(builtins: seq<Tool>, disabled: set<string>, allowCommands: bool) returns (registry: ToolRegistry)
    requires NamedAsBuiltins(builtins)
    ensures fresh(registry) && registry.Valid()
    ensures forall t :: t in builtins ==> (t.name in registry.tools <==> Enabled(t, disabled, allowCommands))
    ensures forall n :: n in registry.tools ==> registry.tools[n] in builtins
  {
    registry := new ToolRegistry.New();
    RegisterIfEnabled(registry, builtins, 0, disabled, allowCommands);  // read_file
    RegisterIfEnabled(registry, builtins, 1, disabled, allowCommands);  // write_file
    RegisterIfEnabled(registry, builtins, 2, disabled, allowCommands);  // list_directory
    RegisterIfEnabled(registry, builtins, 3, disabled, allowCommands);  // search_web
    RegisterIfEnabled(registry, builtins, 4, disabled, allowCommands);  // execute_command
    RegisteredAll(registry.tools, builtins, disabled, allowCommands);
  }

  /** One step of `initialize_tool_executor`: registers the `k`-th built-in tool when it is enabled. */
  method RegisterIfEnabled(registry: ToolRegistry, builtins: seq<Tool>, k: nat, disabled: set<string>, allowCommands: bool)
    requires NamedAsBuiltins(builtins) && k < |builtins|
    requires registry.Valid() && RegisteredUpTo(registry.tools, builtins, k, disabled, allowCommands)
    modifies registry
    ensures registry.Valid() && RegisteredUpTo(registry.tools, builtins, k + 1, disabled, allowCommands)
    ensures registry.tools ==
      if Enabled(builtins[k], disabled, allowCommands) then Registered(old(registry.tools), builtins[k])
      else old(registry.tools)
  {
    RegistrationStep(registry.tools, builtins, k, disabled, allowCommands);
    if Enabled(builtins[k], disabled, allowCommands) {
      registry.Register(builtins[k]);
    }
  }

  /** After all five steps the registry holds exactly the enabled built-in tools. */
  lemma RegisteredAll(tools: map<string, Tool>, builtins: seq<Tool>, disabled: set<string>, allowCommands: bool)
    requires RegisteredUpTo(tools, builtins, |builtins|, disabled, allowCommands)
    ensures forall t :: t in builtins ==> (t.name in tools <==> Enabled(t, disabled, allowCommands))
    ensures forall n :: n in tools ==> tools[n] in builtins
  {
    assert builtins[..|builtins|] == builtins;
    forall t | t in builtins
      ensures t.name in tools <==> Enabled(t, disabled, allowCommands)
    {
      var i :| 0 <= i < |builtins| && builtins[i] == t;
    }
  }

  /**
   * The registry after the first `k` registration steps: those of the first
   * `k` built-in tools that are enabled, and nothing else.
   */
  ghost predicate RegisteredUpTo(tools: map<string, Tool>, builtins: seq<Tool>, k: nat, disabled: set<string>, allowCommands: bool)
    requires k <= |builtins|
  {
    (forall i :: 0 <= i < k ==> (builtins[i].name in tools <==> Enabled(builtins[i], disabled, allowCommands)))
    && (forall i :: k <= i < |builtins| ==> builtins[i].name !in tools)
    && (forall n :: n in tools ==> tools[n] in builtins[..k])
  }

  /** One registration step: the `k`-th built-in tool is registered exactly when enabled. */
  lemma RegistrationStep(tools: map<string, Tool>, builtins: seq<Tool>, k: nat, disabled: set<string>, allowCommands: bool)
    requires NamedAsBuiltins(builtins) && k < |builtins|
    requires RegisteredUpTo(tools, builtins, k, disabled, allowCommands)
    ensures RegisteredUpTo(if Enabled(builtins[k], disabled, allowCommands) then Registered(tools, builtins[k]) else tools,
                           builtins, k + 1, disabled, allowCommands)
  {
    BuiltinNamesDistinct();
    assert builtins[..k + 1] == builtins[..k] + [builtins[k]];
  }

  /** The names of the built-in tools, in the order `initialize_tool_executor` registers them. */
  const BuiltinNames: seq<string> := ["read_file", "write_file", "list_directory", "search_web", "execute_command"]

  /** A list of tools carrying the built-in names in registration order. */
  predicate NamedAsBuiltins(builtins: seq<Tool>)
  {
    |builtins| == |BuiltinNames| && forall i :: 0 <= i < |builtins| ==> builtins[i].name == BuiltinNames[i]
  }

  /** The built-in names are five different names. */
  lemma BuiltinNamesDistinct()
    ensures forall i, j :: 0 <= i < j < |BuiltinNames| ==> BuiltinNames[i] != BuiltinNames[j]
  {
    assert forall i :: 0 <= i < |BuiltinNames| ==> BuiltinNames[i][0] == "rwlse"[i];
  }

  /** The built-in tool descriptors carry the built-in names. */
  lemma BuiltinToolsNamed()
    ensures NamedAsBuiltins(BuiltinTools)
  {
  }

  /**
   * `initialize_tool_executor`: registers the enabled built-in tools
   * (disabled names compare case-insensitively) and builds the security policy.
   */
  method InitializeToolExecutor(s: ToolSettings, cwd: Result<PathBuf, string>, canonicalDir: Option<PathBuf>)
    returns (r: Result<(ToolRegistry, SecurityContext), string>)
    ensures r.Err? <==> ToolPolicy(s, cwd, canonicalDir).Err?
    ensures r.Ok? ==> r.value.1 == ToolPolicy(s, cwd, canonicalDir).value
    ensures r.Ok? ==> fresh(r.value.0) && r.value.0.Valid()
    ensures r.Ok? ==> forall t :: t in BuiltinTools ==>
      (t.name in r.value.0.tools <==> Enabled(t, DisabledSet(s.toolDisable), s.allowCommandExecution))
    ensures r.Ok? ==> forall n :: n in r.value.0.tools ==> r.value.0.tools[n] in BuiltinTools
  {
    BuiltinToolsNamed();
    var registry := RegisterBuiltins(BuiltinTools, DisabledSet(s.toolDisable), s.allowCommandExecution);
    var policy := ToolPolicy(s, cwd, canonicalDir);
    if policy.Err? {
      return Err(policy.error);
    }
    r := Ok((registry, policy.value));
  }

  // -----------------------------------------------------------------------
  // New or resumed conversation

  /** The conversation-choice settings of the command line. */
  datatype ResumeSettings = ResumeSettings(noSave: bool, resumeLast: bool, resumeConversation: Option<string>, prompt: string)

  function NotFoundContext(id: string): string
  {
    "Conversation with ID '" + id + "' not found"
  }

  /**
   * `resolve_conversation`: `created` is the conversation `new_with_prompt`
   * would make (its id draws on a fresh UUID); `dir` is the conversations
   * directory.
   */
  function ResolveConversation(s: ResumeSettings, dir: Directory, created: ConversationValue)
    : (r: Result<(ConversationValue, string), string>)
  {
    var latestOrNew := match LatestOf(Loadable(dir)) case Some(c) => c case None => created;
    if s.noSave then Ok((created, s.prompt))
    else if s.resumeLast then Ok((latestOrNew, s.prompt))
    else
      match s.resumeConversation
      case None => Ok((created, s.prompt))
      case Some(id) =>
        if id == [] then Ok((latestOrNew, s.prompt))
        else
          match LoadConversation(dir, id)
          case Ok(c) => Ok((c, s.prompt))
          case Err(e) => Err(WithContext(NotFoundContext(id), ErrorMessage(e)))
  }

  /** Every successful branch hands back the prompt unchanged. */
  lemma PromptUnchanged(s: ResumeSettings, dir: Directory, created: ConversationValue)
    requires ResolveConversation(s, dir, created).Ok?
    ensures ResolveConversation(s, dir, created).value.1 == s.prompt
  {
  }

  /** With `no_save` the conversation is always new, whatever else is asked. */
  lemma NoSaveStartsNew(s: ResumeSettings, dir: Directory, created: ConversationValue)
    requires s.noSave
    ensures ResolveConversation(s, dir, created) == Ok((created, s.prompt))
  {
  }

  /**
   * Resuming the latest (by `-R`, or by an empty id) picks the conversation
   * `get_latest_conversation` finds, or a new one when there is none; `-R`
   * wins over any id given.
   */
  lemma ResumeLatest(s: ResumeSettings, dir: Directory, created: ConversationValue)
    requires !s.noSave && (s.resumeLast || s.resumeConversation == Some([]))
    ensures LatestOf(Loadable(dir)).Some? ==>
      ResolveConversation(s, dir, created) == Ok((LatestOf(Loadable(dir)).value, s.prompt))
    ensures LatestOf(Loadable(dir)).None? ==> ResolveConversation(s, dir, created) == Ok((created, s.prompt))
  {
  }

  /** A specific id loads that conversation, and failing to load it is an error, never a new conversation. */
  lemma SpecificIdLoads(s: ResumeSettings, dir: Directory, created: ConversationValue, id: string)
    requires !s.noSave && !s.resumeLast && s.resumeConversation == Some(id) && id != []
    ensures ResolveConversation(s, dir, created).Ok? <==> LoadConversation(dir, id).Ok?
    ensures LoadConversation(dir, id).Ok? ==>
      ResolveConversation(s, dir, created).value.0 == LoadConversation(dir, id).value
    ensures LoadConversation(dir, id).Err? ==>
      StartsWith(ResolveConversation(s, dir, created).error, NotFoundContext(id))
  {
  }

  // -----------------------------------------------------------------------
  // Completing a turn

  /**
   * `get_context_window_limit`: `env` is the value of CONTEXT_WINDOW_LIMIT
   * (None when unset); a value that parses as a usize is the budget,
   * anything else falls back to the default of 8000.
   */
  function ContextWindowLimit(env: Option<string>): (r: nat)
    ensures env.Some? && ParseUsize(env.value).Some? ==> r == ParseUsize(env.value).value
    ensures env.None? || ParseUsize(env.value).None? ==> r == DefaultContextWindowLimit
  {
    match env
    case Some(v) =>
      (match ParseUsize(v)
       case Some(n) => n
       case None => DefaultContextWindowLimit)
    case None => DefaultContextWindowLimit
  }

  /** An unset or unparsable variable leaves the default budget; "12000" raises it. */
  lemma ContextWindowExamples()
    ensures ContextWindowLimit(None) == 8000
    ensures ContextWindowLimit(Some("many")) == 8000
    ensures ContextWindowLimit(Some("12000")) == 12000
  {
    assert !AllDigits("many") by { assert !IsAsciiDigit('m'); }
    assert "12"[..1] == "1" && "120"[..2] == "12" && "1200"[..3] == "120" && "12000"[..4] == "1200";
    assert DigitsValue("1") == 1;
    assert DigitsValue("12") == 12;
    assert DigitsValue("120") == 120;
    assert DigitsValue("1200") == 1200;
    assert DigitsValue("12000") == 12000;
  }

  /**
   * The step of `run_app` before the request: the history (new or resumed)
   * is truncated to the configured budget. `completed` is false when the
   * truncation panics, which only a conversation whose vectors are out of
   * lock-step can cause.
   */
  method TruncateHistory(conv: Conversation, limitEnv: Option<string>) returns (completed: bool)
    modifies conv
    ensures var d := DropCount(old(conv.messages), ContextWindowLimit(limitEnv));
      completed <==> d <= |old(conv.resourcesPerMessage)| && d <= |old(conv.tokenUsagePerMessage)|
    ensures completed ==> conv.messages == old(conv.messages)[DropCount(old(conv.messages), ContextWindowLimit(limitEnv))..]
    ensures old(conv.Valid()) ==> completed && conv.Valid()
    ensures conv.id == old(conv.id)
  {
    completed := conv.TruncateIfNeeded(ContextWindowLimit(limitEnv));
  }

  function UserWrapper(parts: seq<ContentPartWrapper>): ChatMessageWrapper
  {
    ChatMessageWrapper("User", Parts(parts))
  }

  const SaveContext: string := "Failed to save conversation"

  /**
   * The end of `run_app`: the user message (with its resources and default
   * usage) and then the assistant message (with the reply's usage) are
   * added, and the conversation is saved unless `no_save` is set.
   * `saveError` is the outcome of writing the file (None when it succeeds);
   * a failure is reported with its context and the directory keeps its old
   * contents. The markdown copy is not part of this model.
   */
  method CompleteTurn(conv: Conversation, sources: seq<ContentSource>, parts: seq<ContentPartWrapper>,
                      response: string, usage: TokenUsage, noSave: bool, saveError: Option<string>,
                      dir: Directory, now: Timestamp)
    returns (r: Result<Directory, string>)
    modifies conv
    ensures old(conv.Valid()) ==> conv.Valid()
    ensures conv.messages == old(conv.messages) + [UserWrapper(parts), AssistantWrapper(response)]
    ensures conv.resourcesPerMessage == old(conv.resourcesPerMessage) + [ResourcesOf(sources), []]
    ensures conv.tokenUsagePerMessage == old(conv.tokenUsagePerMessage) + [DefaultUsage, usage]
    ensures conv.id == old(conv.id)
    ensures noSave ==> r == Ok(dir)
    ensures !noSave && saveError.Some? ==> r == Err(WithContext(SaveContext, saveError.value))
    ensures !noSave && saveError.None? ==> r == Ok(SaveConversation(dir, conv.Value()))
  {
    var resources := BuildResources(sources);
    conv.AddMessageWithUsage(UserWrapper(parts), resources, DefaultUsage, now);
    conv.AddMessageWithUsage(AssistantWrapper(response), [], usage, now);
    if noSave {
      r := Ok(dir);
    } else if saveError.Some? {
      r := Err(WithContext(SaveContext, saveError.value));
    } else {
      r := Ok(SaveConversation(dir, conv.Value()));
    }
  }
}

=== FILE: Base.dfy ===
// Shared vocabulary for the gia model: option and result wrappers, and the
// handful of Rust `str` operations the core relies on, stated over seq<char>.

module Base {

  datatype Option<T> = None | Some(value: T)

  datatype Result<T, E> = Ok(value: T) | Err(error: E)
  {
    predicate IsOk() { this.Ok? }
  }

  // ---------------------------------------------------------------------
  // Prefixes, suffixes and substrings

  predicate StartsWith(s: string, p: string)
  {
    |p| <= |s| && s[..|p|] == p
  }

  predicate EndsWith(s: string, p: string)
  {
    |p| <= |s| && s[|s| - |p|..] == p
  }

  /** A prefix of the first part is a prefix of the concatenation. */
  lemma PrefixOfAppend<T>(a: seq<T>, b: seq<T>, n: nat)
    requires n <= |a|
    ensures (a + b)[..n] == a[..n]
  {
  }

  /** Concatenation regroups freely. */
  lemma AppendAssoc<T>(a: seq<T>, b: seq<T>, c: seq<T>)
    ensures a + b + c == a + (b + c)
  {
  }

  lemma StartsWithConcat(a: string, b: string)
    ensures StartsWith(a + b, a)
  {
    assert (a + b)[..|a|] == a;
  }

  lemma EndsWithConcat(a: string, b: string)
    ensures EndsWith(a + b, b)
  {
    assert (a + b)[|a + b| - |b|..] == b;
  }

  /** `t` occurs in `s` starting at index `i`. */
  predicate OccursAt(s: string, t: string, i: int)
  {
    0 <= i && i + |t| <= |s| && s[i..i + |t|] == t
  }

  /** Rust's `str::contains`, as a left-to-right scan. */
  predicate Contains(s: string, t: string)
    decreases |s|
  {
    StartsWith(s, t) || (|s| > 0 && Contains(s[1..], t))
  }

  /** An occurrence at a known index is found by the scan. */
  lemma {:induction false} OccursAtContains(s: string, t: string, i: int)
    requires OccursAt(s, t, i)
    ensures Contains(s, t)
    decreases i
  {
    if i == 0 {
      assert s[..|t|] == s[0..0 + |t|];
    } else {
      assert s[1..][i - 1..i - 1 + |t|] == s[i..i + |t|];
      OccursAtContains(s[1..], t, i - 1);
    }
  }

  /** The scan finds `t` exactly when some index of `s` holds an occurrence. */
  lemma {:induction false} ContainsIffOccurs(s: string, t: string)
    ensures Contains(s, t) <==> exists i :: OccursAt(s, t, i)
    decreases |s|
  {
    if StartsWith(s, t) {
      assert OccursAt(s, t, 0);
    } else if |s| > 0 && Contains(s[1..], t) {
      ContainsIffOccurs(s[1..], t);
      var i :| OccursAt(s[1..], t, i);
      assert s[1..][i..i + |t|] == s[i + 1..i + 1 + |t|];
      assert OccursAt(s, t, i + 1);
    }
    forall i | OccursAt(s, t, i) ensures Contains(s, t) {
      OccursAtContains(s, t, i);
    }
  }

  /** Whatever contains `t` still contains it after text is added on either side. */
  lemma ContainsEmbedded(a: string, s: string, b: string, t: string)
    requires Contains(s, t)
    ensures Contains(a + s + b, t)
  {
    ContainsIffOccurs(s, t);
    var i :| OccursAt(s, t, i);
    assert (a + s + b)[|a| + i..|a| + i + |t|] == s[i..i + |t|];
    assert OccursAt(a + s + b, t, |a| + i);
    ContainsIffOccurs(a + s + b, t);
  }

  /** Index of the first occurrence of `t` in `s`, scanning from `from`. */
  function FindFrom(s: string, t: string, from: nat): (r: Option<nat>)
    requires from <= |s|
    ensures r.Some? ==> from <= r.value && OccursAt(s, t, r.value)
    ensures r.Some? ==> forall j :: from <= j < r.value ==> !OccursAt(s, t, j)
    ensures r.None? ==> forall j :: from <= j ==> !OccursAt(s, t, j)
    decreases |s| - from
  {
    if OccursAt(s, t, from) then Some(from)
    else if from == |s| then None
    else FindFrom(s, t, from + 1)
  }

  /**
   * Rust's `s.splitn(2, sep)` when `s` contains `sep`: the text before the
   * first occurrence and the text after it.
   */
  function SplitOnce(s: string, sep: string): (r: Option<(string, string)>)
    ensures r.Some? ==> s == r.value.0 + sep + r.value.1
    ensures r.Some? ==> forall j :: 0 <= j < |r.value.0| ==> !OccursAt(s, sep, j)
    ensures r.None? <==> forall j :: !OccursAt(s, sep, j)
  {
    match FindFrom(s, sep, 0)
    case None => None
    case Some(i) =>
      assert s == s[..i] + s[i..i + |sep|] + s[i + |sep|..];
      Some((s[..i], s[i + |sep|..]))
  }

  // ---------------------------------------------------------------------
  // Character classes

  predicate IsAsciiDigit(c: char) { '0' <= c <= '9' }

  predicate IsAsciiAlpha(c: char) { ('a' <= c <= 'z') || ('A' <= c <= 'Z') }

  /** `char::is_alphanumeric`, restricted to ASCII letters and digits. */
  predicate IsAlnum(c: char) { IsAsciiAlpha(c) || IsAsciiDigit(c) }

  /** `char::is_whitespace`: the Unicode White_Space property. */
  predicate IsWhitespace(c: char)
  {
    ('\U{0009}' <= c <= '\U{000D}') || c == ' ' || c == '\U{0085}' || c == '\U{00A0}'
    || c == '\U{1680}' || ('\U{2000}' <= c <= '\U{200A}') || c == '\U{2028}'
    || c == '\U{2029}' || c == '\U{202F}' || c == '\U{205F}' || c == '\U{3000}'
  }

  /** `char::to_lowercase`, restricted to ASCII capitals. */
  function LowerChar(c: char): char
  {
    if 'A' <= c <= 'Z' then (c as int + 32) as char else c
  }

  /** `str::to_lowercase`, character by character. */
  function ToLower(s: string): (r: string)
    ensures |r| == |s|
    ensures forall i :: 0 <= i < |s| ==> r[i] == LowerChar(s[i])
  {
    if s == [] then [] else [LowerChar(s[0])] + ToLower(s[1..])
  }

  lemma ToLowerAppend(a: string, b: string)
    ensures ToLower(a + b) == ToLower(a) + ToLower(b)
  {
    assert forall i :: 0 <= i < |a + b| ==> ToLower(a + b)[i] == (ToLower(a) + ToLower(b))[i];
  }

  // ---------------------------------------------------------------------
  // Trimming

  predicate IsBlank(s: string)
  {
    forall i :: 0 <= i < |s| ==> IsWhitespace(s[i])
  }

  function TrimStart(s: string): (r: string)
    ensures EndsWith(s, r)
    ensures r == [] || !IsWhitespace(r[0])
    ensures forall i :: 0 <= i < |s| - |r| ==> IsWhitespace(s[i])
    ensures r == [] <==> IsBlank(s)
  {
    if s != [] && IsWhitespace(s[0]) then TrimStart(s[1..]) else s
  }

  function TrimEnd(s: string): (r: string)
    ensures StartsWith(s, r)
    ensures r == [] || !IsWhitespace(r[|r| - 1])
    ensures forall i :: |r| <= i < |s| ==> IsWhitespace(s[i])
    ensures r == [] <==> IsBlank(s)
  {
    if s != [] && IsWhitespace(s[|s| - 1]) then TrimEnd(s[..|s| - 1]) else s
  }

  function Trim(s: string): string
  {
    TrimEnd(TrimStart(s))
  }

  /** `s.trim().is_empty()` holds exactly when every char of `s` is whitespace. */
  lemma TrimEmptyIffBlank(s: string)
    ensures Trim(s) == [] <==> IsBlank(s)
  {
    var t := TrimStart(s);
    assert IsBlank(t) ==> t == [];
  }

  // ---------------------------------------------------------------------
  // Byte lengths and numbers

  /** Number of bytes `c` occupies in UTF-8. */
  function Utf8Width(c: char): (n: nat)
    ensures 1 <= n <= 4
  {
    if c as int < 0x80 then 1
    else if c as int < 0x800 then 2
    else if c as int < 0x10000 then 3
    else 4
  }

  /** Rust's `str::len`: the UTF-8 byte length. */
  function Utf8Len(s: string): (n: nat)
    ensures |s| <= n <= 4 * |s|
  {
    if s == [] then 0 else Utf8Width(s[0]) + Utf8Len(s[1..])
  }

  lemma {:induction false} Utf8LenAppend(a: string, b: string)
    ensures Utf8Len(a + b) == Utf8Len(a) + Utf8Len(b)
    decreases |a|
  {
    if a == [] {
      assert a + b == b;
    } else {
      assert (a + b)[1..] == a[1..] + b;
      Utf8LenAppend(a[1..], b);
    }
  }

  predicate IsAscii(s: string)
  {
    forall i :: 0 <= i < |s| ==> s[i] as int < 0x80
  }

  lemma {:induction false} Utf8LenAscii(s: string)
    requires IsAscii(s)
    ensures Utf8Len(s) == |s|
  {
    if s != [] {
      Utf8LenAscii(s[1..]);
    }
  }

  function DigitChar(d: nat): char
    requires d < 10
  {
    ['0', '1', '2', '3', '4', '5', '6', '7', '8', '9'][d]
  }

  /** Decimal rendering of a natural number, as `format!("{}", n)` prints it. */
  function NatToString(n: nat): (r: string)
    ensures |r| >= 1
    ensures forall i :: 0 <= i < |r| ==> IsAsciiDigit(r[i])
    decreases n
  {
    if n < 10 then [DigitChar(n)] else NatToString(n / 10) + [DigitChar(n % 10)]
  }

  predicate AllDigits(s: string)
  {
    forall i :: 0 <= i < |s| ==> IsAsciiDigit(s[i])
  }

  /** Rust's `join`: the parts with `sep` between consecutive ones. */
  function Join(parts: seq<string>, sep: string): string
  {
    if parts == [] then []
    else if |parts| == 1 then parts[0]
    else parts[0] + sep + Join(parts[1..], sep)
  }

  lemma JoinAppend(parts: seq<string>, last: string, sep: string)
    requires parts != []
    ensures Join(parts + [last], sep) == Join(parts, sep) + sep + last
    decreases |parts|
  {
    if |parts| == 1 {
      assert parts + [last] == [parts[0], last];
    } else {
      assert (parts + [last])[1..] == parts[1..] + [last];
      JoinAppend(parts[1..], last, sep);
    }
  }

  /** Every part of the joined text is found in it. */
  lemma {:induction false} JoinContainsEach(parts: seq<string>, sep: string, i: nat)
    requires i < |parts|
    ensures Contains(Join(parts, sep), parts[i])
    decreases |parts|
  {
    if |parts| == 1 {
      assert StartsWith(parts[0], parts[0]);
    } else if i == 0 {
      StartsWithConcat(parts[0], sep + Join(parts[1..], sep));
      assert parts[0] + sep + Join(parts[1..], sep) == parts[0] + (sep + Join(parts[1..], sep));
    } else {
      JoinContainsEach(parts[1..], sep, i - 1);
      ContainsEmbedded(parts[0] + sep, Join(parts[1..], sep), [], parts[i]);
      assert parts[0] + sep + Join(parts[1..], sep) + [] == Join(parts, sep);
    }
  }

  /** Rust's `str::lines`: split at '\n', dropping one trailing '\r' per line. */
  function Lines(s: string): (r: seq<string>)
    ensures s == [] <==> r == []
    decreases |s|
  {
    if s == [] then []
    else match FindFrom(s, "\n", 0)
      case None => [StripCr(s)]
      case Some(j) => [StripCr(s[..j])] + Lines(s[j + 1..])
  }

  function StripCr(line: string): string
  {
    if line != [] && line[|line| - 1] == '\r' then line[..|line| - 1] else line
  }

  /** Rust's `trim_end_matches(suffix)`: removes every trailing copy of a non-empty suffix. */
  function TrimEndMatches(s: string, suffix: string): (r: string)
    requires suffix != []
    ensures StartsWith(s, r) && !EndsWith(r, suffix)
    decreases |s|
  {
    if EndsWith(s, suffix) then TrimEndMatches(s[..|s| - |suffix|], suffix) else s
  }

  // -----------------------------------------------------------------------
  // Byte-wise string order (Rust's `Ord` on `String`, which agrees with
  // code-point order)

  predicate LexLe(a: string, b: string)
    decreases |a|
  {
    a == [] || (b != [] && (a[0] < b[0] || (a[0] == b[0] && LexLe(a[1..], b[1..]))))
  }

  lemma {:induction false} LexLeRefl(a: string)
    ensures LexLe(a, a)
    decreases |a|
  {
    if a != [] {
      LexLeRefl(a[1..]);
    }
  }

  lemma {:induction false} LexLeTotal(a: string, b: string)
    ensures LexLe(a, b) || LexLe(b, a)
    decreases |a|
  {
    if a != [] && b != [] && a[0] == b[0] {
      LexLeTotal(a[1..], b[1..]);
    }
  }

  lemma {:induction false} LexLeTrans(a: string, b: string, c: string)
    requires LexLe(a, b) && LexLe(b, c)
    ensures LexLe(a, c)
    decreases |a|
  {
    if a != [] && a[0] == b[0] && b[0] == c[0] {
      LexLeTrans(a[1..], b[1..], c[1..]);
    }
  }

  lemma {:induction false} LexLeAntisymmetric(a: string, b: string)
    requires LexLe(a, b) && LexLe(b, a)
    ensures a == b
    decreases |a|
  {
    if a != [] {
      LexLeAntisymmetric(a[1..], b[1..]);
      assert a == [a[0]] + a[1..] && b == [b[0]] + b[1..];
    }
  }

  predicate SortedLex(s: seq<string>)
  {
    forall i, j :: 0 <= i < j < |s| ==> LexLe(s[i], s[j])
  }

  /** Places `x` before the first element above it. */
  function InsertLex(x: string, t: seq<string>): (r: seq<string>)
    ensures multiset(r) == multiset(t) + multiset{x}
    ensures |r| == |t| + 1
  {
    if t == [] || LexLe(x, t[0]) then [x] + t
    else
      assert t == [t[0]] + t[1..];
      [t[0]] + InsertLex(x, t[1..])
  }

  lemma {:induction false} InsertLexSorted(x: string, t: seq<string>)
    requires SortedLex(t)
    ensures SortedLex(InsertLex(x, t))
    decreases |t|
  {
    if t == [] || LexLe(x, t[0]) {
      forall k | 0 <= k < |t| ensures LexLe(x, t[k]) {
        if k > 0 {
          LexLeTrans(x, t[0], t[k]);
        }
      }
      ConsLexSorted(x, t);
    } else {
      LexLeTotal(x, t[0]);
      InsertLexSorted(x, t[1..]);
      InsertLexKeepsBound(x, t[1..], t[0]);
      ConsLexSorted(t[0], InsertLex(x, t[1..]));
    }
  }

  /** A string no greater than everything after it extends a sorted sequence. */
  lemma ConsLexSorted(h: string, t: seq<string>)
    requires SortedLex(t)
    requires forall k :: 0 <= k < |t| ==> LexLe(h, t[k])
    ensures SortedLex([h] + t)
  {
    var r := [h] + t;
    forall i, j | 0 <= i < j < |r| ensures LexLe(r[i], r[j]) {
      assert r[j] == t[j - 1];
      if i > 0 {
        assert r[i] == t[i - 1];
      }
    }
  }

  /** Inserting above a lower bound that `t` respects keeps every element above it. */
  lemma InsertLexKeepsBound(x: string, t: seq<string>, bound: string)
    requires LexLe(bound, x)
    requires forall k :: 0 <= k < |t| ==> LexLe(bound, t[k])
    ensures forall k :: 0 <= k < |t| + 1 ==> LexLe(bound, InsertLex(x, t)[k])
  {
    var r := InsertLex(x, t);
    forall k | 0 <= k < |r| ensures LexLe(bound, r[k]) {
      assert r[k] in multiset(r);
      if r[k] != x {
        assert r[k] in multiset(t);
        var i :| 0 <= i < |t| && t[i] == r[k];
      }
    }
  }

  /** `sort` on a vector of strings: the same strings in ascending order. */
  function SortLex(s: seq<string>): (r: seq<string>)
    ensures multiset(r) == multiset(s)
    ensures SortedLex(r)
  {
    if s == [] then []
    else
      assert s == s[..|s| - 1] + [s[|s| - 1]];
      InsertLexSorted(s[|s| - 1], SortLex(s[..|s| - 1]));
      InsertLex(s[|s| - 1], SortLex(s[..|s| - 1]))
  }

  /** The head of a sorted sequence is at or below each of its elements. */
  lemma SortedHeadLeast(a: seq<string>, x: string)
    requires SortedLex(a) && x in multiset(a)
    ensures LexLe(a[0], x)
  {
    var j :| 0 <= j < |a| && a[j] == x;
    if j == 0 {
      LexLeRefl(x);
    }
  }

  /** Two sorted arrangements of the same strings are equal: the order is determined. */
  lemma {:induction false} SortedUnique(a: seq<string>, b: seq<string>)
    requires SortedLex(a) && SortedLex(b) && multiset(a) == multiset(b)
    ensures a == b
    decreases |a|
  {
    if a != [] {
      assert |b| == |multiset(b)| == |a|;
      assert a[0] in multiset(a) && b[0] in multiset(b);
      SortedHeadLeast(b, a[0]);
      SortedHeadLeast(a, b[0]);
      LexLeAntisymmetric(a[0], b[0]);
      SameTails(a, b);
      SortedUnique(a[1..], b[1..]);
    }
  }

  lemma SameTails(a: seq<string>, b: seq<string>)
    requires a != [] && b != [] && a[0] == b[0] && multiset(a) == multiset(b)
    requires SortedLex(a) && SortedLex(b)
    ensures multiset(a[1..]) == multiset(b[1..])
    ensures SortedLex(a[1..]) && SortedLex(b[1..])
  {
    assert a == [a[0]] + a[1..] && b == [b[0]] + b[1..];
    assert multiset(a[1..]) == multiset(a) - multiset{a[0]};
    assert multiset(b[1..]) == multiset(b) - multiset{b[0]};
  }
}

=== FILE: Clipboard.dfy ===
// Clipboard image preparation of gia (gia/src/clipboard.rs): the pixel
// buffer handed to the PNG encoder by `convert_image_data_to_base64`. The
// buffer is used as it is when it already holds a full RGBA image; otherwise
// `prepare_rgba_data` expands RGB pixels with an opaque alpha byte, or
// pads or truncates the bytes to the RGBA size.

module Clipboard {
  import opened Base

  newtype byte = x: int | 0 <= x < 256

  /** The alpha value given to every expanded pixel: fully opaque. */
  const Opaque: byte := 255

  // -----------------------------------------------------------------------
  // RGB to RGBA

  /**
   * The bytes taken three at a time, each group followed by an alpha byte,
   * as a loop over `chunks(3)` produces them (a short last group is kept
   * as it is).
   */
  function Rgba(rgb: seq<byte>): seq<byte>
  {
    if rgb == [] then []
    else if |rgb| < 3 then rgb + [Opaque]
    else rgb[..3] + [Opaque] + Rgba(rgb[3..])
  }

  /** Every fourth byte dropped again: the colour channels of an RGBA buffer. */
  function StripAlpha(rgba: seq<byte>): seq<byte>
  {
    if |rgba| < 4 then [] else rgba[..3] + StripAlpha(rgba[4..])
  }

  /** One chunk of the expansion: the pixel at `pos`, then the rest. */
  lemma RgbaStep(rgb: seq<byte>, pos: nat)
    requires pos + 3 <= |rgb|
    ensures Rgba(rgb[pos..]) == rgb[pos..pos + 3] + [Opaque] + Rgba(rgb[pos + 3..])
  {
    assert rgb[pos..][..3] == rgb[pos..pos + 3];
    assert rgb[pos..][3..] == rgb[pos + 3..];
  }

  /** `n` whole pixels of RGB become `n` pixels of RGBA. */
  lemma {:induction false} RgbaLength(rgb: seq<byte>, n: nat)
    requires |rgb| == 3 * n
    ensures |Rgba(rgb)| == 4 * n
    decreases n
  {
    if n > 0 {
      RgbaLength(rgb[3..], n - 1);
    }
  }

  /** Pixel `q` of the expansion is pixel `q` of the input with an opaque alpha byte. */
  lemma {:induction false} RgbaPixel(rgb: seq<byte>, q: nat)
    requires 3 * q + 3 <= |rgb|
    ensures 4 * q + 4 <= |Rgba(rgb)|
    ensures Rgba(rgb)[4 * q .. 4 * q + 4] == rgb[3 * q .. 3 * q + 3] + [Opaque]
    decreases q
  {
    var tail := Rgba(rgb[3..]);
    assert Rgba(rgb) == rgb[..3] + [Opaque] + tail;
    if q > 0 {
      RgbaPixel(rgb[3..], q - 1);
      assert Rgba(rgb)[4 * q .. 4 * q + 4] == tail[4 * (q - 1) .. 4 * (q - 1) + 4];
      assert rgb[3..][3 * (q - 1) .. 3 * (q - 1) + 3] == rgb[3 * q .. 3 * q + 3];
    }
  }

  /** Dropping the alpha bytes gives the RGB input back, for whole pixels. */
  lemma {:induction false} AlphaRoundTrip(rgb: seq<byte>, n: nat)
    requires |rgb| == 3 * n
    ensures StripAlpha(Rgba(rgb)) == rgb
    decreases n
  {
    if n > 0 {
      AlphaRoundTrip(rgb[3..], n - 1);
      var r := Rgba(rgb);
      assert r == rgb[..3] + [Opaque] + Rgba(rgb[3..]);
      assert r[..3] == rgb[..3];
      assert r[4..] == Rgba(rgb[3..]);
      assert rgb == rgb[..3] + rgb[3..];
    }
  }

  // -----------------------------------------------------------------------
  // Vec::resize

  function Zeros(k: nat): (r: seq<byte>)
    ensures |r| == k && forall i :: 0 <= i < k ==> r[i] == 0
  {
    seq(k, _ => 0)
  }

  /** `Vec::resize(n, 0)`: truncated to `n` bytes, or padded with zero bytes up to `n`. */
  function Resize(s: seq<byte>, n: nat): (r: seq<byte>)
    ensures |r| == n
    ensures forall i :: 0 <= i < n && i < |s| ==> r[i] == s[i]
    ensures forall i :: |s| <= i < n ==> r[i] == 0
  {
    if n <= |s| then s[..n] else s + Zeros(n - |s|)
  }

  /** Resizing to the length a buffer already has leaves it as it is. */
  lemma ResizeSameLength(s: seq<byte>)
    ensures Resize(s, |s|) == s
  {
  }

  // -----------------------------------------------------------------------
  // `prepare_rgba_data`

  /**
   * `prepare_rgba_data`: input of exactly three bytes per pixel is
   * expanded chunk by chunk; any other input is resized to four bytes per
   * pixel. Either way the result holds a full RGBA image.
   */
  method PrepareRgbaData(width: nat, height: nat, inputBytes: seq<byte>) returns (rgbaData: seq<byte>)
    ensures |rgbaData| == width * height * 4
    ensures |inputBytes| == width * height * 3 ==> rgbaData == Rgba(inputBytes)
    ensures |inputBytes| != width * height * 3 ==> rgbaData == Resize(inputBytes, width * height * 4)
  {
    var pixels := width * height;
    var expectedLen := pixels * 4;
    if |inputBytes| == pixels * 3 {
      rgbaData := [];
      var j := 0;
      while j < pixels
        invariant j <= pixels
        invariant rgbaData + Rgba(inputBytes[3 * j..]) == Rgba(inputBytes)
      {
        var chunk := inputBytes[3 * j..3 * j + 3];
        RgbaStep(inputBytes, 3 * j);
        AppendAssoc(rgbaData, chunk + [Opaque], Rgba(inputBytes[3 * j + 3..]));
        rgbaData := rgbaData + chunk;
        rgbaData := rgbaData + [Opaque];
        j := j + 1;
      }
      assert inputBytes[3 * j..] == [];
      assert rgbaData + [] == rgbaData;
      RgbaLength(inputBytes, pixels);
    } else {
      rgbaData := Resize(inputBytes, expectedLen);
    }
  }

  // -----------------------------------------------------------------------
  // The buffer handed to the PNG encoder

  /** `u32::try_from(x).unwrap_or(0)`. */
  function ToU32OrZero(x: nat): (r: nat)
    ensures r < 0x1_0000_0000 && r <= x
    ensures x < 0x1_0000_0000 ==> r == x
  {
    if x < 0x1_0000_0000 then x else 0
  }

  /** `ImageBuffer::<Rgba<u8>, _>::from_raw` accepts a buffer holding at least four bytes per pixel. */
  predicate Fits(width: nat, height: nat, bytes: seq<byte>)
  {
    ToU32OrZero(width) * ToU32OrZero(height) * 4 <= |bytes|
  }

  lemma MulMono(a: nat, b: nat, c: nat, d: nat)
    requires a <= c && b <= d
    ensures a * b * 4 <= c * d * 4
  {
    assert a * b <= c * b <= c * d;
  }

  /**
   * The pixel bytes `convert_image_data_to_base64` encodes: the clipboard's
   * bytes when they form an RGBA buffer, else the manual conversion. A
   * byte count that differs from four per pixel is only logged.
   */
  method RgbaForEncoding(width: nat, height: nat, bytes: seq<byte>) returns (r: Result<seq<byte>, string>)
    ensures r.Ok?
    ensures Fits(width, height, bytes) ==> r.value == bytes
    ensures !Fits(width, height, bytes) && |bytes| == width * height * 3 ==> r.value == Rgba(bytes)
    ensures !Fits(width, height, bytes) && |bytes| != width * height * 3 ==>
      r.value == Resize(bytes, width * height * 4)
  {
    var rgbaData;
    if Fits(width, height, bytes) {
      rgbaData := bytes;
    } else {
      rgbaData := PrepareRgbaData(width, height, bytes);
      MulMono(ToU32OrZero(width), ToU32OrZero(height), width, height);
    }
    if Fits(width, height, rgbaData) {
      r := Ok(rgbaData);
    } else {
      r := Err("Failed to create final image buffer");
    }
  }

  /** A clipboard image that already has four bytes per pixel is encoded unchanged. */
  lemma WellFormedUnchanged(width: nat, height: nat, bytes: seq<byte>)
    requires |bytes| == width * height * 4
    ensures Fits(width, height, bytes)
  {
    MulMono(ToU32OrZero(width), ToU32OrZero(height), width, height);
  }
}

=== FILE: ContentPart.dfy ===
// Typed message parts of the gia client (gia/src/content_part_wrapper.rs)
// and their rendering into provider request parts.

module ContentPart {
  import opened Base
  import opened Json

  /** One stored piece of a user message. */
  datatype ContentPartWrapper =
    | Prompt(text: string)
    | RoleDefinition(name: string, content: string, isTask: bool)
    | TextFile(path: string, content: string)
    | ClipboardText(text: string)
    | StdinText(text: string)
    | Image(imagePath: Option<string>, mimeType: string, data: string)
    | Audio(audioPath: string, mimeType: string, data: string)
    | Text(text: string)

  /** A tool invocation requested by the model. */
  datatype ToolCall = ToolCall(callId: string, fnName: string, fnArguments: Json)

  /** The answer to one tool invocation. */
  datatype ToolResponse = ToolResponse(callId: string, content: string)

  /** One part of a provider request message. */
  datatype GenaiPart =
    | TextPart(text: string)
    | BinaryPart(mimeType: string, data: string)
    | ToolCallPart(call: ToolCall)
    | ToolResponsePart(response: ToolResponse)

  datatype MessageContentWrapper = TextContent(text: string) | Parts(parts: seq<ContentPartWrapper>)

  datatype ChatRole = User | Assistant | System | Tool

  datatype ChatMessageWrapper = ChatMessageWrapper(role: string, content: MessageContentWrapper)

  /** Per-message request options (a cache-control hint), passed through untouched. */
  datatype MessageOptions = MessageOptions(cacheControl: string)

  /** A provider request message: a role, its parts and its options. */
  datatype ChatMessage = ChatMessage(role: ChatRole, parts: seq<GenaiPart>, options: Option<MessageOptions>)

  predicate IsMedia(p: ContentPartWrapper)
  {
    p.Image? || p.Audio?
  }

  /** Appends a newline unless the text already ends with one. */
  function EnsureNewline(s: string): (r: string)
    ensures EndsWith(r, "\n")
    ensures r == s || r == s + "\n"
    ensures EndsWith(s, "\n") <==> r == s
  {
    if EndsWith(s, "\n") then s else s + "\n"
  }

  function RoleHeader(name: string, isTask: bool): string
  {
    if isTask then "### Task: " + name else "### Role: " + name
  }

  /** `to_genai_content_part`. */
  function ToGenaiContentPart(p: ContentPartWrapper): (r: GenaiPart)
    ensures r.BinaryPart? <==> IsMedia(p)
    ensures r.TextPart? <==> !IsMedia(p)
    ensures IsMedia(p) ==> r.mimeType == p.mimeType && r.data == p.data
  {
    match p
    case Prompt(t) => TextPart("### Prompt\n\n" + t)
    case RoleDefinition(n, c, task) => TextPart(RoleHeader(n, task) + "\n" + EnsureNewline(c))
    case TextFile(path, c) => TextPart("### Content from: " + path + "\n\n" + EnsureNewline(c))
    case ClipboardText(t) => TextPart("### Content from: clipboard\n\n" + t)
    case StdinText(t) => TextPart("### Content from: stdin\n\n" + t)
    case Image(_, mime, data) => BinaryPart(mime, data)
    case Audio(_, mime, data) => BinaryPart(mime, data)
    case Text(t) => TextPart(t)
  }

  /** `extract_text`: the raw text of every text variant, nothing for media. */
  function ExtractText(p: ContentPartWrapper): (r: Option<string>)
    ensures r.None? <==> IsMedia(p)
  {
    match p
    case Prompt(t) => Some(t)
    case RoleDefinition(_, c, _) => Some(c)
    case TextFile(_, c) => Some(c)
    case ClipboardText(t) => Some(t)
    case StdinText(t) => Some(t)
    case Text(t) => Some(t)
    case Image(_, _, _) => None
    case Audio(_, _, _) => None
  }

  /** `extract_prompt`. */
  function ExtractPrompt(p: ContentPartWrapper): (r: Option<string>)
    ensures r.Some? <==> p.Prompt?
    ensures r.Some? ==> r == ExtractText(p)
  {
    if p.Prompt? then Some(p.text) else None
  }

  /**
   * Every text part renders as its raw text, with at most one newline added
   * after it; only role and file parts are normalised.
   */
  lemma RenderedTextKeepsBody(p: ContentPartWrapper)
    requires !IsMedia(p)
    ensures var r, body := ToGenaiContentPart(p).text, ExtractText(p).value;
      EndsWith(r, body) || EndsWith(r, body + "\n")
    ensures !(p.RoleDefinition? || p.TextFile?) ==>
      EndsWith(ToGenaiContentPart(p).text, ExtractText(p).value)
  {
    match p
    case Prompt(t) => EndsWithConcat("### Prompt\n\n", t);
    case RoleDefinition(n, c, task) => RoleAndFileEndInNewline(p);
    case TextFile(path, c) => RoleAndFileEndInNewline(p);
    case ClipboardText(t) => EndsWithConcat("### Content from: clipboard\n\n", t);
    case StdinText(t) => EndsWithConcat("### Content from: stdin\n\n", t);
    case Text(t) => EndsWithConcat([], t);
  }

  /** Every variant except plain text carries a "### " header. */
  lemma RenderedTextHasHeader(p: ContentPartWrapper)
    requires !IsMedia(p) && !p.Text?
    ensures StartsWith(ToGenaiContentPart(p).text, "### ")
  {
    var (h, tail) := match p
      case Prompt(t) => ("### Prompt\n\n", t)
      case RoleDefinition(n, c, task) => (RoleHeader(n, task), "\n" + EnsureNewline(c))
      case TextFile(path, c) => ("### Content from: ", path + "\n\n" + EnsureNewline(c))
      case ClipboardText(t) => ("### Content from: clipboard\n\n", t)
      case StdinText(t) => ("### Content from: stdin\n\n", t)
      case _ => ("### ", []);
    assert ToGenaiContentPart(p).text == h + tail;
    PrefixOfAppend(h, tail, 4);
    assert h[..4] == "### ";
  }

  /**
   * Role and file parts always end in a newline, and get one appended only
   * when their content lacks it.
   */
  lemma RoleAndFileEndInNewline(p: ContentPartWrapper)
    requires p.RoleDefinition? || p.TextFile?
    ensures EndsWith(ToGenaiContentPart(p).text, "\n")
    ensures EndsWith(p.content, "\n") ==> EndsWith(ToGenaiContentPart(p).text, p.content)
    ensures !EndsWith(p.content, "\n") ==> EndsWith(ToGenaiContentPart(p).text, p.content + "\n")
  {
    var h := if p.RoleDefinition? then RoleHeader(p.name, p.isTask) + "\n"
      else "### Content from: " + p.path + "\n\n";
    var r := ToGenaiContentPart(p).text;
    assert r == h + EnsureNewline(p.content);
    EndsWithConcat(h, EnsureNewline(p.content));
  }

  /** A role renders with "### Task:" exactly when it is a task. */
  lemma RoleHeaderMarksTasks(name: string, content: string, isTask: bool)
    ensures var r := ToGenaiContentPart(RoleDefinition(name, content, isTask)).text;
      StartsWith(r, "### Task: ") <==> isTask
  {
    var r := ToGenaiContentPart(RoleDefinition(name, content, isTask)).text;
    if !isTask {
      assert r[4] == 'R';
      assert "### Task: "[4] == 'T';
    }
  }

  /**
   * Newline normalisation makes file rendering lose one distinction: a file
   * whose content lacks a final newline renders exactly like the same file
   * with the newline added.
   */
  lemma TextFileNewlineConflated(path: string, c: string)
    requires !EndsWith(c, "\n")
    ensures c != c + "\n"
    ensures ToGenaiContentPart(TextFile(path, c)) == ToGenaiContentPart(TextFile(path, c + "\n"))
  {
    assert EndsWith(c + "\n", "\n");
  }

  /** Prompts render injectively: the prompt is recoverable from its part. */
  lemma PromptRenderInjective(a: string, b: string)
    requires ToGenaiContentPart(Prompt(a)) == ToGenaiContentPart(Prompt(b))
    ensures a == b
  {
    var h := "### Prompt\n\n";
    assert a == (h + a)[|h|..];
    assert b == (h + b)[|h|..];
  }

  /** `to_genai_message_content`: text becomes one part, parts map one to one. */
  function ToGenaiMessageContent(c: MessageContentWrapper): (r: seq<GenaiPart>)
    ensures c.TextContent? ==> r == [TextPart(c.text)]
    ensures c.Parts? ==> |r| == |c.parts|
    ensures c.Parts? ==> forall i :: 0 <= i < |r| ==> r[i] == ToGenaiContentPart(c.parts[i])
  {
    match c
    case TextContent(t) => [TextPart(t)]
    case Parts(ps) => MapParts(ps)
  }

  function MapParts(ps: seq<ContentPartWrapper>): (r: seq<GenaiPart>)
    ensures |r| == |ps|
    ensures forall i :: 0 <= i < |r| ==> r[i] == ToGenaiContentPart(ps[i])
  {
    if ps == [] then [] else [ToGenaiContentPart(ps[0])] + MapParts(ps[1..])
  }

  /** Role mapping of `to_genai_chat_message`; unknown role strings become User. */
  function ParseRole(role: string): (r: ChatRole)
    ensures role == "Assistant" <==> r == Assistant
    ensures role == "System" <==> r == System
    ensures role == "Tool" <==> r == Tool
  {
    if role == "User" then User
    else if role == "Assistant" then Assistant
    else if role == "System" then System
    else if role == "Tool" then Tool
    else User
  }

  function RoleName(r: ChatRole): string
  {
    match r
    case User => "User"
    case Assistant => "Assistant"
    case System => "System"
    case Tool => "Tool"
  }

  /** Role names round-trip through the mapping. */
  lemma RoleNameRoundTrip(r: ChatRole)
    ensures ParseRole(RoleName(r)) == r
  {
  }

  /** `to_genai_chat_message`: mapped role, converted content, no options. */
  function ToGenaiChatMessage(m: ChatMessageWrapper): (r: ChatMessage)
    ensures r.role == ParseRole(m.role) && r.options.None?
    ensures r.parts == ToGenaiMessageContent(m.content)
  {
    ChatMessage(ParseRole(m.role), ToGenaiMessageContent(m.content), None)
  }
}

=== FILE: Conversation.dfy ===
// Conversation history of the gia client (gia/src/conversation.rs): slug and
// id generation, the three vectors kept in lock-step, size estimation,
// oldest-first truncation and the list preview.

module Conversation {
  import opened Base
  import opened ContentPart

  /** gia/src/constants.rs: the context-window budget and the truncation floor. */
  const DefaultContextWindowLimit: nat := 8000
  const TruncationKeepMessages: nat := 20

  /** Per-message overhead the size estimate adds for role prefix and formatting. */
  const MessageOverhead: nat := 20
  /** What the size estimate charges for an image or audio part. */
  const MediaPartEstimate: nat := 100

  /**
   * Instants, counted from the earliest one chrono can represent
   * (`DateTime::<Utc>::MIN_UTC`), which is therefore 0.
   */
  type Timestamp = nat
  const MinUtc: Timestamp := 0

  datatype ResourceType = Image | Audio | TextFile | ClipboardText | ClipboardImage | Stdin | Role | Task

  datatype ResourceInfo = ResourceInfo(resourceType: ResourceType, path: Option<string>)

  /** Token counts a provider reported; each may be missing. */
  datatype TokenUsage = TokenUsage(promptTokens: Option<nat>, completionTokens: Option<nat>, totalTokens: Option<nat>)

  const DefaultUsage := TokenUsage(None, None, None)

  /** `TokenUsage::format_short`. */
  function FormatShort(u: TokenUsage): string
  {
    match (u.promptTokens, u.completionTokens, u.totalTokens)
    case (Some(p), Some(c), Some(t)) => NatToString(p) + "+" + NatToString(c) + "=" + NatToString(t)
    case (Some(p), Some(c), None) => NatToString(p) + "+" + NatToString(c)
    case (None, None, Some(t)) => NatToString(t)
    case _ => "N/A"
  }

  /** A one-character string occurs exactly where that character does. */
  lemma CharContains(s: string, c: char)
    ensures Contains(s, [c]) <==> exists i :: 0 <= i < |s| && s[i] == c
  {
    ContainsIffOccurs(s, [c]);
    if exists i :: 0 <= i < |s| && s[i] == c {
      var i :| 0 <= i < |s| && s[i] == c;
      assert OccursAt(s, [c], i);
    }
    if Contains(s, [c]) {
      var i :| OccursAt(s, [c], i);
      assert s[i] == s[i..i + 1][0];
    }
  }

  /** The short form shows a '+' exactly when prompt and completion counts are both known. */
  lemma FormatShortPlus(u: TokenUsage)
    ensures Contains(FormatShort(u), "+") <==> u.promptTokens.Some? && u.completionTokens.Some?
  {
    var r := FormatShort(u);
    CharContains(r, '+');
    if u.promptTokens.Some? && u.completionTokens.Some? {
      assert r[|NatToString(u.promptTokens.value)|] == '+';
    }
  }

  /** The short form shows an '=' exactly when all three counts are known. */
  lemma FormatShortEquals(u: TokenUsage)
    ensures Contains(FormatShort(u), "=") <==>
      u.promptTokens.Some? && u.completionTokens.Some? && u.totalTokens.Some?
  {
    var r := FormatShort(u);
    CharContains(r, '=');
    if u.promptTokens.Some? && u.completionTokens.Some? {
      var a, b := NatToString(u.promptTokens.value), NatToString(u.completionTokens.value);
      if u.totalTokens.Some? {
        assert r[|a| + 1 + |b|] == '=';
      } else {
        assert r == a + "+" + b;
        assert forall i :: 0 <= i < |r| ==> r[i] != '=' by {
          forall i | 0 <= i < |r| ensures r[i] != '=' {
            if i < |a| { assert r[i] == a[i]; }
            else if i > |a| { assert r[i] == b[i - |a| - 1]; }
          }
        }
      }
    }
  }

  /** "N/A" stands for every combination other than the three shown ones. */
  lemma FormatShortUnavailable(u: TokenUsage)
    ensures FormatShort(u) == "N/A" <==>
      !(u.promptTokens.Some? && u.completionTokens.Some?)
      && !(u.promptTokens.None? && u.completionTokens.None? && u.totalTokens.Some?)
  {
    var r := FormatShort(u);
    if u.promptTokens.Some? && u.completionTokens.Some? {
      FormatShortPlus(u);
      CharContains("N/A", '+');
    } else if u.promptTokens.None? && u.completionTokens.None? && u.totalTokens.Some? {
      assert IsAsciiDigit(r[0]);
    }
  }

  // -----------------------------------------------------------------------
  // Slugs and ids

  const Stopwords: seq<string> := [
    "the", "a", "an", "is", "are", "was", "were", "be", "been", "being", "have", "has",
    "had", "do", "does", "did", "will", "would", "should", "could", "can", "may", "might",
    "must", "shall", "how", "what", "when", "where", "who", "why", "which", "this", "that",
    "these", "those", "i", "you", "he", "she", "it", "we", "they", "me", "him", "her",
    "us", "them", "my", "your", "his", "its", "our", "their"]

  const MaxSlugWords: nat := 5
  const MaxSlugLength: nat := 40
  const FallbackSlug: string := "conversation"

  predicate IsWord(w: string)
  {
    w != [] && forall j :: 0 <= j < |w| ==> !IsWhitespace(w[j])
  }

  /** Length of the leading run of non-whitespace characters. */
  function WordEnd(s: string, i: nat): (n: nat)
    requires i <= |s|
    ensures i <= n <= |s|
    ensures forall j :: i <= j < n ==> !IsWhitespace(s[j])
    ensures n < |s| ==> IsWhitespace(s[n])
    decreases |s| - i
  {
    if i == |s| || IsWhitespace(s[i]) then i else WordEnd(s, i + 1)
  }

  /** `str::split_whitespace`: the maximal runs of non-whitespace, in order. */
  function SplitWhitespace(s: string): (r: seq<string>)
    ensures forall i :: 0 <= i < |r| ==> IsWord(r[i])
    decreases |s|
  {
    var t := TrimStart(s);
    if t == [] then []
    else
      var n := WordEnd(t, 0);
      assert n > 0 && IsWord(t[..n]) by {
        assert !IsWhitespace(t[0]);
        assert forall j :: 0 <= j < n ==> t[..n][j] == t[j];
      }
      assert |t| <= |s| by { assert EndsWith(s, t); }
      ConsWords(t[..n], SplitWhitespace(t[n..]));
      [t[..n]] + SplitWhitespace(t[n..])
  }

  lemma ConsWords(w: string, rest: seq<string>)
    requires IsWord(w) && forall i :: 0 <= i < |rest| ==> IsWord(rest[i])
    ensures forall i :: 0 <= i < |rest| + 1 ==> IsWord(([w] + rest)[i])
  {
  }

  /** `trim_matches(|c| !c.is_alphanumeric())`: strip non-alphanumerics at both ends. */
  function TrimNonAlnum(w: string): (r: string)
    ensures r != [] ==> IsAlnum(r[0]) && IsAlnum(r[|r| - 1])
    ensures r == [] <==> forall j :: 0 <= j < |w| ==> !IsAlnum(w[j])
    decreases |w|
  {
    if w == [] then []
    else if !IsAlnum(w[0]) then TrimNonAlnum(w[1..])
    else if !IsAlnum(w[|w| - 1]) then
      var r := TrimNonAlnum(w[..|w| - 1]);
      assert w[0] == w[..|w| - 1][0];
      r
    else w
  }

  /** The filter of `generate_slug`: a word counts when its trimmed core is a non-stopword. */
  predicate Significant(word: string)
  {
    var cleaned := TrimNonAlnum(word);
    cleaned != [] && cleaned !in Stopwords
  }

  function FilterSignificant(words: seq<string>): (r: seq<string>)
    ensures |r| <= |words|
    ensures forall i :: 0 <= i < |r| ==> Significant(r[i]) && r[i] in words
  {
    if words == [] then []
    else if Significant(words[0]) then [words[0]] + FilterSignificant(words[1..])
    else FilterSignificant(words[1..])
  }

  /** Keeps only the alphanumeric characters and '-' of a word. */
  function SlugChars(w: string): (r: string)
    ensures |r| <= |w|
    ensures forall j :: 0 <= j < |r| ==> IsAlnum(r[j]) || r[j] == '-'
    ensures (exists j :: 0 <= j < |w| && IsAlnum(w[j])) ==> r != []
  {
    if w == [] then []
    else if IsAlnum(w[0]) || w[0] == '-' then [w[0]] + SlugChars(w[1..])
    else
      var r := SlugChars(w[1..]);
      assert forall j :: 1 <= j < |w| ==> w[j] == w[1..][j - 1];
      r
  }

  function MapSlugChars(words: seq<string>): (r: seq<string>)
    ensures |r| == |words|
    ensures forall i :: 0 <= i < |r| ==> r[i] == SlugChars(words[i])
  {
    if words == [] then [] else [SlugChars(words[0])] + MapSlugChars(words[1..])
  }

  predicate IsSlugText(s: string)
  {
    forall j :: 0 <= j < |s| ==> IsAlnum(s[j]) || s[j] == '-'
  }

  lemma {:induction false} JoinSlugText(parts: seq<string>)
    requires forall i :: 0 <= i < |parts| ==> IsSlugText(parts[i])
    ensures IsSlugText(Join(parts, "-"))
    decreases |parts|
  {
    if |parts| > 1 {
      JoinSlugText(parts[1..]);
      var rest := Join(parts[1..], "-");
      assert Join(parts, "-") == parts[0] + "-" + rest;
      forall j | 0 <= j < |parts[0] + "-" + rest|
        ensures IsAlnum((parts[0] + "-" + rest)[j]) || (parts[0] + "-" + rest)[j] == '-'
      {
        if j < |parts[0]| {
        } else if j > |parts[0]| {
          assert (parts[0] + "-" + rest)[j] == rest[j - |parts[0]| - 1];
        }
      }
    }
  }

  lemma JoinNonEmpty(parts: seq<string>, sep: string)
    requires parts != [] && parts[0] != []
    ensures Join(parts, sep) != []
  {
  }

  /** `s.chars().take(n)`. */
  function TakeChars(s: string, n: nat): (r: string)
    ensures |r| <= n && StartsWith(s, r)
    ensures |s| >= n ==> |r| == n
  {
    if |s| <= n then s else s[..n]
  }

  lemma SignificantHasAlnum(w: string)
    requires Significant(w)
    ensures exists j :: 0 <= j < |w| && IsAlnum(w[j])
  {
  }

  /** The words a slug is built from: the first five significant ones, lower-cased. */
  function SlugWords(prompt: string): (r: seq<string>)
    ensures |r| <= MaxSlugWords
    ensures forall i :: 0 <= i < |r| ==> Significant(r[i])
  {
    var words := FilterSignificant(SplitWhitespace(ToLower(prompt)));
    if |words| <= MaxSlugWords then words else words[..MaxSlugWords]
  }

  /** Joins the cleaned words with '-' and cuts the result to 40 characters. */
  function SlugFromWords(kept: seq<string>): (r: string)
    requires kept != [] && forall i :: 0 <= i < |kept| ==> Significant(kept[i])
    ensures r != [] && |r| <= MaxSlugLength && IsSlugText(r)
  {
    var parts := MapSlugChars(kept);
    SignificantHasAlnum(kept[0]);
    JoinNonEmpty(parts, "-");
    JoinSlugText(parts);
    var slug := Join(parts, "-");
    if Utf8Len(slug) > MaxSlugLength then TakeChars(slug, MaxSlugLength) else slug
  }

  lemma FallbackIsSlug()
    ensures |FallbackSlug| <= MaxSlugLength && IsSlugText(FallbackSlug)
  {
    assert forall j :: 0 <= j < |FallbackSlug| ==> IsAsciiAlpha(FallbackSlug[j]);
  }

  /**
   * `generate_slug`: never empty, only letters, digits and '-', at most 40
   * characters; "conversation" when no significant word survives.
   */
  function GenerateSlug(prompt: string): (s: string)
    ensures s != [] && |s| <= MaxSlugLength && IsSlugText(s)
    ensures SlugWords(prompt) == [] ==> s == FallbackSlug
  {
    var kept := SlugWords(prompt);
    if kept == [] then
      FallbackIsSlug();
      FallbackSlug
    else SlugFromWords(kept)
  }

  lemma {:induction false} FilterStopwords(words: seq<string>)
    requires forall i :: 0 <= i < |words| ==> TrimNonAlnum(words[i]) == [] || TrimNonAlnum(words[i]) in Stopwords
    ensures FilterSignificant(words) == []
  {
    if words != [] {
      FilterStopwords(words[1..]);
    }
  }

  /**
   * A prompt whose every word is a stopword or punctuation gets the slug
   * "conversation".
   */
  lemma SlugOfStopwords(prompt: string, words: seq<string>)
    requires words == SplitWhitespace(ToLower(prompt))
    requires forall i :: 0 <= i < |words| ==> TrimNonAlnum(words[i]) == [] || TrimNonAlnum(words[i]) in Stopwords
    ensures GenerateSlug(prompt) == FallbackSlug
  {
    FilterStopwords(words);
  }

  /**
   * The id of a new conversation: the slug, '-', and the first four
   * characters of the hyphenated UUID text.
   */
  function ConversationId(prompt: string, uuidText: string): (id: string)
    requires |uuidText| == 36
    ensures EndsWith(id, uuidText[..4])
    ensures StartsWith(id, GenerateSlug(prompt) + "-")
    ensures |id| == |GenerateSlug(prompt)| + 5
  {
    var id := GenerateSlug(prompt) + "-" + uuidText[..4];
    EndsWithConcat(GenerateSlug(prompt) + "-", uuidText[..4]);
    StartsWithConcat(GenerateSlug(prompt) + "-", uuidText[..4]);
    id
  }

  // -----------------------------------------------------------------------
  // Stored form

  datatype Metadata = Metadata(
    resourcesPerMessage: seq<seq<ResourceInfo>>,
    modelUsed: string,
    tokenUsagePerMessage: seq<TokenUsage>)

  /** A conversation as it is serialised to `<id>.json`. */
  datatype ConversationValue = ConversationValue(
    id: string,
    createdAt: Timestamp,
    updatedAt: Timestamp,
    messages: seq<ChatMessageWrapper>,
    metadata: Metadata)

  // -----------------------------------------------------------------------
  // Size estimate

  function PartLength(p: ContentPartWrapper): nat
  {
    match ExtractText(p)
    case Some(t) => Utf8Len(t)
    case None => MediaPartEstimate
  }

  function PartsLength(ps: seq<ContentPartWrapper>): nat
  {
    if ps == [] then 0 else PartLength(ps[0]) + PartsLength(ps[1..])
  }

  /** `estimate_message_length`. */
  function EstimateMessageLength(m: ChatMessageWrapper): nat
  {
    match m.content
    case TextContent(t) => Utf8Len(t)
    case Parts(ps) => PartsLength(ps)
  }

  /** `estimate_token_length`: payload plus 20 per message. */
  function EstimateTokenLength(msgs: seq<ChatMessageWrapper>): (n: nat)
    ensures n >= MessageOverhead * |msgs|
  {
    if msgs == [] then 0 else EstimateMessageLength(msgs[0]) + MessageOverhead + EstimateTokenLength(msgs[1..])
  }

  /** The estimate is additive over concatenation. */
  lemma {:induction false} EstimateAppend(a: seq<ChatMessageWrapper>, b: seq<ChatMessageWrapper>)
    ensures EstimateTokenLength(a + b) == EstimateTokenLength(a) + EstimateTokenLength(b)
    decreases |a|
  {
    if a == [] {
      assert a + b == b;
    } else {
      assert (a + b)[1..] == a[1..] + b;
      EstimateAppend(a[1..], b);
    }
  }

  /** `extract_text_content`: text parts joined by newlines, media skipped. */
  function ExtractTextContent(m: ChatMessageWrapper): string
  {
    match m.content
    case TextContent(t) => t
    case Parts(ps) => Join(PartTexts(ps), "\n")
  }

  function PartTexts(ps: seq<ContentPartWrapper>): (r: seq<string>)
    ensures |r| <= |ps|
  {
    if ps == [] then []
    else match ExtractText(ps[0])
      case Some(t) => [t] + PartTexts(ps[1..])
      case None => PartTexts(ps[1..])
  }

  /** `extract_prompt_section`: only the prompt parts, joined by newlines. */
  function ExtractPromptSection(m: ChatMessageWrapper): string
  {
    match m.content
    case TextContent(t) => t
    case Parts(ps) => Join(PromptTexts(ps), "\n")
  }

  function PromptTexts(ps: seq<ContentPartWrapper>): (r: seq<string>)
    ensures |r| <= |ps|
    ensures forall i :: 0 <= i < |r| ==> exists j :: 0 <= j < |ps| && ps[j] == Prompt(r[i])
  {
    if ps == [] then []
    else match ExtractPrompt(ps[0])
      case Some(t) => [t] + PromptTexts(ps[1..])
      case None => PromptTexts(ps[1..])
  }

  function SumLengths(parts: seq<string>): nat
  {
    if parts == [] then 0 else Utf8Len(parts[0]) + SumLengths(parts[1..])
  }

  lemma {:induction false} JoinLength(parts: seq<string>)
    requires parts != []
    ensures Utf8Len(Join(parts, "\n")) == SumLengths(parts) + |parts| - 1
    decreases |parts|
  {
    if |parts| > 1 {
      JoinLength(parts[1..]);
      Utf8LenAppend(parts[0] + "\n", Join(parts[1..], "\n"));
      Utf8LenAppend(parts[0], "\n");
    }
  }

  lemma {:induction false} PartsLengthOfText(ps: seq<ContentPartWrapper>)
    requires forall i :: 0 <= i < |ps| ==> !IsMedia(ps[i])
    ensures PartsLength(ps) == SumLengths(PartTexts(ps))
    ensures |PartTexts(ps)| == |ps|
    decreases |ps|
  {
    if ps != [] {
      PartsLengthOfText(ps[1..]);
    }
  }

  /**
   * The size estimate of a message without media is the byte length of its
   * extracted text, minus the newlines that join its parts.
   */
  lemma EstimateMatchesExtractedText(m: ChatMessageWrapper)
    requires m.content.Parts? ==> m.content.parts != [] && forall i :: 0 <= i < |m.content.parts| ==> !IsMedia(m.content.parts[i])
    ensures m.content.TextContent? ==> EstimateMessageLength(m) == Utf8Len(ExtractTextContent(m))
    ensures m.content.Parts? ==> EstimateMessageLength(m) + |m.content.parts| - 1 == Utf8Len(ExtractTextContent(m))
  {
    if m.content.Parts? {
      PartsLengthOfText(m.content.parts);
      JoinLength(PartTexts(m.content.parts));
    }
  }

  // -----------------------------------------------------------------------
  // Truncation, as a specification

  /** How many of the oldest messages `truncate_if_needed` removes. */
  function DropCount(msgs: seq<ChatMessageWrapper>, maxLength: nat): (d: nat)
    ensures d <= |msgs|
  {
    if EstimateTokenLength(msgs) > maxLength && |msgs| > TruncationKeepMessages
    then 1 + DropCount(msgs[1..], maxLength)
    else 0
  }

  /** A conversation that already fits is left alone. */
  lemma TruncateNoopWhenFits(msgs: seq<ChatMessageWrapper>, maxLength: nat)
    requires EstimateTokenLength(msgs) <= maxLength
    ensures DropCount(msgs, maxLength) == 0
  {
  }

  /**
   * Truncation keeps at least min(n, 20) messages, ends with an estimate
   * within budget or at the 20-message floor, and removes only messages whose
   * removal was needed: before each removal the estimate exceeded the budget
   * and more than 20 messages remained.
   */
  lemma {:induction false} TruncateSpec(msgs: seq<ChatMessageWrapper>, maxLength: nat)
    ensures var d := DropCount(msgs, maxLength);
      |msgs| - d >= (if |msgs| < TruncationKeepMessages then |msgs| else TruncationKeepMessages)
    ensures var d := DropCount(msgs, maxLength);
      EstimateTokenLength(msgs[d..]) <= maxLength || |msgs| - d <= TruncationKeepMessages
    ensures var d := DropCount(msgs, maxLength);
      forall j :: 0 <= j < d ==> EstimateTokenLength(msgs[j..]) > maxLength && |msgs| - j > TruncationKeepMessages
    decreases |msgs|
  {
    var d := DropCount(msgs, maxLength);
    if d > 0 {
      TruncateSpec(msgs[1..], maxLength);
      assert msgs[1..][d - 1..] == msgs[d..];
      forall j | 0 < j < d
        ensures EstimateTokenLength(msgs[j..]) > maxLength && |msgs| - j > TruncationKeepMessages
      {
        assert msgs[1..][j - 1..] == msgs[j..];
      }
    }
  }

  // -----------------------------------------------------------------------
  // The mutable conversation

  class Conversation {
    var id: string
    var createdAt: Timestamp
    var updatedAt: Timestamp
    var messages: seq<ChatMessageWrapper>
    var resourcesPerMessage: seq<seq<ResourceInfo>>
    var modelUsed: string
    var tokenUsagePerMessage: seq<TokenUsage>

    /** The three per-message vectors are in lock-step. */
    predicate Valid()
      reads this
    {
      |resourcesPerMessage| == |messages| && |tokenUsagePerMessage| == |messages|
    }

    function Value(): ConversationValue
      reads this
    {
      ConversationValue(id, createdAt, updatedAt, messages,
        Metadata(resourcesPerMessage, modelUsed, tokenUsagePerMessage))
    }

    /** `new_with_prompt`; `uuidText` is the hyphenated rendering of a fresh UUID. */
    constructor NewWithPrompt(modelName: string, firstPrompt: string, uuidText: string, now: Timestamp)
      requires |uuidText| == 36
      ensures Valid()
      ensures id == ConversationId(firstPrompt, uuidText)
      ensures createdAt == now && updatedAt == now
      ensures messages == [] && resourcesPerMessage == [] && tokenUsagePerMessage == []
      ensures modelUsed == modelName
    {
      id := ConversationId(firstPrompt, uuidText);
      createdAt, updatedAt := now, now;
      messages, resourcesPerMessage, tokenUsagePerMessage := [], [], [];
      modelUsed := modelName;
    }

    /** Rebuilds a conversation from its stored form (deserialisation). */
    constructor FromValue(v: ConversationValue)
      ensures Value() == v
    {
      id, createdAt, updatedAt, messages := v.id, v.createdAt, v.updatedAt, v.messages;
      resourcesPerMessage, modelUsed, tokenUsagePerMessage :=
        v.metadata.resourcesPerMessage, v.metadata.modelUsed, v.metadata.tokenUsagePerMessage;
    }

    /**
     * `add_message_with_usage`: one element onto each vector, and a new
     * update time. The vectors need not be in lock-step beforehand (a stored
     * conversation may lack its token usage); lock-step is kept when it held.
     */
    method AddMessageWithUsage(message: ChatMessageWrapper, resources: seq<ResourceInfo>, usage: TokenUsage, now: Timestamp)
      modifies this
      ensures old(Valid()) ==> Valid()
      ensures messages == old(messages) + [message]
      ensures resourcesPerMessage == old(resourcesPerMessage) + [resources]
      ensures tokenUsagePerMessage == old(tokenUsagePerMessage) + [usage]
      ensures updatedAt == now
      ensures id == old(id) && createdAt == old(createdAt) && modelUsed == old(modelUsed)
    {
      messages := messages + [message];
      resourcesPerMessage := resourcesPerMessage + [resources];
      tokenUsagePerMessage := tokenUsagePerMessage + [usage];
      updatedAt := now;
    }

    /**
     * `truncate_if_needed`: drops the oldest message from all three vectors
     * while the estimate exceeds the budget and more than 20 remain. The
     * loop pops the front of each vector, so it panics (`completed` is
     * false) when the resources or token usage run out first: this happens
     * exactly when the loop would drop more messages than one of the two
     * vectors holds, as on a stored conversation without token usage that
     * has more than 20 messages over the budget. Lock-step vectors never
     * panic and stay in lock-step.
     */
    method TruncateIfNeeded(maxLength: nat) returns (completed: bool)
      modifies this
      ensures var d := DropCount(old(messages), maxLength);
        completed <==> d <= |old(resourcesPerMessage)| && d <= |old(tokenUsagePerMessage)|
      ensures completed ==> var d := DropCount(old(messages), maxLength);
        messages == old(messages)[d..]
        && resourcesPerMessage == old(resourcesPerMessage)[d..]
        && tokenUsagePerMessage == old(tokenUsagePerMessage)[d..]
      ensures old(Valid()) ==> completed && Valid()
      ensures id == old(id) && createdAt == old(createdAt) && updatedAt == old(updatedAt)
      ensures modelUsed == old(modelUsed)
    {
      if EstimateTokenLength(messages) <= maxLength {
        return true;
      }
      ghost var dropped := 0;
      while EstimateTokenLength(messages) > maxLength && |messages| > TruncationKeepMessages
        invariant 0 <= dropped <= |old(messages)|
        invariant dropped <= |old(resourcesPerMessage)| && dropped <= |old(tokenUsagePerMessage)|
        invariant messages == old(messages)[dropped..]
        invariant resourcesPerMessage == old(resourcesPerMessage)[dropped..]
        invariant tokenUsagePerMessage == old(tokenUsagePerMessage)[dropped..]
        invariant DropCount(old(messages), maxLength) == dropped + DropCount(messages, maxLength)
        invariant id == old(id) && createdAt == old(createdAt) && updatedAt == old(updatedAt)
        invariant modelUsed == old(modelUsed)
        decreases |messages|
      {
        messages := messages[1..];
        if resourcesPerMessage == [] || tokenUsagePerMessage == [] {
          // `Vec::remove(0)` on an empty vector panics.
          return false;
        }
        resourcesPerMessage := resourcesPerMessage[1..];
        tokenUsagePerMessage := tokenUsagePerMessage[1..];
        dropped := dropped + 1;
      }
      // The split_off fallback that follows the loop in the source tests the
      // loop's own exit condition again, so it can never run.
      assert !(EstimateTokenLength(messages) > maxLength && |messages| > TruncationKeepMessages);
      return true;
    }
  }

  // -----------------------------------------------------------------------
  // List summaries

  datatype ConversationSummary = ConversationSummary(
    id: string,
    createdAt: Timestamp,
    updatedAt: Timestamp,
    messageCount: nat,
    firstUserMessage: Option<string>)

  const PreviewLimit: nat := 50
  const PreviewCut: nat := 47

  function FirstUserMessage(msgs: seq<ChatMessageWrapper>): (r: Option<ChatMessageWrapper>)
    ensures r.Some? ==> r.value in msgs && r.value.role == "User"
    ensures r.None? <==> forall i :: 0 <= i < |msgs| ==> msgs[i].role != "User"
  {
    if msgs == [] then None
    else if msgs[0].role == "User" then Some(msgs[0])
    else FirstUserMessage(msgs[1..])
  }

  /**
   * `&s[..n]` on a Rust string: the prefix holding exactly `n` bytes, or None
   * when byte `n` falls inside a character (where the slice panics).
   */
  function BytePrefix(s: string, n: nat): (r: Option<string>)
    ensures r.Some? ==> StartsWith(s, r.value) && Utf8Len(r.value) == n
  {
    if n == 0 then Some([])
    else if s == [] || Utf8Width(s[0]) > n then None
    else match BytePrefix(s[1..], n - Utf8Width(s[0]))
      case None => None
      case Some(p) =>
        assert [s[0]] + p == s[..|p| + 1];
        Some([s[0]] + p)
  }

  /** A prefix holding `n` bytes is the one `BytePrefix` finds. */
  lemma {:induction false} BytePrefixFinds(s: string, p: string, n: nat)
    requires StartsWith(s, p) && Utf8Len(p) == n
    ensures BytePrefix(s, n) == Some(p)
    decreases |p|
  {
    if p != [] {
      assert s[0] == p[0];
      assert StartsWith(s[1..], p[1..]) by {
        assert s[1..][..|p| - 1] == s[..|p|][1..];
      }
      BytePrefixFinds(s[1..], p[1..], n - Utf8Width(s[0]));
      assert [s[0]] + p[1..] == p;
    }
  }

  /**
   * The preview as written: more than 50 bytes become the first 47 bytes and
   * "...". None marks the inputs on which the byte slice panics. A preview
   * it gives is at most 50 bytes long.
   */
  function PreviewAsWritten(content: string): (r: Option<string>)
    ensures Utf8Len(content) <= PreviewLimit ==> r == Some(content)
    ensures r.Some? ==> Utf8Len(r.value) <= PreviewLimit
    ensures r.Some? && Utf8Len(content) > PreviewLimit ==>
      |r.value| >= 3 && EndsWith(r.value, "...")
        && StartsWith(content, r.value[..|r.value| - 3]) && Utf8Len(r.value[..|r.value| - 3]) == PreviewCut
  {
    if Utf8Len(content) > PreviewLimit then
      match BytePrefix(content, PreviewCut)
      case Some(p) =>
        Utf8LenAppend(p, "...");
        assert Utf8Len("...") == 3;
        assert (p + "...")[..|p|] == p;
        EndsWithConcat(p, "...");
        Some(p + "...")
      case None => None
    else Some(content)
  }

  /** The slice panics exactly when a text over 50 bytes has no character boundary at byte 47. */
  lemma PreviewPanicsIff(content: string)
    ensures PreviewAsWritten(content).None? <==>
      Utf8Len(content) > PreviewLimit && forall k :: 0 <= k <= |content| ==> Utf8Len(content[..k]) != PreviewCut
  {
    if Utf8Len(content) > PreviewLimit {
      if k :| 0 <= k <= |content| && Utf8Len(content[..k]) == PreviewCut {
        BytePrefixFinds(content, content[..k], PreviewCut);
      }
      match BytePrefix(content, PreviewCut)
      case Some(p) => assert content[..|p|] == p;
      case None =>
    }
  }

  /** `k` copies of one character take `k` times its width. */
  lemma {:induction false} Utf8LenRepeat(c: char, k: nat)
    ensures Utf8Len(seq(k, _ => c)) == k * Utf8Width(c)
    decreases k
  {
    if k > 0 {
      assert seq(k, _ => c)[1..] == seq(k - 1, _ => c);
      Utf8LenRepeat(c, k - 1);
    }
  }

  /**
   * Without panicking, the byte test also cuts a text the intended rule
   * keeps: "a" and 26 × "é" is 27 characters but 53 bytes, so the code as
   * written previews it as "a", 23 × "é" and "...".
   */
  lemma PreviewAsWrittenCutsShortText(content: string)
    requires content == "a" + seq(26, _ => 'é')
    ensures |content| == 27 && Utf8Len(content) == 53
    ensures PreviewAsWritten(content) == Some("a" + seq(23, _ => 'é') + "...")
    ensures Preview(content) == content
  {
    var p := "a" + seq(23, _ => 'é');
    Utf8LenRepeat('é', 26);
    Utf8LenRepeat('é', 23);
    Utf8LenAppend("a", seq(26, _ => 'é'));
    Utf8LenAppend("a", seq(23, _ => 'é'));
    assert content[..24] == p;
    BytePrefixFinds(content, p, PreviewCut);
  }

  /**
   * The preview as evidently intended ("first 50 characters"): more than 50
   * characters become the first 47 characters and "...".
   */
  function Preview(content: string): (r: string)
    ensures |r| <= PreviewLimit
    ensures |content| <= PreviewLimit ==> r == content
    ensures |content| > PreviewLimit ==> StartsWith(r, content[..PreviewCut]) && EndsWith(r, "...")
  {
    if |content| > PreviewLimit then
      EndsWithConcat(content[..PreviewCut], "...");
      content[..PreviewCut] + "..."
    else content
  }

  lemma {:induction false} BytePrefixAscii(s: string, n: nat)
    requires IsAscii(s) && n <= |s|
    ensures BytePrefix(s, n) == Some(s[..n])
    decreases n
  {
    if n > 0 {
      assert IsAscii(s[1..]);
      BytePrefixAscii(s[1..], n - 1);
      assert [s[0]] + s[1..][..n - 1] == s[..n];
    }
  }

  /** On ASCII text the corrected preview agrees with the code as written. */
  lemma PreviewAgreesOnAscii(content: string)
    requires IsAscii(content)
    ensures PreviewAsWritten(content) == Some(Preview(content))
  {
    Utf8LenAscii(content);
    if |content| > PreviewLimit {
      BytePrefixAscii(content, PreviewCut);
    }
  }

  lemma {:induction false} NoBytePrefixInsideChar(s: string, n: nat)
    requires |s| > 46 && n == 47
    requires forall i :: 0 <= i < 46 ==> s[i] as int < 0x80
    requires Utf8Width(s[46]) == 2
    ensures BytePrefix(s, n).None?
  {
    NoPrefixInsideCharAt(s, 46);
  }

  /** `j` one-byte characters then a two-byte one: no prefix of `j + 1` bytes exists. */
  lemma {:induction false} NoPrefixInsideCharAt(t: string, j: nat)
    requires j < |t| && Utf8Width(t[j]) == 2
    requires forall i :: 0 <= i < j ==> t[i] as int < 0x80
    ensures BytePrefix(t, j + 1).None?
    decreases j
  {
    if j > 0 {
      assert Utf8Width(t[0]) == 1;
      assert t[1..][j - 1] == t[j];
      NoPrefixInsideCharAt(t[1..], j - 1);
    }
  }

  /**
   * The as-written preview panics on a 50-character, 51-byte text whose 47th
   * character is the two-byte 'é': byte 47 falls in the middle of it. The
   * corrected preview keeps that text whole.
   */
  lemma PreviewAsWrittenPanics(content: string)
    requires content == seq(46, _ => 'a') + "é" + seq(3, _ => 'b')
    ensures Utf8Len(content) == 51
    ensures PreviewAsWritten(content).None?
    ensures Preview(content) == content
  {
    var a, b := seq(46, _ => 'a'), seq(3, _ => 'b');
    Utf8LenAscii(a);
    Utf8LenAscii(b);
    Utf8LenAppend(a, "é");
    Utf8LenAppend(a + "é", b);
    assert content[46] == 'é';
    NoBytePrefixInsideChar(content, 47);
  }

  /** `ConversationSummary::from_conversation`, with the corrected preview. */
  function FromConversation(c: ConversationValue): (s: ConversationSummary)
    ensures s.id == c.id && s.updatedAt == c.updatedAt && s.messageCount == |c.messages|
    ensures s.firstUserMessage.Some? <==> exists i :: 0 <= i < |c.messages| && c.messages[i].role == "User"
    ensures s.firstUserMessage.Some? ==> |s.firstUserMessage.value| <= PreviewLimit
  {
    var first := FirstUserMessage(c.messages);
    ConversationSummary(c.id, c.createdAt, c.updatedAt, |c.messages|,
      if first.Some? then Some(Preview(ExtractTextContent(first.value))) else None)
  }

  /**
   * `ConversationSummary::from_conversation` as written, with the byte cut:
   * None when the preview's slice panics. A preview it gives is at most 50
   * bytes.
   */
  function FromConversationAsWritten(c: ConversationValue): (s: Option<ConversationSummary>)
    ensures s.None? <==> (FirstUserMessage(c.messages).Some?
      && PreviewAsWritten(ExtractTextContent(FirstUserMessage(c.messages).value)).None?)
    ensures s.Some? ==> s.value.id == c.id && s.value.updatedAt == c.updatedAt && s.value.messageCount == |c.messages|
    ensures s.Some? ==> (s.value.firstUserMessage.Some? <==> exists i :: 0 <= i < |c.messages| && c.messages[i].role == "User")
    ensures s.Some? && s.value.firstUserMessage.Some? ==> Utf8Len(s.value.firstUserMessage.value) <= PreviewLimit
  {
    var first := FirstUserMessage(c.messages);
    if first.None? then Some(ConversationSummary(c.id, c.createdAt, c.updatedAt, |c.messages|, None))
    else
      match PreviewAsWritten(ExtractTextContent(first.value))
      case None => None
      case Some(p) => Some(ConversationSummary(c.id, c.createdAt, c.updatedAt, |c.messages|, Some(p)))
  }

  /** When the first user message is ASCII, the summary as written is the corrected one. */
  lemma SummaryAgreesOnAscii(c: ConversationValue)
    requires FirstUserMessage(c.messages).Some? ==> IsAscii(ExtractTextContent(FirstUserMessage(c.messages).value))
    ensures FromConversationAsWritten(c) == Some(FromConversation(c))
  {
    if FirstUserMessage(c.messages).Some? {
      PreviewAgreesOnAscii(ExtractTextContent(FirstUserMessage(c.messages).value));
    }
  }
}

=== FILE: ConversationStore.dfy ===
// The conversations directory of the gia client (`ConversationManager` in
// gia/src/conversation.rs), over an abstract directory: an ordered listing of
// file names, each with the conversation its content deserialises to, if any.

module ConversationStore {
  import opened Base
  import opened ContentPart
  import opened Conversation

  /** A directory entry: its file name and the parse of its content (None when it does not deserialise). */
  datatype DirEntry = DirEntry(name: string, parsed: Option<ConversationValue>)

  /** The entries in `read_dir` order. */
  type Directory = seq<DirEntry>

  datatype LoadError =
    | ReadFailed
    | DeserializeFailed
    | NotFound(id: string)
    | IndexOutOfRange(index: nat, count: nat)

  /** The outermost message of each error. */
  function ErrorMessage(e: LoadError): string
  {
    match e
    case ReadFailed => "Failed to read conversation file"
    case DeserializeFailed => "Failed to deserialize conversation"
    case NotFound(id) => "Conversation with ID '" + id + "' not found"
    case IndexOutOfRange(i, n) =>
      "Conversation index " + NatToString(i) + " out of range (have " + NatToString(n) + " conversations)"
  }

  // -----------------------------------------------------------------------
  // File names

  /** Index of the last '.' in a name. */
  function LastDot(name: string): (r: Option<nat>)
    ensures r.Some? ==> r.value < |name| && name[r.value] == '.'
    ensures r.Some? ==> forall j :: r.value < j < |name| ==> name[j] != '.'
    ensures r.None? ==> forall j :: 0 <= j < |name| ==> name[j] != '.'
  {
    if name == [] then None
    else if name[|name| - 1] == '.' then Some(|name| - 1)
    else LastDot(name[..|name| - 1])
  }

  /** `Path::extension`: what follows the last '.', unless that dot starts the name. */
  function Extension(name: string): Option<string>
  {
    match LastDot(name)
    case None => None
    case Some(i) => if i == 0 then None else Some(name[i + 1..])
  }

  /** `Path::file_stem`: the name without its extension. */
  function FileStem(name: string): string
  {
    match LastDot(name)
    case None => name
    case Some(i) => if i == 0 then name else name[..i]
  }

  predicate IsJson(name: string)
  {
    Extension(name) == Some("json")
  }

  function JsonName(id: string): string
  {
    id + ".json"
  }

  /** A file saved under a non-empty id is a json file whose stem is that id. */
  lemma JsonNameParts(id: string)
    requires id != []
    ensures IsJson(JsonName(id)) && FileStem(JsonName(id)) == id
  {
    var n := JsonName(id);
    assert n[|n| - 5] == '.';
    assert LastDot(n) == Some(|id|) by {
      assert n[..|n| - 1] == id + ".jso";
      assert n[..|n| - 1][..|n| - 2] == id + ".js";
      assert n[..|n| - 1][..|n| - 2][..|n| - 3] == id + ".j";
      assert n[..|n| - 1][..|n| - 2][..|n| - 3][..|n| - 4] == id + ".";
    }
    assert n[|id| + 1..] == "json";
  }

  // -----------------------------------------------------------------------
  // Numeric ids

  const UsizeMax: nat := 0xFFFF_FFFF_FFFF_FFFF

  function DigitsValue(d: string): nat
    requires AllDigits(d)
  {
    if d == [] then 0 else DigitsValue(d[..|d| - 1]) * 10 + (d[|d| - 1] as int - '0' as int)
  }

  /** `str::parse::<usize>`: an optional '+', then one or more digits, within range. */
  function ParseUsize(s: string): (r: Option<nat>)
    ensures r.Some? ==> r.value <= UsizeMax
  {
    var digits := if |s| > 0 && s[0] == '+' then s[1..] else s;
    if digits != [] && AllDigits(digits) && DigitsValue(digits) <= UsizeMax
    then Some(DigitsValue(digits))
    else None
  }

  lemma DigitCharValue(d: nat)
    requires d < 10
    ensures DigitChar(d) as int - '0' as int == d
  {
  }

  lemma {:induction false} DigitsOfNat(n: nat)
    ensures DigitsValue(NatToString(n)) == n
    decreases n
  {
    var s := NatToString(n);
    if n < 10 {
      DigitCharValue(n);
      assert s[..0] == [];
    } else {
      DigitsOfNat(n / 10);
      DigitCharValue(n % 10);
      assert s[..|s| - 1] == NatToString(n / 10);
    }
  }

  /** A rendered index parses back to itself. */
  lemma ParseRendered(n: nat)
    requires n <= UsizeMax
    ensures ParseUsize(NatToString(n)) == Some(n)
  {
    DigitsOfNat(n);
  }

  /**
   * An id made by `new_with_prompt` contains a '-' after its first character,
   * so it never parses as an index.
   */
  lemma GeneratedIdNeverIndex(prompt: string, uuidText: string)
    requires |uuidText| == 36
    ensures ParseUsize(ConversationId(prompt, uuidText)).None?
  {
    var id := ConversationId(prompt, uuidText);
    var slug := GenerateSlug(prompt);
    assert id[..|slug| + 1] == slug + "-";
    assert id[|slug|] == (slug + "-")[|slug|];
    DashNeverIndex(id, |slug|);
  }

  /** A text with a '-' after its first character is not an index. */
  lemma DashNeverIndex(s: string, k: nat)
    requires 0 < k < |s| && s[k] == '-'
    ensures ParseUsize(s).None?
  {
    var digits := if s[0] == '+' then s[1..] else s;
    var j := if s[0] == '+' then k - 1 else k;
    assert digits[j] == '-';
  }

  // -----------------------------------------------------------------------
  // Loading

  /** First entry with the given file name. */
  function FindByName(dir: Directory, name: string): (r: Option<nat>)
    ensures r.Some? ==> r.value < |dir| && dir[r.value].name == name
    ensures r.Some? ==> forall j :: 0 <= j < r.value ==> dir[j].name != name
    ensures r.None? ==> forall j :: 0 <= j < |dir| ==> dir[j].name != name
  {
    if dir == [] then None
    else if dir[0].name == name then Some(0)
    else match FindByName(dir[1..], name)
      case None => None
      case Some(i) => Some(i + 1)
  }

  /** The first entry carrying a name is the one found. */
  lemma FindByNameAt(dir: Directory, name: string, i: nat)
    requires i < |dir| && dir[i].name == name
    requires forall j :: 0 <= j < i ==> dir[j].name != name
    ensures FindByName(dir, name) == Some(i)
  {
  }

  predicate StemMatches(e: DirEntry, id: string)
  {
    IsJson(e.name) && EndsWith(FileStem(e.name), id)
  }

  /** First json entry whose stem ends with `id`. */
  function FindBySuffix(dir: Directory, id: string): (r: Option<nat>)
    ensures r.Some? ==> r.value < |dir| && StemMatches(dir[r.value], id)
    ensures r.Some? ==> forall j :: 0 <= j < r.value ==> !StemMatches(dir[j], id)
    ensures r.None? ==> forall j :: 0 <= j < |dir| ==> !StemMatches(dir[j], id)
  {
    FindBySuffixFrom(dir, id, 0)
  }

  /** The scan of `FindBySuffix` from entry `k` on. */
  function FindBySuffixFrom(dir: Directory, id: string, k: nat): (r: Option<nat>)
    requires k <= |dir|
    ensures r.Some? ==> k <= r.value < |dir| && StemMatches(dir[r.value], id)
    ensures r.Some? ==> forall j :: k <= j < r.value ==> !StemMatches(dir[j], id)
    ensures r.None? ==> forall j :: k <= j < |dir| ==> !StemMatches(dir[j], id)
    decreases |dir| - k
  {
    if k == |dir| then None
    else if StemMatches(dir[k], id) then Some(k)
    else FindBySuffixFrom(dir, id, k + 1)
  }

  function Deserialize(e: DirEntry): (r: Result<ConversationValue, LoadError>)
    ensures r.Ok? <==> e.parsed.Some?
    ensures r.Ok? ==> e.parsed == Some(r.value)
    ensures r.Err? ==> r.error == DeserializeFailed
  {
    match e.parsed
    case Some(c) => Ok(c)
    case None => Err(DeserializeFailed)
  }

  /** `load_conversation_from_path` on the file with the given name. */
  function LoadFromPath(dir: Directory, name: string): Result<ConversationValue, LoadError>
  {
    match FindByName(dir, name)
    case None => Err(ReadFailed)
    case Some(i) => Deserialize(dir[i])
  }

  /** The conversations of the json entries that deserialise, in directory order. */
  function Loadable(dir: Directory): (r: seq<ConversationValue>)
    ensures |r| <= |dir|
  {
    if dir == [] then []
    else
      var e := dir[|dir| - 1];
      Loadable(dir[..|dir| - 1]) + (if IsJson(e.name) && e.parsed.Some? then [e.parsed.value] else [])
  }

  lemma {:induction false} LoadableMembers(dir: Directory, c: ConversationValue)
    requires c in Loadable(dir)
    ensures exists j :: 0 <= j < |dir| && IsJson(dir[j].name) && dir[j].parsed == Some(c)
    decreases |dir|
  {
    var e := dir[|dir| - 1];
    if c in Loadable(dir[..|dir| - 1]) {
      LoadableMembers(dir[..|dir| - 1], c);
      var j :| 0 <= j < |dir| - 1 && IsJson(dir[..|dir| - 1][j].name) && dir[..|dir| - 1][j].parsed == Some(c);
      assert dir[j] == dir[..|dir| - 1][j];
    } else {
      assert IsJson(e.name) && e.parsed == Some(c);
    }
  }

  function Summaries(vals: seq<ConversationValue>): (r: seq<ConversationSummary>)
    ensures |r| == |vals|
    ensures forall i :: 0 <= i < |vals| ==> r[i] == FromConversation(vals[i])
  {
    seq(|vals|, i requires 0 <= i < |vals| => FromConversation(vals[i]))
  }

  predicate SortedNewestFirst(s: seq<ConversationSummary>)
  {
    forall i, j :: 0 <= i < j < |s| ==> s[i].updatedAt >= s[j].updatedAt
  }

  /** Places `x` after every summary at least as recent: the stable insertion step. */
  function InsertByTime(x: ConversationSummary, t: seq<ConversationSummary>): (r: seq<ConversationSummary>)
    ensures multiset(r) == multiset(t) + multiset{x}
    ensures |r| == |t| + 1
    ensures forall k :: 0 <= k < |r| ==> r[k] == x || r[k] in t
    ensures t == [] || x.updatedAt > t[0].updatedAt ==> r[0] == x
    ensures t != [] && x.updatedAt <= t[0].updatedAt ==> r[0] == t[0]
  {
    if t == [] || x.updatedAt > t[0].updatedAt then [x] + t
    else
      assert t == [t[0]] + t[1..];
      [t[0]] + InsertByTime(x, t[1..])
  }

  lemma {:induction false} InsertSorted(x: ConversationSummary, t: seq<ConversationSummary>)
    requires SortedNewestFirst(t)
    ensures SortedNewestFirst(InsertByTime(x, t))
    decreases |t|
  {
    if t == [] || x.updatedAt > t[0].updatedAt {
      assert forall k :: 0 <= k < |t| ==> t[k].updatedAt <= t[0].updatedAt;
      ConsSorted(x, t);
    } else {
      InsertSorted(x, t[1..]);
      InsertKeepsBound(x, t[1..], t[0].updatedAt);
      ConsSorted(t[0], InsertByTime(x, t[1..]));
    }
  }

  /** A summary at least as recent as everything after it extends a newest-first order. */
  lemma ConsSorted(h: ConversationSummary, t: seq<ConversationSummary>)
    requires SortedNewestFirst(t)
    requires forall k :: 0 <= k < |t| ==> t[k].updatedAt <= h.updatedAt
    ensures SortedNewestFirst([h] + t)
  {
    var r := [h] + t;
    forall i, j | 0 <= i < j < |r| ensures r[i].updatedAt >= r[j].updatedAt {
      assert r[j] == t[j - 1];
      if i > 0 {
        assert r[i] == t[i - 1];
      }
    }
  }

  /** Inserting below a bound that `t` respects keeps every element below it. */
  lemma InsertKeepsBound(x: ConversationSummary, t: seq<ConversationSummary>, bound: int)
    requires x.updatedAt <= bound
    requires forall k :: 0 <= k < |t| ==> t[k].updatedAt <= bound
    ensures forall k :: 0 <= k < |t| + 1 ==> InsertByTime(x, t)[k].updatedAt <= bound
  {
    var r := InsertByTime(x, t);
    forall k | 0 <= k < |r| ensures r[k].updatedAt <= bound {
      if r[k] != x {
        var i :| 0 <= i < |t| && t[i] == r[k];
      }
    }
  }

  /**
   * `sort_by(|a, b| b.updated_at.cmp(&a.updated_at))`: a newest-first sort,
   * stable as `slice::sort_by` is (`SortStable`).
   */
  function SortNewestFirst(s: seq<ConversationSummary>): (r: seq<ConversationSummary>)
    ensures multiset(r) == multiset(s)
    ensures SortedNewestFirst(r)
  {
    if s == [] then []
    else
      assert s == s[..|s| - 1] + [s[|s| - 1]];
      InsertSorted(s[|s| - 1], SortNewestFirst(s[..|s| - 1]));
      InsertByTime(s[|s| - 1], SortNewestFirst(s[..|s| - 1]))
  }

  /** The summaries of `s` updated at `time`, in their order in `s`. */
  function SameTime(s: seq<ConversationSummary>, time: int): (r: seq<ConversationSummary>)
    ensures |r| <= |s|
  {
    if s == [] then []
    else (if s[0].updatedAt == time then [s[0]] else []) + SameTime(s[1..], time)
  }

  /** One summary in front adds itself when it has the time. */
  lemma SameTimeCons(h: ConversationSummary, r: seq<ConversationSummary>, time: int)
    ensures SameTime([h] + r, time) == (if h.updatedAt == time then [h] else []) + SameTime(r, time)
  {
    assert ([h] + r)[0] == h && ([h] + r)[1..] == r;
  }

  lemma {:induction false} SameTimeAppend(a: seq<ConversationSummary>, b: seq<ConversationSummary>, time: int)
    ensures SameTime(a + b, time) == SameTime(a, time) + SameTime(b, time)
    decreases |a|
  {
    if a == [] {
      assert a + b == b;
    } else {
      assert a + b == [a[0]] + (a[1..] + b);
      assert a == [a[0]] + a[1..];
      SameTimeCons(a[0], a[1..] + b, time);
      SameTimeCons(a[0], a[1..], time);
      SameTimeAppend(a[1..], b, time);
    }
  }

  /** A list whose summaries are all older than `time` has none updated at it. */
  lemma {:induction false} SameTimeOlder(t: seq<ConversationSummary>, time: int)
    requires forall k :: 0 <= k < |t| ==> t[k].updatedAt < time
    ensures SameTime(t, time) == []
    decreases |t|
  {
    if t != [] {
      SameTimeOlder(t[1..], time);
    }
  }

  /** Inserting into a newest-first list puts `x` after every summary of the same time. */
  lemma {:induction false} InsertAfterSameTime(x: ConversationSummary, t: seq<ConversationSummary>, time: int)
    requires SortedNewestFirst(t)
    ensures SameTime(InsertByTime(x, t), time)
      == SameTime(t, time) + (if x.updatedAt == time then [x] else [])
    decreases |t|
  {
    if t == [] || x.updatedAt > t[0].updatedAt {
      assert InsertByTime(x, t) == [x] + t;
      NewestSameTime(x, t, time);
    } else {
      var r := InsertByTime(x, t[1..]);
      assert InsertByTime(x, t) == [t[0]] + r;
      assert t == [t[0]] + t[1..];
      assert SortedNewestFirst(t[1..]);
      InsertAfterSameTime(x, t[1..], time);
      SameTimeCons(t[0], r, time);
      SameTimeCons(t[0], t[1..], time);
      var h := if t[0].updatedAt == time then [t[0]] else [];
      var rest := SameTime(t[1..], time);
      var tail := if x.updatedAt == time then [x] else [];
      assert SameTime(InsertByTime(x, t), time) == h + (rest + tail);
      assert SameTime(t, time) == h + rest;
      AppendAssoc(h, rest, tail);
    }
  }

  /** A summary newer than a newest-first list, put in front, comes after its summaries of its own time. */
  lemma NewestSameTime(x: ConversationSummary, t: seq<ConversationSummary>, time: int)
    requires SortedNewestFirst(t)
    requires t == [] || x.updatedAt > t[0].updatedAt
    ensures SameTime([x] + t, time) == SameTime(t, time) + (if x.updatedAt == time then [x] else [])
  {
    SameTimeCons(x, t, time);
    if x.updatedAt == time {
      assert forall k :: 0 <= k < |t| ==> t[k].updatedAt <= t[0].updatedAt;
      SameTimeOlder(t, time);
      assert SameTime([x] + t, time) == [x] + [];
    }
  }

  /**
   * The sort is stable: for every update time, the summaries updated at it
   * keep the order they had in `s`.
   */
  lemma {:induction false} SortStable(s: seq<ConversationSummary>, time: int)
    ensures SameTime(SortNewestFirst(s), time) == SameTime(s, time)
    decreases |s|
  {
    if s != [] {
      var init := s[..|s| - 1];
      var x := s[|s| - 1];
      var sorted := SortNewestFirst(init);
      assert SortNewestFirst(s) == InsertByTime(x, sorted);
      SortStable(init, time);
      InsertAfterSameTime(x, sorted, time);
      SameTimeSnoc(s, time);
    }
  }

  /** A summary at the end adds itself last when it has the time. */
  lemma SameTimeSnoc(s: seq<ConversationSummary>, time: int)
    requires s != []
    ensures SameTime(s, time) == SameTime(s[..|s| - 1], time)
      + (if s[|s| - 1].updatedAt == time then [s[|s| - 1]] else [])
  {
    var init, x := s[..|s| - 1], s[|s| - 1];
    assert s == init + [x];
    SameTimeAppend(init, [x], time);
    assert [x] == [x] + [];
    SameTimeCons(x, [], time);
    var tail := if x.updatedAt == time then [x] else [];
    assert SameTime([x], time) == tail + [];
    assert tail + [] == tail;
  }

  /** `list_conversations`: the summaries of the loadable conversations, newest first. */
  function ListConversations(dir: Directory): (r: seq<ConversationSummary>)
    ensures SortedNewestFirst(r)
    ensures multiset(r) == multiset(Summaries(Loadable(dir)))
  {
    SortNewestFirst(Summaries(Loadable(dir)))
  }

  /** `load_conversation_by_index`: the file named after the index-th listed id. */
  function LoadByIndex(dir: Directory, index: nat): (r: Result<ConversationValue, LoadError>)
    ensures index >= |ListConversations(dir)| <==> r == Err(IndexOutOfRange(index, |ListConversations(dir)|))
  {
    var summaries := ListConversations(dir);
    if index >= |summaries| then Err(IndexOutOfRange(index, |summaries|))
    else
      var r := LoadFromPath(dir, JsonName(summaries[index].id));
      assert r.Err? ==> r.error == ReadFailed || r.error == DeserializeFailed;
      r
  }

  /**
   * `load_conversation`: a numeric id is an index into the listing; otherwise
   * the exact file `<id>.json`; otherwise the first json entry whose stem
   * ends with the id; otherwise not found.
   */
  function LoadConversation(dir: Directory, id: string): (r: Result<ConversationValue, LoadError>)
    ensures ParseUsize(id).Some? ==> r == LoadByIndex(dir, ParseUsize(id).value)
    ensures r == Err(NotFound(id)) <==>
      ParseUsize(id).None? && FindByName(dir, JsonName(id)).None? && FindBySuffix(dir, id).None?
  {
    match ParseUsize(id)
    case Some(index) =>
      var r := LoadByIndex(dir, index);
      assert r.Err? ==> !r.error.NotFound?;
      r
    case None =>
      match FindByName(dir, JsonName(id))
      case Some(i) => Deserialize(dir[i])
      case None =>
        match FindBySuffix(dir, id)
        case Some(j) => Deserialize(dir[j])
        case None => Err(NotFound(id))
  }

  /**
   * A non-numeric id that names an existing file loads that file and no
   * other, even when its content does not deserialise.
   */
  lemma ExactMatchWins(dir: Directory, id: string, i: nat)
    requires ParseUsize(id).None?
    requires i < |dir| && dir[i].name == JsonName(id)
    requires forall j :: 0 <= j < i ==> dir[j].name != JsonName(id)
    ensures LoadConversation(dir, id).Ok? <==> dir[i].parsed.Some?
    ensures LoadConversation(dir, id).Ok? ==> dir[i].parsed == Some(LoadConversation(dir, id).value)
  {
    assert FindByName(dir, JsonName(id)) == Some(i);
  }

  /**
   * Without an exact file, the first json entry whose stem ends with the id
   * is loaded, even when a later one matches too: there is no ambiguity check.
   */
  lemma SuffixMatchFirstWins(dir: Directory, id: string, j: nat)
    requires ParseUsize(id).None?
    requires forall k :: 0 <= k < |dir| ==> dir[k].name != JsonName(id)
    requires j < |dir| && StemMatches(dir[j], id)
    requires forall k :: 0 <= k < j ==> !StemMatches(dir[k], id)
    ensures LoadConversation(dir, id) == Deserialize(dir[j])
  {
    assert FindBySuffix(dir, id) == Some(j);
  }

  // -----------------------------------------------------------------------
  // Saving

  /** `save_conversation`: writes `<id>.json`, replacing an existing file of that name. */
  function SaveConversation(dir: Directory, c: ConversationValue): (r: Directory)
    ensures FindByName(r, JsonName(c.id)).Some?
    ensures r[FindByName(r, JsonName(c.id)).value].parsed == Some(c)
  {
    var name := JsonName(c.id);
    match FindByName(dir, name)
    case Some(i) =>
      var r := dir[i := DirEntry(name, Some(c))];
      FindByNameAt(r, name, i);
      r
    case None =>
      var r := dir + [DirEntry(name, Some(c))];
      FindByNameAt(r, name, |dir|);
      r
  }

  /** A saved conversation loads back unchanged by its own id, unless that id is numeric. */
  lemma SaveLoadRoundTrip(dir: Directory, c: ConversationValue)
    requires ParseUsize(c.id).None?
    ensures LoadConversation(SaveConversation(dir, c), c.id) == Ok(c)
  {
  }

  /** Every conversation created by `new_with_prompt` round-trips through save and load. */
  lemma NewConversationRoundTrip(dir: Directory, c: ConversationValue, prompt: string, uuidText: string)
    requires |uuidText| == 36 && c.id == ConversationId(prompt, uuidText)
    ensures LoadConversation(SaveConversation(dir, c), c.id) == Ok(c)
  {
    GeneratedIdNeverIndex(prompt, uuidText);
  }

  // -----------------------------------------------------------------------
  // Latest conversation

  /** The strictly-later-wins scan over loadable conversations, in order. */
  function LatestOf(vals: seq<ConversationValue>): Option<ConversationValue>
  {
    if vals == [] then None
    else
      var prev := LatestOf(vals[..|vals| - 1]);
      var x := vals[|vals| - 1];
      if x.updatedAt > (if prev.Some? then prev.value.updatedAt else MinUtc) then Some(x) else prev
  }

  /**
   * The scan picks the first conversation of the greatest update time, and
   * finds nothing only when no conversation is later than the minimum instant.
   */
  lemma {:induction false} LatestOfSpec(vals: seq<ConversationValue>)
    ensures var r := LatestOf(vals);
      r.Some? ==> r.value in vals && r.value.updatedAt > MinUtc
    ensures var r := LatestOf(vals);
      r.Some? ==> forall k :: 0 <= k < |vals| ==> vals[k].updatedAt <= r.value.updatedAt
    ensures var r := LatestOf(vals);
      r.Some? ==> exists k :: (0 <= k < |vals| && vals[k] == r.value
        && forall j :: 0 <= j < k ==> vals[j].updatedAt < r.value.updatedAt)
    ensures LatestOf(vals).None? <==> forall k :: 0 <= k < |vals| ==> vals[k].updatedAt == MinUtc
    decreases |vals|
  {
    if vals != [] {
      var prefix := vals[..|vals| - 1];
      var x := vals[|vals| - 1];
      LatestOfSpec(prefix);
      var prev := LatestOf(prefix);
      assert forall j :: 0 <= j < |vals| - 1 ==> vals[j] == prefix[j];
      if prev.Some? {
        var k :| 0 <= k < |prefix| && prefix[k] == prev.value
          && forall j :: 0 <= j < k ==> prefix[j].updatedAt < prev.value.updatedAt;
        assert vals[k] == prev.value;
      }
    }
  }

  lemma LoadableStep(dir: Directory, i: nat)
    requires i < |dir|
    ensures Loadable(dir[..i + 1]) == Loadable(dir[..i])
      + (if IsJson(dir[i].name) && dir[i].parsed.Some? then [dir[i].parsed.value] else [])
  {
    assert dir[..i + 1][..i] == dir[..i];
  }

  lemma LatestStep(vals: seq<ConversationValue>, x: ConversationValue)
    ensures LatestOf(vals + [x]) ==
      if x.updatedAt > (if LatestOf(vals).Some? then LatestOf(vals).value.updatedAt else MinUtc)
      then Some(x) else LatestOf(vals)
  {
    assert (vals + [x])[..|vals|] == vals;
    assert (vals + [x])[|vals|] == x;
  }

  /** `get_latest_conversation`: one pass over the directory, skipping entries that do not load. */
  method GetLatestConversation(dir: Directory) returns (latest: Option<ConversationValue>)
    ensures latest == LatestOf(Loadable(dir))
  {
    latest := None;
    var latestTime: Timestamp := MinUtc;
    var i := 0;
    while i < |dir|
      invariant 0 <= i <= |dir|
      invariant latest == LatestOf(Loadable(dir[..i]))
      invariant latestTime == if latest.Some? then latest.value.updatedAt else MinUtc
    {
      var e := dir[i];
      LoadableStep(dir, i);
      // Entries that are not json, or do not load, are skipped (the latter with a warning).
      if IsJson(e.name) && e.parsed.Some? {
        var c := e.parsed.value;
        LatestStep(Loadable(dir[..i]), c);
        assert Loadable(dir[..i + 1]) == Loadable(dir[..i]) + [c];
        if c.updatedAt > latestTime {
          latestTime := c.updatedAt;
          latest := Some(c);
        }
      } else {
        assert Loadable(dir[..i + 1]) == Loadable(dir[..i]) + [];
        assert Loadable(dir[..i + 1]) == Loadable(dir[..i]);
      }
      i := i + 1;
    }
    assert dir[..|dir|] == dir;
  }

  lemma {:induction false} LatestHeadsListing(vals: seq<ConversationValue>)
    requires LatestOf(vals).Some?
    ensures SortNewestFirst(Summaries(vals)) != []
    ensures SortNewestFirst(Summaries(vals))[0] == FromConversation(LatestOf(vals).value)
    decreases |vals|
  {
    var prefix := vals[..|vals| - 1];
    var x := vals[|vals| - 1];
    var s := Summaries(vals);
    assert s[..|s| - 1] == Summaries(prefix);
    var t := SortNewestFirst(Summaries(prefix));
    assert SortNewestFirst(s) == InsertByTime(FromConversation(x), t);
    var prev := LatestOf(prefix);
    if prev.Some? {
      LatestHeadsListing(prefix);
    } else if t != [] {
      LatestOfSpec(prefix);
      assert t[0] in multiset(Summaries(prefix));
      var k :| 0 <= k < |prefix| && Summaries(prefix)[k] == t[0];
      assert t[0].updatedAt == prefix[k].updatedAt == MinUtc;
    }
  }

  /**
   * The latest conversation heads the listing, so index 0 and "resume the
   * latest" agree whenever some conversation has a recorded update time.
   */
  lemma LatestIsFirstListed(dir: Directory, latest: ConversationValue)
    requires LatestOf(Loadable(dir)) == Some(latest)
    ensures ListConversations(dir) != [] && ListConversations(dir)[0] == FromConversation(latest)
  {
    LatestHeadsListing(Loadable(dir));
  }
}

=== FILE: Executor.dfy ===
// The tool executor of gia (gia/src/tools/executor.rs): every tool call
// becomes a tool response carrying the call's id; an unknown tool or a
// failing one is reported in the response text, never as an error.

module Executor {
  import opened Base
  import opened Json
  import opened ContentPart
  import opened Security
  import opened Registry

  /**
   * How a registered tool runs on given arguments under a security policy,
   * with the file system and environment as they stand when it runs: its
   * output, or the display text of its error. The effects behind a run are
   * outside the model (the tool loop takes one run per round); see module
   * ToolImpls for the built-in tools.
   */
  type ToolRun = (Tool, Json, SecurityContext) -> Result<string, string>

  function UnknownToolText(name: string): string
  {
    "Error" + (": Unknown tool '" + name + "'")
  }

  function FailedToolText(name: string, error: string): string
  {
    "Error" + (" executing " + name + ": " + error)
  }

  /**
   * `execute_tool_call`. The executor looks tools up in its registry;
   * `tools` is that registry's name-to-tool map (`ToolRegistry.tools`), so
   * a lookup here is `ToolRegistry.Get`.
   */
  function ExecuteToolCall(tools: map<string, Tool>, ctx: SecurityContext, call: ToolCall, run: ToolRun): (r: ToolResponse)
    ensures r.callId == call.callId
  {
    var text :=
      if call.fnName !in tools then UnknownToolText(call.fnName)
      else
        match run(tools[call.fnName], call.fnArguments, ctx)
        case Ok(output) => output
        case Err(e) => FailedToolText(call.fnName, e);
    ToolResponse(call.callId, text)
  }

  /** A tool that runs successfully answers with its output, unchanged. */
  lemma SuccessKeepsOutput(tools: map<string, Tool>, ctx: SecurityContext, call: ToolCall, run: ToolRun)
    requires call.fnName in tools && run(tools[call.fnName], call.fnArguments, ctx).Ok?
    ensures ExecuteToolCall(tools, ctx, call, run).content == run(tools[call.fnName], call.fnArguments, ctx).value
  {
  }

  /** A call naming no registered tool is answered with the unknown-tool message. */
  lemma UnknownToolReported(tools: map<string, Tool>, ctx: SecurityContext, call: ToolCall, run: ToolRun)
    requires call.fnName !in tools
    ensures ExecuteToolCall(tools, ctx, call, run).content == UnknownToolText(call.fnName)
  {
  }

  /** Unknown and failing tools are both reported as text beginning "Error". */
  lemma FailuresReadAsErrors(tools: map<string, Tool>, ctx: SecurityContext, call: ToolCall, run: ToolRun)
    requires call.fnName !in tools
      || run(tools[call.fnName], call.fnArguments, ctx).Err?
    ensures StartsWith(ExecuteToolCall(tools, ctx, call, run).content, "Error")
  {
    if call.fnName !in tools {
      ErrorPrefix(": Unknown tool '" + call.fnName + "'");
    } else {
      ErrorPrefix(" executing " + call.fnName + ": " + run(tools[call.fnName], call.fnArguments, ctx).error);
    }
  }

  lemma ErrorPrefix(rest: string)
    ensures StartsWith("Error" + rest, "Error")
  {
    StartsWithConcat("Error", rest);
  }

  /** A failing tool's response keeps the whole error text. */
  lemma FailureKeepsErrorText(tools: map<string, Tool>, ctx: SecurityContext, call: ToolCall, run: ToolRun)
    requires call.fnName in tools
    requires run(tools[call.fnName], call.fnArguments, ctx).Err?
    ensures EndsWith(ExecuteToolCall(tools, ctx, call, run).content,
                     run(tools[call.fnName], call.fnArguments, ctx).error)
  {
    var e := run(tools[call.fnName], call.fnArguments, ctx).error;
    EndsWithConcat("Error executing " + call.fnName + ": ", e);
  }

  /** `execute_tool_calls`: one response per call, in the order of the calls. */
  function ExecuteToolCalls(tools: map<string, Tool>, ctx: SecurityContext, calls: seq<ToolCall>, run: ToolRun): (r: seq<ToolResponse>)
    ensures |r| == |calls|
  {
    if calls == [] then []
    else ExecuteToolCalls(tools, ctx, calls[..|calls| - 1], run) + [ExecuteToolCall(tools, ctx, calls[|calls| - 1], run)]
  }

  /** The `i`-th response is the execution of the `i`-th call. */
  lemma {:induction false} ExecuteToolCallsAt(tools: map<string, Tool>, ctx: SecurityContext, calls: seq<ToolCall>, run: ToolRun)
    ensures forall i :: 0 <= i < |calls| ==>
      ExecuteToolCalls(tools, ctx, calls, run)[i] == ExecuteToolCall(tools, ctx, calls[i], run)
  {
    if calls != [] {
      ExecuteToolCallsAt(tools, ctx, calls[..|calls| - 1], run);
    }
  }

  function CallIds(calls: seq<ToolCall>): seq<string>
  {
    seq(|calls|, i requires 0 <= i < |calls| => calls[i].callId)
  }

  function ResponseIds(rs: seq<ToolResponse>): seq<string>
  {
    seq(|rs|, i requires 0 <= i < |rs| => rs[i].callId)
  }

  /** The responses carry exactly the calls' ids, in the same order. */
  lemma ResponsesMatchCalls(tools: map<string, Tool>, ctx: SecurityContext, calls: seq<ToolCall>, run: ToolRun)
    ensures ResponseIds(ExecuteToolCalls(tools, ctx, calls, run)) == CallIds(calls)
  {
    ExecuteToolCallsAt(tools, ctx, calls, run);
  }

  /** Executing a batch split in two is executing the halves one after the other. */
  lemma ExecuteConcat(tools: map<string, Tool>, ctx: SecurityContext, a: seq<ToolCall>, b: seq<ToolCall>, run: ToolRun)
    ensures ExecuteToolCalls(tools, ctx, a + b, run)
      == ExecuteToolCalls(tools, ctx, a, run) + ExecuteToolCalls(tools, ctx, b, run)
  {
    ExecuteToolCallsAt(tools, ctx, a + b, run);
    ExecuteToolCallsAt(tools, ctx, a, run);
    ExecuteToolCallsAt(tools, ctx, b, run);
    var whole := ExecuteToolCalls(tools, ctx, a + b, run);
    var parts := ExecuteToolCalls(tools, ctx, a, run) + ExecuteToolCalls(tools, ctx, b, run);
    assert forall i :: 0 <= i < |whole| ==> whole[i] == parts[i];
  }
}

=== FILE: Gemini.dfy ===
// The Gemini provider of gia (gia/src/gemini.rs): a client holding a
// non-empty list of API keys and the index of the key in use. A call tries
// the current key; a rate-limit or overload error moves to the next key
// round-robin, and the call gives up once the index is back at the key it
// started on. Every other error ends the call at once.

module Gemini {
  import opened Base
  import opened Conversation
  import opened Provider

  // -----------------------------------------------------------------------
  // Key indices

  /** `next_key_index`: the following key, wrapping to the first. */
  function NextIndex(n: nat, i: nat): (r: nat)
    requires n > 0
    ensures r < n
  {
    (i + 1) % n
  }

  /** Within range, the next index is one further on, or the first key after the last. */
  lemma NextIndexCases(n: nat, i: nat)
    requires i < n
    ensures NextIndex(n, i) == if i + 1 < n then i + 1 else 0
  {
    if i + 1 == n {
      assert (i + 1) % n == n % n == 0;
    }
  }

  /**
   * The key index of attempt `k` (0 <= k <= n) of a call that started on
   * key `start`: `(start + k) % n`, written with its single wrap-around.
   */
  function IndexAt(n: nat, start: nat, k: nat): (r: nat)
    requires start < n && k <= n
    ensures r < n
  {
    if start + k < n then start + k else start + k - n
  }

  /** The attempt after `k` uses the next key, and the n-th is back at the start. */
  lemma NextIndexStep(n: nat, start: nat, k: nat)
    requires start < n && k < n
    ensures NextIndex(n, IndexAt(n, start, k)) == IndexAt(n, start, k + 1)
    ensures IndexAt(n, start, k + 1) == start <==> k + 1 == n
  {
    NextIndexCases(n, IndexAt(n, start, k));
  }

  /** Two different attempts among the first n use different keys. */
  lemma OffsetsDistinct(n: nat, start: nat, j1: nat, j2: nat)
    requires start < n && j1 < j2 < n
    ensures IndexAt(n, start, j1) != IndexAt(n, start, j2)
  {
  }

  /** The index reached from `i` after `k` moves to the next key. */
  function AdvanceBy(n: nat, i: nat, k: nat): (r: nat)
    requires n > 0
    decreases k
  {
    if k == 0 then i else NextIndex(n, AdvanceBy(n, i, k - 1))
  }

  /** `k <= n` moves from `i` land on attempt `k`'s key. */
  lemma {:induction false} AdvanceByOffset(n: nat, i: nat, k: nat)
    requires i < n && k <= n
    ensures AdvanceBy(n, i, k) == IndexAt(n, i, k)
    decreases k
  {
    if k > 0 {
      AdvanceByOffset(n, i, k - 1);
      NextIndexStep(n, i, k - 1);
    }
  }

  /**
   * Moving to the next key as many times as there are keys returns to the
   * start, and no fewer moves do.
   */
  lemma FullCycleReturns(n: nat, i: nat)
    requires i < n
    ensures AdvanceBy(n, i, n) == i
    ensures forall k :: 0 < k < n ==> AdvanceBy(n, i, k) != i
  {
    AdvanceByOffset(n, i, n);
    forall k | 0 < k < n ensures AdvanceBy(n, i, k) != i {
      AdvanceByOffset(n, i, k);
    }
  }

  /**
   * `GeminiClient::new`'s choice of first key: the preferred index when it
   * names a key, otherwise the first key.
   */
  function InitialKeyIndex(n: nat, preferred: nat): (i: nat)
    requires n > 0
    ensures i < n
    ensures i == preferred <==> preferred < n
  {
    if preferred < n then preferred else 0
  }

  // -----------------------------------------------------------------------
  // Error classification

  /** A rate-limit or overload error: "429", "Too Many Requests", "503", or "overloaded" in any case. */
  predicate IsRateLimited(t: string)
  {
    Contains(t, "429") || Contains(t, "Too Many Requests") || Contains(t, "503")
    || Contains(ToLower(t), "overloaded")
  }

  /** An authentication error: "401", "403", or "authentication" or "permission" in any case. */
  predicate IsAuthFailure(t: string)
  {
    Contains(t, "401") || Contains(t, "403") || Contains(ToLower(t), "authentication")
    || Contains(ToLower(t), "permission")
  }

  /** What a rotation loop does after one attempt. */
  datatype Step<T> = Succeed(value: T) | Rotate | Stop(error: string)

  const ChatContext: string := "Failed to send chat request to Gemini API"
  const NoTextError: string := "Failed to extract text from Gemini response"
  const AuthFailedError: string := "Authentication failed. Please check your API key and billing settings."
  const RequestContext: string := "Failed to send chat request"

  /**
   * `try_chat_request_with_messages` once the reply is known: a failed call
   * is an error with context, a response without text or with blank text
   * is an error, and a response with text gives that text and its usage.
   */
  function TryChatRequest(reply: ExecReply): (r: Result<AiResponse, string>)
    ensures reply.ExecFailed? ==> r == Err(WithContext(ChatContext, reply.errorText))
    ensures reply.Responded? && FirstText(reply.response).None? ==> r == Err(NoTextError)
    ensures reply.Responded? && FirstText(reply.response).Some? ==>
      (r == Err(NoContentError) <==> IsBlank(FirstText(reply.response).value))
    ensures r.Ok? ==> (reply.Responded? && Some(r.value.content) == FirstText(reply.response)
      && !IsBlank(r.value.content) && r.value.usage == CastUsage(reply.response.usage))
  {
    match reply
    case ExecFailed(e) => Err(WithContext(ChatContext, e))
    case Responded(res) =>
      match FirstText(res)
      case None => Err(NoTextError)
      case Some(t) =>
        TrimEmptyIffBlank(t);
        if Trim(t) == [] then Err(NoContentError) else Ok(AiResponse(t, CastUsage(res.usage)))
  }

  /**
   * The chat loop's reading of one attempt: success, a rotation for a
   * rate-limit or overload error, the authentication error when the text
   * names one, or the error itself.
   */
  function ChatStep(reply: ExecReply): Step<AiResponse>
  {
    match TryChatRequest(reply)
    case Ok(v) => Succeed(v)
    case Err(e) =>
      if IsRateLimited(e) then Rotate
      else if IsAuthFailure(e) then Stop(AuthFailedError)
      else Stop(e)
  }

  /**
   * The request loop's reading of one attempt: no authentication branch,
   * and every other failure wrapped with context.
   */
  function RequestStep(reply: ExecReply): Step<ChatResponse>
  {
    match reply
    case Responded(res) => Succeed(res)
    case ExecFailed(e) => if IsRateLimited(e) then Rotate else Stop(WithContext(RequestContext, e))
  }

  /** A rate-limit or overload text in the cause survives the context the chat loop adds. */
  lemma RateLimitSurvivesContext(e: string)
    requires IsRateLimited(e)
    ensures IsRateLimited(WithContext(ChatContext, e))
  {
    var w := WithContext(ChatContext, e);
    var pre := ChatContext + "\n\nCaused by:\n    ";
    assert w == pre + e;
    if Contains(e, "429") {
      WithContextKeeps(ChatContext, e, "429");
    } else if Contains(e, "Too Many Requests") {
      WithContextKeeps(ChatContext, e, "Too Many Requests");
    } else if Contains(e, "503") {
      WithContextKeeps(ChatContext, e, "503");
    } else {
      ToLowerAppend(pre, e);
      ContainsEmbedded(ToLower(pre), ToLower(e), [], "overloaded");
      assert ToLower(pre) + ToLower(e) + [] == ToLower(w);
    }
  }

  /** A failed call whose error names a rate limit or overload rotates in both loops. */
  lemma RateLimitedCallRotates(e: string)
    requires IsRateLimited(e)
    ensures ChatStep(ExecFailed(e)) == Rotate
    ensures RequestStep(ExecFailed(e)) == Rotate
  {
    RateLimitSurvivesContext(e);
  }

  /**
   * Rate limiting is tested before authentication: an error naming both
   * "429" and "401" rotates rather than stopping.
   */
  lemma RateLimitBeforeAuth(e: string)
    requires Contains(e, "429") && Contains(e, "401")
    ensures IsAuthFailure(e)
    ensures ChatStep(ExecFailed(e)) == Rotate && RequestStep(ExecFailed(e)) == Rotate
  {
    RateLimitedCallRotates(e);
  }

  /** An authentication error that is not also a rate limit stops the chat loop with the fixed message. */
  lemma AuthErrorStops(e: string)
    requires !IsRateLimited(WithContext(ChatContext, e)) && IsAuthFailure(e)
    ensures ChatStep(ExecFailed(e)) == Stop(AuthFailedError)
  {
    var w := WithContext(ChatContext, e);
    var pre := ChatContext + "\n\nCaused by:\n    ";
    assert w == pre + e + [];
    if Contains(e, "401") {
      ContainsEmbedded(pre, e, [], "401");
    } else if Contains(e, "403") {
      ContainsEmbedded(pre, e, [], "403");
    } else {
      ToLowerAppend(pre, e);
      assert ToLower(w) == ToLower(pre) + ToLower(e) + [];
      if Contains(ToLower(e), "authentication") {
        ContainsEmbedded(ToLower(pre), ToLower(e), [], "authentication");
      } else {
        ContainsEmbedded(ToLower(pre), ToLower(e), [], "permission");
      }
    }
  }

  // -----------------------------------------------------------------------
  // The rotation loop as a function of the attempts' outcomes

  /** How a call ends: its result, the number of attempts and the final key index. */
  datatype Run<T> = Run(result: Result<T, string>, attempts: nat, finalIndex: nat)

  /**
   * The rotation loop from attempt `k` on: attempt `k` uses key
   * `IndexAt(n, start, k)`; a rotation moves to the next key and gives up with
   * `exhausted` when that is the starting key again.
   */
  function Rotation<T>(n: nat, start: nat, steps: seq<Step<T>>, k: nat, exhausted: string): Run<T>
    requires start < n && k < n && |steps| >= n
    decreases n - k
  {
    match steps[k]
    case Succeed(v) => Run(Ok(v), k + 1, IndexAt(n, start, k))
    case Stop(e) => Run(Err(e), k + 1, IndexAt(n, start, k))
    case Rotate =>
      NextIndexStep(n, start, k);
      if NextIndex(n, IndexAt(n, start, k)) == start then Run(Err(exhausted), k + 1, start)
      else Rotation(n, start, steps, k + 1, exhausted)
  }

  /**
   * Every call ends after between one and n attempts; all attempts but the
   * last were rotations; the last attempt decides the result. A success or
   * an error leaves the index on the key of that attempt, and n rotations
   * in a row give up with the index back at the start.
   */
  lemma {:induction false} RotationShape<T>(n: nat, start: nat, steps: seq<Step<T>>, k: nat, exhausted: string)
    requires start < n && k < n && |steps| >= n
    ensures var run := Rotation(n, start, steps, k, exhausted);
      k < run.attempts <= n
      && (forall j :: k <= j < run.attempts - 1 ==> steps[j].Rotate?)
      && match steps[run.attempts - 1]
         case Succeed(v) => run.result == Ok(v) && run.finalIndex == IndexAt(n, start, run.attempts - 1)
         case Stop(e) => run.result == Err(e) && run.finalIndex == IndexAt(n, start, run.attempts - 1)
         case Rotate => run.attempts == n && run.result == Err(exhausted) && run.finalIndex == start
    decreases n - k
  {
    if steps[k].Rotate? {
      NextIndexStep(n, start, k);
      if k + 1 < n {
        RotationShape(n, start, steps, k + 1, exhausted);
      }
    }
  }

  /** With every attempt rate-limited, the call makes exactly n attempts and ends back at the start. */
  lemma AllRotationsExhaust<T>(n: nat, start: nat, steps: seq<Step<T>>, exhausted: string)
    requires start < n && |steps| >= n
    requires forall j :: 0 <= j < n ==> steps[j].Rotate?
    ensures Rotation(n, start, steps, 0, exhausted) == Run(Err(exhausted), n, start)
  {
    RotationShape(n, start, steps, 0, exhausted);
  }

  /** A first attempt that is not a rotation ends the call with the index unchanged. */
  lemma FirstStopKeepsIndex<T>(n: nat, start: nat, steps: seq<Step<T>>, exhausted: string)
    requires start < n && |steps| >= n && !steps[0].Rotate?
    ensures Rotation(n, start, steps, 0, exhausted).attempts == 1
    ensures Rotation(n, start, steps, 0, exhausted).finalIndex == start
  {
  }

  function ChatSteps(replies: seq<ExecReply>): (r: seq<Step<AiResponse>>)
    ensures |r| == |replies|
    ensures forall i :: 0 <= i < |replies| ==> r[i] == ChatStep(replies[i])
  {
    seq(|replies|, i requires 0 <= i < |replies| => ChatStep(replies[i]))
  }

  function RequestSteps(replies: seq<ExecReply>): (r: seq<Step<ChatResponse>>)
    ensures |r| == |replies|
    ensures forall i :: 0 <= i < |replies| ==> r[i] == RequestStep(replies[i])
  {
    seq(|replies|, i requires 0 <= i < |replies| => RequestStep(replies[i]))
  }

  function ChatExhausted(n: nat): string
  {
    "All " + NatToString(n) + " API keys exhausted due to rate limits or overload errors"
  }

  function RequestExhausted(n: nat): string
  {
    "All " + NatToString(n) + " API keys exhausted"
  }

  /** The keys the first `k` attempts use, starting from `start`. */
  function KeysFrom(n: nat, start: nat, k: nat): (r: seq<nat>)
    requires start < n && k <= n
    ensures |r| == k
    ensures forall j :: 0 <= j < k ==> r[j] == IndexAt(n, start, j)
  {
    seq(k, j requires 0 <= j < k => IndexAt(n, start, j))
  }

  /** Each attempt adds its key to the keys tried. */
  lemma KeysFromStep(n: nat, start: nat, k: nat)
    requires start < n && k < n
    ensures KeysFrom(n, start, k + 1) == KeysFrom(n, start, k) + [IndexAt(n, start, k)]
  {
    assert forall j :: 0 <= j < k + 1 ==> KeysFrom(n, start, k + 1)[j] == (KeysFrom(n, start, k) + [IndexAt(n, start, k)])[j];
  }

  /** No key is tried twice within one call. */
  lemma KeysTriedDistinct(n: nat, start: nat, k: nat)
    requires start < n && k <= n
    ensures forall j1, j2 :: 0 <= j1 < j2 < k ==> KeysFrom(n, start, k)[j1] != KeysFrom(n, start, k)[j2]
  {
    forall j1, j2 | 0 <= j1 < j2 < k ensures KeysFrom(n, start, k)[j1] != KeysFrom(n, start, k)[j2] {
      OffsetsDistinct(n, start, j1, j2);
    }
  }

  // -----------------------------------------------------------------------
  // The client

  class GeminiClient {
    var apiKeys: seq<string>
    var currentKeyIndex: nat
    var model: string

    predicate Valid()
      reads this
    {
      apiKeys != [] && currentKeyIndex < |apiKeys|
    }

    constructor Init(model: string, apiKeys: seq<string>, index: nat)
      requires index < |apiKeys|
      ensures Valid()
      ensures this.model == model && this.apiKeys == apiKeys && currentKeyIndex == index
    {
      this.model := model;
      this.apiKeys := apiKeys;
      currentKeyIndex := index;
    }

    /**
     * `GeminiClient::new`: an empty key list is an error; otherwise every
     * key is kept, whether or not it passes the format check, and the first
     * key used is the preferred one when it is in range.
     */
    static method New(model: string, keys: seq<string>, preferred: nat) returns (r: Result<GeminiClient, string>)
      ensures keys == [] <==> r == Err("No API keys provided")
      ensures r.Ok? ==> (fresh(r.value) && r.value.Valid()
        && r.value.apiKeys == keys && r.value.model == model
        && r.value.currentKeyIndex == InitialKeyIndex(|keys|, preferred))
    {
      if keys == [] {
        return Err("No API keys provided");
      }
      var c := new GeminiClient.Init(model, keys, InitialKeyIndex(|keys|, preferred));
      return Ok(c);
    }

    /** `next_key_index`. */
    function NextKeyIndex(): (r: nat)
      reads this
      requires Valid()
      ensures r < |apiKeys| && r == NextIndex(|apiKeys|, currentKeyIndex)
    {
      (currentKeyIndex + 1) % |apiKeys|
    }

    /**
     * `generate_content_with_chat_messages`, given the outcome of each
     * attempt in order: attempt k is sent with key `keysTried[k]`.
     */
    method GenerateContentWithChatMessages(replies: seq<ExecReply>)
      returns (r: Result<AiResponse, string>, attempts: nat, keysTried: seq<nat>)
      requires Valid() && |replies| >= |apiKeys|
      modifies this
      ensures Valid() && apiKeys == old(apiKeys) && model == old(model)
      ensures var run := Rotation(|apiKeys|, old(currentKeyIndex), ChatSteps(replies), 0, ChatExhausted(|apiKeys|));
        r == run.result && attempts == run.attempts && currentKeyIndex == run.finalIndex
      ensures 1 <= attempts <= |apiKeys|
      ensures keysTried == KeysFrom(|apiKeys|, old(currentKeyIndex), attempts)
    {
      var start := currentKeyIndex;
      var n := |apiKeys|;
      ghost var steps := ChatSteps(replies);
      attempts := 0;
      keysTried := [];
      while true
        invariant attempts < n
        invariant apiKeys == old(apiKeys) && model == old(model)
        invariant currentKeyIndex == IndexAt(n, start, attempts)
        invariant Rotation(n, start, steps, 0, ChatExhausted(n)) == Rotation(n, start, steps, attempts, ChatExhausted(n))
        invariant keysTried == KeysFrom(n, start, attempts)
        decreases n - attempts
      {
        ghost var k := attempts;
        KeysFromStep(n, start, k);
        keysTried := keysTried + [currentKeyIndex];
        var outcome := TryChatRequest(replies[attempts]);
        assert steps[k] == ChatStep(replies[k]);
        attempts := attempts + 1;
        match outcome {
          case Ok(response) =>
            assert steps[k] == Succeed(response);
            r := Ok(response);
            return;
          case Err(e) =>
            if IsRateLimited(e) {
              assert steps[k] == Rotate;
              NextIndexStep(n, start, k);
              currentKeyIndex := NextKeyIndex();
              if currentKeyIndex == start {
                r := Err(ChatExhausted(n));
                return;
              }
            } else if IsAuthFailure(e) {
              assert steps[k] == Stop(AuthFailedError);
              r := Err(AuthFailedError);
              return;
            } else {
              assert steps[k] == Stop(e);
              r := Err(e);
              return;
            }
        }
      }
    }

    /**
     * `generate_content_with_request`: the same rotation over raw genai
     * replies, with a shorter exhaustion message and no authentication
     * branch.
     */
    method GenerateContentWithRequest(replies: seq<ExecReply>)
      returns (r: Result<ChatResponse, string>, attempts: nat, keysTried: seq<nat>)
      requires Valid() && |replies| >= |apiKeys|
      modifies this
      ensures Valid() && apiKeys == old(apiKeys) && model == old(model)
      ensures var run := Rotation(|apiKeys|, old(currentKeyIndex), RequestSteps(replies), 0, RequestExhausted(|apiKeys|));
        r == run.result && attempts == run.attempts && currentKeyIndex == run.finalIndex
      ensures 1 <= attempts <= |apiKeys|
      ensures keysTried == KeysFrom(|apiKeys|, old(currentKeyIndex), attempts)
    {
      var start := currentKeyIndex;
      var n := |apiKeys|;
      ghost var steps := RequestSteps(replies);
      attempts := 0;
      keysTried := [];
      while true
        invariant attempts < n
        invariant apiKeys == old(apiKeys) && model == old(model)
        invariant currentKeyIndex == IndexAt(n, start, attempts)
        invariant Rotation(n, start, steps, 0, RequestExhausted(n)) == Rotation(n, start, steps, attempts, RequestExhausted(n))
        invariant keysTried == KeysFrom(n, start, attempts)
        decreases n - attempts
      {
        ghost var k := attempts;
        KeysFromStep(n, start, k);
        keysTried := keysTried + [currentKeyIndex];
        var reply := replies[attempts];
        assert steps[k] == RequestStep(reply);
        attempts := attempts + 1;
        match reply {
          case Responded(response) =>
            r := Ok(response);
            return;
          case ExecFailed(e) =>
            if IsRateLimited(e) {
              NextIndexStep(n, start, k);
              currentKeyIndex := NextKeyIndex();
              if currentKeyIndex == start {
                r := Err(RequestExhausted(n));
                return;
              }
            } else {
              r := Err(WithContext(RequestContext, e));
              return;
            }
        }
      }
    }

    /** `current_api_key_index`. */
    function CurrentApiKeyIndex(): (r: Option<nat>)
      reads this
      requires Valid()
      ensures r.Some? && r.value < |apiKeys|
    {
      Some(currentKeyIndex)
    }
  }
}

=== FILE: Image.dfy ===
// Media types of gia (gia/src/image.rs): the file extension, read as the
// standard library's `Path::extension` reads it and lowercased, picks a MIME
// type from a fixed table that agrees with the list of supported extensions.

module Image {
  import opened Base

  /** gia/src/constants.rs: the supported media extensions, in the order error messages list them. */
  const MediaExtensions: seq<string> := ["jpg", "jpeg", "png", "webp", "heic", "pdf", "ogg", "opus", "mp3", "m4a", "mp4"]

  // -----------------------------------------------------------------------
  // Paths

  /** The index of the last `c` in `s`, if any. */
  function LastIndexOf(s: string, c: char): (r: Option<nat>)
    ensures r.Some? ==> r.value < |s| && s[r.value] == c
    ensures r.Some? ==> forall j :: r.value < j < |s| ==> s[j] != c
    ensures r.None? ==> c !in s
  {
    if s == [] then None
    else if s[|s| - 1] == c then Some(|s| - 1)
    else LastIndexOf(s[..|s| - 1], c)
  }

  /** The text after the last `c` (all of `s` when `c` does not occur). */
  function AfterLast(s: string, c: char): (r: string)
    ensures EndsWith(s, r) && c !in r
  {
    match LastIndexOf(s, c)
    case Some(i) => s[i + 1..]
    case None => s
  }

  /** The pieces of `path` between its '/' separators, empty pieces included. */
  function Segments(path: string): (r: seq<string>)
    ensures |r| >= 1
    ensures forall i :: 0 <= i < |r| ==> '/' !in r[i]
    ensures EndsWith(path, r[|r| - 1])
  {
    match LastIndexOf(path, '/')
    case None => [path]
    case Some(i) =>
      assert path[|path| - |path[i + 1..]|..] == path[i + 1..];
      Segments(path[..i]) + [path[i + 1..]]
  }

  /** A path without a separator is one piece; a path with one is several. */
  lemma SegmentsShape(path: string)
    ensures '/' !in path ==> Segments(path) == [path]
    ensures '/' in path ==> |Segments(path)| > 1
  {
    if '/' in path {
      var i :| 0 <= i < |path| && path[i] == '/';
      assert LastIndexOf(path, '/').Some?;
    }
  }

  /** A component `Path::components` yields as `Normal`: not empty, not "." and not "..". */
  predicate IsNormalComponent(name: string)
  {
    name != [] && name != "." && name != ".." && '/' !in name
  }

  /**
   * The pieces `Path::components` keeps: empty pieces (repeated, leading or
   * trailing separators) and "." pieces are dropped.
   */
  function Kept(segs: seq<string>): (r: seq<string>)
    ensures forall i :: 0 <= i < |r| ==> r[i] in segs && r[i] != [] && r[i] != "."
  {
    if segs == [] then []
    else
      var last := segs[|segs| - 1];
      var rest := Kept(segs[..|segs| - 1]);
      assert forall i :: 0 <= i < |rest| ==> rest[i] in segs;
      if last == [] || last == "." then rest else rest + [last]
  }

  /** The file name a list of kept components ends in. */
  function LastNormal(k: seq<string>): Option<string>
  {
    if k == [] || k[|k| - 1] == ".." then None else Some(k[|k| - 1])
  }

  /**
   * `Path::file_name`: the last component of the path when it is a normal
   * name; none when the path has no component left ("", "/", ".") or ends
   * in "..". Trailing separators and "." components are not components.
   */
  function FileName(path: string): (r: Option<string>)
    ensures r.Some? ==> IsNormalComponent(r.value) && r.value in Segments(path)
  {
    var k := Kept(Segments(path));
    assert k != [] ==> k[|k| - 1] in Segments(path);
    LastNormal(k)
  }

  /** A name after a separator is the last piece of the path. */
  lemma SegmentsAppend(dir: string, name: string)
    requires '/' !in name
    ensures Segments(dir + "/" + name) == Segments(dir) + [name]
  {
    var path := dir + ['/'] + name;
    assert dir + "/" + name == path;
    LastIndexAfter(dir, '/', name);
    assert path[..|dir|] == dir;
    assert path[|dir| + 1..] == name;
  }

  /** Adding one piece at the end: kept unless it is empty or ".". */
  lemma KeptAppend(segs: seq<string>, x: string)
    ensures Kept(segs + [x]) == if x == [] || x == "." then Kept(segs) else Kept(segs) + [x]
  {
    assert (segs + [x])[..|segs|] == segs;
  }

  /** A normal name after a separator is the file name, whatever the directory. */
  lemma FileNameOfChild(dir: string, name: string)
    requires IsNormalComponent(name)
    ensures FileName(dir + "/" + name) == Some(name)
  {
    SegmentsAppend(dir, name);
    KeptAppend(Segments(dir), name);
  }

  /** A plain name, with no separator, is its own file name. */
  lemma FileNameOfPlainName(name: string)
    requires IsNormalComponent(name)
    ensures FileName(name) == Some(name)
  {
    assert Segments(name) == [name];
    KeptAppend([], name);
    assert [] + [name] == [name];
    assert Kept([name]) == [name];
  }

  /** A trailing separator changes nothing: "photo.jpg/" names "photo.jpg". */
  lemma TrailingSlashIgnored(path: string)
    ensures FileName(path + "/") == FileName(path)
  {
    assert path + "/" == path + "/" + [];
    SegmentsAppend(path, []);
    KeptAppend(Segments(path), []);
  }

  /** A trailing "." component changes nothing: "dir/." names "dir". */
  lemma CurrentDirIgnored(path: string)
    ensures FileName(path + "/.") == FileName(path)
  {
    var segs := Segments(path);
    assert path + "/." == path + "/" + ".";
    SegmentsAppend(path, ".");
    KeptAppend(segs, ".");
    assert Kept(Segments(path + "/.")) == Kept(segs);
  }

  /** "", "." and ".." have no file name. */
  lemma NoFileNameOfDots()
    ensures FileName("") == None && FileName(".") == None && FileName("..") == None
  {
    assert LastIndexOf("", '/').None?;
    assert LastIndexOf(".", '/').None?;
    assert LastIndexOf("..", '/').None?;
    KeptAppend([], "");
    KeptAppend([], ".");
    KeptAppend([], "..");
    assert [] + [""] == [""] && [] + ["."] == ["."] && [] + [".."] == [".."];
  }

  /** "/" has no file name. */
  lemma NoFileNameOfRoot()
    ensures FileName("/") == None
  {
    NoFileNameOfDots();
    assert "" + "/" == "/";
    TrailingSlashIgnored("");
  }

  /** A path ending in ".." has no file name. */
  lemma NoFileNameOfParent(dir: string)
    ensures FileName(dir + "/..") == None
  {
    var segs := Segments(dir);
    assert dir + "/.." == dir + "/" + "..";
    SegmentsAppend(dir, "..");
    KeptAppend(segs, "..");
    assert Kept(Segments(dir + "/..")) == Kept(segs) + [".."];
  }

  /**
   * `Path::extension`: the text after the last '.' of the file name, none
   * when the name has no '.' or its only '.' is the first character.
   */
  function Extension(path: string): (r: Option<string>)
  {
    match FileName(path)
    case None => None
    case Some(n) =>
      match LastIndexOf(n, '.')
      case None => None
      case Some(i) => if i == 0 then None else Some(n[i + 1..])
  }

  /**
   * An extension found is a suffix of the file name behind a dot, with no
   * dot or slash of its own.
   */
  lemma ExtensionSpec(path: string)
    ensures var r := Extension(path);
      r.Some? ==> (FileName(path).Some? && EndsWith(FileName(path).value, "." + r.value)
        && '.' !in r.value && '/' !in r.value)
  {
    var r := Extension(path);
    if r.Some? {
      var n := FileName(path).value;
      var i := LastIndexOf(n, '.').value;
      assert r.value == n[i + 1..];
      AfterLastDot(n, i);
    }
  }

  /** The text after the last '.' of a slash-free name ends it behind that dot, without a dot or slash. */
  lemma AfterLastDot(n: string, i: nat)
    requires i < |n| && n[i] == '.' && '/' !in n
    requires forall j :: i < j < |n| ==> n[j] != '.'
    ensures EndsWith(n, "." + n[i + 1..]) && '.' !in n[i + 1..] && '/' !in n[i + 1..]
  {
    assert n[i..] == "." + n[i + 1..];
    assert n[|n| - |"." + n[i + 1..]|..] == n[i..];
  }

  /**
   * A file named `stem.ext`, in any directory, has the extension `ext`
   * whenever the stem is not empty and the name is not "..".
   */
  lemma ExtensionOfName(dir: string, stem: string, ext: string)
    requires stem != [] && '/' !in stem && '/' !in ext && '.' !in ext
    requires stem + "." + ext != ".."
    ensures Extension(dir + "/" + stem + "." + ext) == Some(ext)
  {
    var n := stem + "." + ext;
    assert dir + "/" + stem + "." + ext == dir + "/" + n;
    assert |n| >= 2 && '/' !in n;
    FileNameOfChild(dir, n);
    assert n == stem + ['.'] + ext;
    LastIndexAfter(stem, '.', ext);
    assert n[|stem| + 1..] == ext;
  }

  /** The last `c` of `prefix + [c] + tail`, when `tail` has none, is the one before `tail`. */
  lemma {:induction false} LastIndexAfter(prefix: string, c: char, tail: string)
    requires c !in tail
    ensures LastIndexOf(prefix + [c] + tail, c) == Some(|prefix|)
    decreases |tail|
  {
    var s := prefix + [c] + tail;
    if tail != [] {
      assert s[..|s| - 1] == prefix + [c] + tail[..|tail| - 1];
      LastIndexAfter(prefix, c, tail[..|tail| - 1]);
    }
  }

  // -----------------------------------------------------------------------
  // The MIME table

  /** The MIME type of a lowercased extension, none for an unsupported one. */
  function MimeOf(ext: string): Option<string>
  {
    if ext == "jpg" || ext == "jpeg" then Some("image/jpeg")
    else if ext == "png" then Some("image/png")
    else if ext == "webp" then Some("image/webp")
    else if ext == "heic" then Some("image/heic")
    else if ext == "pdf" then Some("application/pdf")
    else if ext == "ogg" || ext == "opus" then Some("audio/ogg")
    else if ext == "mp3" then Some("audio/mpeg")
    else if ext == "m4a" then Some("audio/mp4")
    else if ext == "mp4" then Some("video/mp4")
    else None
  }

  /** The table and the list of supported extensions agree: an extension has a MIME type exactly when it is listed. */
  lemma TableMatchesList(ext: string)
    ensures MimeOf(ext).Some? <==> ext in MediaExtensions
  {
  }

  function UnsupportedText(ext: string): string
  {
    "Unsupported file format: " + ext + ". Supported formats: " + Join(MediaExtensions, ", ")
  }

  /** `get_mime_type`. */
  function GetMimeType(path: string): Result<string, string>
  {
    match Extension(path)
    case None => Err("File has no extension")
    case Some(e) =>
      var ext := ToLower(e);
      match MimeOf(ext)
      case Some(m) => Ok(m)
      case None => Err(UnsupportedText(ext))
  }

  /**
   * A path has a MIME type exactly when its extension, lowercased, is a
   * supported one; the case of the extension does not matter.
   */
  lemma MimeTypeRule(path: string)
    ensures Extension(path).None? ==> GetMimeType(path) == Err("File has no extension")
    ensures Extension(path).Some? ==>
      (GetMimeType(path).Ok? <==> ToLower(Extension(path).value) in MediaExtensions)
    ensures GetMimeType(path).Ok? ==> GetMimeType(path) == Ok(MimeOf(ToLower(Extension(path).value)).value)
  {
    if Extension(path).Some? {
      TableMatchesList(ToLower(Extension(path).value));
    }
  }

  /** Two paths whose extensions differ only in letter case get the same answer. */
  lemma CaseInsensitive(p: string, q: string)
    requires Extension(p).Some? && Extension(q).Some?
    requires ToLower(Extension(p).value) == ToLower(Extension(q).value)
    ensures GetMimeType(p) == GetMimeType(q)
  {
  }

  /**
   * The MIME type reads the file name only: a trailing separator or "."
   * component leaves it as it was, so "photo.jpg/" is a JPEG image.
   */
  lemma MimeIgnoresTrailingComponents(path: string)
    ensures GetMimeType(path + "/") == GetMimeType(path)
    ensures GetMimeType(path + "/.") == GetMimeType(path)
  {
    TrailingSlashIgnored(path);
    SameFileNameSameMime(path + "/", path);
    CurrentDirIgnored(path);
    SameFileNameSameMime(path + "/.", path);
  }

  /** Paths with the same file name get the same answer. */
  lemma SameFileNameSameMime(p: string, q: string)
    requires FileName(p) == FileName(q)
    ensures GetMimeType(p) == GetMimeType(q)
  {
    assert Extension(p) == Extension(q);
  }

  /** The unsupported-format message names the offending extension and every supported one. */
  lemma UnsupportedListsFormats(ext: string, i: nat)
    requires i < |MediaExtensions|
    ensures Contains(UnsupportedText(ext), ext)
    ensures Contains(UnsupportedText(ext), MediaExtensions[i])
  {
    MessageNames("Unsupported file format: ", ext, ". Supported formats: ", MediaExtensions, i);
  }

  /** A message made of a head, a name, a middle and a joined list contains the name and each item. */
  lemma MessageNames(head: string, name: string, mid: string, items: seq<string>, i: nat)
    requires i < |items|
    ensures Contains(head + name + mid + Join(items, ", "), name)
    ensures Contains(head + name + mid + Join(items, ", "), items[i])
  {
    var list := Join(items, ", ");
    assert StartsWith(name, name);
    assert Contains(name, name);
    assert head + name + mid + list == head + name + (mid + list);
    ContainsEmbedded(head, name, mid + list, name);
    JoinContainsEach(items, ", ", i);
    ContainsEmbedded(head + name + mid, list, [], items[i]);
    assert head + name + mid + list + [] == head + name + mid + list;
  }
}

=== FILE: Input.dfy ===
// Input gathering of gia (gia/src/input.rs): `get_input_text` clears the
// configuration's ordered content and refills it in a fixed order — role and
// task definitions, the prompt, the recorded audio, the clipboard, stdin,
// text files, images — with a default prompt put in front when only audio
// was given.

module Input {
  import opened Base
  import opened Sources
  import Role
  import Provider

  /**
   * What the outside world reports during one call: the home directory and
   * file system (for role files and `-f` files; the map gives a file's text
   * already decoded), the outcome of `record_audio` (the recorded file's
   * path), of `has_clipboard_image` and of `read_clipboard`, and stdin —
   * none when it is a terminal, else the outcome of reading it.
   */
  datatype Environment = Environment(
    home: Option<string>,
    fs: Role.FileSystem,
    audio: Result<string, string>,
    clipboardHasImage: Result<bool, string>,
    clipboardText: Result<string, string>,
    stdin: Option<Result<string, string>>)

  const DefaultAudioPrompt: string := "Your instructions are in prompt.opus"
  const StdinContext: string := "Failed to read from stdin"

  // -----------------------------------------------------------------------
  // The content each stage contributes

  /** Role/task definitions as content, in the order they were loaded. */
  function Definitions(items: seq<Role.RoleItem>): seq<ContentSource>
  {
    if items == [] then []
    else
      var last := items[|items| - 1];
      Definitions(items[..|items| - 1]) + [RoleDefinition(last.name, last.content, last.isTask)]
  }

  /** The text files that read and are not blank, in the order given. */
  function FileBlock(paths: seq<string>, fs: Role.FileSystem): seq<ContentSource>
  {
    if paths == [] then []
    else
      var p := paths[|paths| - 1];
      FileBlock(paths[..|paths| - 1], fs) + FileItem(paths[|paths| - 1], fs)
  }

  /** A `-f` file that reads and is not blank once trimmed. */
  predicate Kept(p: string, fs: Role.FileSystem)
  {
    Role.Readable(fs, p) && Trim(fs[p].value) != []
  }

  /** What one `-f` file contributes: its text, when it is kept. */
  function FileItem(p: string, fs: Role.FileSystem): seq<ContentSource>
  {
    if Kept(p, fs) then [TextFile(p, fs[p].value)] else []
  }

  function ImageBlock(paths: seq<string>): seq<ContentSource>
  {
    if paths == [] then [] else ImageBlock(paths[..|paths| - 1]) + [ImageFile(paths[|paths| - 1])]
  }

  class Config {
    const prompt: string
    const useClipboardInput: bool
    const imageSources: seq<string>
    const textFiles: seq<string>
    const recordAudio: bool
    const roles: seq<string>
    var orderedContent: seq<ContentSource>

    constructor (prompt: string, useClipboardInput: bool, imageSources: seq<string>, textFiles: seq<string>,
                 recordAudio: bool, roles: seq<string>)
      ensures this.prompt == prompt && this.useClipboardInput == useClipboardInput
      ensures this.imageSources == imageSources && this.textFiles == textFiles
      ensures this.recordAudio == recordAudio && this.roles == roles
      ensures orderedContent == []
    {
      this.prompt := prompt;
      this.useClipboardInput := useClipboardInput;
      this.imageSources := imageSources;
      this.textFiles := textFiles;
      this.recordAudio := recordAudio;
      this.roles := roles;
      orderedContent := [];
    }

    /** `prompt_override` when given, else the configured prompt. */
    function PromptToUse(promptOverride: Option<string>): string
    {
      if promptOverride.Some? then promptOverride.value else prompt
    }

    /** Audio was recorded and no prompt was given, so the default audio prompt leads. */
    predicate DefaultPromptUsed(promptOverride: Option<string>, env: Environment)
    {
      recordAudio && env.audio.Ok? && PromptToUse(promptOverride) == []
    }

    function RoleBlock(env: Environment): seq<ContentSource>
    {
      if roles == [] then []
      else
        match Role.AllRoles(roles, env.home, env.fs)
        case Ok(items) => Definitions(items)
        case Err(_) => []
    }

    function PromptBlock(promptOverride: Option<string>): seq<ContentSource>
    {
      if PromptToUse(promptOverride) == [] then [] else [CommandLinePrompt(PromptToUse(promptOverride))]
    }

    function AudioBlock(env: Environment): seq<ContentSource>
    {
      if recordAudio && env.audio.Ok? then [AudioRecording(env.audio.value)] else []
    }

    /** A clipboard image wins over clipboard text; blank text is skipped. */
    function ClipboardBlock(env: Environment): seq<ContentSource>
    {
      if !useClipboardInput then []
      else if env.clipboardHasImage == Ok(true) then [ClipboardImage]
      else if env.clipboardText.Ok? && Trim(env.clipboardText.value) != [] then [ClipboardText(env.clipboardText.value)]
      else []
    }

    /** The content gathered before stdin is read. */
    function Leading(promptOverride: Option<string>, env: Environment): seq<ContentSource>
    {
      (if DefaultPromptUsed(promptOverride, env) then [CommandLinePrompt(DefaultAudioPrompt)] else [])
        + RoleBlock(env) + PromptBlock(promptOverride) + AudioBlock(env) + ClipboardBlock(env)
    }

    /** All the content gathered when stdin does not fail. */
    function Gathered(promptOverride: Option<string>, env: Environment): seq<ContentSource>
    {
      Leading(promptOverride, env) + StdinBlock(env) + FileBlock(textFiles, env.fs) + ImageBlock(imageSources)
    }

    /**
     * `get_input_text`. Failures to load roles, record audio, read the
     * clipboard or read a file only warn; a failure to read stdin ends the
     * call with an error, keeping what was gathered before it.
     */
    method GetInputText(promptOverride: Option<string>, env: Environment) returns (r: Result<(), string>)
      modifies this
      ensures StdinFails(env) ==>
        r == Err(Provider.WithContext(StdinContext, env.stdin.value.error))
          && orderedContent == Leading(promptOverride, env)
      ensures !StdinFails(env) ==> r == Ok(()) && orderedContent == Gathered(promptOverride, env)
    {
      orderedContent := [];
      // 0. role and task definitions
      AddDefinitions(env);
      // 1. the prompt
      var promptToUse := if promptOverride.Some? then promptOverride.value else prompt;
      if promptToUse != [] {
        orderedContent := orderedContent + [CommandLinePrompt(promptToUse)];
      }
      assert promptToUse == PromptToUse(promptOverride);
      ghost var afterPrompt := orderedContent;
      assert afterPrompt == RoleBlock(env) + PromptBlock(promptOverride);
      // 2. audio
      AddAudio(promptToUse, env);
      ghost var first := if DefaultPromptUsed(promptOverride, env) then [CommandLinePrompt(DefaultAudioPrompt)] else [];
      assert orderedContent == first + afterPrompt + AudioBlock(env);
      assert first + afterPrompt == first + RoleBlock(env) + PromptBlock(promptOverride);
      // 3. the clipboard
      AddClipboard(env);
      assert orderedContent == Leading(promptOverride, env);
      // 4. stdin
      if StdinFails(env) {
        return Err(Provider.WithContext(StdinContext, env.stdin.value.error));
      }
      AddStdin(env);
      ghost var lead := orderedContent;
      // 5. text files
      if textFiles != [] {
        AddTextFiles(env.fs);
      } else {
        assert FileBlock(textFiles, env.fs) == [];
      }
      ghost var withFiles := orderedContent;
      assert withFiles == lead + FileBlock(textFiles, env.fs);
      // 6. images
      AddImages();
      assert orderedContent == withFiles + ImageBlock(imageSources);
      return Ok(());
    }

    /** Step 0 of `get_input_text`: the definitions `load_all_roles` finds, when any role is named. */
    method AddDefinitions(env: Environment)
      requires orderedContent == []
      modifies this
      ensures orderedContent == RoleBlock(env)
    {
      if roles != [] {
        var loaded := Role.LoadAllRoles(roles, env.home, env.fs);
        match loaded {
          case Ok(items) =>
            for i := 0 to |items|
              invariant orderedContent == Definitions(items[..i])
            {
              assert items[..i + 1][..i] == items[..i];
              var item := items[i];
              orderedContent := orderedContent + [RoleDefinition(item.name, item.content, item.isTask)];
            }
            assert items[..|items|] == items;
          case Err(_) =>
        }
      }
    }

    /** Step 2 of `get_input_text`: the recording, with the default prompt put first when no prompt was given. */
    method AddAudio(promptToUse: string, env: Environment)
      modifies this
      ensures orderedContent ==
        (if recordAudio && env.audio.Ok? && promptToUse == [] then [CommandLinePrompt(DefaultAudioPrompt)] else [])
          + old(orderedContent) + AudioBlock(env)
    {
      if recordAudio {
        match env.audio {
          case Ok(audioPath) =>
            orderedContent := orderedContent + [AudioRecording(audioPath)];
            if promptToUse == [] {
              orderedContent := [CommandLinePrompt(DefaultAudioPrompt)] + orderedContent;
            }
          case Err(_) =>
        }
      }
    }

    /** Step 4 of `get_input_text` once stdin has been read: its text unless blank. */
    method AddStdin(env: Environment)
      requires !StdinFails(env)
      modifies this
      ensures orderedContent == old(orderedContent) + StdinBlock(env)
    {
      match env.stdin {
        case Some(read) =>
          var text := read.value;
          if Trim(text) != [] {
            orderedContent := orderedContent + [StdinText(text)];
          }
        case None =>
      }
    }

    /** Step 3 of `get_input_text`: a clipboard image, else non-blank clipboard text. */
    method AddClipboard(env: Environment)
      modifies this
      ensures orderedContent == old(orderedContent) + ClipboardBlock(env)
    {
      if useClipboardInput {
        match env.clipboardHasImage {
          case Ok(true) =>
            orderedContent := orderedContent + [ClipboardImage];
          case _ =>
            match env.clipboardText {
              case Ok(text) =>
                if Trim(text) != [] {
                  orderedContent := orderedContent + [ClipboardText(text)];
                }
              case Err(_) =>
            }
        }
      }
    }

    /** Step 5 of `get_input_text`: each `-f` file that reads and is not blank, in order. */
    method AddTextFiles(fs: Role.FileSystem)
      modifies this
      ensures orderedContent == old(orderedContent) + FileBlock(textFiles, fs)
    {
      for i := 0 to |textFiles|
        invariant orderedContent == old(orderedContent) + FileBlock(textFiles[..i], fs)
      {
        assert textFiles[..i + 1][..i] == textFiles[..i];
        var path := textFiles[i];
        ghost var before := orderedContent;
        if Role.Readable(fs, path) {
          var content := fs[path].value;
          if Trim(content) != [] {
            orderedContent := orderedContent + [TextFile(path, content)];
          }
        }
        assert orderedContent == before + FileItem(path, fs);
        assert FileBlock(textFiles[..i + 1], fs) == FileBlock(textFiles[..i], fs) + FileItem(path, fs);
      }
      assert textFiles[..|textFiles|] == textFiles;
    }

    /** Step 6 of `get_input_text`: every `-i` image, in order. */
    method AddImages()
      modifies this
      ensures orderedContent == old(orderedContent) + ImageBlock(imageSources)
    {
      for i := 0 to |imageSources|
        invariant orderedContent == old(orderedContent) + ImageBlock(imageSources[..i])
      {
        assert imageSources[..i + 1][..i] == imageSources[..i];
        orderedContent := orderedContent + [ImageFile(imageSources[i])];
      }
      assert imageSources[..|imageSources|] == imageSources;
    }
  }

  predicate StdinFails(env: Environment)
  {
    env.stdin.Some? && env.stdin.value.Err?
  }

  function StdinBlock(env: Environment): seq<ContentSource>
  {
    if env.stdin.Some? && env.stdin.value.Ok? && Trim(env.stdin.value.value) != [] then [StdinText(env.stdin.value.value)]
    else []
  }


  // -----------------------------------------------------------------------
  // Properties of the gathered content

  /** The stage of `get_input_text` that contributes a kind of content. */
  function Rank(s: ContentSource): nat
  {
    match s
    case RoleDefinition(_, _, _) => 0
    case CommandLinePrompt(_) => 1
    case AudioRecording(_) => 2
    case ClipboardImage => 3
    case ClipboardText(_) => 3
    case StdinText(_) => 4
    case TextFile(_, _) => 5
    case ImageFile(_) => 6
  }

  predicate AllRank(s: seq<ContentSource>, k: nat)
  {
    forall x :: x in s ==> Rank(x) == k
  }

  predicate AtMost(s: seq<ContentSource>, k: nat)
  {
    forall x :: x in s ==> Rank(x) <= k
  }

  /** Content in stage order. */
  predicate Ranked(s: seq<ContentSource>)
  {
    forall i, j :: 0 <= i < j < |s| ==> Rank(s[i]) <= Rank(s[j])
  }

  lemma RankedAppend(a: seq<ContentSource>, b: seq<ContentSource>, k: nat)
    requires Ranked(a) && AtMost(a, k) && AllRank(b, k)
    ensures Ranked(a + b) && AtMost(a + b, k)
  {
    forall i, j | 0 <= i < j < |a + b|
      ensures Rank((a + b)[i]) <= Rank((a + b)[j])
    {
      if j < |a| {
        assert (a + b)[i] == a[i] && (a + b)[j] == a[j];
      } else if i < |a| {
        assert (a + b)[i] == a[i] && a[i] in a;
        assert (a + b)[j] == b[j - |a|] && b[j - |a|] in b;
      } else {
        assert (a + b)[i] == b[i - |a|] && b[i - |a|] in b;
        assert (a + b)[j] == b[j - |a|] && b[j - |a|] in b;
      }
    }
  }

  lemma DefinitionsRank(items: seq<Role.RoleItem>)
    ensures AllRank(Definitions(items), 0)
  {
  }

  lemma FileBlockRank(paths: seq<string>, fs: Role.FileSystem)
    ensures AllRank(FileBlock(paths, fs), 5)
  {
  }

  lemma ImageBlockRank(paths: seq<string>)
    ensures AllRank(ImageBlock(paths), 6)
  {
  }

  /** Each stage contributes only its own kind of content. */
  lemma BlockRanks(c: Config, o: Option<string>, env: Environment)
    ensures AllRank(c.RoleBlock(env), 0) && AllRank(c.PromptBlock(o), 1) && AllRank(c.AudioBlock(env), 2)
    ensures AllRank(c.ClipboardBlock(env), 3) && AllRank(StdinBlock(env), 4)
    ensures AllRank(FileBlock(c.textFiles, env.fs), 5) && AllRank(ImageBlock(c.imageSources), 6)
  {
    if c.roles != [] && Role.AllRoles(c.roles, env.home, env.fs).Ok? {
      DefinitionsRank(Role.AllRoles(c.roles, env.home, env.fs).value);
    }
    FileBlockRank(c.textFiles, env.fs);
    ImageBlockRank(c.imageSources);
  }

  /** The content of every stage, first to last. */
  function Stages(c: Config, o: Option<string>, env: Environment): seq<ContentSource>
  {
    c.RoleBlock(env) + c.PromptBlock(o) + c.AudioBlock(env) + c.ClipboardBlock(env)
      + StdinBlock(env) + FileBlock(c.textFiles, env.fs) + ImageBlock(c.imageSources)
  }

  /**
   * The gathered content follows the stages in order — definitions, prompt,
   * audio, clipboard, stdin, files, images — except that the default audio
   * prompt, when used, comes first of all, ahead of any definition.
   */
  lemma {:induction false} GatheredInOrder(c: Config, o: Option<string>, env: Environment)
    ensures c.DefaultPromptUsed(o, env) ==>
      c.Gathered(o, env) == [CommandLinePrompt(DefaultAudioPrompt)] + Stages(c, o, env)
    ensures !c.DefaultPromptUsed(o, env) ==> c.Gathered(o, env) == Stages(c, o, env)
    ensures Ranked(Stages(c, o, env))
  {
    var R, P, A, C := c.RoleBlock(env), c.PromptBlock(o), c.AudioBlock(env), c.ClipboardBlock(env);
    var S, F, I := StdinBlock(env), FileBlock(c.textFiles, env.fs), ImageBlock(c.imageSources);
    var D := if c.DefaultPromptUsed(o, env) then [CommandLinePrompt(DefaultAudioPrompt)] else [];
    AppendAssoc(D, R, P);
    AppendAssoc(D, R + P, A);
    AppendAssoc(D, R + P + A, C);
    AppendAssoc(D, R + P + A + C, S);
    AppendAssoc(D, R + P + A + C + S, F);
    AppendAssoc(D, R + P + A + C + S + F, I);
    assert c.Gathered(o, env) == D + (R + P + A + C + S + F + I);
    BlockRanks(c, o, env);
    RankedAppend(R, P, 1);
    RankedAppend(R + P, A, 2);
    RankedAppend(R + P + A, C, 3);
    RankedAppend(R + P + A + C, S, 4);
    RankedAppend(R + P + A + C + S, F, 5);
    RankedAppend(R + P + A + C + S + F, I, 6);
  }

  /** Where an item of the gathered content comes from: the default prompt or one of the stages. */
  lemma {:induction false} GatheredMembers(c: Config, o: Option<string>, env: Environment, x: ContentSource)
    requires x in c.Gathered(o, env)
    ensures (c.DefaultPromptUsed(o, env) && x == CommandLinePrompt(DefaultAudioPrompt))
      || x in c.RoleBlock(env) || x in c.PromptBlock(o) || x in c.AudioBlock(env) || x in c.ClipboardBlock(env)
      || x in StdinBlock(env) || x in FileBlock(c.textFiles, env.fs) || x in ImageBlock(c.imageSources)
  {
    GatheredInOrder(c, o, env);
  }

  /**
   * The prompt: `prompt_override` wins over the configured prompt, and the
   * only prompts gathered are the one used (when not empty) and the default
   * audio prompt (when audio stands in for it).
   */
  lemma {:induction false} PromptRule(c: Config, o: Option<string>, env: Environment)
    ensures o.Some? ==> c.PromptToUse(o) == o.value
    ensures c.PromptToUse(o) != [] ==> CommandLinePrompt(c.PromptToUse(o)) in c.Gathered(o, env)
    ensures forall x :: x in c.Gathered(o, env) && x.CommandLinePrompt? ==>
      x.prompt == c.PromptToUse(o) || (c.DefaultPromptUsed(o, env) && x.prompt == DefaultAudioPrompt)
  {
    GatheredInOrder(c, o, env);
    BlockRanks(c, o, env);
    forall x | x in c.Gathered(o, env) && x.CommandLinePrompt?
      ensures x.prompt == c.PromptToUse(o) || (c.DefaultPromptUsed(o, env) && x.prompt == DefaultAudioPrompt)
    {
      GatheredMembers(c, o, env, x);
    }
  }

  /** A failed role load only warns: no definition is gathered. */
  lemma {:induction false} RoleFailureAddsNothing(c: Config, o: Option<string>, env: Environment)
    requires Role.AllRoles(c.roles, env.home, env.fs).Err?
    ensures forall x :: x in c.Gathered(o, env) ==> !x.RoleDefinition?
  {
    assert c.RoleBlock(env) == [];
    NoRoleBlockNoDefinition(c, o, env);
    NoDefinitionOutsideStageZero(c.Gathered(o, env));
  }

  lemma {:induction false} NoRoleBlockNoDefinition(c: Config, o: Option<string>, env: Environment)
    requires c.RoleBlock(env) == []
    ensures NoneOfRank(c.Gathered(o, env), 0)
  {
    var R, P, A, C := c.RoleBlock(env), c.PromptBlock(o), c.AudioBlock(env), c.ClipboardBlock(env);
    var S, F, I := StdinBlock(env), FileBlock(c.textFiles, env.fs), ImageBlock(c.imageSources);
    var D := if c.DefaultPromptUsed(o, env) then [CommandLinePrompt(DefaultAudioPrompt)] else [];
    assert c.Gathered(o, env) == D + R + P + A + C + S + F + I;
    BlockRanks(c, o, env);
    assert NoneOfRank(D, 0) && NoneOfRank(P, 0) && NoneOfRank(A, 0) && NoneOfRank(C, 0);
    assert NoneOfRank(S, 0) && NoneOfRank(F, 0) && NoneOfRank(I, 0);
    NoneOfRankInAll(D, R, P, A, C, S, F, I, 0);
  }

  lemma NoneOfRankInAll(D: seq<ContentSource>, R: seq<ContentSource>, P: seq<ContentSource>, A: seq<ContentSource>,
                        C: seq<ContentSource>, S: seq<ContentSource>, F: seq<ContentSource>, I: seq<ContentSource>, k: nat)
    requires NoneOfRank(D, k) && NoneOfRank(R, k) && NoneOfRank(P, k) && NoneOfRank(A, k)
    requires NoneOfRank(C, k) && NoneOfRank(S, k) && NoneOfRank(F, k) && NoneOfRank(I, k)
    ensures NoneOfRank(D + R + P + A + C + S + F + I, k)
  {
    NoneOfRankAppend(D, R, k);
    NoneOfRankAppend(D + R, P, k);
    NoneOfRankAppend(D + R + P, A, k);
    NoneOfRankAppend(D + R + P + A, C, k);
    NoneOfRankAppend(D + R + P + A + C, S, k);
    NoneOfRankAppend(D + R + P + A + C + S, F, k);
    NoneOfRankAppend(D + R + P + A + C + S + F, I, k);
  }

  /** No content of stage `k`. */
  predicate NoneOfRank(s: seq<ContentSource>, k: nat)
  {
    forall x :: x in s ==> Rank(x) != k
  }

  lemma NoDefinitionOutsideStageZero(s: seq<ContentSource>)
    requires NoneOfRank(s, 0)
    ensures forall x :: x in s ==> !x.RoleDefinition?
  {
    forall x | x in s
      ensures !x.RoleDefinition?
    {
      assert Rank(x) != 0;
    }
  }

  lemma NoneOfRankAppend(a: seq<ContentSource>, b: seq<ContentSource>, k: nat)
    requires NoneOfRank(a, k) && NoneOfRank(b, k)
    ensures NoneOfRank(a + b, k)
  {
  }

  /** A failed recording only warns: neither audio nor the default prompt is gathered. */
  lemma {:induction false} AudioFailureAddsNothing(c: Config, o: Option<string>, env: Environment)
    requires env.audio.Err?
    ensures !c.DefaultPromptUsed(o, env)
    ensures forall x :: x in c.Gathered(o, env) ==> !x.AudioRecording?
  {
    BlockRanks(c, o, env);
    assert c.AudioBlock(env) == [];
    forall x | x in c.Gathered(o, env)
      ensures !x.AudioRecording?
    {
      GatheredMembers(c, o, env, x);
    }
  }

  /** Text that survives `trim().is_empty()`. */
  predicate NotBlank(x: ContentSource)
  {
    match x
    case ClipboardText(t) => Trim(t) != []
    case StdinText(t) => Trim(t) != []
    case TextFile(_, t) => Trim(t) != []
    case _ => true
  }

  lemma FileBlockNotBlank(paths: seq<string>, fs: Role.FileSystem)
    ensures forall x :: x in FileBlock(paths, fs) ==> NotBlank(x)
  {
  }

  /**
   * The clipboard: nothing unless asked for; an image is preferred to text;
   * and no clipboard, stdin or file text gathered is blank.
   */
  lemma {:induction false} ClipboardAndBlankRule(c: Config, o: Option<string>, env: Environment)
    ensures !c.useClipboardInput ==>
      forall x :: x in c.Gathered(o, env) ==> !x.ClipboardImage? && !x.ClipboardText?
    ensures c.useClipboardInput && env.clipboardHasImage == Ok(true) ==>
      ClipboardImage in c.Gathered(o, env) && forall x :: x in c.Gathered(o, env) ==> !x.ClipboardText?
    ensures forall x :: x in c.Gathered(o, env) ==> NotBlank(x)
  {
    GatheredInOrder(c, o, env);
    BlockRanks(c, o, env);
    FileBlockNotBlank(c.textFiles, env.fs);
    forall x | x in c.Gathered(o, env)
      ensures !c.useClipboardInput ==> !x.ClipboardImage? && !x.ClipboardText?
      ensures c.useClipboardInput && env.clipboardHasImage == Ok(true) ==> !x.ClipboardText?
      ensures NotBlank(x)
    {
      GatheredMembers(c, o, env, x);
    }
  }

  /** Files are read one by one: the files of `a + b` contribute those of `a`, then those of `b`. */
  lemma {:induction false} FileBlockConcat(a: seq<string>, b: seq<string>, fs: Role.FileSystem)
    ensures FileBlock(a + b, fs) == FileBlock(a, fs) + FileBlock(b, fs)
    decreases |b|
  {
    if b == [] {
      assert a + b == a;
    } else {
      assert (a + b)[..|a + b| - 1] == a + b[..|b| - 1];
      FileBlockConcat(a, b[..|b| - 1], fs);
    }
  }

  /** The file content gathered is exactly each readable, non-blank `-f` file, with its text. */
  lemma {:induction false} FileBlockMembers(paths: seq<string>, fs: Role.FileSystem, x: ContentSource)
    ensures x in FileBlock(paths, fs) <==>
      (x.TextFile? && x.filePath in paths && Role.Readable(fs, x.filePath)
        && x.content == fs[x.filePath].value && Trim(x.content) != [])
    decreases |paths|
  {
    if paths != [] {
      var init := paths[..|paths| - 1];
      FileBlockMembers(init, fs, x);
      assert x.TextFile? && x.filePath in paths ==> x.filePath in init || x.filePath == paths[|paths| - 1];
    }
  }

  /** With only a prompt and `-f` files, the prompt comes first, then the files' content. */
  lemma PromptThenFiles(c: Config, env: Environment)
    requires c.prompt != []
    requires c.roles == [] && !c.recordAudio && !c.useClipboardInput && c.imageSources == []
    requires env.stdin.None?
    ensures c.Gathered(None, env) == [CommandLinePrompt(c.prompt)] + FileBlock(c.textFiles, env.fs)
  {
    assert c.Leading(None, env) == [CommandLinePrompt(c.prompt)];
    assert StdinBlock(env) == [] && ImageBlock(c.imageSources) == [];
  }

  /**
   * A prompt and two non-blank files, nothing else: exactly three items, the
   * prompt first, then the files in the order given.
   */
  lemma PromptAndTwoFiles(c: Config, env: Environment, f1: string, f2: string)
    requires c.prompt != [] && c.textFiles == [f1, f2]
    requires c.roles == [] && !c.recordAudio && !c.useClipboardInput && c.imageSources == []
    requires env.stdin.None?
    requires Kept(f1, env.fs) && Kept(f2, env.fs)
    ensures c.Gathered(None, env) ==
      [CommandLinePrompt(c.prompt), TextFile(f1, env.fs[f1].value), TextFile(f2, env.fs[f2].value)]
  {
    PromptThenFiles(c, env);
    TwoFiles(f1, f2, env.fs);
    KeptItem(f1, env.fs);
    KeptItem(f2, env.fs);
    ThreeItems(c.Gathered(None, env), FileBlock(c.textFiles, env.fs), CommandLinePrompt(c.prompt),
      TextFile(f1, env.fs[f1].value), TextFile(f2, env.fs[f2].value));
  }

  lemma ThreeItems(g: seq<ContentSource>, files: seq<ContentSource>, x: ContentSource, y: ContentSource, z: ContentSource)
    requires g == [x] + files && files == [y] + [z]
    ensures g == [x, y, z]
  {
  }

  lemma KeptItem(p: string, fs: Role.FileSystem)
    requires Kept(p, fs)
    ensures FileItem(p, fs) == [TextFile(p, fs[p].value)]
  {
  }

  /** Two `-f` files contribute what the first contributes, then what the second does. */
  lemma TwoFiles(f1: string, f2: string, fs: Role.FileSystem)
    ensures FileBlock([f1, f2], fs) == FileItem(f1, fs) + FileItem(f2, fs)
  {
    assert [f1][..0] == [];
    assert FileBlock([f1], fs) == [] + FileItem(f1, fs);
    assert [f1, f2][..1] == [f1];
  }
}

=== FILE: Json.dfy ===
// JSON values as serde_json represents them, with integer numbers only.

module Json {
  import opened Base

  datatype Json =
    | Null
    | Bool(b: bool)
    | Number(n: int)
    | Str(s: string)
    | Array(items: seq<Json>)
    | Object(members: map<string, Json>)

  /** `value.get(key)`: the member of an object, absent otherwise. */
  function Get(j: Json, key: string): (r: Option<Json>)
    ensures r.Some? <==> j.Object? && key in j.members
  {
    if j.Object? && key in j.members then Some(j.members[key]) else None
  }

  /** `value[key]`: like `Get`, but a missing member reads as `Null`. */
  function Index(j: Json, key: string): (r: Json)
    ensures Get(j, key).Some? ==> r == Get(j, key).value
    ensures Get(j, key).None? ==> r == Null
  {
    match Get(j, key)
    case Some(v) => v
    case None => Null
  }

  /** `value.get(key).and_then(|v| v.as_str())`. */
  function GetStr(j: Json, key: string): (r: Option<string>)
    ensures r.Some? <==> Get(j, key).Some? && Get(j, key).value.Str?
  {
    match Get(j, key)
    case Some(Str(s)) => Some(s)
    case _ => None
  }

  function Obj2(k1: string, v1: Json, k2: string, v2: Json): Json
  {
    Object(map[k1 := v1, k2 := v2])
  }
}

=== FILE: Launcher.dfy ===
// The launcher window of gia (giagui/src/main.rs): the form the user fills
// in, the argument list a send hands to the `gia` process, the state a send
// and "clear" leave behind, dropped files turned into option lines, and the
// role and task names read from the `.md` files of a directory.

module Launcher {
  import opened Base

  const DefaultModel: string := "gemini-2.5-flash-lite"
  const DefaultTtsLanguage: string := "de-DE"

  /** The fields of the window that decide what a send passes to `gia`. */
  datatype Form = Form(useClipboard: bool, browserOutput: bool, resume: bool, model: string, task: string,
                       role: string, ttsEnabled: bool, ttsLanguage: string, options: string, prompt: string)

  // -----------------------------------------------------------------------
  // The argument list

  /** The switches, in their fixed order. */
  function FlagArgs(withAudio: bool, f: Form): seq<string>
  {
    (if withAudio then ["--record-audio"] else [])
      + (if f.useClipboard then ["-c"] else [])
      + (if f.browserOutput then ["--browser-output"] else [])
      + (if f.resume then ["-R"] else [])
  }

  /** The model, then the task and the role when one is selected, then the speech language when speech is on. */
  function SelectionArgs(f: Form): seq<string>
  {
    ["--model", f.model]
      + (if f.task != [] then ["-t", f.task] else [])
      + (if f.role != [] then ["--role", f.role] else [])
      + (if f.ttsEnabled then ["--tts=" + f.ttsLanguage] else [])
  }

  /** What one line of the options field contributes: the line trimmed, unless it is blank. */
  function OptionArg(line: string): seq<string>
  {
    if Trim(line) != [] then [Trim(line)] else []
  }

  /** What `f` yields for the first `n` lines, in order. */
  function Collect(lines: seq<string>, n: nat, f: string -> seq<string>): seq<string>
    requires n <= |lines|
  {
    if n == 0 then [] else Collect(lines, n - 1, f) + f(lines[n - 1])
  }

  function OptionArgs(options: string): seq<string>
  {
    Collect(Lines(options), |Lines(options)|, OptionArg)
  }

  function PromptArg(prompt: string): seq<string>
  {
    if prompt != [] then [prompt] else []
  }

  /** The arguments of one send: switches, selections, option lines, and the prompt last. */
  function GiaArgs(f: Form, withAudio: bool): seq<string>
  {
    FlagArgs(withAudio, f) + SelectionArgs(f) + OptionArgs(f.options) + PromptArg(f.prompt)
  }

  /** What a send leaves selected: no task, no role, no clipboard input, and resuming on. */
  function AfterSend(f: Form): Form
  {
    f.(task := [], role := [], useClipboard := false, resume := true)
  }

  /** What "clear" leaves: no prompt, no options, and the three switches off. */
  function Cleared(f: Form): Form
  {
    f.(prompt := [], options := [], useClipboard := false, browserOutput := false, resume := false)
  }

  /** The completion notice is shown for a recording whose answer goes to the clipboard. */
  predicate Notifies(withAudio: bool, args: seq<string>)
  {
    withAudio && ("-o" in args || "--output" in args)
  }

  /** The options field after one dropped file: "-f<path>" on a line of its own. */
  function Dropped(options: string, path: string): string
  {
    (if options != [] && !EndsWith(options, "\n") then options + "\n" else options) + ("-f" + path)
  }

  /** The options field after the first `n` dropped files; a path that is not valid text is skipped. */
  function DroppedUpTo(options: string, paths: seq<Option<string>>, n: nat): string
    requires n <= |paths|
  {
    if n == 0 then options
    else
      match paths[n - 1]
      case Some(p) => Dropped(DroppedUpTo(options, paths, n - 1), p)
      case None => DroppedUpTo(options, paths, n - 1)
  }

  /** The loop over the option lines: each line trimmed, blank lines dropped, order kept. */
  method TrimmedLines(lines: seq<string>) returns (r: seq<string>)
    ensures r == Collect(lines, |lines|, OptionArg)
  {
    r := [];
    for i := 0 to |lines|
      invariant r == Collect(lines, i, OptionArg)
    {
      var trimmed := Trim(lines[i]);
      if trimmed != [] {
        r := r + [trimmed];
      }
    }
  }

  // -----------------------------------------------------------------------
  // The window

  class GiaApp {
    var prompt: string
    var options: string
    var useClipboard: bool
    var browserOutput: bool
    var resume: bool
    var response: string
    var model: string
    var task: string
    var role: string
    var tasks: seq<string>
    var roles: seq<string>
    var isExecuting: bool
    var ttsEnabled: bool
    var ttsLanguage: string

    function CurrentForm(): Form
      reads this
    {
      Form(useClipboard, browserOutput, resume, model, task, role, ttsEnabled, ttsLanguage, options, prompt)
    }

    /** The window as it opens: empty fields, the default model, and the names found in the two directories. */
    constructor(tasks: seq<string>, roles: seq<string>)
      ensures CurrentForm() == Form(false, false, false, DefaultModel, [], [], false, DefaultTtsLanguage, [], [])
      ensures response == [] && !isExecuting
      ensures this.tasks == tasks && this.roles == roles
    {
      prompt := [];
      options := [];
      useClipboard := false;
      browserOutput := false;
      resume := false;
      response := [];
      model := DefaultModel;
      task := [];
      role := [];
      this.tasks := tasks;
      this.roles := roles;
      isExecuting := false;
      ttsEnabled := false;
      ttsLanguage := DefaultTtsLanguage;
    }

    /**
     * `execute_gia`: the arguments for the `gia` process, whether the
     * completion notice is due, and the selections reset for the next send.
     */
    method ExecuteGia(withAudio: bool) returns (args: seq<string>, notify: bool)
      modifies this
      ensures args == GiaArgs(old(CurrentForm()), withAudio)
      ensures CurrentForm() == AfterSend(old(CurrentForm()))
      ensures isExecuting
      ensures notify == Notifies(withAudio, args)
      ensures response == old(response) && tasks == old(tasks) && roles == old(roles)
    {
      args := PushFlags(withAudio);
      args := PushSelections(args);
      args := PushOptionLines(args);
      if prompt != [] {
        args := args + [prompt];
      }

      task := [];
      role := [];
      useClipboard := false;
      resume := true;
      isExecuting := true;

      notify := withAudio && ("-o" in args || "--output" in args);
    }

    /** The switches of `execute_gia`, pushed in their order. */
    method PushFlags(withAudio: bool) returns (args: seq<string>)
      ensures args == FlagArgs(withAudio, CurrentForm())
    {
      args := [];
      if withAudio {
        args := args + ["--record-audio"];
      }
      if useClipboard {
        args := args + ["-c"];
      }
      if browserOutput {
        args := args + ["--browser-output"];
      }
      if resume {
        args := args + ["-R"];
      }
    }

    /** The model, task, role and speech arguments of `execute_gia`. */
    method PushSelections(head: seq<string>) returns (args: seq<string>)
      ensures args == head + SelectionArgs(CurrentForm())
    {
      args := head + ["--model", model];
      if task != [] {
        args := args + ["-t", task];
      }
      if role != [] {
        args := args + ["--role", role];
      }
      if ttsEnabled {
        args := args + ["--tts=" + ttsLanguage];
      }
    }

    /** The option lines of `execute_gia`: each line trimmed, blank lines dropped. */
    method PushOptionLines(head: seq<string>) returns (args: seq<string>)
      ensures args == head + OptionArgs(options)
    {
      var extra := TrimmedLines(Lines(options));
      args := head + extra;
    }

    /** `clear_form`: the prompt, the options and the answer go; model, task, role and speech settings stay. */
    method ClearForm()
      modifies this
      ensures CurrentForm() == Cleared(old(CurrentForm()))
      ensures response == []
      ensures isExecuting == old(isExecuting) && tasks == old(tasks) && roles == old(roles)
    {
      prompt := [];
      options := [];
      response := [];
      useClipboard := false;
      browserOutput := false;
      resume := false;
    }

    /** Files dropped on the window, in the order dropped; `None` is a path that is not valid text. */
    method DropFiles(paths: seq<Option<string>>)
      modifies this
      ensures options == DroppedUpTo(old(options), paths, |paths|)
      ensures CurrentForm() == old(CurrentForm()).(options := options)
      ensures response == old(response) && isExecuting == old(isExecuting)
      ensures tasks == old(tasks) && roles == old(roles)
    {
      for i := 0 to |paths|
        invariant options == DroppedUpTo(old(options), paths, i)
        invariant CurrentForm() == old(CurrentForm()).(options := options)
        invariant response == old(response) && isExecuting == old(isExecuting)
        invariant tasks == old(tasks) && roles == old(roles)
      {
        match paths[i] {
          case Some(pathStr) =>
            var optionLine := "-f" + pathStr;
            if options != [] && !EndsWith(options, "\n") {
              options := options + "\n";
            }
            options := options + optionLine;
          case None =>
        }
      }
    }
  }

  // -----------------------------------------------------------------------
  // Properties of a send

  /** However many switches are on, "--model" and the model follow them directly. */
  lemma ModelAfterFlags(f: Form, withAudio: bool)
    ensures |FlagArgs(withAudio, f)| <= 4
    ensures GiaArgs(f, withAudio)[|FlagArgs(withAudio, f)|] == "--model"
    ensures GiaArgs(f, withAudio)[|FlagArgs(withAudio, f)| + 1] == f.model
  {
    var k := |FlagArgs(withAudio, f)|;
    var a := GiaArgs(f, withAudio);
    assert a == FlagArgs(withAudio, f) + (SelectionArgs(f) + OptionArgs(f.options) + PromptArg(f.prompt));
  }

  /** The prompt is the last argument, and an empty prompt adds nothing. */
  lemma PromptLast(f: Form, withAudio: bool)
    ensures f.prompt != [] ==> GiaArgs(f, withAudio)[|GiaArgs(f, withAudio)| - 1] == f.prompt
    ensures GiaArgs(f, withAudio) == GiaArgs(f.(prompt := []), withAudio) + PromptArg(f.prompt)
  {
    var g := f.(prompt := []);
    var a := FlagArgs(withAudio, f) + SelectionArgs(f) + OptionArgs(f.options);
    assert FlagArgs(withAudio, g) == FlagArgs(withAudio, f) && SelectionArgs(g) == SelectionArgs(f);
    assert GiaArgs(g, withAudio) == a + [];
    assert a + [] == a;
  }

  /** A string is collected exactly when some line yields it. */
  lemma {:induction false} CollectMembers(lines: seq<string>, n: nat, f: string -> seq<string>, x: string)
    requires n <= |lines|
    ensures x in Collect(lines, n, f) <==> exists i :: 0 <= i < n && x in f(lines[i])
    decreases n
  {
    if n > 0 {
      CollectMembers(lines, n - 1, f, x);
    }
  }

  /** An argument comes from the option lines exactly when some line trims to that argument. */
  lemma OptionArgsMembers(lines: seq<string>, x: string)
    ensures x in Collect(lines, |lines|, OptionArg) <==> x != [] && exists i :: 0 <= i < |lines| && Trim(lines[i]) == x
  {
    CollectMembers(lines, |lines|, OptionArg, x);
    forall i | 0 <= i < |lines|
      ensures x in OptionArg(lines[i]) <==> x != [] && Trim(lines[i]) == x
    {
      OptionArgMember(lines[i], x);
    }
  }

  lemma OptionArgMember(line: string, x: string)
    ensures x in OptionArg(line) <==> x != [] && Trim(line) == x
  {
  }

  /** A send that follows another resumes the conversation and passes no clipboard, task or role. */
  lemma NextSendResumes(f: Form, withAudio: bool)
    ensures FlagArgs(withAudio, AfterSend(f)) == (if withAudio then ["--record-audio"] else [])
      + (if f.browserOutput then ["--browser-output"] else []) + ["-R"]
    ensures SelectionArgs(AfterSend(f)) == ["--model", f.model] + (if f.ttsEnabled then ["--tts=" + f.ttsLanguage] else [])
  {
  }

  /** After "clear" a send passes only the recording switch and the kept selections. */
  lemma ClearedArgs(f: Form, withAudio: bool)
    ensures GiaArgs(Cleared(f), withAudio) == (if withAudio then ["--record-audio"] else []) + SelectionArgs(f)
  {
    var g := Cleared(f);
    assert Lines([]) == [];
    assert GiaArgs(g, withAudio) == FlagArgs(withAudio, g) + SelectionArgs(g) + [] + [];
  }

  /** An option line "-o" makes a recording's send show the completion notice. */
  lemma OutputOptionNotifies(f: Form, i: nat)
    requires i < |Lines(f.options)| && Trim(Lines(f.options)[i]) == "-o"
    ensures Notifies(true, GiaArgs(f, true))
  {
    OptionArgsMembers(Lines(f.options), "-o");
    assert "-o" in OptionArgs(f.options);
  }

  // -----------------------------------------------------------------------
  // Dropped files

  /** Where `from` is before the first newline of `a`, searching `a + b` finds that newline. */
  lemma {:induction false} FindInPrefix(a: string, b: string, from: nat)
    requires from <= |a| && FindFrom(a, "\n", from).Some?
    ensures FindFrom(a + b, "\n", from) == FindFrom(a, "\n", from)
    decreases |a| - from
  {
    assert (a + b)[from..from + 1] == a[from..from + 1] by {
      assert from < |a|;
    }
    if !OccursAt(a, "\n", from) {
      FindInPrefix(a, b, from + 1);
    }
  }

  /** A text without a newline is a single line. */
  lemma {:induction false} NoNewlineFromHere(x: string, from: nat)
    requires from <= |x| && '\n' !in x
    ensures FindFrom(x, "\n", from).None?
    decreases |x| - from
  {
    if from < |x| {
      assert x[from] in x;
      assert x[from..from + 1] != "\n";
      NoNewlineFromHere(x, from + 1);
    }
  }

  /** Appending a newline-free text to a text that is empty or ends in a newline adds it as the last line. */
  lemma {:induction false} LinesAppendLine(o: string, x: string)
    requires o == [] || o[|o| - 1] == '\n'
    requires x != [] && '\n' !in x
    ensures Lines(o + x) == Lines(o) + [StripCr(x)]
    decreases |o|
  {
    if o == [] {
      assert o + x == x;
      NoNewlineFromHere(x, 0);
      assert Lines(x) == [StripCr(x)];
    } else {
      var j := FirstNewline(o);
      FindInPrefix(o, x, 0);
      var rest := o[j + 1..];
      SplitAppended(o, x, j);
      LinesAppendLine(rest, x);
      LinesAt(o + x, j);
      LinesAt(o, j);
      AppendAssoc([StripCr(o[..j])], Lines(rest), [StripCr(x)]);
    }
  }

  /** A text ending in a newline has a first newline, before its end. */
  lemma FirstNewline(o: string) returns (j: nat)
    requires o != [] && o[|o| - 1] == '\n'
    ensures FindFrom(o, "\n", 0) == Some(j) && j < |o|
  {
    assert OccursAt(o, "\n", |o| - 1) by {
      assert o[|o| - 1..|o|] == [o[|o| - 1]];
    }
    j := FindFrom(o, "\n", 0).value;
  }

  /** The pieces around position `j` of `o + x`, where `o` ends in a newline. */
  lemma SplitAppended(o: string, x: string, j: nat)
    requires j < |o| && o[|o| - 1] == '\n'
    ensures (o + x)[..j] == o[..j] && (o + x)[j + 1..] == o[j + 1..] + x
    ensures o[j + 1..] == [] || o[j + 1..][|o[j + 1..]| - 1] == '\n'
  {
  }

  /** `Lines` at the first newline `j`: the line before it, then the lines after it. */
  lemma LinesAt(s: string, j: nat)
    requires FindFrom(s, "\n", 0) == Some(j)
    ensures Lines(s) == [StripCr(s[..j])] + Lines(s[j + 1..])
  {
  }

  /** A newline after a last line that lacks one does not start a new line. */
  lemma {:induction false} LinesTrailingNewline(o: string)
    requires o != [] && o[|o| - 1] != '\n'
    ensures Lines(o + "\n") == Lines(o)
    decreases |o|
  {
    var s := o + "\n";
    match FindFrom(o, "\n", 0) {
      case None =>
        assert OccursAt(s, "\n", |o|);
        forall k | 0 <= k < |o|
          ensures !OccursAt(s, "\n", k)
        {
          assert !OccursAt(o, "\n", k);
          assert s[k..k + 1] == o[k..k + 1];
        }
        var j := FindFrom(s, "\n", 0).value;
        assert j == |o|;
        assert s[..j] == o;
        assert s[j + 1..] == [];
      case Some(j) =>
        FindInPrefix(o, "\n", 0);
        assert j < |o| - 1 by {
          assert o[j..j + 1] == "\n";
        }
        var rest := o[j + 1..];
        assert s[..j] == o[..j];
        assert s[j + 1..] == rest + "\n";
        LinesTrailingNewline(rest);
    }
  }

  /** A dropped file's option is the new last line of the options field, whatever the field held. */
  lemma DroppedLines(options: string, path: string)
    requires '\n' !in path
    ensures Lines(Dropped(options, path)) == Lines(options) + [StripCr("-f" + path)]
  {
    var x := "-f" + path;
    assert '\n' !in x by {
      assert forall k :: 0 <= k < |x| ==> x[k] == '-' || x[k] == 'f' || x[k] in path;
    }
    if options != [] && !EndsWith(options, "\n") {
      assert options[|options| - 1] != '\n' by {
        assert options[|options| - 1..] == [options[|options| - 1]];
      }
      LinesTrailingNewline(options);
      LinesAppendLine(options + "\n", x);
    } else {
      if options != [] {
        assert options[|options| - 1..] == "\n";
      }
      LinesAppendLine(options, x);
    }
  }

  /** What `f` yields for the first `n` lines depends on those lines only. */
  lemma {:induction false} CollectOfPrefix(s: seq<string>, t: seq<string>, n: nat, f: string -> seq<string>)
    requires n <= |s| && n <= |t| && forall k :: 0 <= k < n ==> s[k] == t[k]
    ensures Collect(s, n, f) == Collect(t, n, f)
    decreases n
  {
    if n > 0 {
      CollectOfPrefix(s, t, n - 1, f);
    }
  }

  /** A text that neither starts nor ends with whitespace is its own trim. */
  lemma TrimmedAlready(x: string)
    requires x != [] && !IsWhitespace(x[0]) && !IsWhitespace(x[|x| - 1])
    ensures Trim(x) == x
  {
    assert TrimStart(x) == x;
  }

  /**
   * A dropped file reaches `gia` as the option "-f<path>", after the
   * arguments the options field gave before, when the path has no newline
   * and does not end in whitespace.
   */
  lemma DroppedFileArgument(options: string, path: string)
    requires '\n' !in path && (path == [] || !IsWhitespace(path[|path| - 1]))
    ensures OptionArgs(Dropped(options, path)) == OptionArgs(options) + ["-f" + path]
  {
    var x := "-f" + path;
    DroppedLines(options, path);
    assert x[|x| - 1] != '\r' by {
      if path != [] {
        assert x[|x| - 1] == path[|path| - 1];
      }
    }
    assert StripCr(x) == x;
    TrimmedAlready(x);
    var l := Lines(options);
    CollectOfPrefix(l + [x], l, |l|, OptionArg);
    assert OptionArg(x) == [x];
  }

  // -----------------------------------------------------------------------
  // Role and task names

  /** A directory entry: its name when that is valid text, and whether it is a regular file. */
  datatype Entry = Entry(name: Option<string>, isFile: bool)

  /** What one entry contributes: the name with its ".md" endings removed, for a `.md` file. */
  function MdName(e: Entry): seq<string>
  {
    if e.isFile && e.name.Some? && EndsWith(e.name.value, ".md") then [TrimEndMatches(e.name.value, ".md")] else []
  }

  function MdNamesUpTo(entries: seq<Entry>, n: nat): seq<string>
    requires n <= |entries|
  {
    if n == 0 then [] else MdNamesUpTo(entries, n - 1) + MdName(entries[n - 1])
  }

  /**
   * `load_md_files`: `listing` is the directory's entries, `None` when
   * there is no home directory or the directory cannot be read. The names
   * come back sorted.
   */
  method LoadMdFiles(listing: Option<seq<Entry>>) returns (files: seq<string>)
    ensures listing.None? ==> files == []
    ensures listing.Some? ==> multiset(files) == multiset(MdNamesUpTo(listing.value, |listing.value|))
    ensures SortedLex(files)
  {
    files := [];
    match listing {
      case Some(entries) =>
        for i := 0 to |entries|
          invariant files == MdNamesUpTo(entries, i)
        {
          var entry := entries[i];
          if entry.isFile && entry.name.Some? && EndsWith(entry.name.value, ".md") {
            var name := TrimEndMatches(entry.name.value, ".md");
            files := files + [name];
          }
        }
      case None =>
    }
    files := SortLex(files);
  }

  /** A name is loaded exactly when some `.md` file carries it, ".md" endings removed. */
  lemma {:induction false} MdNamesMembers(entries: seq<Entry>, n: nat, x: string)
    requires n <= |entries|
    ensures x in MdNamesUpTo(entries, n) <==>
      exists i :: 0 <= i < n && entries[i].isFile && entries[i].name.Some?
        && EndsWith(entries[i].name.value, ".md") && TrimEndMatches(entries[i].name.value, ".md") == x
    decreases n
  {
    if n > 0 {
      MdNamesMembers(entries, n - 1, x);
    }
  }

  /** No loaded name ends in ".md". */
  lemma {:induction false} MdNamesStripped(entries: seq<Entry>, n: nat, k: nat)
    requires n <= |entries| && k < |MdNamesUpTo(entries, n)|
    ensures !EndsWith(MdNamesUpTo(entries, n)[k], ".md")
    decreases n
  {
    var prev := MdNamesUpTo(entries, n - 1);
    if k < |prev| {
      MdNamesStripped(entries, n - 1, k);
    }
  }
}

=== FILE: LegacyApp.dfy ===
// The request driver of the older root crate (src/app.rs): the choice
// between a new and a resumed conversation, and the turn that truncates the
// history, appends the exchange and saves it.

module LegacyApp {
  import opened Base
  import opened LegacyConversation
  import History = Conversation
  import Store = ConversationStore
  import Provider
  import LegacyProvider
  import GiaApp = App

  /** The conversation-choice settings of the root crate's command line. */
  datatype Config = Config(resumeLast: bool, resumeConversation: Option<string>, prompt: string)

  /** What "resume the latest" finds: the latest loadable conversation, or `created` when there is none. */
  function LatestOrNew(dir: Directory, created: ConversationValue): ConversationValue
  {
    match LatestOf(Loadable(dir))
    case Some(c) => c
    case None => created
  }

  /**
   * `resolve_conversation`: `created` is the conversation `Conversation::new`
   * would make (its id is a fresh UUID); `dir` is the conversations directory.
   */
  function ResolveConversation(c: Config, dir: Directory, created: ConversationValue)
    : (r: Result<(ConversationValue, string), string>)
  {
    if c.resumeLast then Ok((LatestOrNew(dir, created), c.prompt))
    else
      match c.resumeConversation
      case None => Ok((created, c.prompt))
      case Some(id) =>
        if id == [] then Ok((LatestOrNew(dir, created), c.prompt))
        else
          match LoadConversation(dir, id)
          case Ok(conv) => Ok((conv, c.prompt))
          case Err(e) => Err(Provider.WithContext(GiaApp.NotFoundContext(id), Store.ErrorMessage(e)))
  }

  /** Every successful branch hands back the prompt unchanged. */
  lemma PromptUnchanged(c: Config, dir: Directory, created: ConversationValue)
    requires ResolveConversation(c, dir, created).Ok?
    ensures ResolveConversation(c, dir, created).value.1 == c.prompt
  {
  }

  /** `-R` takes precedence: with it set, the id given (or none) makes no difference. */
  lemma ResumeLastWins(c: Config, dir: Directory, created: ConversationValue, other: Option<string>)
    requires c.resumeLast
    ensures ResolveConversation(c, dir, created) == ResolveConversation(c.(resumeConversation := other), dir, created)
    ensures ResolveConversation(c, dir, created) == Ok((LatestOrNew(dir, created), c.prompt))
  {
  }

  /** Without `-R` and without an id the conversation is new. */
  lemma NoIdStartsNew(c: Config, dir: Directory, created: ConversationValue)
    requires !c.resumeLast && c.resumeConversation.None?
    ensures ResolveConversation(c, dir, created) == Ok((created, c.prompt))
  {
  }

  /**
   * An empty id resumes the latest conversation: one of the loadable ones,
   * with no later update time among them; only an empty (or all
   * minimum-time) directory starts a new one.
   */
  lemma EmptyIdResumesLatest(c: Config, dir: Directory, created: ConversationValue)
    requires !c.resumeLast && c.resumeConversation == Some([])
    ensures ResolveConversation(c, dir, created).Ok?
    ensures var conv := ResolveConversation(c, dir, created).value.0;
      LatestOf(Loadable(dir)).Some? ==>
        (conv in Loadable(dir) && forall k :: 0 <= k < |Loadable(dir)| ==> Loadable(dir)[k].updatedAt <= conv.updatedAt)
    ensures LatestOf(Loadable(dir)).None? <==>
      (forall k :: 0 <= k < |Loadable(dir)| ==> Loadable(dir)[k].updatedAt == History.MinUtc)
    ensures LatestOf(Loadable(dir)).None? ==> ResolveConversation(c, dir, created).value.0 == created
  {
    LatestOfSpec(Loadable(dir));
  }

  /** A specific id loads exactly that conversation; a missing one is an error, never a new conversation. */
  lemma SpecificIdLoads(c: Config, dir: Directory, created: ConversationValue, id: string)
    requires !c.resumeLast && c.resumeConversation == Some(id) && id != []
    ensures ResolveConversation(c, dir, created).Ok? <==> LoadConversation(dir, id).Ok?
    ensures LoadConversation(dir, id).Ok? ==>
      ResolveConversation(c, dir, created).value.0 == LoadConversation(dir, id).value
    ensures LoadConversation(dir, id).Err? ==>
      StartsWith(ResolveConversation(c, dir, created).error, GiaApp.NotFoundContext(id))
  {
  }

  /**
   * Whatever the settings, a resolved conversation is either the new one or
   * one stored in the directory.
   */
  lemma ResolvedIsNewOrStored(c: Config, dir: Directory, created: ConversationValue)
    requires ResolveConversation(c, dir, created).Ok?
    ensures var conv := ResolveConversation(c, dir, created).value.0;
      conv == created || exists j :: 0 <= j < |dir| && dir[j].parsed == Some(conv)
  {
    var conv := ResolveConversation(c, dir, created).value.0;
    LatestOfSpec(Loadable(dir));
    if conv != created && (c.resumeLast || c.resumeConversation == Some([])) {
      LoadableStored(dir, conv);
    }
  }

  lemma {:induction false} LoadableStored(dir: Directory, conv: ConversationValue)
    requires conv in Loadable(dir)
    ensures exists j :: 0 <= j < |dir| && dir[j].parsed == Some(conv)
    decreases |dir|
  {
    var last := dir[|dir| - 1];
    if conv in Loadable(dir[..|dir| - 1]) {
      LoadableStored(dir[..|dir| - 1], conv);
      var j :| 0 <= j < |dir| - 1 && dir[..|dir| - 1][j].parsed == Some(conv);
      assert dir[j].parsed == Some(conv);
    } else {
      assert last.parsed == Some(conv);
    }
  }

  // -----------------------------------------------------------------------
  // A turn

  const NoInputMessage: string :=
    "Error: No input text provided. Provide prompt as command line arguments or use -c/-s for additional input."

  const KeysContext: string := "Failed to get API keys"
  const ProviderContext: string := "Failed to initialize AI provider"
  const GenerateContext: string := "Failed to generate content"
  const SaveContext: string := "Failed to save conversation"

  /**
   * The first failure between the input check and the reply, under its
   * context: reading the API keys, choosing the provider from `model`, then
   * the request itself. None when the turn receives a reply.
   */
  function TurnError(keys: Result<seq<string>, string>, model: string, reply: Result<string, string>)
    : (r: Option<string>)
    ensures r.None? <==> keys.Ok? && LegacyProvider.CreateProvider(model).Ok? && reply.Ok?
    ensures keys.Err? ==> r == Some(Provider.WithContext(KeysContext, keys.error))
    ensures keys.Ok? && LegacyProvider.CreateProvider(model).Err? ==>
      r == Some(Provider.WithContext(ProviderContext, LegacyProvider.CreateProvider(model).error))
    ensures keys.Ok? && LegacyProvider.CreateProvider(model).Ok? && reply.Err? ==>
      r == Some(Provider.WithContext(GenerateContext, reply.error))
  {
    if keys.Err? then Some(Provider.WithContext(KeysContext, keys.error))
    else
      match LegacyProvider.CreateProvider(model)
      case Err(e) => Some(Provider.WithContext(ProviderContext, e))
      case Ok(_) =>
        if reply.Err? then Some(Provider.WithContext(GenerateContext, reply.error)) else None
  }

  /**
   * The part of `run_app` after the input is gathered: blank input stops
   * the program (exit status 1, here an error) before anything changes.
   * Otherwise the history is truncated to the default budget; then the API
   * keys are read (`keys` is their outcome), the provider is chosen from
   * `model`, and the request is sent (`reply` is its outcome). The first of
   * these to fail ends the turn with its error (`TurnError`), the exchange
   * not added and nothing saved. After a reply the user message and then
   * the assistant's reply are added and the conversation is saved
   * (`saveError` is the outcome of writing the file). `userAt`/`userNow` and
   * `replyAt`/`replyNow` are the clock readings of the two `add_message`
   * calls.
   */
  method RunTurn(conv: Conversation, inputText: string, keys: Result<seq<string>, string>, model: string,
                 reply: Result<string, string>, saveError: Option<string>, dir: Directory,
                 userAt: History.Timestamp, userNow: History.Timestamp,
                 replyAt: History.Timestamp, replyNow: History.Timestamp)
    returns (r: Result<Directory, string>)
    modifies conv
    ensures IsBlank(inputText) ==> r == Err(NoInputMessage) && conv.Value() == old(conv.Value())
    ensures !IsBlank(inputText) ==> conv.id == old(conv.id) && conv.createdAt == old(conv.createdAt)
    ensures !IsBlank(inputText) && TurnError(keys, model, reply).Some? ==>
      r == Err(TurnError(keys, model, reply).value)
        && conv.messages == old(conv.messages)[DropCount(old(conv.messages), DefaultContextWindowLimit)..]
        && conv.updatedAt == old(conv.updatedAt)
    ensures !IsBlank(inputText) && TurnError(keys, model, reply).None? ==>
      conv.messages == old(conv.messages)[DropCount(old(conv.messages), DefaultContextWindowLimit)..]
        + [Message(User, inputText, userAt), Message(Assistant, reply.value, replyAt)]
        && conv.updatedAt == replyNow
    ensures !IsBlank(inputText) && TurnError(keys, model, reply).None? ==>
      r == if saveError.Some? then Err(Provider.WithContext(SaveContext, saveError.value))
           else Ok(SaveConversation(dir, conv.Value()))
  {
    TrimEmptyIffBlank(inputText);
    if Trim(inputText) == [] {
      return Err(NoInputMessage);
    }
    conv.TruncateIfNeeded(DefaultContextWindowLimit);
    var failure := TurnError(keys, model, reply);
    if failure.Some? {
      return Err(failure.value);
    }
    r := AddExchange(conv, inputText, reply.value, saveError, dir, userAt, userNow, replyAt, replyNow);
  }

  /**
   * The end of a turn that received `response`: the user message and then
   * the reply are added, and the conversation is saved (`saveError` is the
   * outcome of writing the file).
   */
  method AddExchange(conv: Conversation, inputText: string, response: string, saveError: Option<string>,
                     dir: Directory, userAt: History.Timestamp, userNow: History.Timestamp,
                     replyAt: History.Timestamp, replyNow: History.Timestamp)
    returns (r: Result<Directory, string>)
    modifies conv
    ensures conv.messages == old(conv.messages) + [Message(User, inputText, userAt), Message(Assistant, response, replyAt)]
    ensures conv.updatedAt == replyNow && conv.id == old(conv.id) && conv.createdAt == old(conv.createdAt)
    ensures r == if saveError.Some? then Err(Provider.WithContext(SaveContext, saveError.value))
                 else Ok(SaveConversation(dir, conv.Value()))
  {
    conv.AddMessage(User, inputText, userAt, userNow);
    conv.AddMessage(Assistant, response, replyAt, replyNow);
    if saveError.Some? {
      return Err(Provider.WithContext(SaveContext, saveError.value));
    }
    r := Ok(SaveConversation(dir, conv.Value()));
  }

  /**
   * An Ollama model, which gia accepts, ends the root crate's turn at the
   * provider choice when the keys were found, before any request.
   */
  lemma OllamaTurnFails(model: string, keys: Result<seq<string>, string>, reply: Result<string, string>)
    requires keys.Ok?
    ensures TurnError(keys, "ollama::" + model, reply)
      == Some(Provider.WithContext(ProviderContext, LegacyProvider.UnsupportedProvider("ollama")))
  {
    LegacyProvider.OllamaUnsupported(model);
  }

  /**
   * After a turn the stored conversation ends with the exchange: the
   * user's input, then the reply, and it loads back by its id.
   */
  lemma TurnStoresExchange(before: ConversationValue, inputText: string, response: string, dir: Directory,
                           userAt: History.Timestamp, replyAt: History.Timestamp, replyNow: History.Timestamp)
    ensures var msgs := before.messages[DropCount(before.messages, DefaultContextWindowLimit)..]
        + [Message(User, inputText, userAt), Message(Assistant, response, replyAt)];
      var after := ConversationValue(before.id, before.createdAt, replyNow, msgs);
      LoadConversation(SaveConversation(dir, after), before.id) == Ok(after)
        && |msgs| >= 2 && msgs[|msgs| - 2].content == inputText && msgs[|msgs| - 1].content == response
        && msgs[|msgs| - 2].role == User && msgs[|msgs| - 1].role == Assistant
  {
  }
}

=== FILE: LegacyConversation.dfy ===
// Conversation history of the older root crate (src/conversation.rs): plain
// text messages, truncation down to a floor of two, exact-id loading and the
// newest-first listing with previews.

module LegacyConversation {
  import opened Base
  import History = Conversation
  import Store = ConversationStore

  /** src/constants.rs: the budget default and the truncation floor of the root crate. */
  const DefaultContextWindowLimit: nat := 8000
  const LegacyKeepMessages: nat := 2
  const MessageOverhead: nat := 20

  datatype MessageRole = User | Assistant

  datatype Message = Message(role: MessageRole, content: string, timestamp: History.Timestamp)

  /** A conversation as stored in `<id>.json`. */
  datatype ConversationValue = ConversationValue(
    id: string,
    createdAt: History.Timestamp,
    updatedAt: History.Timestamp,
    messages: seq<Message>)

  /** `estimate_token_length`: content bytes plus 20 per message. */
  function EstimateTokenLength(msgs: seq<Message>): (n: nat)
    ensures n >= MessageOverhead * |msgs|
  {
    if msgs == [] then 0 else Utf8Len(msgs[0].content) + MessageOverhead + EstimateTokenLength(msgs[1..])
  }

  /** Messages of equal byte length cost the same each. */
  lemma {:induction false} EstimateUniform(msgs: seq<Message>, len: nat)
    requires forall i :: 0 <= i < |msgs| ==> Utf8Len(msgs[i].content) == len
    ensures EstimateTokenLength(msgs) == |msgs| * (len + MessageOverhead)
    decreases |msgs|
  {
    if msgs != [] {
      assert forall i :: 0 <= i < |msgs[1..]| ==> msgs[1..][i] == msgs[i + 1];
      EstimateUniform(msgs[1..], len);
      calc {
        EstimateTokenLength(msgs);
        len + MessageOverhead + (|msgs| - 1) * (len + MessageOverhead);
        { assert (|msgs| - 1) * (len + MessageOverhead) + (len + MessageOverhead) == |msgs| * (len + MessageOverhead); }
        |msgs| * (len + MessageOverhead);
      }
    }
  }

  /** How many of the oldest messages `truncate_if_needed` removes. */
  function DropCount(msgs: seq<Message>, maxLength: nat): (d: nat)
    ensures d <= |msgs|
  {
    if EstimateTokenLength(msgs) > maxLength && |msgs| > LegacyKeepMessages
    then 1 + DropCount(msgs[1..], maxLength)
    else 0
  }

  /**
   * Truncation leaves the conversation alone when it fits, keeps at least
   * min(n, 2) messages, ends within budget or at the floor, and removes a
   * message only while the estimate exceeded the budget and more than two
   * remained.
   */
  lemma {:induction false} TruncateSpec(msgs: seq<Message>, maxLength: nat)
    ensures EstimateTokenLength(msgs) <= maxLength ==> DropCount(msgs, maxLength) == 0
    ensures var d := DropCount(msgs, maxLength);
      |msgs| - d >= (if |msgs| < LegacyKeepMessages then |msgs| else LegacyKeepMessages)
    ensures var d := DropCount(msgs, maxLength);
      EstimateTokenLength(msgs[d..]) <= maxLength || |msgs| - d <= LegacyKeepMessages
    ensures var d := DropCount(msgs, maxLength);
      forall j :: 0 <= j < d ==> EstimateTokenLength(msgs[j..]) > maxLength && |msgs| - j > LegacyKeepMessages
    decreases |msgs|
  {
    var d := DropCount(msgs, maxLength);
    if d > 0 {
      TruncateSpec(msgs[1..], maxLength);
      assert msgs[1..][d - 1..] == msgs[d..];
      forall j | 0 < j < d
        ensures EstimateTokenLength(msgs[j..]) > maxLength && |msgs| - j > LegacyKeepMessages
      {
        assert msgs[1..][j - 1..] == msgs[j..];
      }
    }
  }

  /**
   * Four messages of 1000 bytes each against a budget of 2500 bytes lose
   * exactly the first two.
   */
  lemma FourLongMessagesKeepLastTwo(msgs: seq<Message>)
    requires |msgs| == 4
    requires forall i :: 0 <= i < 4 ==> Utf8Len(msgs[i].content) == 1000
    ensures DropCount(msgs, 2500) == 2
  {
    EstimateUniform(msgs, 1000);
    EstimateUniform(msgs[1..], 1000);
    EstimateUniform(msgs[2..], 1000);
    assert msgs[1..][1..] == msgs[2..];
    assert DropCount(msgs[2..], 2500) == 0;
    assert DropCount(msgs[1..], 2500) == 1;
  }

  class Conversation {
    var id: string
    var createdAt: History.Timestamp
    var updatedAt: History.Timestamp
    var messages: seq<Message>

    function Value(): ConversationValue
      reads this
    {
      ConversationValue(id, createdAt, updatedAt, messages)
    }

    /** `Conversation::new`: the id is the full hyphenated UUID text. */
    constructor New(uuidText: string, now: History.Timestamp)
      ensures id == uuidText && createdAt == now && updatedAt == now && messages == []
    {
      id, createdAt, updatedAt, messages := uuidText, now, now, [];
    }

    /**
     * `add_message`: one message, stamped `stampedAt`, and the update time
     * `now` (the source reads the clock twice).
     */
    method AddMessage(role: MessageRole, content: string, stampedAt: History.Timestamp, now: History.Timestamp)
      modifies this
      ensures messages == old(messages) + [Message(role, content, stampedAt)]
      ensures updatedAt == now
      ensures id == old(id) && createdAt == old(createdAt)
    {
      messages := messages + [Message(role, content, stampedAt)];
      updatedAt := now;
    }

    /** `truncate_if_needed`: drops the oldest message while over budget and above the floor. */
    method TruncateIfNeeded(maxLength: nat)
      modifies this
      ensures messages == old(messages)[DropCount(old(messages), maxLength)..]
      ensures id == old(id) && createdAt == old(createdAt) && updatedAt == old(updatedAt)
    {
      if EstimateTokenLength(messages) <= maxLength {
        return;
      }
      ghost var dropped := 0;
      while EstimateTokenLength(messages) > maxLength && |messages| > LegacyKeepMessages
        invariant 0 <= dropped <= |old(messages)|
        invariant messages == old(messages)[dropped..]
        invariant DropCount(old(messages), maxLength) == dropped + DropCount(messages, maxLength)
        invariant id == old(id) && createdAt == old(createdAt) && updatedAt == old(updatedAt)
        decreases |messages|
      {
        messages := messages[1..];
        dropped := dropped + 1;
      }
      // The split_off fallback after the loop repeats the loop's exit test, so it never runs.
      assert !(EstimateTokenLength(messages) > maxLength && |messages| > LegacyKeepMessages);
    }
  }

  // -----------------------------------------------------------------------
  // Directory

  datatype DirEntry = DirEntry(name: string, parsed: Option<ConversationValue>)

  type Directory = seq<DirEntry>

  function FindByName(dir: Directory, name: string): (r: Option<nat>)
    ensures r.Some? ==> r.value < |dir| && dir[r.value].name == name
    ensures r.Some? ==> forall j :: 0 <= j < r.value ==> dir[j].name != name
    ensures r.None? ==> forall j :: 0 <= j < |dir| ==> dir[j].name != name
  {
    if dir == [] then None
    else if dir[0].name == name then Some(0)
    else match FindByName(dir[1..], name)
      case None => None
      case Some(i) => Some(i + 1)
  }

  /**
   * `load_conversation`: only the exact file `<id>.json`; a missing file is
   * "not found", a file that does not deserialise is an error too.
   */
  function LoadConversation(dir: Directory, id: string): (r: Result<ConversationValue, Store.LoadError>)
    ensures r == Err(Store.NotFound(id)) <==>
      forall j :: 0 <= j < |dir| ==> dir[j].name != Store.JsonName(id)
    ensures r.Ok? ==> exists j :: (0 <= j < |dir| && dir[j].name == Store.JsonName(id)
      && dir[j].parsed == Some(r.value))
    ensures r.Err? ==> r.error.NotFound? || r.error.DeserializeFailed?
  {
    match FindByName(dir, Store.JsonName(id))
    case None => Err(Store.NotFound(id))
    case Some(i) =>
      match dir[i].parsed
      case Some(c) => Ok(c)
      case None => Err(Store.DeserializeFailed)
  }

  function Loadable(dir: Directory): (r: seq<ConversationValue>)
    ensures |r| <= |dir|
  {
    if dir == [] then []
    else
      var e := dir[|dir| - 1];
      Loadable(dir[..|dir| - 1])
        + (if Store.IsJson(e.name) && e.parsed.Some? then [e.parsed.value] else [])
  }

  function FirstUserMessage(msgs: seq<Message>): (r: Option<Message>)
    ensures r.Some? ==> r.value in msgs && r.value.role == User
    ensures r.None? <==> forall i :: 0 <= i < |msgs| ==> msgs[i].role != User
  {
    if msgs == [] then None
    else if msgs[0].role == User then Some(msgs[0])
    else FirstUserMessage(msgs[1..])
  }

  /** `ConversationSummary::from_conversation`, with the corrected preview. */
  function FromConversation(c: ConversationValue): (s: History.ConversationSummary)
    ensures s.id == c.id && s.updatedAt == c.updatedAt && s.messageCount == |c.messages|
    ensures s.firstUserMessage.Some? <==> exists i :: 0 <= i < |c.messages| && c.messages[i].role == User
    ensures s.firstUserMessage.Some? ==> |s.firstUserMessage.value| <= History.PreviewLimit
  {
    var first := FirstUserMessage(c.messages);
    History.ConversationSummary(c.id, c.createdAt, c.updatedAt, |c.messages|,
      if first.Some? then Some(History.Preview(first.value.content)) else None)
  }

  /**
   * `ConversationSummary::from_conversation` as written, with the byte cut
   * of src/conversation.rs: None when the preview's slice panics. A preview
   * it gives is at most 50 bytes.
   */
  function FromConversationAsWritten(c: ConversationValue): (s: Option<History.ConversationSummary>)
    ensures s.None? <==> (FirstUserMessage(c.messages).Some?
      && History.PreviewAsWritten(FirstUserMessage(c.messages).value.content).None?)
    ensures s.Some? ==> s.value.id == c.id && s.value.updatedAt == c.updatedAt && s.value.messageCount == |c.messages|
    ensures s.Some? && s.value.firstUserMessage.Some? ==> Utf8Len(s.value.firstUserMessage.value) <= History.PreviewLimit
  {
    var first := FirstUserMessage(c.messages);
    if first.None? then Some(History.ConversationSummary(c.id, c.createdAt, c.updatedAt, |c.messages|, None))
    else
      match History.PreviewAsWritten(first.value.content)
      case None => None
      case Some(p) => Some(History.ConversationSummary(c.id, c.createdAt, c.updatedAt, |c.messages|, Some(p)))
  }

  /** When the first user message is ASCII, the summary as written is the corrected one. */
  lemma SummaryAgreesOnAscii(c: ConversationValue)
    requires FirstUserMessage(c.messages).Some? ==> IsAscii(FirstUserMessage(c.messages).value.content)
    ensures FromConversationAsWritten(c) == Some(FromConversation(c))
  {
    if FirstUserMessage(c.messages).Some? {
      History.PreviewAgreesOnAscii(FirstUserMessage(c.messages).value.content);
    }
  }

  function Summaries(vals: seq<ConversationValue>): (r: seq<History.ConversationSummary>)
    ensures |r| == |vals|
    ensures forall i :: 0 <= i < |vals| ==> r[i] == FromConversation(vals[i])
  {
    seq(|vals|, i requires 0 <= i < |vals| => FromConversation(vals[i]))
  }

  /** `list_conversations`: summaries of the loadable files, newest first. */
  function ListConversations(dir: Directory): (r: seq<History.ConversationSummary>)
    ensures Store.SortedNewestFirst(r)
    ensures multiset(r) == multiset(Summaries(Loadable(dir)))
  {
    Store.SortNewestFirst(Summaries(Loadable(dir)))
  }

  // -----------------------------------------------------------------------
  // Saving and the latest conversation

  /** The first entry of a given name is found, whatever comes after it. */
  lemma {:induction false} FindByNameAt(dir: Directory, name: string, i: nat)
    requires i < |dir| && dir[i].name == name
    requires forall j :: 0 <= j < i ==> dir[j].name != name
    ensures FindByName(dir, name) == Some(i)
    decreases i
  {
    if i > 0 {
      FindByNameAt(dir[1..], name, i - 1);
    }
  }

  /** `save_conversation`: writes `<id>.json`, replacing an existing file of that name. */
  function SaveConversation(dir: Directory, c: ConversationValue): (r: Directory)
    ensures LoadConversation(r, c.id) == Ok(c)
    ensures |r| == |dir| || |r| == |dir| + 1
  {
    var name := Store.JsonName(c.id);
    match FindByName(dir, name)
    case Some(i) =>
      var r := dir[i := DirEntry(name, Some(c))];
      FindByNameAt(r, name, i);
      r
    case None =>
      var r := dir + [DirEntry(name, Some(c))];
      FindByNameAt(r, name, |dir|);
      r
  }

  /** Saving leaves every other file as it was. */
  lemma SaveKeepsOthers(dir: Directory, c: ConversationValue, id: string)
    requires Store.JsonName(id) != Store.JsonName(c.id)
    ensures LoadConversation(SaveConversation(dir, c), id) == LoadConversation(dir, id)
  {
    var name := Store.JsonName(c.id);
    var other := Store.JsonName(id);
    var r := SaveConversation(dir, c);
    match FindByName(dir, other)
    case Some(k) =>
      FindByNameAt(r, other, k);
    case None =>
      assert forall j :: 0 <= j < |r| ==> r[j].name != other;
  }

  /**
   * The strictly-later-wins scan of `get_latest_conversation`, starting from
   * the minimum instant, over the loadable conversations in directory order.
   */
  function LatestOf(vals: seq<ConversationValue>): Option<ConversationValue>
  {
    if vals == [] then None
    else
      var prev := LatestOf(vals[..|vals| - 1]);
      var x := vals[|vals| - 1];
      if x.updatedAt > (if prev.Some? then prev.value.updatedAt else History.MinUtc) then Some(x) else prev
  }

  /**
   * The scan finds a conversation of the greatest update time, the first
   * such, and finds nothing only when every update time is the minimum.
   */
  lemma {:induction false} LatestOfSpec(vals: seq<ConversationValue>)
    ensures var r := LatestOf(vals);
      r.Some? ==> r.value in vals && r.value.updatedAt > History.MinUtc
    ensures var r := LatestOf(vals);
      r.Some? ==> forall k :: 0 <= k < |vals| ==> vals[k].updatedAt <= r.value.updatedAt
    ensures var r := LatestOf(vals);
      r.Some? ==> exists k :: (0 <= k < |vals| && vals[k] == r.value
        && forall j :: 0 <= j < k ==> vals[j].updatedAt < r.value.updatedAt)
    ensures LatestOf(vals).None? <==> forall k :: 0 <= k < |vals| ==> vals[k].updatedAt == History.MinUtc
    decreases |vals|
  {
    if vals != [] {
      var prefix := vals[..|vals| - 1];
      LatestOfSpec(prefix);
      var prev := LatestOf(prefix);
      assert forall j :: 0 <= j < |vals| - 1 ==> vals[j] == prefix[j];
      if prev.Some? {
        var k :| 0 <= k < |prefix| && prefix[k] == prev.value
          && forall j :: 0 <= j < k ==> prefix[j].updatedAt < prev.value.updatedAt;
        assert vals[k] == prev.value;
      }
    }
  }

  lemma LoadableStep(dir: Directory, i: nat)
    requires i < |dir|
    ensures Loadable(dir[..i + 1]) == Loadable(dir[..i])
      + (if Store.IsJson(dir[i].name) && dir[i].parsed.Some? then [dir[i].parsed.value] else [])
  {
    assert dir[..i + 1][..i] == dir[..i];
  }

  lemma LatestStep(vals: seq<ConversationValue>, x: ConversationValue)
    ensures LatestOf(vals + [x]) ==
      if x.updatedAt > (if LatestOf(vals).Some? then LatestOf(vals).value.updatedAt else History.MinUtc)
      then Some(x) else LatestOf(vals)
  {
    assert (vals + [x])[..|vals|] == vals;
    assert (vals + [x])[|vals|] == x;
  }

  /** `get_latest_conversation`: one pass over the directory, skipping entries that do not load. */
  method GetLatestConversation(dir: Directory) returns (latest: Option<ConversationValue>)
    ensures latest == LatestOf(Loadable(dir))
  {
    latest := None;
    var latestTime: History.Timestamp := History.MinUtc;
    var i := 0;
    while i < |dir|
      invariant 0 <= i <= |dir|
      invariant latest == LatestOf(Loadable(dir[..i]))
      invariant latestTime == if latest.Some? then latest.value.updatedAt else History.MinUtc
    {
      var e := dir[i];
      LoadableStep(dir, i);
      if Store.IsJson(e.name) && e.parsed.Some? {
        var c := e.parsed.value;
        LatestStep(Loadable(dir[..i]), c);
        if c.updatedAt > latestTime {
          latestTime := c.updatedAt;
          latest := Some(c);
        }
      } else {
        assert Loadable(dir[..i + 1]) == Loadable(dir[..i]);
      }
      i := i + 1;
    }
    assert dir[..|dir|] == dir;
  }
}

=== FILE: LegacyImage.dfy ===
// Media types of the older root crate (src/image.rs): the same lookup as
// gia's without "opus", and the existence, file and extension checks of
// `validate_media_file`, in that order.

module LegacyImage {
  import opened Base
  import Image

  /** The formats the root crate supports, in the order error messages list them. */
  const SupportedExtensions: seq<string> := ["jpg", "jpeg", "png", "webp", "heic", "pdf", "ogg", "mp3", "m4a", "mp4"]

  /** The root crate's table: "ogg" maps to audio, "opus" is unsupported. */
  function MimeOf(ext: string): Option<string>
  {
    if ext == "jpg" || ext == "jpeg" then Some("image/jpeg")
    else if ext == "png" then Some("image/png")
    else if ext == "webp" then Some("image/webp")
    else if ext == "heic" then Some("image/heic")
    else if ext == "pdf" then Some("application/pdf")
    else if ext == "ogg" then Some("audio/ogg")
    else if ext == "mp3" then Some("audio/mpeg")
    else if ext == "m4a" then Some("audio/mp4")
    else if ext == "mp4" then Some("video/mp4")
    else None
  }

  /** The table and the supported list agree: an extension has a MIME type exactly when it is listed. */
  lemma TableMatchesList(ext: string)
    ensures MimeOf(ext).Some? <==> ext in SupportedExtensions
  {
  }

  /** The root crate's table is gia's with "opus" taken out. */
  lemma TableIsGiaWithoutOpus(ext: string)
    ensures MimeOf(ext) == if ext == "opus" then None else Image.MimeOf(ext)
    ensures Image.MimeOf("opus") == Some("audio/ogg")
  {
  }

  function UnsupportedText(ext: string): string
  {
    "Unsupported file format: " + ext + ". Supported formats: " + Join(SupportedExtensions, ", ")
  }

  /** `get_mime_type`, with the path's extension read as in gia. */
  function GetMimeType(path: string): Result<string, string>
  {
    match Image.Extension(path)
    case None => Err("File has no extension")
    case Some(e) =>
      var ext := ToLower(e);
      match MimeOf(ext)
      case Some(m) => Ok(m)
      case None => Err(UnsupportedText(ext))
  }

  /**
   * The two crates answer alike except on an "opus" file, which only gia
   * accepts.
   */
  lemma AgreesWithGiaExceptOpus(path: string)
    ensures Image.Extension(path).Some? && ToLower(Image.Extension(path).value) == "opus" ==>
      GetMimeType(path).Err? && Image.GetMimeType(path) == Ok("audio/ogg")
    ensures !(Image.Extension(path).Some? && ToLower(Image.Extension(path).value) == "opus") ==>
      (GetMimeType(path).Ok? <==> Image.GetMimeType(path).Ok?)
        && (GetMimeType(path).Ok? ==> GetMimeType(path) == Image.GetMimeType(path))
  {
    match Image.Extension(path)
    case None =>
    case Some(e) =>
      TableIsGiaWithoutOpus(ToLower(e));
  }

  /** The unsupported-format message names the offending extension and every supported one. */
  lemma UnsupportedListsFormats(ext: string, i: nat)
    requires i < |SupportedExtensions|
    ensures Contains(UnsupportedText(ext), ext)
    ensures Contains(UnsupportedText(ext), SupportedExtensions[i])
  {
    Image.MessageNames("Unsupported file format: ", ext, ". Supported formats: ", SupportedExtensions, i);
  }

  /**
   * `validate_media_file`: `present` and `isFile` are what the file system
   * reports for the path. Existence is checked first, then that it is a
   * file, and only then the extension.
   */
  function ValidateMediaFile(path: string, present: bool, isFile: bool): Result<(), string>
  {
    if !present then Err("Media file not found: " + path)
    else if !isFile then Err("Path is not a file: " + path)
    else
      match GetMimeType(path)
      case Ok(_) => Ok(())
      case Err(e) => Err(e)
  }

  /**
   * The order of the checks: a missing path is "not found" and a non-file
   * is "not a file" whatever the extension; a file passes exactly when its
   * extension is supported.
   */
  lemma ValidationOrder(path: string, present: bool, isFile: bool)
    ensures !present ==> ValidateMediaFile(path, present, isFile) == Err("Media file not found: " + path)
    ensures present && !isFile ==> ValidateMediaFile(path, present, isFile) == Err("Path is not a file: " + path)
    ensures present && isFile ==>
      (ValidateMediaFile(path, present, isFile).Ok? <==>
        (Image.Extension(path).Some? && ToLower(Image.Extension(path).value) in SupportedExtensions))
  {
    if Image.Extension(path).Some? {
      TableMatchesList(ToLower(Image.Extension(path).value));
    }
  }
}

=== FILE: LegacyInput.dfy ===
// Input gathering of the older root crate (src/input.rs): the content is
// gathered as in gia, without role definitions, and then flattened into one
// text for the single-prompt request (`build_legacy_input_text`); an image
// list is checked file by file before a request is made.

module LegacyInput {
  import opened Base
  import Role
  import Provider
  import LegacyImage

  /** The root crate's content sources, in the order they were gathered. */
  datatype ContentSource =
    | CommandLinePrompt(prompt: string)
    | AudioRecording(audioPath: string)
    | ClipboardText(clipText: string)
    | StdinText(stdinText: string)
    | TextFile(filePath: string, content: string)
    | ImageFile(imagePath: string)
    | ClipboardImage

  /**
   * What the outside world reports during one call: the file system for
   * `-f` files, the outcome of `record_audio`, of `has_clipboard_image` and
   * of `read_clipboard`, and stdin — none when it is a terminal, else the
   * outcome of reading it.
   */
  datatype Environment = Environment(
    fs: Role.FileSystem,
    audio: Result<string, string>,
    clipboardHasImage: Result<bool, string>,
    clipboardText: Result<string, string>,
    stdin: Option<Result<string, string>>)

  const DefaultAudioPrompt: string := "Your instructions are in prompt.m4a"
  const StdinContext: string := "Failed to read from stdin"

  // -----------------------------------------------------------------------
  // The content each stage contributes

  /** A `-f` file that reads and is not blank once trimmed. */
  predicate Kept(p: string, fs: Role.FileSystem)
  {
    Role.Readable(fs, p) && Trim(fs[p].value) != []
  }

  /** What one `-f` file contributes: its text, when it is kept. */
  function FileItem(p: string, fs: Role.FileSystem): seq<ContentSource>
  {
    if Kept(p, fs) then [TextFile(p, fs[p].value)] else []
  }

  /** The text files that read and are not blank, in the order given. */
  function FileBlock(paths: seq<string>, fs: Role.FileSystem): seq<ContentSource>
  {
    if paths == [] then []
    else FileBlock(paths[..|paths| - 1], fs) + FileItem(paths[|paths| - 1], fs)
  }

  function ImageBlock(paths: seq<string>): seq<ContentSource>
  {
    if paths == [] then [] else ImageBlock(paths[..|paths| - 1]) + [ImageFile(paths[|paths| - 1])]
  }

  predicate StdinFails(env: Environment)
  {
    env.stdin.Some? && env.stdin.value.Err?
  }

  function StdinBlock(env: Environment): seq<ContentSource>
  {
    if env.stdin.Some? && env.stdin.value.Ok? && Trim(env.stdin.value.value) != [] then [StdinText(env.stdin.value.value)]
    else []
  }

  class Config {
    const prompt: string
    const useClipboardInput: bool
    const imageSources: seq<string>
    const textFiles: seq<string>
    const recordAudio: bool
    var orderedContent: seq<ContentSource>

    constructor (prompt: string, useClipboardInput: bool, imageSources: seq<string>, textFiles: seq<string>,
                 recordAudio: bool)
      ensures this.prompt == prompt && this.useClipboardInput == useClipboardInput
      ensures this.imageSources == imageSources && this.textFiles == textFiles
      ensures this.recordAudio == recordAudio && orderedContent == []
    {
      this.prompt := prompt;
      this.useClipboardInput := useClipboardInput;
      this.imageSources := imageSources;
      this.textFiles := textFiles;
      this.recordAudio := recordAudio;
      orderedContent := [];
    }

    /** `prompt_override` when given, else the configured prompt. */
    function PromptToUse(promptOverride: Option<string>): string
    {
      if promptOverride.Some? then promptOverride.value else prompt
    }

    /** Audio was recorded and no prompt was given, so the default audio prompt leads. */
    predicate DefaultPromptUsed(promptOverride: Option<string>, env: Environment)
    {
      recordAudio && env.audio.Ok? && PromptToUse(promptOverride) == []
    }

    function PromptBlock(promptOverride: Option<string>): seq<ContentSource>
    {
      if PromptToUse(promptOverride) == [] then [] else [CommandLinePrompt(PromptToUse(promptOverride))]
    }

    function AudioBlock(env: Environment): seq<ContentSource>
    {
      if recordAudio && env.audio.Ok? then [AudioRecording(env.audio.value)] else []
    }

    /**
     * A clipboard image wins over clipboard text; when the image check fails
     * the text is tried all the same; blank text is skipped.
     */
    function ClipboardBlock(env: Environment): seq<ContentSource>
    {
      if !useClipboardInput then []
      else if env.clipboardHasImage == Ok(true) then [ClipboardImage]
      else if env.clipboardText.Ok? && Trim(env.clipboardText.value) != [] then [ClipboardText(env.clipboardText.value)]
      else []
    }

    /** The content gathered before stdin is read. */
    function Leading(promptOverride: Option<string>, env: Environment): seq<ContentSource>
    {
      (if DefaultPromptUsed(promptOverride, env) then [CommandLinePrompt(DefaultAudioPrompt)] else [])
        + PromptBlock(promptOverride) + AudioBlock(env) + ClipboardBlock(env)
    }

    /** All the content gathered when stdin does not fail. */
    function Gathered(promptOverride: Option<string>, env: Environment): seq<ContentSource>
    {
      Leading(promptOverride, env) + StdinBlock(env) + FileBlock(textFiles, env.fs) + ImageBlock(imageSources)
    }

    /**
     * `get_input_text`: refills the ordered content and returns its text.
     * Failures to record audio, read the clipboard or read a file only warn;
     * a failure to read stdin ends the call with an error, keeping what was
     * gathered before it.
     */
    method GetInputText(promptOverride: Option<string>, env: Environment) returns (r: Result<string, string>)
      modifies this
      ensures StdinFails(env) ==>
        r == Err(Provider.WithContext(StdinContext, env.stdin.value.error))
          && orderedContent == Leading(promptOverride, env)
      ensures !StdinFails(env) ==>
        orderedContent == Gathered(promptOverride, env) && r == Ok(LegacyText(Gathered(promptOverride, env)))
    {
      orderedContent := [];
      // 1. the prompt
      var promptToUse := if promptOverride.Some? then promptOverride.value else prompt;
      if promptToUse != [] {
        orderedContent := orderedContent + [CommandLinePrompt(promptToUse)];
      }
      assert promptToUse == PromptToUse(promptOverride);
      ghost var afterPrompt := orderedContent;
      assert afterPrompt == PromptBlock(promptOverride);
      // 2. audio
      AddAudio(promptToUse, env);
      // 3. the clipboard
      AddClipboard(env);
      assert orderedContent == Leading(promptOverride, env);
      // 4. stdin
      if StdinFails(env) {
        return Err(Provider.WithContext(StdinContext, env.stdin.value.error));
      }
      AddStdin(env);
      ghost var lead := orderedContent;
      // 5. text files
      if textFiles != [] {
        AddTextFiles(env.fs);
      } else {
        assert FileBlock(textFiles, env.fs) == [];
      }
      ghost var withFiles := orderedContent;
      assert withFiles == lead + FileBlock(textFiles, env.fs);
      // 6. images
      AddImages();
      assert orderedContent == withFiles + ImageBlock(imageSources);
      var text := BuildLegacyInputText(orderedContent);
      return Ok(text);
    }

    /** Step 2 of `get_input_text`: the recording, with the default prompt put first when no prompt was given. */
    method AddAudio(promptToUse: string, env: Environment)
      modifies this
      ensures orderedContent ==
        (if recordAudio && env.audio.Ok? && promptToUse == [] then [CommandLinePrompt(DefaultAudioPrompt)] else [])
          + old(orderedContent) + AudioBlock(env)
    {
      if recordAudio {
        match env.audio {
          case Ok(audioPath) =>
            orderedContent := orderedContent + [AudioRecording(audioPath)];
            if promptToUse == [] {
              orderedContent := [CommandLinePrompt(DefaultAudioPrompt)] + orderedContent;
            }
          case Err(_) =>
        }
      }
    }

    /** Step 3 of `get_input_text`: a clipboard image, else non-blank clipboard text. */
    method AddClipboard(env: Environment)
      modifies this
      ensures orderedContent == old(orderedContent) + ClipboardBlock(env)
    {
      if useClipboardInput {
        match env.clipboardHasImage {
          case Ok(true) =>
            orderedContent := orderedContent + [ClipboardImage];
          case _ =>
            match env.clipboardText {
              case Ok(text) =>
                if Trim(text) != [] {
                  orderedContent := orderedContent + [ClipboardText(text)];
                }
              case Err(_) =>
            }
        }
      }
    }

    /** Step 4 of `get_input_text` once stdin has been read: its text unless blank. */
    method AddStdin(env: Environment)
      requires !StdinFails(env)
      modifies this
      ensures orderedContent == old(orderedContent) + StdinBlock(env)
    {
      match env.stdin {
        case Some(read) =>
          var text := read.value;
          if Trim(text) != [] {
            orderedContent := orderedContent + [StdinText(text)];
          }
        case None =>
      }
    }

    /** Step 5 of `get_input_text`: each `-f` file that reads and is not blank, in order. */
    method AddTextFiles(fs: Role.FileSystem)
      modifies this
      ensures orderedContent == old(orderedContent) + FileBlock(textFiles, fs)
    {
      for i := 0 to |textFiles|
        invariant orderedContent == old(orderedContent) + FileBlock(textFiles[..i], fs)
      {
        assert textFiles[..i + 1][..i] == textFiles[..i];
        var path := textFiles[i];
        ghost var before := orderedContent;
        if Role.Readable(fs, path) {
          var content := fs[path].value;
          if Trim(content) != [] {
            orderedContent := orderedContent + [TextFile(path, content)];
          }
        }
        assert orderedContent == before + FileItem(path, fs);
        assert FileBlock(textFiles[..i + 1], fs) == FileBlock(textFiles[..i], fs) + FileItem(path, fs);
      }
      assert textFiles[..|textFiles|] == textFiles;
    }

    /** Step 6 of `get_input_text`: every `-i` image, in order. */
    method AddImages()
      modifies this
      ensures orderedContent == old(orderedContent) + ImageBlock(imageSources)
    {
      for i := 0 to |imageSources|
        invariant orderedContent == old(orderedContent) + ImageBlock(imageSources[..i])
      {
        assert imageSources[..i + 1][..i] == imageSources[..i];
        orderedContent := orderedContent + [ImageFile(imageSources[i])];
      }
      assert imageSources[..|imageSources|] == imageSources;
    }
  }

  // -----------------------------------------------------------------------
  // The legacy text

  /** The header line `writeln!` puts before clipboard, stdin and file text. */
  function Header(source: string): string
  {
    "=== Content from: " + source + " ===\n"
  }

  /** What an item adds to the text, if anything: audio and images add nothing. */
  function Piece(x: ContentSource): Option<string>
  {
    match x
    case CommandLinePrompt(p) => Some(p)
    case ClipboardText(t) => Some(Header("clipboard") + t)
    case StdinText(t) => Some(Header("stdin") + t)
    case TextFile(path, content) => Some(Header(path) + content + (if EndsWith(content, "\n") then "" else "\n"))
    case _ => None
  }

  /** One item added to the text built so far: a blank line first unless the text is still empty. */
  function Step(acc: string, x: ContentSource): string
  {
    match Piece(x)
    case None => acc
    case Some(p) => (if acc == [] then [] else acc + "\n\n") + p
  }

  /** `build_legacy_input_text` as a value: the items added one by one to an empty text. */
  function LegacyText(items: seq<ContentSource>): string
  {
    if items == [] then [] else Step(LegacyText(items[..|items| - 1]), items[|items| - 1])
  }

  /**
   * `build_legacy_input_text`: prompts as they are; clipboard, stdin and
   * file text behind a header naming where it came from, file text ending in
   * a newline; audio and images left to the multimodal request.
   */
  method BuildLegacyInputText(orderedContent: seq<ContentSource>) returns (inputText: string)
    ensures inputText == LegacyText(orderedContent)
  {
    inputText := [];
    for i := 0 to |orderedContent|
      invariant inputText == LegacyText(orderedContent[..i])
    {
      assert orderedContent[..i + 1][..i] == orderedContent[..i];
      inputText := PushContent(inputText, orderedContent[i]);
    }
    assert orderedContent[..|orderedContent|] == orderedContent;
  }

  /** One round of the loop of `build_legacy_input_text`. */
  method PushContent(text: string, content: ContentSource) returns (inputText: string)
    ensures inputText == Step(text, content)
  {
    inputText := text;
    match content {
      case CommandLinePrompt(p) =>
        if inputText != [] {
          inputText := inputText + "\n\n";
        }
        inputText := inputText + p;
      case ClipboardText(t) =>
        if inputText != [] {
          inputText := inputText + "\n\n";
        }
        inputText := inputText + (Header("clipboard") + t);
      case StdinText(t) =>
        if inputText != [] {
          inputText := inputText + "\n\n";
        }
        inputText := inputText + (Header("stdin") + t);
      case TextFile(path, fileContent) =>
        if inputText != [] {
          inputText := inputText + "\n\n";
        }
        var newline: string := if EndsWith(fileContent, "\n") then [] else "\n";
        inputText := inputText + (Header(path) + fileContent + newline);
      case _ =>
    }
  }

  /** The pieces of the items that add text, in order. */
  function Pieces(items: seq<ContentSource>): seq<string>
  {
    if items == [] then []
    else
      var last := Piece(items[|items| - 1]);
      Pieces(items[..|items| - 1]) + (if last.Some? then [last.value] else [])
  }

  /** No prompt item is empty (the only kind of item whose piece can be). */
  predicate NoEmptyPrompt(items: seq<ContentSource>)
  {
    forall i :: 0 <= i < |items| && items[i].CommandLinePrompt? ==> items[i].prompt != []
  }

  lemma PieceNotEmpty(x: ContentSource)
    requires Piece(x).Some? && (x.CommandLinePrompt? ==> x.prompt != [])
    ensures Piece(x).value != []
  {
  }

  /** A join of pieces whose first is not empty is not empty. */
  lemma JoinNotEmpty(parts: seq<string>, sep: string)
    requires parts != [] && parts[0] != []
    ensures Join(parts, sep) != []
  {
    if |parts| > 1 {
      assert Join(parts, sep)[..|parts[0]|] == parts[0];
    }
  }

  /**
   * The text is the items' pieces joined by blank lines — the separator
   * goes only between two pieces — provided no prompt is empty.
   */
  lemma {:induction false} TextIsJoinedPieces(items: seq<ContentSource>)
    requires NoEmptyPrompt(items)
    ensures LegacyText(items) == Join(Pieces(items), "\n\n")
    ensures Pieces(items) != [] ==> Pieces(items)[0] != []
    decreases |items|
  {
    if items != [] {
      var init, last := items[..|items| - 1], items[|items| - 1];
      assert NoEmptyPrompt(init) by {
        forall i | 0 <= i < |init| && init[i].CommandLinePrompt?
          ensures init[i].prompt != []
        {
          assert init[i] == items[i];
        }
      }
      TextIsJoinedPieces(init);
      var acc := LegacyText(init);
      var prev := Pieces(init);
      match Piece(last) {
        case None =>
          assert Pieces(items) == prev;
        case Some(p) =>
          PieceNotEmpty(last);
          assert Pieces(items) == prev + [p];
          if prev == [] {
            assert acc == [];
          } else {
            JoinNotEmpty(prev, "\n\n");
            JoinAppend(prev, p, "\n\n");
            assert (prev + [p])[0] == prev[0];
          }
      }
    }
  }

  /** Audio, images and clipboard images leave the text as it is, wherever they stand. */
  lemma NonTextAddsNothing(a: seq<ContentSource>, x: ContentSource, b: seq<ContentSource>)
    requires x.AudioRecording? || x.ImageFile? || x.ClipboardImage?
    ensures LegacyText(a + [x] + b) == LegacyText(a + b)
  {
    LegacyTextDrop(a, x, b);
  }

  lemma {:induction false} LegacyTextDrop(a: seq<ContentSource>, x: ContentSource, b: seq<ContentSource>)
    requires Piece(x).None?
    ensures LegacyText(a + [x] + b) == LegacyText(a + b)
    decreases |b|
  {
    if b == [] {
      assert a + [x] + b == a + [x];
      assert (a + [x])[..|a|] == a;
      assert a + b == a;
    } else {
      var init := b[..|b| - 1];
      assert (a + [x] + b)[..|a + [x] + b| - 1] == a + [x] + init;
      assert (a + b)[..|a + b| - 1] == a + init;
      LegacyTextDrop(a, x, init);
    }
  }

  /** A file's piece names the file in its header and ends with a newline. */
  lemma FilePiece(path: string, content: string)
    ensures StartsWith(Piece(TextFile(path, content)).value, "=== Content from: " + path + " ===\n")
    ensures EndsWith(Piece(TextFile(path, content)).value, "\n")
  {
    var nl := if EndsWith(content, "\n") then "" else "\n";
    var p := Header(path) + content + nl;
    assert p == Header(path) + (content + nl);
    StartsWithConcat(Header(path), content + nl);
    if nl == [] {
      assert content + nl == content;
      EndsWithConcat(Header(path), content);
    }
  }

  /** Every piece appears in the text. */
  lemma TextContainsEachPiece(items: seq<ContentSource>, i: nat)
    requires NoEmptyPrompt(items) && i < |Pieces(items)|
    ensures Contains(LegacyText(items), Pieces(items)[i])
  {
    TextIsJoinedPieces(items);
    JoinContainsEach(Pieces(items), "\n\n", i);
  }

  // -----------------------------------------------------------------------
  // Properties of the gathered content

  /** The stage of `get_input_text` that contributes a kind of content. */
  function Rank(s: ContentSource): nat
  {
    match s
    case CommandLinePrompt(_) => 0
    case AudioRecording(_) => 1
    case ClipboardImage => 2
    case ClipboardText(_) => 2
    case StdinText(_) => 3
    case TextFile(_, _) => 4
    case ImageFile(_) => 5
  }

  predicate AllRank(s: seq<ContentSource>, k: nat)
  {
    forall x :: x in s ==> Rank(x) == k
  }

  predicate AtMost(s: seq<ContentSource>, k: nat)
  {
    forall x :: x in s ==> Rank(x) <= k
  }

  /** Content in stage order. */
  predicate Ranked(s: seq<ContentSource>)
  {
    forall i, j :: 0 <= i < j < |s| ==> Rank(s[i]) <= Rank(s[j])
  }

  lemma RankedAppend(a: seq<ContentSource>, b: seq<ContentSource>, k: nat)
    requires Ranked(a) && AtMost(a, k) && AllRank(b, k)
    ensures Ranked(a + b) && AtMost(a + b, k)
  {
    forall i, j | 0 <= i < j < |a + b|
      ensures Rank((a + b)[i]) <= Rank((a + b)[j])
    {
      if j < |a| {
        assert (a + b)[i] == a[i] && (a + b)[j] == a[j];
      } else if i < |a| {
        assert (a + b)[i] == a[i] && a[i] in a;
        assert (a + b)[j] == b[j - |a|] && b[j - |a|] in b;
      } else {
        assert (a + b)[i] == b[i - |a|] && b[i - |a|] in b;
        assert (a + b)[j] == b[j - |a|] && b[j - |a|] in b;
      }
    }
  }

  lemma FileBlockRank(paths: seq<string>, fs: Role.FileSystem)
    ensures AllRank(FileBlock(paths, fs), 4)
  {
  }

  lemma ImageBlockRank(paths: seq<string>)
    ensures AllRank(ImageBlock(paths), 5)
  {
  }

  /** The content of every stage, first to last. */
  function Stages(c: Config, o: Option<string>, env: Environment): seq<ContentSource>
  {
    c.PromptBlock(o) + c.AudioBlock(env) + c.ClipboardBlock(env)
      + StdinBlock(env) + FileBlock(c.textFiles, env.fs) + ImageBlock(c.imageSources)
  }

  /**
   * The gathered content follows the stages in order — prompt, audio,
   * clipboard, stdin, files, images — with the default audio prompt, when
   * used, put first.
   */
  lemma {:induction false} GatheredInOrder(c: Config, o: Option<string>, env: Environment)
    ensures c.DefaultPromptUsed(o, env) ==>
      c.Gathered(o, env) == [CommandLinePrompt(DefaultAudioPrompt)] + Stages(c, o, env)
    ensures !c.DefaultPromptUsed(o, env) ==> c.Gathered(o, env) == Stages(c, o, env)
    ensures Ranked(Stages(c, o, env))
  {
    var P, A, C := c.PromptBlock(o), c.AudioBlock(env), c.ClipboardBlock(env);
    var S, F, I := StdinBlock(env), FileBlock(c.textFiles, env.fs), ImageBlock(c.imageSources);
    var D := if c.DefaultPromptUsed(o, env) then [CommandLinePrompt(DefaultAudioPrompt)] else [];
    assert c.Gathered(o, env) == D + P + A + C + S + F + I;
    Regroup(D, P, A, C, S, F, I);
    BlockRanks(c, o, env);
    RankedSix(P, A, C, S, F, I);
  }

  /** Each stage contributes only its own kind of content. */
  lemma BlockRanks(c: Config, o: Option<string>, env: Environment)
    ensures AllRank(c.PromptBlock(o), 0) && AllRank(c.AudioBlock(env), 1) && AllRank(c.ClipboardBlock(env), 2)
    ensures AllRank(StdinBlock(env), 3) && AllRank(FileBlock(c.textFiles, env.fs), 4)
    ensures AllRank(ImageBlock(c.imageSources), 5)
  {
    ClipboardBlockRank(c, env);
    StdinBlockRank(env);
    FileBlockRank(c.textFiles, env.fs);
    ImageBlockRank(c.imageSources);
  }

  lemma ClipboardBlockRank(c: Config, env: Environment)
    ensures AllRank(c.ClipboardBlock(env), 2)
  {
  }

  lemma StdinBlockRank(env: Environment)
    ensures AllRank(StdinBlock(env), 3)
  {
  }

  lemma Regroup(D: seq<ContentSource>, P: seq<ContentSource>, A: seq<ContentSource>, C: seq<ContentSource>,
                S: seq<ContentSource>, F: seq<ContentSource>, I: seq<ContentSource>)
    ensures D + P + A + C + S + F + I == D + (P + A + C + S + F + I)
  {
    AppendAssoc(D, P, A);
    AppendAssoc(D, P + A, C);
    AppendAssoc(D, P + A + C, S);
    AppendAssoc(D, P + A + C + S, F);
    AppendAssoc(D, P + A + C + S + F, I);
  }

  lemma RankedSix(P: seq<ContentSource>, A: seq<ContentSource>, C: seq<ContentSource>,
                  S: seq<ContentSource>, F: seq<ContentSource>, I: seq<ContentSource>)
    requires AllRank(P, 0) && AllRank(A, 1) && AllRank(C, 2) && AllRank(S, 3) && AllRank(F, 4) && AllRank(I, 5)
    ensures Ranked(P + A + C + S + F + I)
  {
    assert Ranked(P) && AtMost(P, 0);
    RankedAppend(P, A, 1);
    RankedAppend(P + A, C, 2);
    RankedAppend(P + A + C, S, 3);
    RankedAppend(P + A + C + S, F, 4);
    RankedAppend(P + A + C + S + F, I, 5);
  }

  /**
   * The prompt leads: `prompt_override` wins over the configured prompt; a
   * prompt in use is the first item; otherwise, when audio stands in for
   * it, the default audio prompt is.
   */
  lemma PromptFirst(c: Config, o: Option<string>, env: Environment)
    ensures o.Some? ==> c.PromptToUse(o) == o.value
    ensures c.PromptToUse(o) != [] ==>
      c.Gathered(o, env) != [] && c.Gathered(o, env)[0] == CommandLinePrompt(c.PromptToUse(o))
    ensures c.DefaultPromptUsed(o, env) ==>
      c.Gathered(o, env) != [] && c.Gathered(o, env)[0] == CommandLinePrompt(DefaultAudioPrompt)
  {
    GatheredInOrder(c, o, env);
  }

  /** Text that survives `trim().is_empty()`. */
  predicate NotBlank(x: ContentSource)
  {
    match x
    case ClipboardText(t) => Trim(t) != []
    case StdinText(t) => Trim(t) != []
    case TextFile(_, t) => Trim(t) != []
    case _ => true
  }

  predicate AllNotBlank(s: seq<ContentSource>)
  {
    forall x :: x in s ==> NotBlank(x)
  }

  lemma AllNotBlankAppend(a: seq<ContentSource>, b: seq<ContentSource>)
    requires AllNotBlank(a) && AllNotBlank(b)
    ensures AllNotBlank(a + b)
  {
  }

  lemma FileBlockNotBlank(paths: seq<string>, fs: Role.FileSystem)
    ensures AllNotBlank(FileBlock(paths, fs))
  {
  }

  /** No clipboard, stdin or file text gathered is blank. */
  lemma {:induction false} NothingBlankGathered(c: Config, o: Option<string>, env: Environment)
    ensures AllNotBlank(c.Gathered(o, env))
  {
    var P, A, C := c.PromptBlock(o), c.AudioBlock(env), c.ClipboardBlock(env);
    var S, F, I := StdinBlock(env), FileBlock(c.textFiles, env.fs), ImageBlock(c.imageSources);
    var D := if c.DefaultPromptUsed(o, env) then [CommandLinePrompt(DefaultAudioPrompt)] else [];
    assert c.Gathered(o, env) == D + P + A + C + S + F + I;
    BlocksNotBlank(c, o, env);
    assert AllNotBlank(D);
    AllNotBlankInAll(D, P, A, C, S, F, I);
  }

  lemma BlocksNotBlank(c: Config, o: Option<string>, env: Environment)
    ensures AllNotBlank(c.PromptBlock(o)) && AllNotBlank(c.AudioBlock(env)) && AllNotBlank(c.ClipboardBlock(env))
    ensures AllNotBlank(StdinBlock(env)) && AllNotBlank(FileBlock(c.textFiles, env.fs))
    ensures AllNotBlank(ImageBlock(c.imageSources))
  {
    ClipboardNotBlank(c, env);
    StdinNotBlank(env);
    FileBlockNotBlank(c.textFiles, env.fs);
    ImageBlockRank(c.imageSources);
  }

  lemma ClipboardNotBlank(c: Config, env: Environment)
    ensures AllNotBlank(c.ClipboardBlock(env))
  {
  }

  lemma StdinNotBlank(env: Environment)
    ensures AllNotBlank(StdinBlock(env))
  {
  }

  lemma AllNotBlankInAll(D: seq<ContentSource>, P: seq<ContentSource>, A: seq<ContentSource>, C: seq<ContentSource>,
                         S: seq<ContentSource>, F: seq<ContentSource>, I: seq<ContentSource>)
    requires AllNotBlank(D) && AllNotBlank(P) && AllNotBlank(A) && AllNotBlank(C)
    requires AllNotBlank(S) && AllNotBlank(F) && AllNotBlank(I)
    ensures AllNotBlank(D + P + A + C + S + F + I)
  {
    AllNotBlankAppend(D, P);
    AllNotBlankAppend(D + P, A);
    AllNotBlankAppend(D + P + A, C);
    AllNotBlankAppend(D + P + A + C, S);
    AllNotBlankAppend(D + P + A + C + S, F);
    AllNotBlankAppend(D + P + A + C + S + F, I);
  }

  /**
   * The file content gathered is exactly each readable, non-blank `-f`
   * file, with its text: a file that does not read only warns.
   */
  lemma {:induction false} FileBlockMembers(paths: seq<string>, fs: Role.FileSystem, x: ContentSource)
    ensures x in FileBlock(paths, fs) <==>
      (x.TextFile? && x.filePath in paths && Role.Readable(fs, x.filePath)
        && x.content == fs[x.filePath].value && Trim(x.content) != [])
    decreases |paths|
  {
    if paths != [] {
      var init := paths[..|paths| - 1];
      FileBlockMembers(init, fs, x);
      assert x.TextFile? && x.filePath in paths ==> x.filePath in init || x.filePath == paths[|paths| - 1];
    }
  }

  /** A failed recording only warns: neither audio nor the default prompt is gathered. */
  lemma AudioFailureAddsNothing(c: Config, o: Option<string>, env: Environment)
    requires env.audio.Err?
    ensures !c.DefaultPromptUsed(o, env)
    ensures c.Gathered(o, env) == c.PromptBlock(o) + c.ClipboardBlock(env) + StdinBlock(env)
      + FileBlock(c.textFiles, env.fs) + ImageBlock(c.imageSources)
  {
    assert c.AudioBlock(env) == [];
  }

  /** A configuration with only a prompt yields exactly that prompt as its text. */
  lemma PromptOnly(c: Config, env: Environment)
    requires c.prompt != [] && c.textFiles == [] && c.imageSources == []
    requires !c.recordAudio && !c.useClipboardInput && env.stdin.None?
    ensures c.Gathered(None, env) == [CommandLinePrompt(c.prompt)]
    ensures LegacyText(c.Gathered(None, env)) == c.prompt
  {
    assert c.Leading(None, env) == [CommandLinePrompt(c.prompt)];
    assert StdinBlock(env) == [] && FileBlock(c.textFiles, env.fs) == [] && ImageBlock(c.imageSources) == [];
    assert [CommandLinePrompt(c.prompt)][..0] == [];
  }

  // -----------------------------------------------------------------------
  // Image validation

  /**
   * What the file system reports for a path: absent when it does not
   * exist, else whether it is a regular file.
   */
  type Disk = map<string, bool>

  function ValidateOne(path: string, disk: Disk): Result<(), string>
  {
    LegacyImage.ValidateMediaFile(path, path in disk, path in disk && disk[path])
  }

  /** `validate_image_sources` as a value: the first invalid image ends it, with its path as context. */
  function ValidateAll(paths: seq<string>, disk: Disk): Result<(), string>
  {
    if paths == [] then Ok(())
    else
      match ValidateOne(paths[0], disk)
      case Err(e) => Err(Provider.WithContext("Failed to validate image file: " + paths[0], e))
      case Ok(_) => ValidateAll(paths[1..], disk)
  }

  /** `validate_image_sources`: checks each image source in order and stops at the first failure. */
  method ValidateImageSources(imageSources: seq<string>, disk: Disk) returns (r: Result<(), string>)
    ensures r == ValidateAll(imageSources, disk)
  {
    if imageSources == [] {
      return Ok(());
    }
    for i := 0 to |imageSources|
      invariant ValidateAll(imageSources, disk) == ValidateAll(imageSources[i..], disk)
    {
      var path := imageSources[i];
      assert imageSources[i..][1..] == imageSources[i + 1..];
      match ValidateOne(path, disk) {
        case Err(e) =>
          return Err(Provider.WithContext("Failed to validate image file: " + path, e));
        case Ok(_) =>
      }
    }
    return Ok(());
  }

  /** Validation succeeds exactly when every image is valid. */
  lemma {:induction false} ValidateAllOk(paths: seq<string>, disk: Disk)
    ensures ValidateAll(paths, disk).Ok? <==> forall i :: 0 <= i < |paths| ==> ValidateOne(paths[i], disk).Ok?
    decreases |paths|
  {
    if paths != [] {
      ValidateAllOk(paths[1..], disk);
      if forall i :: 0 <= i < |paths| ==> ValidateOne(paths[i], disk).Ok? {
        assert ValidateOne(paths[0], disk).Ok?;
        forall i | 0 <= i < |paths[1..]|
          ensures ValidateOne(paths[1..][i], disk).Ok?
        {
          assert paths[1..][i] == paths[i + 1];
        }
      } else if ValidateOne(paths[0], disk).Ok? {
        var i :| 0 <= i < |paths| && ValidateOne(paths[i], disk).Err?;
        assert paths[i] == paths[1..][i - 1];
      }
    }
  }

  /**
   * The first invalid image decides: its error, with its path in front, is
   * the result whatever follows it.
   */
  lemma {:induction false} FirstInvalidDecides(a: seq<string>, path: string, b: seq<string>, disk: Disk)
    requires forall i :: 0 <= i < |a| ==> ValidateOne(a[i], disk).Ok?
    requires ValidateOne(path, disk).Err?
    ensures ValidateAll(a + [path] + b, disk)
      == Err(Provider.WithContext("Failed to validate image file: " + path, ValidateOne(path, disk).error))
    decreases |a|
  {
    if a == [] {
      assert a + [path] + b == [path] + b;
    } else {
      assert (a + [path] + b)[1..] == a[1..] + [path] + b;
      assert (a + [path] + b)[0] == a[0];
      assert forall i :: 0 <= i < |a[1..]| ==> ValidateOne(a[1..][i], disk).Ok? by {
        forall i | 0 <= i < |a[1..]|
          ensures ValidateOne(a[1..][i], disk).Ok?
        {
          assert a[1..][i] == a[i + 1];
        }
      }
      FirstInvalidDecides(a[1..], path, b, disk);
    }
  }

  /** A missing image fails with "Media file not found", behind the context naming it. */
  lemma MissingImageFails(a: seq<string>, path: string, b: seq<string>, disk: Disk)
    requires forall i :: 0 <= i < |a| ==> ValidateOne(a[i], disk).Ok?
    requires path !in disk
    ensures ValidateAll(a + [path] + b, disk)
      == Err(Provider.WithContext("Failed to validate image file: " + path, "Media file not found: " + path))
  {
    FirstInvalidDecides(a, path, b, disk);
  }
}

=== FILE: LegacyMcp.dfy ===
// The MCP client of the older root crate (src/mcp.rs): configured servers,
// active connections each with a request counter, JSON-RPC 2.0 requests
// for the Model Context Protocol methods, and the reading of responses.

module LegacyMcp {
  import opened Base
  import opened Json

  datatype TransportType = Stdio | Http(url: string)

  datatype McpServer = McpServer(
    name: string,
    command: string,
    args: seq<string>,
    description: Option<string>,
    transportType: TransportType)

  datatype McpTool = McpTool(name: string, description: Option<string>, inputSchema: Json)

  /**
   * The ways the client's operations fail. The JSON carried by the
   * "... failed" errors is the response's "error" member, which the source
   * prints into the message.
   */
  datatype McpErr =
    | ServerNotFound
    | StartFailed(server: string, cause: string)
    | ConnectionNotFound
    | InitializationFailed(error: Json)
    | ToolsListFailed(error: Json)
    | ToolCallFailed(error: Json)
    | MissingResult
    | MissingTools
    | ParseFailed
    | Transport(cause: string)

  /** What an I/O step reports: success, or the text of its error. */
  type Outcome = Result<(), string>

  // -----------------------------------------------------------------------
  // JSON-RPC 2.0 messages (section 4 of the JSON-RPC 2.0 specification)

  /** A request: version "2.0", a method name and an id (section 4). */
  predicate IsRequest(j: Json, id: int, methodName: string)
  {
    j.Object? && Get(j, "jsonrpc") == Some(Str("2.0")) && Get(j, "id") == Some(Number(id))
    && Get(j, "method") == Some(Str(methodName))
  }

  /** A notification: a request without an id, to which no reply is due (section 4.1). */
  predicate IsNotification(j: Json, methodName: string)
  {
    j.Object? && Get(j, "jsonrpc") == Some(Str("2.0")) && Get(j, "id").None?
    && Get(j, "method") == Some(Str(methodName))
  }

  function Request(id: nat, methodName: string): Json
  {
    Object(map["jsonrpc" := Str("2.0"), "id" := Number(id), "method" := Str(methodName)])
  }

  function RequestWithParams(id: nat, methodName: string, params: Json): Json
  {
    Object(map["jsonrpc" := Str("2.0"), "id" := Number(id), "method" := Str(methodName), "params" := params])
  }

  const ClientInfo: Json := Obj2("name", Str("gia"), "version", Str("0.1.0"))

  /** The "initialize" request; both transports send it with the fixed id 1. */
  function InitializeRequest(clientInfo: Json): Json
  {
    RequestWithParams(1, "initialize",
      Object(map["protocolVersion" := Str("2024-11-05"),
                 "capabilities" := Object(map["tools" := Object(map[])]),
                 "clientInfo" := clientInfo]))
  }

  const InitializedNotification: Json :=
    Object(map["jsonrpc" := Str("2.0"), "method" := Str("notifications/initialized")])

  function ToolsListRequest(id: nat): Json
  {
    Request(id, "tools/list")
  }

  function ToolsCallRequest(id: nat, toolName: string, arguments: Json): Json
  {
    RequestWithParams(id, "tools/call", Obj2("name", Str(toolName), "arguments", arguments))
  }

  /**
   * The messages are well formed: initialize, tools/list and tools/call are
   * requests with their ids, tools/call carries the tool's name and
   * arguments, and the initialized message is a notification.
   */
  lemma MessagesWellFormed(clientInfo: Json, id: nat, toolName: string, arguments: Json)
    ensures IsRequest(InitializeRequest(clientInfo), 1, "initialize")
    ensures IsNotification(InitializedNotification, "notifications/initialized")
    ensures IsRequest(ToolsListRequest(id), id, "tools/list") && Get(ToolsListRequest(id), "params").None?
    ensures IsRequest(ToolsCallRequest(id, toolName, arguments), id, "tools/call")
    ensures var p := Index(ToolsCallRequest(id, toolName, arguments), "params");
      Get(p, "name") == Some(Str(toolName)) && Get(p, "arguments") == Some(arguments)
  {
  }

  // -----------------------------------------------------------------------
  // Reading responses (section 5 of the JSON-RPC 2.0 specification)

  /**
   * How `initialize` ends once the "initialize" response is in: an "error"
   * member fails it; otherwise the notification is sent, and `notified` is
   * how sending it ends.
   */
  function InitOutcome(response: Json, notified: Outcome): Result<(), McpErr>
  {
    match Get(response, "error")
    case Some(e) => Err(InitializationFailed(e))
    case None => if notified.Err? then Err(Transport(notified.error)) else Ok(())
  }

  /** `description`: absent or null reads as none, a string as itself. */
  function ParseDescription(j: Json): Result<Option<string>, McpErr>
  {
    match Get(j, "description")
    case None => Ok(None)
    case Some(Null) => Ok(None)
    case Some(Str(d)) => Ok(Some(d))
    case Some(_) => Err(ParseFailed)
  }

  /**
   * The schema field and its aliases: exactly one of "input_schema",
   * "inputSchema" and "schema" must be present; none is a missing field,
   * two are a duplicate field.
   */
  function ParseSchema(j: Json): Result<Json, McpErr>
  {
    var a := Get(j, "input_schema");
    var b := Get(j, "inputSchema");
    var c := Get(j, "schema");
    if a.Some? && b.None? && c.None? then Ok(a.value)
    else if a.None? && b.Some? && c.None? then Ok(b.value)
    else if a.None? && b.None? && c.Some? then Ok(c.value)
    else Err(ParseFailed)
  }

  /** Deserialising one `McpTool`; other members are ignored. */
  function ParseTool(j: Json): Result<McpTool, McpErr>
  {
    if !j.Object? then Err(ParseFailed)
    else
      match GetStr(j, "name")
      case None => Err(ParseFailed)
      case Some(name) =>
        match ParseDescription(j)
        case Err(e) => Err(e)
        case Ok(d) =>
          match ParseSchema(j)
          case Err(e) => Err(e)
          case Ok(s) => Ok(McpTool(name, d, s))
  }

  function ParseTools(items: seq<Json>): (r: Result<seq<McpTool>, McpErr>)
    ensures r.Ok? ==> |r.value| == |items|
  {
    if items == [] then Ok([])
    else
      match ParseTool(items[0])
      case Err(e) => Err(e)
      case Ok(t) =>
        match ParseTools(items[1..])
        case Err(e) => Err(e)
        case Ok(ts) => Ok([t] + ts)
  }

  /** Where the tools are looked for in "result": "tools", else a nested "result". */
  function ToolsValue(result: Json): Option<Json>
  {
    match Get(result, "tools")
    case Some(v) => Some(v)
    case None => Get(result, "result")
  }

  /** A value that is not an array but has its own "tools" member stands for that member. */
  function FinalTools(v: Json): Json
  {
    if v.Array? then v
    else match Get(v, "tools")
      case Some(nested) => nested
      case None => v
  }

  /** How `list_tools` reads the response to its "tools/list" request. */
  function ExtractTools(response: Json): Result<seq<McpTool>, McpErr>
  {
    match Get(response, "error")
    case Some(e) => Err(ToolsListFailed(e))
    case None =>
      match Get(response, "result")
      case None => Err(MissingResult)
      case Some(result) =>
        match ToolsValue(result)
        case None => Err(MissingTools)
        case Some(v) =>
          var tools := FinalTools(v);
          if tools.Array? then ParseTools(tools.items) else Err(ParseFailed)
  }

  /** How `call_tool` reads its response: the "result" member, `Null` when absent. */
  function CallResult(response: Json): Result<Json, McpErr>
  {
    match Get(response, "error")
    case Some(e) => Err(ToolCallFailed(e))
    case None => Ok(Index(response, "result"))
  }

  /** Any response with an "error" member fails, whatever else it holds (section 5.1). */
  lemma ErrorMemberFails(response: Json, notified: Outcome)
    requires Get(response, "error").Some?
    ensures InitOutcome(response, notified) == Err(InitializationFailed(Get(response, "error").value))
    ensures ExtractTools(response) == Err(ToolsListFailed(Get(response, "error").value))
    ensures CallResult(response) == Err(ToolCallFailed(Get(response, "error").value))
  {
  }

  /** Without "error", a call answers with its "result" member. */
  lemma CallAnswersResult(response: Json)
    requires Get(response, "error").None?
    ensures CallResult(response) == Ok(Index(response, "result"))
    ensures Get(response, "result").Some? ==> CallResult(response) == Ok(Get(response, "result").value)
  {
  }

  /** Without "error" and without "result", listing tools fails. */
  lemma MissingResultFails(response: Json)
    requires Get(response, "error").None? && Get(response, "result").None?
    ensures ExtractTools(response) == Err(MissingResult)
  {
  }

  // The form the Model Context Protocol describes for a tool.

  function EncodeTool(t: McpTool): Json
  {
    var m := map["name" := Str(t.name), "inputSchema" := t.inputSchema];
    Object(if t.description.Some? then m["description" := Str(t.description.value)] else m)
  }

  function EncodeTools(ts: seq<McpTool>): (r: seq<Json>)
    ensures |r| == |ts|
  {
    seq(|ts|, i requires 0 <= i < |ts| => EncodeTool(ts[i]))
  }

  lemma EncodeToolRoundTrip(t: McpTool)
    ensures ParseTool(EncodeTool(t)) == Ok(t)
  {
    var j := EncodeTool(t);
    assert Get(j, "input_schema").None? && Get(j, "schema").None?;
    assert Get(j, "inputSchema") == Some(t.inputSchema);
    assert GetStr(j, "name") == Some(t.name);
  }

  lemma {:induction false} EncodeToolsRoundTrip(ts: seq<McpTool>)
    ensures ParseTools(EncodeTools(ts)) == Ok(ts)
    decreases |ts|
  {
    if ts != [] {
      EncodeToolRoundTrip(ts[0]);
      assert EncodeTools(ts)[1..] == EncodeTools(ts[1..]);
      EncodeToolsRoundTrip(ts[1..]);
      assert [ts[0]] + ts[1..] == ts;
    }
  }

  /**
   * The tools a server lists come back as they were sent, whether the
   * response puts them under "result.tools" or under "result.result.tools".
   */
  lemma ListedToolsRoundTrip(ts: seq<McpTool>, id: int)
    ensures ExtractTools(Object(map["jsonrpc" := Str("2.0"), "id" := Number(id),
      "result" := Object(map["tools" := Array(EncodeTools(ts))])])) == Ok(ts)
    ensures ExtractTools(Object(map["jsonrpc" := Str("2.0"), "id" := Number(id),
      "result" := Object(map["result" := Object(map["tools" := Array(EncodeTools(ts))])])])) == Ok(ts)
  {
    EncodeToolsRoundTrip(ts);
  }

  // -----------------------------------------------------------------------
  // The client

  class Client {
    var servers: map<string, McpServer>
    /**
     * The active connections by server name, each with the last request id
     * it handed out; the transports themselves are outside the model.
     */
    var connections: map<string, nat>

    /** `McpClient::new`. */
    constructor New()
      ensures servers == map[] && connections == map[]
    {
      servers := map[];
      connections := map[];
    }

    /** `add_server`: inserts the server under its name, replacing any namesake. */
    method AddServer(server: McpServer)
      modifies this
      ensures servers == old(servers)[server.name := server]
      ensures connections == old(connections)
    {
      servers := servers[server.name := server];
    }

    /**
     * `connect`: the server must be configured; a stdio server's process
     * must start (`spawn`); then `initialize` runs, where `initResponse` is
     * how sending "initialize" and reading its reply end and `notified` how
     * sending the notification ends. Only then is the connection stored,
     * with its counter at 0 (replacing an older connection of that name).
     * `sent` lists the messages the client sends.
     */
    method Connect(name: string, spawn: Outcome, initResponse: Result<Json, string>, notified: Outcome)
      returns (r: Result<(), McpErr>, sent: seq<Json>)
      modifies this
      ensures servers == old(servers)
      ensures r.Ok? <==> (name in servers
        && (servers[name].transportType.Stdio? ==> spawn.Ok?)
        && initResponse.Ok? && InitOutcome(initResponse.value, notified).Ok?)
      ensures name !in servers ==> r == Err(ServerNotFound) && sent == []
      ensures r.Ok? ==> (connections == old(connections)[name := 0]
        && sent == [InitializeRequest(ClientInfo), InitializedNotification])
      ensures r.Err? ==> connections == old(connections)
    {
      sent := [];
      if name !in servers {
        return Err(ServerNotFound), sent;
      }
      var server := servers[name];
      if server.transportType.Stdio? && spawn.Err? {
        return Err(StartFailed(name, spawn.error)), sent;
      }
      sent := sent + [InitializeRequest(ClientInfo)];
      if initResponse.Err? {
        return Err(Transport(initResponse.error)), sent;
      }
      var response := initResponse.value;
      if Get(response, "error").Some? {
        return Err(InitializationFailed(Get(response, "error").value)), sent;
      }
      sent := sent + [InitializedNotification];
      if notified.Err? {
        return Err(Transport(notified.error)), sent;
      }
      connections := connections[name := 0];
      r := Ok(());
    }

    /**
     * `next_request_id`: the connection's counter plus one, stored back; a
     * name with no connection gets 1 and nothing changes.
     */
    method NextRequestId(name: string) returns (id: nat)
      modifies this
      ensures servers == old(servers)
      ensures name in old(connections) ==> (id == old(connections)[name] + 1
        && connections == old(connections)[name := id])
      ensures name !in old(connections) ==> id == 1 && connections == old(connections)
    {
      if name in connections {
        id := connections[name] + 1;
        connections := connections[name := id];
      } else {
        id := 1;
      }
    }

    /**
     * `list_tools`: an id is drawn first, then the request goes to the
     * connection (`reply` is how the exchange ends) and its response is read.
     */
    method ListTools(name: string, reply: Result<Json, string>)
      returns (r: Result<seq<McpTool>, McpErr>, request: Json)
      modifies this
      ensures servers == old(servers)
      ensures request == ToolsListRequest(if name in old(connections) then old(connections)[name] + 1 else 1)
      ensures name in old(connections) ==> connections == old(connections)[name := old(connections)[name] + 1]
      ensures name !in old(connections) ==> connections == old(connections) && r == Err(ConnectionNotFound)
      ensures name in old(connections) ==>
        r == (if reply.Err? then Err(Transport(reply.error)) else ExtractTools(reply.value))
    {
      var id := NextRequestId(name);
      request := ToolsListRequest(id);
      if name !in connections {
        return Err(ConnectionNotFound), request;
      }
      if reply.Err? {
        return Err(Transport(reply.error)), request;
      }
      r := ExtractTools(reply.value);
    }

    /** `call_tool`: like `list_tools`, with a "tools/call" request naming the tool and its arguments. */
    method CallTool(name: string, toolName: string, arguments: Json, reply: Result<Json, string>)
      returns (r: Result<Json, McpErr>, request: Json)
      modifies this
      ensures servers == old(servers)
      ensures request == ToolsCallRequest(if name in old(connections) then old(connections)[name] + 1 else 1,
                                          toolName, arguments)
      ensures name in old(connections) ==> connections == old(connections)[name := old(connections)[name] + 1]
      ensures name !in old(connections) ==> connections == old(connections) && r == Err(ConnectionNotFound)
      ensures name in old(connections) ==>
        r == (if reply.Err? then Err(Transport(reply.error)) else CallResult(reply.value))
    {
      var id := NextRequestId(name);
      request := ToolsCallRequest(id, toolName, arguments);
      if name !in connections {
        return Err(ConnectionNotFound), request;
      }
      if reply.Err? {
        return Err(Transport(reply.error)), request;
      }
      r := CallResult(reply.value);
    }

    /**
     * `disconnect`: removes the connection and shuts its transport down;
     * both transports' shutdown always succeeds, so this never fails, and an
     * unknown name is a no-op.
     */
    method Disconnect(name: string) returns (r: Result<(), McpErr>)
      modifies this
      ensures r.Ok?
      ensures servers == old(servers)
      ensures connections == old(connections) - {name}
    {
      connections := connections - {name};
      r := Ok(());
    }

    /** `disconnect_all`: every connection, one by one, in the map's order. */
    method DisconnectAll() returns (r: Result<(), McpErr>)
      modifies this
      ensures r.Ok?
      ensures servers == old(servers)
      ensures connections == map[]
    {
      var names := connections.Keys;
      while names != {}
        invariant connections.Keys == names
        invariant servers == old(servers)
        decreases |names|
      {
        var n :| n in names;
        var _ := Disconnect(n);
        names := names - {n};
      }
      r := Ok(());
    }
  }

  /**
   * A connection starts with its counter at 0 (see `Connect`), and a request
   * takes the counter plus one (see `ListTools`, `CallTool`), so the first
   * request after connecting carries id 1 — the id "initialize" already used
   * on that connection.
   */
  lemma FirstRequestRepeatsInitializeId(toolName: string, arguments: Json)
    ensures Get(ToolsListRequest(0 + 1), "id") == Get(InitializeRequest(ClientInfo), "id")
    ensures Get(ToolsCallRequest(0 + 1, toolName, arguments), "id") == Get(InitializeRequest(ClientInfo), "id")
  {
  }
}

=== FILE: LegacyProvider.dfy ===
// Provider selection in the older root crate (src/provider.rs): the same
// `provider::model` split, with Gemini as the only provider.

module LegacyProvider {
  import opened Base
  import Provider

  function UnsupportedProvider(name: string): string
  {
    "Unsupported provider: " + name + ". Supported providers: gemini"
  }

  /**
   * `ProviderFactory::create_provider`: the model name handed to the Gemini
   * client when the provider is "gemini" in any ASCII case, an
   * unsupported-provider error otherwise.
   */
  function CreateProvider(model: string): (r: Result<string, string>)
    ensures r.Ok? <==> ToLower(Provider.SplitModel(model).0) == "gemini"
    ensures r.Ok? ==> r.value == Provider.SplitModel(model).1
    ensures r.Err? ==> r.error == UnsupportedProvider(Provider.SplitModel(model).0)
  {
    var (name, m) := Provider.SplitModel(model);
    if ToLower(name) == "gemini" then Ok(m) else Err(UnsupportedProvider(name))
  }

  /**
   * The root crate accepts exactly the model strings the gia factory sends
   * to Gemini, with the same model name.
   */
  lemma AgreesWithGiaOnGemini(model: string)
    ensures CreateProvider(model).Ok? <==> (Provider.CreateProvider(model).Ok?
      && Provider.CreateProvider(model).value.GeminiChoice?)
    ensures CreateProvider(model).Ok? ==> CreateProvider(model).value == Provider.CreateProvider(model).value.model
  {
  }

  /** Ollama, supported by gia, is an unsupported provider here. */
  lemma OllamaUnsupported(model: string)
    ensures CreateProvider("ollama::" + model) == Err(UnsupportedProvider("ollama"))
  {
    assert ToLower("ollama")[0] == LowerChar('o') == 'o';
    assert "ollama::" + model == "ollama" + "::" + model;
    Provider.SplitAtFirstSeparatorOnly("ollama", model);
  }
}

=== FILE: McpClient.dfy ===
// The MCP client of gia (gia/src/mcp_client.rs): a connection flag and a
// tool cache, filled on first discovery from a fixed catalogue per server
// category, and a mock executor that knows two file tools.

module McpClient {
  import opened Base
  import opened Json

  datatype ConnectionType = Stdio | Tcp

  datatype McpConfig = McpConfig(
    serverName: string,
    connectionType: ConnectionType,
    command: string,
    args: seq<string>,
    address: Option<string>)

  datatype ToolMetadata = ToolMetadata(name: string, description: string, inputSchema: Json)

  datatype ToolResult = ToolResult(toolName: string, success: bool, content: Json, error: Option<string>)

  datatype McpError =
    | ConnectionFailed(msg: string)
    | NotConnected
    | DiscoveryFailed(msg: string)
    | ExecutionFailed(msg: string)
    | InvalidConfig(msg: string)
    | ToolNotFound(name: string)
    | Timeout
    | Other(msg: string)

  // -----------------------------------------------------------------------
  // Error display

  /** `impl Display for McpError`. */
  function Display(e: McpError): string
  {
    match e
    case ConnectionFailed(m) => "Failed to connect to MCP server: " + m
    case NotConnected => "Not connected to MCP server"
    case DiscoveryFailed(m) => "Tool discovery failed: " + m
    case ExecutionFailed(m) => "Tool execution failed: " + m
    case InvalidConfig(m) => "Invalid configuration: " + m
    case ToolNotFound(n) => "Tool not found: " + n
    case Timeout => "Operation timed out"
    case Other(m) => "MCP error: " + m
  }

  /** The fixed prefix of each kind of error; the rest of the text is the error's detail. */
  function Prefix(e: McpError): string
  {
    match e
    case ConnectionFailed(_) => "Failed to connect to MCP server: "
    case NotConnected => "Not connected to MCP server"
    case DiscoveryFailed(_) => "Tool discovery failed: "
    case ExecutionFailed(_) => "Tool execution failed: "
    case InvalidConfig(_) => "Invalid configuration: "
    case ToolNotFound(_) => "Tool not found: "
    case Timeout => "Operation timed out"
    case Other(_) => "MCP error: "
  }

  function Detail(e: McpError): string
  {
    match e
    case ConnectionFailed(m) => m
    case NotConnected => ""
    case DiscoveryFailed(m) => m
    case ExecutionFailed(m) => m
    case InvalidConfig(m) => m
    case ToolNotFound(n) => n
    case Timeout => ""
    case Other(m) => m
  }

  /** The text of an error is its kind's prefix followed by its detail. */
  lemma DisplayShape(e: McpError)
    ensures Display(e) == Prefix(e) + Detail(e)
    ensures StartsWith(Display(e), Prefix(e)) && EndsWith(Display(e), Detail(e))
  {
    StartsWithConcat(Prefix(e), Detail(e));
    EndsWithConcat(Prefix(e), Detail(e));
  }

  /** The position of an error's kind in the declaration. */
  function Kind(e: McpError): nat
  {
    match e
    case ConnectionFailed(_) => 0
    case NotConnected => 1
    case DiscoveryFailed(_) => 2
    case ExecutionFailed(_) => 3
    case InvalidConfig(_) => 4
    case ToolNotFound(_) => 5
    case Timeout => 6
    case Other(_) => 7
  }

  /** The first and sixth characters of a displayed error tell its kind. */
  lemma KindMarks(e: McpError)
    ensures |Prefix(e)| > 5
    ensures Prefix(e)[0] == "FNTTITOM"[Kind(e)] && Prefix(e)[5] == "dodeintr"[Kind(e)]
  {
  }

  lemma MarksTellKind(a: McpError, b: McpError)
    requires "FNTTITOM"[Kind(a)] == "FNTTITOM"[Kind(b)] && "dodeintr"[Kind(a)] == "dodeintr"[Kind(b)]
    ensures Kind(a) == Kind(b) && Prefix(a) == Prefix(b)
  {
  }

  lemma KindAndDetail(a: McpError, b: McpError)
    requires Kind(a) == Kind(b) && Detail(a) == Detail(b)
    ensures a == b
  {
  }

  /** Two errors that display alike are the same error: the text loses nothing. */
  lemma DisplayInjective(a: McpError, b: McpError)
    requires Display(a) == Display(b)
    ensures a == b
  {
    KindMarks(a);
    KindMarks(b);
    DisplayShape(a);
    DisplayShape(b);
    var s := Display(a);
    assert s[0] == Prefix(a)[0] == Prefix(b)[0] && s[5] == Prefix(a)[5] == Prefix(b)[5];
    MarksTellKind(a, b);
    assert Detail(a) == s[|Prefix(a)|..] == Detail(b);
    KindAndDetail(a, b);
  }

  // -----------------------------------------------------------------------
  // The mock catalogue

  const EmptySchema: Json := Obj2("type", Str("object"), "properties", Object(map[]))

  const UrlSchema: Json := Obj2("type", Str("object"), "properties",
    Object(map["url" := Obj2("type", Str("string"), "description", Str("URL to fetch"))]))

  function Meta(name: string, description: string): ToolMetadata
  {
    ToolMetadata(name, description, EmptySchema)
  }

  /** The tools `list_tools` discovers for a server category; an unknown category has none. */
  function Catalogue(server: string): seq<ToolMetadata>
  {
    if server == "git" then
      [ Meta("git_status", "Get git repository status"),
        Meta("git_log", "Show git commit history"),
        Meta("git_diff", "Show git diff"),
        Meta("git_branch", "List or manage git branches"),
        Meta("git_show", "Show git commit details") ]
    else if server == "code" then
      [ Meta("analyze_code", "Analyze code for complexity and metrics"),
        Meta("find_functions", "Find function definitions in code"),
        Meta("refactor_suggest", "Suggest code refactoring improvements"),
        Meta("code_metrics", "Calculate code metrics and statistics") ]
    else if server == "web" then
      [ ToolMetadata("fetch_url", "Fetch content from a URL", UrlSchema),
        Meta("scrape_page", "Scrape and parse web page content"),
        Meta("extract_links", "Extract links from a web page"),
        Meta("http_request", "Make custom HTTP request") ]
    else if server == "system" then
      [ Meta("system_info", "Get system information"),
        Meta("process_list", "List running processes"),
        Meta("disk_usage", "Show disk usage statistics"),
        Meta("memory_info", "Display memory usage information") ]
    else []
  }

  function Names(ts: seq<ToolMetadata>): (r: seq<string>)
    ensures |r| == |ts| && forall i :: 0 <= i < |ts| ==> r[i] == ts[i].name
  {
    seq(|ts|, i requires 0 <= i < |ts| => ts[i].name)
  }

  predicate DistinctNames(ts: seq<ToolMetadata>)
  {
    forall i, j :: 0 <= i < j < |ts| ==> ts[i].name != ts[j].name
  }

  /**
   * The catalogue sizes: five git tools, four each for code, web and
   * system, and none for any other category ("file" included); within a
   * category no name repeats.
   */
  lemma CatalogueShape(server: string)
    ensures |Catalogue(server)| ==
      if server == "git" then 5
      else if server == "code" || server == "web" || server == "system" then 4
      else 0
    ensures DistinctNames(Catalogue(server))
  {
    if server == "git" {
      GitCatalogue();
    } else if server == "code" {
      CodeCatalogue();
    } else if server == "web" {
      WebCatalogue();
    } else if server == "system" {
      SystemCatalogue();
    }
  }

  /** Names differing at some fixed position are distinct. */
  lemma DistinctAt(ts: seq<ToolMetadata>, k: nat, marks: string)
    requires |marks| == |ts|
    requires forall i :: 0 <= i < |ts| ==> k < |ts[i].name| && ts[i].name[k] == marks[i]
    requires forall i, j :: 0 <= i < j < |marks| ==> marks[i] != marks[j]
    ensures DistinctNames(ts)
  {
    forall i, j | 0 <= i < j < |ts|
      ensures ts[i].name != ts[j].name
    {
      assert ts[i].name[k] != ts[j].name[k];
    }
  }

  lemma GitCatalogue()
    ensures |Catalogue("git")| == 5 && DistinctNames(Catalogue("git"))
  {
    var ns := Names(Catalogue("git"));
    assert ns == ["git_status", "git_log", "git_diff", "git_branch", "git_show"];
    DistinctAt(Catalogue("git"), 5, "toirh");
  }

  lemma CodeCatalogue()
    ensures |Catalogue("code")| == 4 && DistinctNames(Catalogue("code"))
  {
    var ns := Names(Catalogue("code"));
    assert ns == ["analyze_code", "find_functions", "refactor_suggest", "code_metrics"];
    DistinctAt(Catalogue("code"), 0, "afrc");
  }

  lemma WebCatalogue()
    ensures |Catalogue("web")| == 4 && DistinctNames(Catalogue("web"))
  {
    var ns := Names(Catalogue("web"));
    assert ns == ["fetch_url", "scrape_page", "extract_links", "http_request"];
    DistinctAt(Catalogue("web"), 0, "fseh");
  }

  lemma SystemCatalogue()
    ensures |Catalogue("system")| == 4 && DistinctNames(Catalogue("system"))
  {
    var ns := Names(Catalogue("system"));
    assert ns == ["system_info", "process_list", "disk_usage", "memory_info"];
    DistinctAt(Catalogue("system"), 0, "spdm");
  }

  /** The cache after inserting `ts` in order, each under its name. */
  function Cached(cache: map<string, ToolMetadata>, ts: seq<ToolMetadata>): map<string, ToolMetadata>
    decreases |ts|
  {
    if ts == [] then cache
    else Cached(cache, ts[..|ts| - 1])[ts[|ts| - 1].name := ts[|ts| - 1]]
  }

  /** The cache a first discovery leaves behind. */
  function CatalogueMap(server: string): map<string, ToolMetadata>
  {
    Cached(map[], Catalogue(server))
  }

  /** Inserting tools with distinct names into an empty cache stores exactly those tools, each under its name. */
  lemma {:induction false} CachedHolds(ts: seq<ToolMetadata>)
    requires DistinctNames(ts)
    ensures |Cached(map[], ts)| == |ts|
    ensures forall n :: n in Cached(map[], ts) ==> Cached(map[], ts)[n].name == n && Cached(map[], ts)[n] in ts
    ensures forall i :: 0 <= i < |ts| ==> ts[i].name in Cached(map[], ts) && Cached(map[], ts)[ts[i].name] == ts[i]
    decreases |ts|
  {
    if ts != [] {
      var init := ts[..|ts| - 1];
      var last := ts[|ts| - 1];
      assert DistinctNames(init);
      CachedHolds(init);
      var m := Cached(map[], init);
      assert forall k :: 0 <= k < |init| ==> init[k].name != last.name by {
        forall k | 0 <= k < |init| ensures init[k].name != last.name {
          assert init[k] == ts[k];
        }
      }
      NewNameNotCached(init, last.name, m);
      var r := m[last.name := last];
      assert r == Cached(map[], ts);
      assert r.Keys == m.Keys + {last.name};
      forall i | 0 <= i < |ts|
        ensures ts[i].name in r && r[ts[i].name] == ts[i]
      {
        if i < |ts| - 1 {
          assert init[i] == ts[i];
        }
      }
    }
  }

  /** A name no listed tool has is not a key of a cache holding only listed tools. */
  lemma NewNameNotCached(init: seq<ToolMetadata>, name: string, m: map<string, ToolMetadata>)
    requires forall n :: n in m ==> m[n].name == n && m[n] in init
    requires forall k :: 0 <= k < |init| ==> init[k].name != name
    ensures name !in m
  {
  }

  /** A tool is in the discovered cache exactly when the category's catalogue lists it. */
  lemma CatalogueMapHolds(server: string)
    ensures |CatalogueMap(server)| == |Catalogue(server)|
    ensures forall n :: n in CatalogueMap(server) ==> CatalogueMap(server)[n].name == n
    ensures forall t :: t in CatalogueMap(server).Values <==> t in Catalogue(server)
    ensures CatalogueMap(server) == map[] <==> Catalogue(server) == []
  {
    var ts := Catalogue(server);
    CatalogueShape(server);
    CachedHolds(ts);
    var m := CatalogueMap(server);
    forall t | t in ts
      ensures t in m.Values
    {
      var i :| 0 <= i < |ts| && ts[i] == t;
      assert m[t.name] == t;
    }
    if ts != [] {
      assert ts[0].name in m;
    }
  }

  // -----------------------------------------------------------------------
  // The mock executor

  /**
   * `execute_mock_tool`: only reading and listing on a "file" server are
   * implemented, and both need a string "path"; the 30-second timeout
   * around the mock never expires.
   */
  function ExecuteMockTool(server: string, toolName: string, parameters: Json): Result<ToolResult, McpError>
  {
    if server == "file" && (toolName == "read_file" || toolName == "list_files") then
      match GetStr(parameters, "path")
      case None => Err(ExecutionFailed("Missing 'path' parameter"))
      case Some(path) =>
        var content :=
          if toolName == "read_file" then
            Object(map["path" := Str(path),
                       "content" := Str("[Mock file content - actual implementation pending]"),
                       "size" := Number(42)])
          else
            Object(map["path" := Str(path),
                       "files" := Array([Str("[Mock] file1.txt"), Str("[Mock] file2.txt"), Str("[Mock] file3.rs")]),
                       "count" := Number(3)]);
        Ok(ToolResult(toolName, true, content, None))
    else Err(ExecutionFailed("Tool '" + toolName + "' not implemented for server '" + server + "'"))
  }

  /**
   * The mock succeeds exactly for the two file tools given a string path,
   * and then reports success under the tool's name and echoes the path;
   * every failure is an execution failure.
   */
  lemma MockSucceedsOnlyOnFiles(server: string, toolName: string, parameters: Json)
    ensures ExecuteMockTool(server, toolName, parameters).Ok? <==>
      (server == "file" && (toolName == "read_file" || toolName == "list_files")
       && GetStr(parameters, "path").Some?)
    ensures var r := ExecuteMockTool(server, toolName, parameters);
      r.Ok? ==> (r.value.success && r.value.toolName == toolName && r.value.error.None?
        && Get(r.value.content, "path") == Some(Str(GetStr(parameters, "path").value)))
    ensures var r := ExecuteMockTool(server, toolName, parameters);
      r.Err? ==> r.error.ExecutionFailed?
  {
  }

  // -----------------------------------------------------------------------
  // Connecting

  /** What an I/O step reports: success, or the text of its error. */
  type Outcome = Result<(), string>

  /**
   * `connect`: `attempt` is how spawning the server process (stdio) or
   * opening the socket (TCP) ends. A TCP configuration without an address
   * fails before anything is attempted.
   */
  function ConnectOutcome(config: McpConfig, attempt: Outcome): (r: Result<(), McpError>)
  {
    match config.connectionType
    case Stdio =>
      if attempt.Err? then Err(ConnectionFailed("Failed to spawn process: " + attempt.error)) else Ok(())
    case Tcp =>
      if config.address.None? then Err(InvalidConfig("TCP address not provided"))
      else if attempt.Err? then Err(ConnectionFailed("TCP connection failed: " + attempt.error))
      else Ok(())
  }

  /**
   * Connecting succeeds exactly when the attempt does and, over TCP, an
   * address is configured; without one, the outcome of the attempt does not
   * matter because none is made.
   */
  lemma ConnectRule(config: McpConfig, attempt: Outcome, other: Outcome)
    ensures ConnectOutcome(config, attempt).Ok? <==>
      attempt.Ok? && (config.connectionType == Stdio || config.address.Some?)
    ensures config.connectionType == Tcp && config.address.None? ==>
      ConnectOutcome(config, attempt) == ConnectOutcome(config, other) == Err(InvalidConfig("TCP address not provided"))
    ensures ConnectOutcome(config, attempt).Err? && attempt.Ok? ==> ConnectOutcome(config, attempt).error.InvalidConfig?
  {
  }

  /** How waiting for the killed server process ends. */
  datatype WaitOutcome = Exited | WaitFailed(msg: string) | WaitTimedOut

  /** The part of `disconnect` after the connection check: stop the process, if there is one. */
  function StopOutcome(hadProcess: bool, kill: Outcome, wait: WaitOutcome): Result<(), McpError>
  {
    if !hadProcess then Ok(())
    else if kill.Err? then Err(Other("Failed to kill process: " + kill.error))
    else
      match wait
      case Exited => Ok(())
      case WaitFailed(m) => Err(Other("Failed to wait for process: " + m))
      case WaitTimedOut => Err(Timeout)
  }

  class Client {
    const config: McpConfig
    var toolsCache: map<string, ToolMetadata>
    var connected: bool
    /** Whether the client holds the server's child process. */
    var process: bool
    /** Whether the client holds a TCP stream. */
    var tcpStream: bool

    /**
     * The cache is keyed by tool name and is either empty or what a first
     * discovery put there; a process is only held while connected.
     */
    predicate Valid()
      reads this
    {
      (toolsCache == map[] || toolsCache == CatalogueMap(config.serverName))
      && (process ==> connected)
    }

    constructor Init(config: McpConfig)
      ensures this.config == config && toolsCache == map[] && !connected && !process && !tcpStream
      ensures Valid()
    {
      this.config := config;
      toolsCache := map[];
      connected := false;
      process := false;
      tcpStream := false;
    }

    /** `connect`: on success the client is connected and holds the process or the stream. */
    method Connect(attempt: Outcome) returns (r: Result<(), McpError>)
      requires Valid()
      modifies this
      ensures Valid()
      ensures r == ConnectOutcome(config, attempt)
      ensures toolsCache == old(toolsCache)
      ensures r.Ok? ==> (connected
        && process == (old(process) || config.connectionType == Stdio)
        && tcpStream == (old(tcpStream) || config.connectionType == Tcp))
      ensures r.Err? ==> connected == old(connected) && process == old(process) && tcpStream == old(tcpStream)
    {
      match config.connectionType
      case Stdio =>
        if attempt.Err? {
          return Err(ConnectionFailed("Failed to spawn process: " + attempt.error));
        }
        process := true;
        connected := true;
        r := Ok(());
      case Tcp =>
        if config.address.None? {
          return Err(InvalidConfig("TCP address not provided"));
        }
        if attempt.Err? {
          return Err(ConnectionFailed("TCP connection failed: " + attempt.error));
        }
        tcpStream := true;
        connected := true;
        r := Ok(());
    }

    /**
     * `disconnect`: nothing to do when not connected. Otherwise the process
     * is taken (so it is gone even if stopping it fails), and the client
     * counts as disconnected only once the process is stopped. The cache
     * and the TCP stream are kept.
     */
    method Disconnect(kill: Outcome, wait: WaitOutcome) returns (r: Result<(), McpError>)
      requires Valid()
      modifies this
      ensures Valid()
      ensures toolsCache == old(toolsCache) && tcpStream == old(tcpStream)
      ensures !old(connected) ==> r == Ok(()) && !connected && process == old(process)
      ensures old(connected) ==> r == StopOutcome(old(process), kill, wait) && !process
      ensures old(connected) ==> (connected <==> r.Err?)
    {
      if !connected {
        return Ok(());
      }
      if process {
        process := false;
        if kill.Err? {
          return Err(Other("Failed to kill process: " + kill.error));
        }
        match wait
        case Exited =>
        case WaitFailed(m) =>
          return Err(Other("Failed to wait for process: " + m));
        case WaitTimedOut =>
          return Err(Timeout);
      }
      connected := false;
      r := Ok(());
    }

    /** The discovery step of `list_tools`: the category's catalogue, each tool cached under its name. */
    method Discover() returns (tools: seq<ToolMetadata>)
      requires toolsCache == map[]
      modifies this
      ensures tools == Catalogue(config.serverName)
      ensures toolsCache == CatalogueMap(config.serverName)
      ensures connected == old(connected) && process == old(process) && tcpStream == old(tcpStream)
    {
      tools := Catalogue(config.serverName);
      var i := 0;
      while i < |tools|
        invariant 0 <= i <= |tools|
        invariant toolsCache == Cached(map[], tools[..i])
        invariant connected == old(connected) && process == old(process) && tcpStream == old(tcpStream)
      {
        assert tools[..i + 1][..i] == tools[..i];
        toolsCache := toolsCache[tools[i].name := tools[i]];
        i := i + 1;
      }
      assert tools[..|tools|] == tools;
    }

    /**
     * `list_tools`: `NotConnected` when not connected; a non-empty cache is
     * returned as it is (in the map's order); otherwise the category's
     * catalogue is discovered and cached. Either way the tools listed are
     * exactly the catalogue's.
     */
    method ListTools() returns (r: Result<seq<ToolMetadata>, McpError>)
      requires Valid()
      modifies this
      ensures Valid()
      ensures connected == old(connected) && process == old(process) && tcpStream == old(tcpStream)
      ensures !connected ==> r == Err(NotConnected) && toolsCache == old(toolsCache)
      ensures connected ==> r.Ok? && toolsCache == CatalogueMap(config.serverName)
      ensures connected && old(toolsCache) == map[] ==> r == Ok(Catalogue(config.serverName))
      ensures r.Ok? ==> (|r.value| == |Catalogue(config.serverName)|
        && forall t :: t in r.value <==> t in Catalogue(config.serverName))
      ensures r.Ok? ==> DistinctNames(r.value)
    {
      if !connected {
        return Err(NotConnected);
      }
      CatalogueMapHolds(config.serverName);
      CatalogueShape(config.serverName);
      if toolsCache != map[] {
        var listed := CachedValues();
        return Ok(listed);
      }
      var tools := Discover();
      r := Ok(tools);
    }

    /** `tools_cache.values().cloned().collect()`: each cached tool once, in an order the map leaves open. */
    method CachedValues() returns (r: seq<ToolMetadata>)
      requires forall n :: n in toolsCache ==> toolsCache[n].name == n
      ensures |r| == |toolsCache|
      ensures forall t :: t in r <==> t in toolsCache.Values
      ensures DistinctNames(r)
    {
      var remaining := toolsCache.Keys;
      r := [];
      while remaining != {}
        invariant remaining <= toolsCache.Keys
        invariant |r| + |remaining| == |toolsCache|
        invariant forall i :: 0 <= i < |r| ==>
          (r[i].name in toolsCache && r[i].name !in remaining && r[i] == toolsCache[r[i].name])
        invariant forall n :: n in toolsCache && n !in remaining ==> toolsCache[n] in r
        invariant DistinctNames(r)
        decreases |remaining|
      {
        var n :| n in remaining;
        r := r + [toolsCache[n]];
        remaining := remaining - {n};
      }
      forall t | t in toolsCache.Values
        ensures t in r
      {
        var n :| n in toolsCache && toolsCache[n] == t;
      }
    }

    /**
     * `call_tool`: `NotConnected` when not connected; a name missing from
     * the cache triggers discovery only when the cache is empty, and a name
     * still missing is `ToolNotFound`; a known tool runs on the mock.
     */
    method CallTool(toolName: string, parameters: Json) returns (r: Result<ToolResult, McpError>)
      requires Valid()
      modifies this
      ensures Valid()
      ensures connected == old(connected) && process == old(process) && tcpStream == old(tcpStream)
      ensures !connected ==> r == Err(NotConnected) && toolsCache == old(toolsCache)
      ensures connected && (toolName in old(toolsCache) || old(toolsCache) != map[]) ==> toolsCache == old(toolsCache)
      ensures connected && toolName !in old(toolsCache) && old(toolsCache) == map[] ==>
        toolsCache == CatalogueMap(config.serverName)
      ensures connected ==> r == (if toolName in toolsCache then ExecuteMockTool(config.serverName, toolName, parameters)
                                   else Err(ToolNotFound(toolName)))
    {
      if !connected {
        return Err(NotConnected);
      }
      if toolName !in toolsCache {
        if toolsCache == map[] {
          var listed := ListTools();
          // The `?` after discovery never fires: listing while connected succeeds.
          assert listed.Ok?;
        }
        if toolName !in toolsCache {
          return Err(ToolNotFound(toolName));
        }
      }
      r := ExecuteMockTool(config.serverName, toolName, parameters);
    }

    function ServerName(): string
      reads this
    {
      config.serverName
    }

    function IsConnected(): bool
      reads this
    {
      connected
    }
  }

  /**
   * `McpClient::new`: a client exists only if connecting succeeds, and it is
   * then connected with an empty cache.
   */
  method New(config: McpConfig, attempt: Outcome) returns (r: Result<Client, McpError>)
    ensures r.Ok? <==> ConnectOutcome(config, attempt).Ok?
    ensures r.Err? ==> r.error == ConnectOutcome(config, attempt).error
    ensures r.Ok? ==> (fresh(r.value) && r.value.Valid() && r.value.config == config
      && r.value.connected && r.value.toolsCache == map[])
  {
    var client := new Client.Init(config);
    var c := client.Connect(attempt);
    if c.Err? {
      return Err(c.error);
    }
    r := Ok(client);
  }

  /**
   * No call through the client can succeed: the two tools the mock
   * implements are on the "file" server, whose catalogue is empty, and on
   * every other server the mock fails.
   */
  lemma CallNeverSucceeds(server: string, cache: map<string, ToolMetadata>, toolName: string, parameters: Json)
    requires cache == map[] || cache == CatalogueMap(server)
    ensures toolName in cache ==> ExecuteMockTool(server, toolName, parameters).Err?
    ensures server == "file" ==> toolName !in cache
  {
    CatalogueMapHolds(server);
    CatalogueShape(server);
    if server == "file" {
      assert Catalogue(server) == [];
    }
  }
}

=== FILE: Ollama.dfy ===
// The Ollama provider of gia (gia/src/ollama.rs): base-URL normalisation,
// merging of text-only messages for the OpenAI-compatible endpoint, and the
// handling of the reply.

module Ollama {
  import opened Base
  import opened ContentPart
  import opened Conversation
  import opened Provider

  /**
   * `normalize_base_url`: the URL extended so that it ends in "/v1/"; it is
   * left as it is exactly when it already ends that way.
   */
  function NormalizeBaseUrl(url: string): (r: string)
    ensures EndsWith(r, "/v1/")
    ensures StartsWith(r, url) && |r| <= |url| + 4
    ensures r == url <==> EndsWith(url, "/v1/")
  {
    if EndsWith(url, "/v1/") then url
    else if EndsWith(url, "/v1") then
      assert (url + "/")[|url + "/"| - 4..] == url[|url| - 3..] + "/";
      StartsWithConcat(url, "/");
      url + "/"
    else if EndsWith(url, "/") then
      assert (url + "v1/")[|url + "v1/"| - 4..] == url[|url| - 1..] + "v1/";
      StartsWithConcat(url, "v1/");
      url + "v1/"
    else
      EndsWithConcat(url, "/v1/");
      StartsWithConcat(url, "/v1/");
      url + "/v1/"
  }

  /** Normalising twice is normalising once. */
  lemma NormalizeIdempotent(url: string)
    ensures NormalizeBaseUrl(NormalizeBaseUrl(url)) == NormalizeBaseUrl(url)
  {
  }

  /** The default-port URL and a bare host both end up with one "/v1/". */
  lemma NormalizeExamples(a: string, b: string)
    requires a == "http://localhost:11434" && b == "http://localhost:11434/v1"
    ensures NormalizeBaseUrl(a) == "http://localhost:11434/v1/"
    ensures NormalizeBaseUrl(b) == "http://localhost:11434/v1/"
  {
    assert !EndsWith(a, "/v1/") && !EndsWith(a, "/v1") && !EndsWith(a, "/");
    assert !EndsWith(b, "/v1/") && EndsWith(b, "/v1");
  }

  predicate AllText(parts: seq<GenaiPart>)
  {
    forall i :: 0 <= i < |parts| ==> parts[i].TextPart?
  }

  function PartTexts(parts: seq<GenaiPart>): (r: seq<string>)
    requires AllText(parts)
    ensures |r| == |parts|
    ensures forall i :: 0 <= i < |parts| ==> r[i] == parts[i].text
  {
    seq(|parts|, i requires 0 <= i < |parts| => parts[i].text)
  }

  /** Separator between merged text parts. */
  const PartSeparator: string := "\n\n"

  /**
   * `merge_text_parts_if_needed`: a message made only of text parts, more
   * than one of them, becomes one text part joining them with a blank line;
   * any other message is returned as it is. Role and options are kept.
   */
  function MergeTextParts(m: ChatMessage): (r: ChatMessage)
    ensures r.role == m.role && r.options == m.options
    ensures AllText(m.parts) && |m.parts| > 1 ==>
      r.parts == [TextPart(Join(PartTexts(m.parts), PartSeparator))]
    ensures !(AllText(m.parts) && |m.parts| > 1) ==> r == m
  {
    if AllText(m.parts) && |m.parts| > 1 then
      ChatMessage(m.role, [TextPart(Join(PartTexts(m.parts), PartSeparator))], m.options)
    else m
  }

  /** A merged message is left alone by a second merge. */
  lemma MergeIdempotent(m: ChatMessage)
    ensures MergeTextParts(MergeTextParts(m)) == MergeTextParts(m)
  {
  }

  /** The byte length of a join: every part plus one separator between each pair. */
  lemma {:induction false} JoinByteLength(parts: seq<string>, sep: string)
    requires parts != []
    ensures Utf8Len(Join(parts, sep)) == SumBytes(parts) + (|parts| - 1) * Utf8Len(sep)
    decreases |parts|
  {
    if |parts| > 1 {
      JoinByteLength(parts[1..], sep);
      Utf8LenAppend(parts[0], sep);
      Utf8LenAppend(parts[0] + sep, Join(parts[1..], sep));
      OneMoreSeparator(|parts|, Utf8Len(sep));
    }
  }

  lemma OneMoreSeparator(m: int, w: int)
    ensures (m - 1) * w == (m - 1 - 1) * w + w
  {
  }

  function SumBytes(parts: seq<string>): nat
  {
    if parts == [] then 0 else Utf8Len(parts[0]) + SumBytes(parts[1..])
  }

  /**
   * Merging loses no text: each original part occurs in the merged text,
   * whose length is the parts' total plus two bytes per separator.
   */
  lemma MergeKeepsAllText(m: ChatMessage)
    requires AllText(m.parts) && |m.parts| > 1
    ensures var r := MergeTextParts(m);
      |r.parts| == 1 && r.parts[0].TextPart?
      && (forall i :: 0 <= i < |m.parts| ==> Contains(r.parts[0].text, m.parts[i].text))
      && Utf8Len(r.parts[0].text) == SumBytes(PartTexts(m.parts)) + 2 * (|m.parts| - 1)
  {
    var texts := PartTexts(m.parts);
    forall i | 0 <= i < |m.parts| ensures Contains(Join(texts, PartSeparator), m.parts[i].text) {
      JoinContainsEach(texts, PartSeparator, i);
    }
    JoinByteLength(texts, PartSeparator);
  }

  /** The request messages: every message merged where needed, in order. */
  function RequestMessages(msgs: seq<ChatMessage>): (r: seq<ChatMessage>)
    ensures |r| == |msgs|
    ensures forall i :: 0 <= i < |msgs| ==> r[i] == MergeTextParts(msgs[i])
  {
    seq(|msgs|, i requires 0 <= i < |msgs| => MergeTextParts(msgs[i]))
  }

  const ExecContext: string := "Failed to execute Ollama chat request"

  /**
   * `generate_content_with_chat_messages` after the request was sent: a
   * failed call is an error with context; a reply whose first text is
   * missing or blank is the no-content error; otherwise that text with
   * default usage.
   */
  function HandleReply(reply: ExecReply): (r: Result<AiResponse, string>)
    ensures reply.ExecFailed? ==> r == Err(WithContext(ExecContext, reply.errorText))
    ensures reply.Responded? ==>
      (r == Err(NoContentError) <==>
        (FirstText(reply.response).None? || IsBlank(FirstText(reply.response).value)))
    ensures r.Ok? ==> (reply.Responded? && FirstText(reply.response) == Some(r.value.content)
      && !IsBlank(r.value.content) && r.value.usage == DefaultUsage)
  {
    match reply
    case ExecFailed(e) => Err(WithContext(ExecContext, e))
    case Responded(res) =>
      var content := if FirstText(res).Some? then FirstText(res).value else "";
      TrimEmptyIffBlank(content);
      if Trim(content) == [] then Err(NoContentError)
      else Ok(AiResponse(content, DefaultUsage))
  }
}

=== FILE: Output.dfy ===
// Response presentation of gia (gia/src/output.rs): the line-merging and
// spacing passes of `wrap_text`, and the footer metadata that summarises
// where the request's content came from.

module Output {
  import opened Base
  import opened Sources
  import Image
  import Provider
  import Conversation

  // -----------------------------------------------------------------------
  // `wrap_text`, first pass: joining a list marker to the line after it

  /** A line whose end, trailing whitespace aside, is '•' or a digit followed by '.'. */
  predicate ShouldMerge(line: string)
  {
    var t := TrimEnd(line);
    EndsWith(t, "•") || (EndsWith(t, ".") && |t| >= 2 && IsAsciiDigit(t[|t| - 2]))
  }

  /** A marker line joined to the next by a space: bullets are dropped, "N." is kept. */
  function MergedLine(line: string, next: string): string
  {
    var t := TrimEnd(line);
    (if EndsWith(t, "•") then TrimEndMatches(t, "•") else t) + " " + next
  }

  /** The first pass as a value, from line `i` to the end. */
  function MergeFrom(lines: seq<string>, i: nat): seq<string>
    decreases |lines| - i
  {
    if i >= |lines| then []
    else if ShouldMerge(lines[i]) && i + 1 < |lines| then [MergedLine(lines[i], lines[i + 1])] + MergeFrom(lines, i + 2)
    else [lines[i]] + MergeFrom(lines, i + 1)
  }

  function MergePass(lines: seq<string>): seq<string>
  {
    MergeFrom(lines, 0)
  }

  /**
   * The first pass of `wrap_text`: a marker line that has a successor is
   * merged with it and both are consumed; every other line is kept.
   */
  method MergeLines(lines: seq<string>) returns (mergedLines: seq<string>)
    ensures mergedLines == MergePass(lines)
  {
    mergedLines := [];
    var i := 0;
    while i < |lines|
      invariant 0 <= i <= |lines| + 1
      invariant mergedLines + MergeFrom(lines, i) == MergePass(lines)
      decreases |lines| - i
    {
      var line := lines[i];
      if ShouldMerge(line) && i + 1 < |lines| {
        AppendAssoc(mergedLines, [MergedLine(line, lines[i + 1])], MergeFrom(lines, i + 2));
        mergedLines := mergedLines + [MergedLine(line, lines[i + 1])];
        i := i + 2;
      } else {
        AppendAssoc(mergedLines, [line], MergeFrom(lines, i + 1));
        mergedLines := mergedLines + [line];
        i := i + 1;
      }
    }
    assert mergedLines + [] == mergedLines;
  }

  /** A line ending in a bullet is joined to the next: the bullet goes, a space joins them. */
  lemma BulletMerge(lines: seq<string>, i: nat, x: string)
    requires i + 1 < |lines| && lines[i] == x + "•" && !EndsWith(x, "•")
    ensures MergeFrom(lines, i) == [x + " " + lines[i + 1]] + MergeFrom(lines, i + 2)
  {
    BulletLine(x, lines[i + 1]);
  }

  lemma BulletLine(x: string, next: string)
    requires !EndsWith(x, "•")
    ensures ShouldMerge(x + "•") && MergedLine(x + "•", next) == x + " " + next
  {
    var line := x + "•";
    assert TrimEnd(line) == line;
    assert EndsWith(line, "•");
    assert line[..|line| - 1] == x;
    assert TrimEndMatches(line, "•") == x;
  }

  /** A line ending in a digit and '.' is joined to the next, keeping the number. */
  lemma NumberMerge(lines: seq<string>, i: nat, x: string, d: char)
    requires i + 1 < |lines| && lines[i] == x + [d, '.'] && IsAsciiDigit(d)
    ensures MergeFrom(lines, i) == [lines[i] + " " + lines[i + 1]] + MergeFrom(lines, i + 2)
  {
    var line := x + [d, '.'];
    assert TrimEnd(line) == line;
    assert !EndsWith(line, "•") && EndsWith(line, ".");
  }

  /** The example of gia's own tests: "Item 1•" takes the next line on, without its bullet. */
  lemma BulletExample(next: string)
    ensures MergePass(["Item 1•", next]) == ["Item 1 " + next]
  {
    var lines := ["Item 1•", next];
    assert lines[0] == "Item 1" + "•";
    assert !EndsWith("Item 1", "•");
    BulletMerge(lines, 0, "Item 1");
    assert "Item 1" + " " == "Item 1 ";
  }

  /** The example of gia's own tests: "1." takes the next line on, keeping the number. */
  lemma NumberExample(next: string)
    ensures MergePass(["1.", next]) == ["1. " + next]
  {
    var lines := ["1.", next];
    assert lines[0] == [] + ['1', '.'];
    NumberMerge(lines, 0, [], '1');
    assert "1." + " " == "1. ";
  }

  /** A line that is not a marker, and the last line in any case, is kept as it is. */
  lemma KeptLine(lines: seq<string>, i: nat)
    requires i < |lines| && (!ShouldMerge(lines[i]) || i == |lines| - 1)
    ensures MergeFrom(lines, i) == [lines[i]] + MergeFrom(lines, i + 1)
  {
  }

  /** Without markers before the last line, the first pass changes nothing. */
  lemma {:induction false} NoMarkersNoChange(lines: seq<string>, i: nat)
    requires i <= |lines|
    requires forall k :: i <= k < |lines| - 1 ==> !ShouldMerge(lines[k])
    ensures MergeFrom(lines, i) == lines[i..]
    decreases |lines| - i
  {
    if i < |lines| {
      NoMarkersNoChange(lines, i + 1);
      KeptLine(lines, i);
      assert lines[i..] == [lines[i]] + lines[i + 1..];
    }
  }

  /** Each merge consumes two lines into one, so the pass at most halves the line count. */
  lemma {:induction false} MergeCount(lines: seq<string>, i: nat)
    requires i <= |lines|
    ensures |MergeFrom(lines, i)| <= |lines| - i <= 2 * |MergeFrom(lines, i)|
    decreases |lines| - i
  {
    if i < |lines| {
      if ShouldMerge(lines[i]) && i + 1 < |lines| {
        MergeCount(lines, i + 2);
      } else {
        MergeCount(lines, i + 1);
      }
    }
  }

  // -----------------------------------------------------------------------
  // `wrap_text`, second pass: a blank line where the indentation falls back

  /** The index of the first alphanumeric character, if any. */
  function FirstAlnum(line: string): (r: Option<nat>)
    ensures r.Some? ==> r.value < |line| && IsAlnum(line[r.value])
    ensures r.Some? ==> forall j :: 0 <= j < r.value ==> !IsAlnum(line[j])
    ensures r.None? ==> forall j :: 0 <= j < |line| ==> !IsAlnum(line[j])
  {
    if line == [] then None
    else if IsAlnum(line[0]) then Some(0)
    else
      match FirstAlnum(line[1..])
      case None => None
      case Some(k) => Some(k + 1)
  }

  /** `position(is_alphanumeric).unwrap_or(0)`: the indentation a line is wrapped with. */
  function Indent(line: string): nat
  {
    match FirstAlnum(line)
    case Some(k) => k
    case None => 0
  }

  /** A blank line goes between two non-blank lines when the second is indented less. */
  predicate NeedsGap(prev: string, curr: string)
  {
    Trim(prev) != [] && Trim(curr) != [] && Indent(curr) < Indent(prev)
  }

  /** The second pass as a value over the first `n` lines (each line before `textwrap::fill`). */
  function SpacedUpTo(lines: seq<string>, n: nat): seq<string>
    requires n <= |lines|
  {
    if n == 0 then []
    else SpacedUpTo(lines, n - 1) + (if n > 1 && NeedsGap(lines[n - 2], lines[n - 1]) then [""] else []) + [lines[n - 1]]
  }

  function Spaced(lines: seq<string>): seq<string>
  {
    SpacedUpTo(lines, |lines|)
  }

  /**
   * The second pass of `wrap_text`: each line is kept, with an empty line
   * pushed before it when the indentation decreased and neither it nor the
   * line before it is blank.
   */
  method SpacingPass(mergedLines: seq<string>) returns (result: seq<string>)
    ensures result == Spaced(mergedLines)
  {
    result := [];
    var prevIndent: Option<nat> := None;
    var prevWasEmpty := false;
    for i := 0 to |mergedLines|
      invariant result == SpacedUpTo(mergedLines, i)
      invariant i == 0 ==> prevIndent.None?
      invariant i > 0 ==> prevIndent == Some(Indent(mergedLines[i - 1]))
      invariant i > 0 ==> prevWasEmpty == (Trim(mergedLines[i - 1]) == [])
    {
      var line := mergedLines[i];
      var isEmpty := Trim(line) == [];
      var currIndent := Indent(line);
      ghost var gap := prevIndent.Some? && !prevWasEmpty && !isEmpty && currIndent < prevIndent.value;
      SpacedStep(mergedLines, i, gap);
      match prevIndent {
        case Some(prev) =>
          if !prevWasEmpty && !isEmpty && currIndent < prev {
            result := result + [""];
          }
        case None =>
      }
      result := result + [line];
      prevIndent := Some(currIndent);
      prevWasEmpty := isEmpty;
    }
  }

  /** One line more: the line itself, after a blank line exactly when a gap is needed before it. */
  lemma SpacedStep(lines: seq<string>, i: nat, gap: bool)
    requires i < |lines|
    requires gap == (i > 0 && NeedsGap(lines[i - 1], lines[i]))
    ensures SpacedUpTo(lines, i + 1) == SpacedUpTo(lines, i) + (if gap then [""] else []) + [lines[i]]
  {
  }

  /** Where the indentation never falls back, the second pass adds nothing. */
  lemma {:induction false} NoDedentNoGap(lines: seq<string>, n: nat)
    requires n <= |lines|
    requires forall k :: 0 < k < n ==> !NeedsGap(lines[k - 1], lines[k])
    ensures SpacedUpTo(lines, n) == lines[..n]
    decreases n
  {
    if n > 0 {
      NoDedentNoGap(lines, n - 1);
      assert lines[..n] == lines[..n - 1] + [lines[n - 1]];
    }
  }

  /**
   * The second pass only inserts: every line is kept, at most one blank
   * line goes before each line but the first, and the first and last lines
   * stay first and last.
   */
  lemma {:induction false} SpacedShape(lines: seq<string>, n: nat)
    requires 0 < n <= |lines|
    ensures n <= |SpacedUpTo(lines, n)| <= 2 * n - 1
    ensures SpacedUpTo(lines, n)[0] == lines[0]
    ensures SpacedUpTo(lines, n)[|SpacedUpTo(lines, n)| - 1] == lines[n - 1]
    decreases n
  {
    if n > 1 {
      SpacedShape(lines, n - 1);
    }
  }

  /** A dedent after a non-blank line gets a blank line; after a blank line it does not. */
  lemma GapRule(a: string, b: string)
    ensures NeedsGap(a, b) ==> Spaced([a, b]) == [a] + [""] + [b]
    ensures Trim(a) == [] ==> Spaced([a, b]) == [a] + [b]
  {
    TwoLines([a, b], NeedsGap(a, b));
  }

  lemma TwoLines(lines: seq<string>, gap: bool)
    requires |lines| == 2 && gap == NeedsGap(lines[0], lines[1])
    ensures Spaced(lines) == [lines[0]] + (if gap then [""] else []) + [lines[1]]
  {
    SpacedStep(lines, 0, false);
    SpacedStep(lines, 1, gap);
  }

  /**
   * `wrap_text` with its filling left out: the two passes over the text's
   * lines, joined by newlines.
   */
  method WrapText(text: string) returns (r: string)
    ensures r == Join(Spaced(MergePass(Lines(text))), "\n")
  {
    var mergedLines := MergeLines(Lines(text));
    var result := SpacingPass(mergedLines);
    r := Join(result, "\n");
  }

  // -----------------------------------------------------------------------
  // `build_footer_metadata`

  datatype FooterMetadata = FooterMetadata(
    modelName: string,
    providerName: string,
    timestamp: int,
    imageFiles: seq<string>,
    textFiles: seq<string>,
    hasClipboard: bool,
    hasAudio: bool,
    hasStdin: bool,
    roles: seq<string>,
    tasks: seq<string>,
    prompt: string,
    tokenUsage: Option<Conversation.TokenUsage>)

  /** What one source adds to the list of roles: the name of a role definition that is not a task. */
  function RoleNameOf(x: ContentSource): seq<string>
  {
    if x.RoleDefinition? && !x.isTask then [x.name] else []
  }

  /** What one source adds to the list of tasks: the name of a task definition. */
  function TaskNameOf(x: ContentSource): seq<string>
  {
    if x.RoleDefinition? && x.isTask then [x.name] else []
  }

  /** The base name of a path as a list of at most one name (none for a path without one). */
  function BaseNameOf(path: string): seq<string>
  {
    match Image.FileName(path)
    case Some(n) => [n]
    case None => []
  }

  /** What one source adds to the list of images: the base name of an image file. */
  function ImageNameOf(x: ContentSource): seq<string>
  {
    if x.ImageFile? then BaseNameOf(x.imagePath) else []
  }

  /** What one source adds to the list of text files: the base name of a text file. */
  function TextNameOf(x: ContentSource): seq<string>
  {
    if x.TextFile? then BaseNameOf(x.filePath) else []
  }

  /** What `f` yields for the first `n` sources, in their order. */
  function Gather(items: seq<ContentSource>, n: nat, f: ContentSource -> seq<string>): seq<string>
    requires n <= |items|
  {
    if n == 0 then [] else Gather(items, n - 1, f) + f(items[n - 1])
  }

  /** What `f` yields for all the sources, in their order. */
  function Listed(items: seq<ContentSource>, f: ContentSource -> seq<string>): seq<string>
  {
    Gather(items, |items|, f)
  }

  predicate IsClipboard(x: ContentSource)
  {
    x.ClipboardText? || x.ClipboardImage?
  }

  predicate IsAudio(x: ContentSource)
  {
    x.AudioRecording?
  }

  predicate IsStdin(x: ContentSource)
  {
    x.StdinText?
  }

  /** Whether one of the first `n` sources has property `p`. */
  predicate AnyUpTo(items: seq<ContentSource>, n: nat, p: ContentSource -> bool)
    requires n <= |items|
  {
    n > 0 && (AnyUpTo(items, n - 1, p) || p(items[n - 1]))
  }

  lemma {:induction false} AnyUpToExists(items: seq<ContentSource>, n: nat, p: ContentSource -> bool)
    requires n <= |items|
    ensures AnyUpTo(items, n, p) <==> exists j :: 0 <= j < n && p(items[j])
    decreases n
  {
    if n > 0 {
      AnyUpToExists(items, n - 1, p);
    }
  }

  /** The seven things the footer collects from the content sources, as its loop carries them. */
  datatype Collected = Collected(imageFiles: seq<string>, textFiles: seq<string>, hasClipboard: bool,
                                 hasAudio: bool, hasStdin: bool, roles: seq<string>, tasks: seq<string>)

  /** What the first `n` sources yield. */
  function CollectedUpTo(items: seq<ContentSource>, n: nat): Collected
    requires n <= |items|
  {
    Collected(Gather(items, n, ImageNameOf), Gather(items, n, TextNameOf),
              AnyUpTo(items, n, IsClipboard), AnyUpTo(items, n, IsAudio), AnyUpTo(items, n, IsStdin),
              Gather(items, n, RoleNameOf), Gather(items, n, TaskNameOf))
  }

  /** The body of the footer's loop: one source is filed under its kind, and nothing else changes. */
  method FileSource(content: ContentSource, acc: Collected) returns (r: Collected)
    ensures r.imageFiles == acc.imageFiles + ImageNameOf(content)
    ensures r.textFiles == acc.textFiles + TextNameOf(content)
    ensures r.hasClipboard == (acc.hasClipboard || IsClipboard(content))
    ensures r.hasAudio == (acc.hasAudio || IsAudio(content))
    ensures r.hasStdin == (acc.hasStdin || IsStdin(content))
    ensures r.roles == acc.roles + RoleNameOf(content)
    ensures r.tasks == acc.tasks + TaskNameOf(content)
  {
    r := acc;
    match content {
      case RoleDefinition(name, _, isTask) =>
        if isTask {
          r := r.(tasks := r.tasks + [name]);
        } else {
          r := r.(roles := r.roles + [name]);
        }
      case ImageFile(path) =>
        match Image.FileName(path) {
          case Some(filename) =>
            r := r.(imageFiles := r.imageFiles + [filename]);
          case None =>
        }
      case TextFile(path, _) =>
        match Image.FileName(path) {
          case Some(filename) =>
            r := r.(textFiles := r.textFiles + [filename]);
          case None =>
        }
      case ClipboardText(_) | ClipboardImage =>
        r := r.(hasClipboard := true);
      case AudioRecording(_) =>
        r := r.(hasAudio := true);
      case StdinText(_) =>
        r := r.(hasStdin := true);
      case _ =>
    }
  }

  /**
   * `build_footer_metadata`: `now` is the clock reading. The model string
   * is split at its first "::" (provider "gemini" without one); each source
   * is filed by kind, and prompts are not listed.
   */
  method BuildFooterMetadata(model: string, prompt: string, orderedContent: seq<ContentSource>,
                             tokenUsage: Option<Conversation.TokenUsage>, now: int)
    returns (m: FooterMetadata)
    ensures (m.providerName, m.modelName) == Provider.SplitModel(model)
    ensures m.roles == Listed(orderedContent, RoleNameOf) && m.tasks == Listed(orderedContent, TaskNameOf)
    ensures m.imageFiles == Listed(orderedContent, ImageNameOf) && m.textFiles == Listed(orderedContent, TextNameOf)
    ensures m.hasClipboard <==> exists i :: 0 <= i < |orderedContent| && IsClipboard(orderedContent[i])
    ensures m.hasAudio <==> exists i :: 0 <= i < |orderedContent| && orderedContent[i].AudioRecording?
    ensures m.hasStdin <==> exists i :: 0 <= i < |orderedContent| && orderedContent[i].StdinText?
    ensures m.prompt == prompt && m.tokenUsage == tokenUsage && m.timestamp == now
  {
    var (providerName, modelName) := Provider.SplitModel(model);
    var acc := Collected([], [], false, false, false, [], []);
    for i := 0 to |orderedContent|
      invariant acc == CollectedUpTo(orderedContent, i)
    {
      acc := FileSource(orderedContent[i], acc);
    }
    AnyUpToExists(orderedContent, |orderedContent|, IsClipboard);
    AnyUpToExists(orderedContent, |orderedContent|, IsAudio);
    AnyUpToExists(orderedContent, |orderedContent|, IsStdin);
    m := FooterMetadata(modelName, providerName, now, acc.imageFiles, acc.textFiles, acc.hasClipboard,
                        acc.hasAudio, acc.hasStdin, acc.roles, acc.tasks, prompt, tokenUsage);
  }

  /** A name is gathered exactly when some source among the first `n` yields it. */
  lemma {:induction false} GatherMembers(items: seq<ContentSource>, n: nat, f: ContentSource -> seq<string>, name: string)
    requires n <= |items|
    ensures name in Gather(items, n, f) <==> exists i :: 0 <= i < n && name in f(items[i])
    decreases n
  {
    if n > 0 {
      GatherMembers(items, n - 1, f, name);
    }
  }

  /** A name is listed under roles (or tasks) exactly when a definition of that kind with that name was loaded. */
  lemma DefinitionNamesMembers(items: seq<ContentSource>, name: string)
    ensures name in Listed(items, RoleNameOf) <==>
      exists i :: 0 <= i < |items| && items[i].RoleDefinition? && !items[i].isTask && items[i].name == name
    ensures name in Listed(items, TaskNameOf) <==>
      exists i :: 0 <= i < |items| && items[i].RoleDefinition? && items[i].isTask && items[i].name == name
  {
    GatherMembers(items, |items|, RoleNameOf, name);
    GatherMembers(items, |items|, TaskNameOf, name);
  }

  /** What `f` yields for the first `n` sources depends on those sources only. */
  lemma {:induction false} GatherOfPrefix(s: seq<ContentSource>, t: seq<ContentSource>, n: nat, f: ContentSource -> seq<string>)
    requires n <= |s| && n <= |t| && forall k :: 0 <= k < n ==> s[k] == t[k]
    ensures Gather(s, n, f) == Gather(t, n, f)
    decreases n
  {
    if n > 0 {
      GatherOfPrefix(s, t, n - 1, f);
    }
  }

  lemma {:induction false} GatherConcat(a: seq<ContentSource>, b: seq<ContentSource>, k: nat, f: ContentSource -> seq<string>)
    requires k <= |b|
    ensures Gather(a + b, |a| + k, f) == Listed(a, f) + Gather(b, k, f)
    decreases k
  {
    if k == 0 {
      GatherOfPrefix(a + b, a, |a|, f);
    } else {
      GatherConcat(a, b, k - 1, f);
      assert (a + b)[|a| + k - 1] == b[k - 1];
      AppendAssoc(Listed(a, f), Gather(b, k - 1, f), f(b[k - 1]));
    }
  }

  /** Names are listed source by source: those of `a + b` are those of `a`, then those of `b`. */
  lemma ListedConcat(a: seq<ContentSource>, b: seq<ContentSource>, f: ContentSource -> seq<string>)
    ensures Listed(a + b, f) == Listed(a, f) + Listed(b, f)
  {
    GatherConcat(a, b, |b|, f);
  }

  /** A source for which `f` yields nothing leaves the list as it was, wherever it stands. */
  lemma Skipped(a: seq<ContentSource>, x: ContentSource, b: seq<ContentSource>, f: ContentSource -> seq<string>)
    requires f(x) == []
    ensures Listed(a + [x] + b, f) == Listed(a + b, f)
  {
    assert Listed([x], f) == Gather([x], 0, f) + f(x);
    ListedConcat(a, [x], f);
    ListedConcat(a + [x], b, f);
    ListedConcat(a, b, f);
    AppendEmpty(Listed(a, f));
  }

  lemma AppendEmpty(s: seq<string>)
    ensures s + [] == s
  {
  }

  /** A prompt adds nothing to any of the four lists, wherever it stands. */
  lemma PromptNotListed(a: seq<ContentSource>, p: string, b: seq<ContentSource>)
    ensures Listed(a + [CommandLinePrompt(p)] + b, RoleNameOf) == Listed(a + b, RoleNameOf)
    ensures Listed(a + [CommandLinePrompt(p)] + b, TaskNameOf) == Listed(a + b, TaskNameOf)
    ensures Listed(a + [CommandLinePrompt(p)] + b, ImageNameOf) == Listed(a + b, ImageNameOf)
    ensures Listed(a + [CommandLinePrompt(p)] + b, TextNameOf) == Listed(a + b, TextNameOf)
  {
    var x := CommandLinePrompt(p);
    Skipped(a, x, b, RoleNameOf);
    Skipped(a, x, b, TaskNameOf);
    Skipped(a, x, b, ImageNameOf);
    Skipped(a, x, b, TextNameOf);
  }

  /** A plain file name is its own base name. */
  lemma PlainFileName(name: string)
    requires Image.IsNormalComponent(name)
    ensures BaseNameOf(name) == [name]
  {
    Image.FileNameOfPlainName(name);
  }

  /**
   * The footer of gia's test, with its names as parameters: an image, a
   * text file and clipboard text list the image's and the text file's names
   * and nothing for the clipboard.
   */
  lemma FooterFilesExample(image: string, text: string, content: string, clip: string)
    requires Image.IsNormalComponent(image) && Image.IsNormalComponent(text)
    ensures Listed([ImageFile(image), TextFile(text, content), ClipboardText(clip)], ImageNameOf) == [image]
    ensures Listed([ImageFile(image), TextFile(text, content), ClipboardText(clip)], TextNameOf) == [text]
  {
    var items := [ImageFile(image), TextFile(text, content), ClipboardText(clip)];
    PlainFileName(image);
    PlainFileName(text);
    assert Gather(items, 1, ImageNameOf) == [image];
    assert Gather(items, 3, ImageNameOf) == Gather(items, 1, ImageNameOf) + [] + [];
    assert Gather(items, 1, TextNameOf) == [];
    assert Gather(items, 2, TextNameOf) == [] + [text];
    assert Gather(items, 3, TextNameOf) == Gather(items, 2, TextNameOf) + [];
  }
}

=== FILE: Provider.dfy ===
// The provider boundary of gia (gia/src/provider.rs): the reply a provider
// hands back, the genai chat response it is built from, and the factory that
// splits a `provider::model` string and picks the provider.

module Provider {
  import opened Base
  import opened ContentPart
  import opened Conversation

  /** `AiResponse`: the generated text and the usage reported with it. */
  datatype AiResponse = AiResponse(content: string, usage: TokenUsage)

  /** Token counts as genai reports them: signed 32-bit values, each optional. */
  datatype GenaiUsage = GenaiUsage(promptTokens: Option<int>, completionTokens: Option<int>, totalTokens: Option<int>)

  /**
   * A genai chat response: its text contents in order, the tool calls it
   * requests and its usage.
   */
  datatype ChatResponse = ChatResponse(texts: seq<string>, toolCalls: seq<ToolCall>, usage: GenaiUsage)

  /**
   * The outcome of one `exec_chat` call, which the model takes as input:
   * a response, or a failure given by the text of its error chain.
   */
  datatype ExecReply = Responded(response: ChatResponse) | ExecFailed(errorText: string)

  /** `ChatResponse::first_text`. */
  function FirstText(r: ChatResponse): (t: Option<string>)
    ensures t.Some? <==> r.texts != []
    ensures t.Some? ==> t.value == r.texts[0]
  {
    if r.texts == [] then None else Some(r.texts[0])
  }

  const U32Modulus: int := 0x1_0000_0000

  /** Rust's `t as u32` on an `i32`: the value modulo 2^32. */
  function U32Cast(t: int): (r: nat)
    ensures r < U32Modulus
    ensures (r - t) % U32Modulus == 0
  {
    t % U32Modulus
  }

  /** A cast leaves every non-negative 32-bit count unchanged. */
  lemma U32CastKeepsCounts(t: int)
    requires 0 <= t < U32Modulus
    ensures U32Cast(t) == t
  {
  }

  /** The usage record a provider reply carries: each genai count cast to u32. */
  function CastUsage(u: GenaiUsage): (r: TokenUsage)
    ensures r.promptTokens.Some? <==> u.promptTokens.Some?
    ensures r.completionTokens.Some? <==> u.completionTokens.Some?
    ensures r.totalTokens.Some? <==> u.totalTokens.Some?
    ensures u.promptTokens.Some? ==> r.promptTokens.value == U32Cast(u.promptTokens.value)
    ensures u.completionTokens.Some? ==> r.completionTokens.value == U32Cast(u.completionTokens.value)
    ensures u.totalTokens.Some? ==> r.totalTokens.value == U32Cast(u.totalTokens.value)
  {
    TokenUsage(
      if u.promptTokens.Some? then Some(U32Cast(u.promptTokens.value)) else None,
      if u.completionTokens.Some? then Some(U32Cast(u.completionTokens.value)) else None,
      if u.totalTokens.Some? then Some(U32Cast(u.totalTokens.value)) else None)
  }

  /**
   * The text an error has once anyhow's `context` is put around it, as its
   * `{:?}` rendering shows it: the context, then the cause chain.
   */
  function WithContext(context: string, cause: string): (r: string)
    ensures StartsWith(r, context) && EndsWith(r, cause)
  {
    StartsWithConcat(context, "\n\nCaused by:\n    " + cause);
    EndsWithConcat(context + "\n\nCaused by:\n    ", cause);
    context + "\n\nCaused by:\n    " + cause
  }

  /** Context keeps every piece of text the cause already had. */
  lemma WithContextKeeps(context: string, cause: string, t: string)
    requires Contains(cause, t)
    ensures Contains(WithContext(context, cause), t)
  {
    ContainsEmbedded(context + "\n\nCaused by:\n    ", cause, [], t);
    assert context + "\n\nCaused by:\n    " + cause + [] == WithContext(context, cause);
  }

  /** The error both providers give for a reply with no visible text. */
  const NoContentError: string :=
    "No content was generated by the AI. The response was empty or contained only whitespace."

  // -----------------------------------------------------------------------
  // Model strings

  /**
   * Splitting a model string: at the first "::" into provider and model,
   * or provider "gemini" with the whole string when there is no "::".
   */
  function SplitModel(model: string): (r: (string, string))
    ensures Contains(model, "::") ==> model == r.0 + "::" + r.1
    ensures Contains(model, "::") ==> forall j :: 0 <= j < |r.0| ==> !OccursAt(model, "::", j)
    ensures Contains(model, "::") ==> !Contains(r.0, "::")
    ensures !Contains(model, "::") ==> r == ("gemini", model)
  {
    ContainsIffOccurs(model, "::");
    match SplitOnce(model, "::")
    case None => ("gemini", model)
    case Some(parts) =>
      NoOccurrenceInPrefix(model, "::", parts.0);
      parts
  }

  /** A prefix free of occurrences that start inside it cannot contain the separator. */
  lemma NoOccurrenceInPrefix(s: string, sep: string, p: string)
    requires sep != [] && StartsWith(s, p)
    requires forall j :: 0 <= j < |p| ==> !OccursAt(s, sep, j)
    ensures !Contains(p, sep)
  {
    ContainsIffOccurs(p, sep);
    if exists j :: OccursAt(p, sep, j) {
      var j :| OccursAt(p, sep, j);
      assert s[j..j + |sep|] == p[j..j + |sep|];
      assert OccursAt(s, sep, j);
      assert false;
    }
  }

  /**
   * Only the first "::" splits: with a provider name free of ':', the model
   * part is everything after it, "::" included.
   */
  lemma SplitAtFirstSeparatorOnly(provider: string, model: string)
    requires forall i :: 0 <= i < |provider| ==> provider[i] != ':'
    ensures SplitModel(provider + "::" + model) == (provider, model)
  {
    var s := provider + "::" + model;
    assert s[|provider|..|provider| + 2] == "::";
    assert OccursAt(s, "::", |provider|);
    ContainsIffOccurs(s, "::");
    var r := SplitModel(s);
    assert |provider| < |r.0| ==> !OccursAt(s, "::", |provider|);
    assert s[|r.0|] == (r.0 + "::" + r.1)[|r.0|] == ':';
    assert |r.0| == |provider|;
    assert r.0 == s[..|provider|] == provider;
    assert r.1 == s[|provider| + 2..] == model;
  }

  /** The providers the gia factory can build. */
  datatype ProviderChoice = GeminiChoice(model: string) | OllamaChoice(model: string)

  function UnsupportedProvider(name: string): string
  {
    "Unsupported provider: " + name + ". Supported providers: gemini, ollama"
  }

  /**
   * `ProviderFactory::create_provider`: the provider name, lowercased,
   * selects Gemini or Ollama; any other name is an error naming it as given.
   * Choosing Gemini never fails here: building the client can still fail
   * when no API key is configured, and that failure is modelled by
   * `Gemini.GeminiClient.New`.
   */
  function CreateProvider(model: string): (r: Result<ProviderChoice, string>)
    ensures r.Ok? <==> ToLower(SplitModel(model).0) in {"gemini", "ollama"}
    ensures r.Ok? ==> r.value.model == SplitModel(model).1
    ensures r.Ok? ==> (r.value.GeminiChoice? <==> ToLower(SplitModel(model).0) == "gemini")
    ensures r.Err? ==> r.error == UnsupportedProvider(SplitModel(model).0)
  {
    var (name, m) := SplitModel(model);
    match ToLower(name)
    case "gemini" => Ok(GeminiChoice(m))
    case "ollama" => Ok(OllamaChoice(m))
    case _ => Err(UnsupportedProvider(name))
  }

  /** A model string without "::" always goes to Gemini, unchanged. */
  lemma BareModelIsGemini(model: string)
    requires !Contains(model, "::")
    ensures CreateProvider(model) == Ok(GeminiChoice(model))
  {
    assert ToLower("gemini") == "gemini";
  }

  /** The provider name is matched without regard to ASCII case. */
  lemma ProviderNameCaseInsensitive(provider: string, model: string)
    requires ToLower(provider) == "ollama"
    ensures CreateProvider(provider + "::" + model) == Ok(OllamaChoice(model))
  {
    forall i | 0 <= i < |provider| ensures provider[i] != ':' {
      assert LowerChar(provider[i]) == "ollama"[i];
    }
    SplitAtFirstSeparatorOnly(provider, model);
  }

  /** "unknown::model" is rejected with the unsupported-provider message. */
  lemma UnknownProviderRejected(s: string)
    requires s == "unknown::model"
    ensures CreateProvider(s) == Err(UnsupportedProvider("unknown"))
  {
    assert s == "unknown" + "::" + "model";
    SplitAtFirstSeparatorOnly("unknown", "model");
  }
}

=== FILE: Registry.dfy ===
// The tool registry of gia (gia/src/tools/registry.rs): a map from tool
// name to tool, filled in place by `register` and read by name.

module Registry {
  import opened Base
  import opened Json

  /**
   * What the registry keeps of a tool: its name, its description for the
   * model and its parameter schema. How a tool runs is given separately
   * (see module Executor).
   */
  datatype Tool = Tool(name: string, description: string, schema: Json)

  /** The genai tool descriptor sent to the provider. */
  datatype GenaiTool = GenaiTool(name: string, description: string, schema: Json)

  /** `GiaTool::to_genai_tool`. */
  function ToGenaiTool(t: Tool): (r: GenaiTool)
    ensures r.name == t.name && r.description == t.description && r.schema == t.schema
  {
    GenaiTool(t.name, t.description, t.schema)
  }

  /** The map after registering `t`: stored under its name, replacing any namesake. */
  function Registered(tools: map<string, Tool>, t: Tool): (r: map<string, Tool>)
    ensures r.Keys == tools.Keys + {t.name}
    ensures r[t.name] == t
    ensures forall n :: n in tools && n != t.name ==> r[n] == tools[n]
  {
    tools[t.name := t]
  }

  /** The name-to-tool map built by a sequence of registrations, in order. */
  function RegisterAll(tools: map<string, Tool>, ts: seq<Tool>): map<string, Tool>
    decreases |ts|
  {
    if ts == [] then tools else RegisterAll(Registered(tools, ts[0]), ts[1..])
  }

  /** Registering grows the count by one exactly when the name is new. */
  lemma RegisteredCount(tools: map<string, Tool>, t: Tool)
    ensures |Registered(tools, t)| == if t.name in tools then |tools| else |tools| + 1
  {
    if t.name in tools {
      assert Registered(tools, t).Keys == tools.Keys;
    } else {
      assert Registered(tools, t).Keys == tools.Keys + {t.name};
    }
  }

  /** After a sequence of registrations, each name maps to its last registration. */
  lemma {:induction false} LastRegistrationWins(tools: map<string, Tool>, ts: seq<Tool>, i: nat)
    requires i < |ts|
    requires forall j :: i < j < |ts| ==> ts[j].name != ts[i].name
    ensures ts[i].name in RegisterAll(tools, ts) && RegisterAll(tools, ts)[ts[i].name] == ts[i]
    decreases |ts|
  {
    if i == 0 {
      NotRegisteredLater(Registered(tools, ts[0]), ts[1..], ts[0].name);
    } else {
      LastRegistrationWins(Registered(tools, ts[0]), ts[1..], i - 1);
    }
  }

  /** Registrations of other names leave a name's entry alone. */
  lemma {:induction false} NotRegisteredLater(tools: map<string, Tool>, ts: seq<Tool>, name: string)
    requires name in tools
    requires forall j :: 0 <= j < |ts| ==> ts[j].name != name
    ensures name in RegisterAll(tools, ts) && RegisterAll(tools, ts)[name] == tools[name]
    decreases |ts|
  {
    if ts != [] {
      NotRegisteredLater(Registered(tools, ts[0]), ts[1..], name);
    }
  }

  class ToolRegistry {
    var tools: map<string, Tool>

    /** Every tool is stored under its own name. */
    predicate Valid()
      reads this
    {
      forall n :: n in tools ==> tools[n].name == n
    }

    /** `ToolRegistry::new`: an empty registry. */
    constructor New()
      ensures tools == map[] && Valid()
      ensures Len() == 0
    {
      tools := map[];
    }

    /** `register`: inserts the tool under its name in place. */
    method Register(t: Tool)
      requires Valid()
      modifies this
      ensures tools == Registered(old(tools), t)
      ensures Valid()
    {
      tools := tools[t.name := t];
    }

    /** `get`: the tool registered under `name`, if any. */
    function Get(name: string): (r: Option<Tool>)
      reads this
      ensures r.Some? <==> name in tools
      ensures r.Some? ==> r.value == tools[name]
      ensures Valid() && r.Some? ==> r.value.name == name
    {
      if name in tools then Some(tools[name]) else None
    }

    /** `len`: the number of distinct names registered. */
    function Len(): (r: nat)
      reads this
      ensures r == |tools.Keys|
    {
      |tools|
    }

    /**
     * `to_genai_tools`: one descriptor per registered tool, in an order the
     * map leaves unspecified.
     */
    method ToGenaiTools() returns (r: seq<GenaiTool>)
      requires Valid()
      ensures |r| == Len()
      ensures forall i :: 0 <= i < |r| ==> r[i].name in tools && r[i] == ToGenaiTool(tools[r[i].name])
      ensures forall n :: n in tools ==> ToGenaiTool(tools[n]) in r
      ensures forall i, j :: 0 <= i < j < |r| ==> r[i].name != r[j].name
    {
      var remaining := tools.Keys;
      r := [];
      while remaining != {}
        invariant remaining <= tools.Keys
        invariant |r| + |remaining| == |tools|
        invariant forall i :: 0 <= i < |r| ==>
          (r[i].name in tools && r[i].name !in remaining && r[i] == ToGenaiTool(tools[r[i].name]))
        invariant forall n :: n in tools && n !in remaining ==> ToGenaiTool(tools[n]) in r
        invariant forall i, j :: 0 <= i < j < |r| ==> r[i].name != r[j].name
        decreases |remaining|
      {
        var n :| n in remaining;
        r := r + [ToGenaiTool(tools[n])];
        remaining := remaining - {n};
      }
    }
  }

  /** Registering tools one by one in a fresh registry builds the map of `RegisterAll`. */
  method RegisterInOrder(ts: seq<Tool>) returns (reg: ToolRegistry)
    ensures fresh(reg) && reg.Valid()
    ensures reg.tools == RegisterAll(map[], ts)
  {
    reg := new ToolRegistry.New();
    var i := 0;
    while i < |ts|
      invariant 0 <= i <= |ts|
      invariant reg.Valid()
      invariant RegisterAll(reg.tools, ts[i..]) == RegisterAll(map[], ts)
    {
      assert ts[i..][1..] == ts[i + 1..];
      reg.Register(ts[i]);
      i := i + 1;
    }
  }
}

=== FILE: Role.dfy ===
// Role and task definitions of gia (gia/src/role.rs): for each requested
// name the roles directory is tried before the tasks directory; names found
// in neither are skipped.

module Role {
  import opened Base

  /** One loaded definition: `(name, content, is_task)`. */
  datatype RoleItem = RoleItem(name: string, content: string, isTask: bool)

  /**
   * The file system as `load_all_roles` sees it: a path is in the map when it
   * exists, and maps to its text or to the error reading it gives.
   */
  type FileSystem = map<string, Result<string, string>>

  const NoHomeMessage: string := "Could not find home directory"

  /** `get_definition_path`: `<home>/.gia/<subdir>/<name>.md`. */
  function DefinitionPath(home: string, name: string, subdir: string): (r: string)
    ensures StartsWith(r, home + "/.gia/" + subdir + "/")
    ensures EndsWith(r, name + ".md")
  {
    var r := home + "/.gia/" + subdir + "/" + name + ".md";
    assert r == (home + "/.gia/" + subdir + "/") + (name + ".md");
    StartsWithConcat(home + "/.gia/" + subdir + "/", name + ".md");
    EndsWithConcat(home + "/.gia/" + subdir + "/", name + ".md");
    r
  }

  function RolePath(home: string, name: string): string
  {
    DefinitionPath(home, name, "roles")
  }

  function TaskPath(home: string, name: string): string
  {
    DefinitionPath(home, name, "tasks")
  }

  /** Role files and task files never share a path. */
  lemma RoleAndTaskPathsDiffer(home: string, a: string, b: string)
    ensures RolePath(home, a) != TaskPath(home, b)
  {
    var k := |home| + 6;
    assert RolePath(home, a)[k] == 'r';
    assert TaskPath(home, b)[k] == 't';
  }

  /** The path exists and its text can be read. */
  predicate Readable(fs: FileSystem, path: string)
  {
    path in fs && fs[path].Ok?
  }

  /** What one name resolves to: a readable role file, else a readable task file, else nothing. */
  function Lookup(home: string, name: string, fs: FileSystem): (r: Option<RoleItem>)
    ensures r.Some? ==> r.value.name == name
  {
    var rolePath := RolePath(home, name);
    var taskPath := TaskPath(home, name);
    if Readable(fs, rolePath) then Some(RoleItem(name, fs[rolePath].value, false))
    else if Readable(fs, taskPath) then Some(RoleItem(name, fs[taskPath].value, true))
    else None
  }

  function Found(o: Option<RoleItem>): seq<RoleItem>
  {
    if o.Some? then [o.value] else []
  }

  /** The items found for `names`, in the order of the names. */
  function LoadedFrom(names: seq<string>, home: string, fs: FileSystem): seq<RoleItem>
  {
    if names == [] then []
    else LoadedFrom(names[..|names| - 1], home, fs) + Found(Lookup(home, names[|names| - 1], fs))
  }

  /** `load_all_roles` as a value: an empty list asks nothing of the home directory. */
  function AllRoles(names: seq<string>, home: Option<string>, fs: FileSystem): Result<seq<RoleItem>, string>
  {
    if names == [] then Ok([])
    else if home.None? then Err(NoHomeMessage)
    else Ok(LoadedFrom(names, home.value, fs))
  }

  /**
   * `load_all_roles`: `home` is what `dirs::home_dir` reports. A name whose
   * role file is missing or unreadable falls through to its task file; a
   * name with neither is skipped with a warning.
   */
  method LoadAllRoles(names: seq<string>, home: Option<string>, fs: FileSystem)
    returns (r: Result<seq<RoleItem>, string>)
    ensures r == AllRoles(names, home, fs)
  {
    if names == [] {
      return Ok([]);
    }
    var items: seq<RoleItem> := [];
    for i := 0 to |names|
      invariant home.Some? ==> items == LoadedFrom(names[..i], home.value, fs)
      invariant home.None? ==> i == 0
    {
      if home.None? {
        return Err(NoHomeMessage);
      }
      var name := names[i];
      assert names[..i + 1][..i] == names[..i];
      var rolePath := RolePath(home.value, name);
      if rolePath in fs {
        match fs[rolePath]
        case Ok(content) =>
          items := items + [RoleItem(name, content, false)];
          continue;
        case Err(_) =>
      }
      var taskPath := TaskPath(home.value, name);
      if taskPath in fs {
        match fs[taskPath]
        case Ok(content) =>
          items := items + [RoleItem(name, content, true)];
          continue;
        case Err(_) =>
      }
    }
    assert names[..|names|] == names;
    return Ok(items);
  }

  /** Loading is done name by name: the items for `a + b` are those for `a`, then those for `b`. */
  lemma {:induction false} LoadedConcat(a: seq<string>, b: seq<string>, home: string, fs: FileSystem)
    ensures LoadedFrom(a + b, home, fs) == LoadedFrom(a, home, fs) + LoadedFrom(b, home, fs)
    decreases |b|
  {
    if b == [] {
      assert a + b == a;
    } else {
      assert (a + b)[..|a + b| - 1] == a + b[..|b| - 1];
      LoadedConcat(a, b[..|b| - 1], home, fs);
    }
  }

  /** One name gives the role if its file reads, else the task if its file reads, else nothing. */
  lemma OneName(name: string, home: string, fs: FileSystem)
    ensures Readable(fs, RolePath(home, name)) ==>
      LoadedFrom([name], home, fs) == [RoleItem(name, fs[RolePath(home, name)].value, false)]
    ensures !Readable(fs, RolePath(home, name)) && Readable(fs, TaskPath(home, name)) ==>
      LoadedFrom([name], home, fs) == [RoleItem(name, fs[TaskPath(home, name)].value, true)]
    ensures !Readable(fs, RolePath(home, name)) && !Readable(fs, TaskPath(home, name)) ==>
      LoadedFrom([name], home, fs) == []
  {
    assert [name][..0] == [];
  }

  /**
   * Every item loaded is what its own name resolves to, so a role shadows a
   * task of the same name and `isTask` tells which directory it came from.
   */
  lemma {:induction false} ItemsAreLookups(names: seq<string>, home: string, fs: FileSystem, i: nat)
    requires i < |LoadedFrom(names, home, fs)|
    ensures var item := LoadedFrom(names, home, fs)[i];
      item.name in names && Lookup(home, item.name, fs) == Some(item)
    decreases |names|
  {
    var init := names[..|names| - 1];
    var prev := LoadedFrom(init, home, fs);
    if i < |prev| {
      ItemsAreLookups(init, home, fs, i);
      assert prev[i].name in init;
    }
  }

  /** When every name is found, the items follow the names one for one. */
  lemma {:induction false} AllFoundKeepsOrder(names: seq<string>, home: string, fs: FileSystem)
    requires forall j :: 0 <= j < |names| ==> Lookup(home, names[j], fs).Some?
    ensures |LoadedFrom(names, home, fs)| == |names|
    ensures forall j :: 0 <= j < |names| ==> LoadedFrom(names, home, fs)[j] == Lookup(home, names[j], fs).value
    decreases |names|
  {
    if names != [] {
      AllFoundKeepsOrder(names[..|names| - 1], home, fs);
    }
  }

  /** A name found in neither directory is skipped: it changes nothing around it. */
  lemma MissingNameSkipped(a: seq<string>, name: string, b: seq<string>, home: string, fs: FileSystem)
    requires Lookup(home, name, fs).None?
    ensures LoadedFrom(a + [name] + b, home, fs) == LoadedFrom(a + b, home, fs)
  {
    assert [name][..0] == [];
    assert LoadedFrom([name], home, fs) == [];
    LoadedConcat(a, [name], home, fs);
    assert LoadedFrom(a + [name], home, fs) == LoadedFrom(a, home, fs);
    LoadedConcat(a + [name], b, home, fs);
    LoadedConcat(a, b, home, fs);
  }

  /** An empty list is an empty success whatever the environment; otherwise only a missing home fails. */
  lemma EmptyAndHome(names: seq<string>, home: Option<string>, fs: FileSystem)
    ensures names == [] ==> AllRoles(names, home, fs) == Ok([])
    ensures AllRoles(names, home, fs).Err? <==> names != [] && home.None?
  {
  }
}

=== FILE: Security.dfy ===
// The tool sandbox policy of gia (gia/src/tools/security.rs): an immutable
// value holding the allowed directories, limits and switches, built with
// `with_*` updates, and the two checks the tools run before acting.

module Security {
  import opened Base
  import Image

  /**
   * A filesystem path as the sequence of its components, as
   * `Path::components` yields them: "/" stands for the root and "." for a
   * leading current directory; every other component is a name.
   */
  type PathBuf = seq<string>

  /**
   * `Path::components`: a leading '/' is the root component, a leading "."
   * piece the current-directory component; after that, empty pieces
   * (repeated or trailing separators) and "." pieces are not components.
   */
  function Components(s: string): (r: PathBuf)
    ensures forall i :: 0 < i < |r| ==> r[i] != [] && r[i] != "." && r[i] != "/" && '/' !in r[i]
  {
    ComponentsOf(Image.Segments(s))
  }

  /** The components of the pieces of a path between its separators. */
  function ComponentsOf(segs: seq<string>): (r: PathBuf)
    requires |segs| >= 1 && forall i :: 0 <= i < |segs| ==> '/' !in segs[i]
    ensures forall i :: 0 < i < |r| ==> r[i] != [] && r[i] != "." && r[i] != "/" && '/' !in r[i]
  {
    if |segs| > 1 && segs[0] == [] then ["/"] + Image.Kept(segs[1..])
    else if segs[0] == "." then ["."] + Image.Kept(segs[1..])
    else Image.Kept(segs)
  }

  /** One more piece after the first adds it as a component unless it is empty or ".". */
  lemma ComponentsOfAppend(segs: seq<string>, name: string)
    requires |segs| >= 1 && forall i :: 0 <= i < |segs| ==> '/' !in segs[i]
    requires segs != [[]] && '/' !in name
    ensures ComponentsOf(segs + [name])
      == if name == [] || name == "." then ComponentsOf(segs) else ComponentsOf(segs) + [name]
  {
    var all := segs + [name];
    assert all[0] == segs[0];
    if segs[0] == [] || segs[0] == "." {
      assert all[1..] == segs[1..] + [name];
      Image.KeptAppend(segs[1..], name);
    } else {
      Image.KeptAppend(segs, name);
    }
  }

  /** The components of a path and a name after one more separator. */
  lemma ComponentsAppend(dir: string, name: string)
    requires dir != [] && '/' !in name
    ensures Components(dir + "/" + name)
      == if name == [] || name == "." then Components(dir) else Components(dir) + [name]
  {
    Image.SegmentsAppend(dir, name);
    Image.SegmentsShape(dir);
    ComponentsOfAppend(Image.Segments(dir), name);
  }

  /** `Path::starts_with`: `base` is a component-wise prefix of `p`. */
  predicate PathStartsWith(p: PathBuf, base: PathBuf)
  {
    |base| <= |p| && p[..|base|] == base
  }

  /**
   * `Path::parent`: the path without its last component; none when there is
   * no component or the last one is the root.
   */
  function Parent(p: PathBuf): (r: Option<PathBuf>)
    ensures r.None? <==> p == [] || p[|p| - 1] == "/"
    ensures r.Some? ==> |r.value| + 1 == |p| && PathStartsWith(p, r.value)
  {
    if p == [] || p[|p| - 1] == "/" then None else Some(p[..|p| - 1])
  }

  /**
   * The parent of a name joined onto a directory is the directory, however
   * many separators follow the name: "docs/notes.txt/" has parent "docs".
   */
  lemma ParentOfChild(dir: string, name: string, trailing: nat)
    requires dir != [] && Image.IsNormalComponent(name)
    ensures Parent(Components(dir + "/" + name + Separators(trailing))) == Some(Components(dir))
  {
    ComponentsAppend(dir, name);
    TrailingSeparators(dir + "/" + name, trailing);
    assert (Components(dir) + [name])[..|Components(dir)|] == Components(dir);
  }

  /** `n` separators in a row. */
  function Separators(n: nat): (r: string)
    ensures |r| == n && '/' in r <==> n > 0
  {
    if n == 0 then [] else Separators(n - 1) + "/"
  }

  /** Separators at the end of a non-empty path add no component. */
  lemma {:induction false} TrailingSeparators(s: string, n: nat)
    requires s != []
    ensures Components(s + Separators(n)) == Components(s)
  {
    if n > 0 {
      TrailingSeparators(s, n - 1);
      var t := s + Separators(n - 1);
      assert Separators(n) == Separators(n - 1) + "/";
      AppendAssoc(s, Separators(n - 1), "/");
      assert s + Separators(n) == t + "/" + "";
      ComponentsAppend(t, "");
      assert Components(s + Separators(n)) == Components(t);
    } else {
      assert s + Separators(0) == s;
    }
  }

  /**
   * A single name, with or without separators after it, has the empty path
   * as its parent: "notes.txt/" has parent "", never "notes.txt".
   */
  lemma ParentOfName(name: string, trailing: nat)
    requires Image.IsNormalComponent(name)
    ensures Components(name + Separators(trailing)) == [name]
    ensures Parent(Components(name + Separators(trailing))) == Some([])
  {
    TrailingSeparators(name, trailing);
    NameComponent(name);
    assert Parent([name]) == Some([]);
  }

  lemma NameComponent(name: string)
    requires Image.IsNormalComponent(name)
    ensures Components(name) == [name]
  {
    Image.SegmentsShape(name);
    NameOfPieces(name);
  }

  lemma NameOfPieces(name: string)
    requires Image.IsNormalComponent(name)
    ensures ComponentsOf([name]) == [name]
  {
    Image.KeptAppend([], name);
  }

  /** The root and the empty path have no parent. */
  lemma NoParentOfRoot()
    ensures Components("/") == ["/"] && Parent(Components("/")).None?
    ensures Components("") == [] && Parent(Components("")).None?
  {
    var empty: string := [];
    Image.SegmentsShape(empty);
    Image.SegmentsAppend(empty, empty);
    assert empty + "/" + empty == "/";
    Image.KeptAppend([], empty);
    assert [empty, empty][1..] == [empty];
  }

  /** The current directory, with or without separators after it, has the empty path as its parent. */
  lemma ParentOfCurrentDir(trailing: nat)
    ensures Components("." + Separators(trailing)) == ["."]
    ensures Parent(Components("." + Separators(trailing))) == Some([])
  {
    TrailingSeparators(".", trailing);
    CurrentDirComponent();
    assert Parent(["."]) == Some([]);
  }

  lemma CurrentDirComponent()
    ensures Components(".") == ["."]
  {
    CurrentDirPieces();
    CurrentDirOfPieces();
  }

  lemma CurrentDirOfPieces()
    ensures ComponentsOf(["."]) == ["."]
  {
  }

  lemma CurrentDirPieces()
    ensures Image.Segments(".") == ["."]
  {
    Image.SegmentsShape(".");
  }

  datatype SecurityContext = SecurityContext(
    allowedDirs: set<PathBuf>,
    maxFileSize: nat,
    allowWebSearch: bool,
    allowCommandExecution: bool,
    commandTimeoutSecs: nat,
    confirmCommands: bool)

  const DefaultMaxFileSize: nat := 10 * 1024 * 1024
  const DefaultCommandTimeoutSecs: nat := 30

  /** `SecurityContext::new`: no directory restriction, 10 MiB, web search on, commands off, 30 s, no confirmation. */
  function New(): (c: SecurityContext)
    ensures c.allowedDirs == {} && c.maxFileSize == 10485760
    ensures c.allowWebSearch && !c.allowCommandExecution && !c.confirmCommands
    ensures c.commandTimeoutSecs == 30
  {
    SecurityContext({}, DefaultMaxFileSize, true, false, DefaultCommandTimeoutSecs, false)
  }

  /**
   * `with_allowed_dir`: adds the directory's canonical form, or the path as
   * given when it cannot be canonicalised; nothing else changes.
   */
  function WithAllowedDir(c: SecurityContext, dir: string, canonical: Option<PathBuf>): (r: SecurityContext)
    ensures r.allowedDirs == c.allowedDirs + {if canonical.Some? then canonical.value else Components(dir)}
    ensures r == c.(allowedDirs := r.allowedDirs)
  {
    c.(allowedDirs := c.allowedDirs + {if canonical.Some? then canonical.value else Components(dir)})
  }

  /** `allow_current_dir`: adds the working directory, or fails when it cannot be read. */
  function AllowCurrentDir(c: SecurityContext, cwd: Result<PathBuf, string>): (r: Result<SecurityContext, string>)
    ensures r.Ok? <==> cwd.Ok?
    ensures r.Ok? ==> r.value == c.(allowedDirs := c.allowedDirs + {cwd.value})
  {
    match cwd
    case Ok(d) => Ok(c.(allowedDirs := c.allowedDirs + {d}))
    case Err(e) => Err(e)
  }

  function WithMaxFileSize(c: SecurityContext, size: nat): (r: SecurityContext)
    ensures r.maxFileSize == size && r == c.(maxFileSize := size)
  {
    c.(maxFileSize := size)
  }

  function WithAllowWebSearch(c: SecurityContext, allow: bool): (r: SecurityContext)
    ensures r.allowWebSearch == allow && r == c.(allowWebSearch := allow)
  {
    c.(allowWebSearch := allow)
  }

  function WithAllowCommandExecution(c: SecurityContext, allow: bool): (r: SecurityContext)
    ensures r.allowCommandExecution == allow && r == c.(allowCommandExecution := allow)
  {
    c.(allowCommandExecution := allow)
  }

  function WithCommandTimeout(c: SecurityContext, secs: nat): (r: SecurityContext)
    ensures r.commandTimeoutSecs == secs && r == c.(commandTimeoutSecs := secs)
  {
    c.(commandTimeoutSecs := secs)
  }

  function WithConfirmCommands(c: SecurityContext, confirm: bool): (r: SecurityContext)
    ensures r.confirmCommands == confirm && r == c.(confirmCommands := confirm)
  {
    c.(confirmCommands := confirm)
  }

  /** The builder chain of the builder test sets exactly the five values it names. */
  lemma BuilderChain()
    ensures var c := WithConfirmCommands(WithCommandTimeout(WithAllowCommandExecution(
        WithAllowWebSearch(WithMaxFileSize(New(), 5 * 1024 * 1024), false), true), 60), true);
      c == SecurityContext({}, 5242880, false, true, 60, true)
  {
  }

  /** Builders of different fields commute: the order of a builder chain does not matter. */
  lemma BuildersCommute(c: SecurityContext, size: nat, allow: bool, secs: nat)
    ensures WithMaxFileSize(WithAllowWebSearch(c, allow), size) == WithAllowWebSearch(WithMaxFileSize(c, size), allow)
    ensures WithCommandTimeout(WithAllowCommandExecution(c, allow), secs)
      == WithAllowCommandExecution(WithCommandTimeout(c, secs), allow)
  {
  }

  // -----------------------------------------------------------------------
  // Path check

  /**
   * The path the check compares: the canonical path, else the canonical
   * parent; none when neither canonicalises.
   */
  function ResolvedPath(path: PathBuf, canonicalize: PathBuf -> Option<PathBuf>): Option<PathBuf>
  {
    match canonicalize(path)
    case Some(p) => Some(p)
    case None =>
      match Parent(path)
      case None => None
      case Some(q) => canonicalize(q)
  }

  /**
   * `is_path_allowed`: every path when no directory is configured;
   * otherwise the resolved path must lie under some allowed directory.
   */
  function IsPathAllowed(c: SecurityContext, path: PathBuf, canonicalize: PathBuf -> Option<PathBuf>): (r: bool)
    ensures c.allowedDirs == {} ==> r
    ensures c.allowedDirs != {} ==>
      (r <==> (ResolvedPath(path, canonicalize).Some?
        && exists d :: d in c.allowedDirs && PathStartsWith(ResolvedPath(path, canonicalize).value, d)))
  {
    if c.allowedDirs == {} then true
    else
      match ResolvedPath(path, canonicalize)
      case None => false
      case Some(p) => exists d :: d in c.allowedDirs && PathStartsWith(p, d)
  }

  /** A path is denied when neither it nor its parent canonicalises, once a directory is configured. */
  lemma UnresolvableDenied(c: SecurityContext, path: PathBuf, canonicalize: PathBuf -> Option<PathBuf>)
    requires c.allowedDirs != {}
    requires canonicalize(path).None?
    requires Parent(path).None? || canonicalize(Parent(path).value).None?
    ensures !IsPathAllowed(c, path, canonicalize)
  {
  }

  /**
   * Adding a directory to a non-empty allowed set never denies a path that
   * was allowed before; adding the first one can.
   */
  lemma AddingDirKeepsAllowed(c: SecurityContext, path: PathBuf, canonicalize: PathBuf -> Option<PathBuf>,
                              dir: string, canonical: Option<PathBuf>)
    requires c.allowedDirs != {} && IsPathAllowed(c, path, canonicalize)
    ensures IsPathAllowed(WithAllowedDir(c, dir, canonical), path, canonicalize)
  {
    var p := ResolvedPath(path, canonicalize).value;
    var d :| d in c.allowedDirs && PathStartsWith(p, d);
    assert d in WithAllowedDir(c, dir, canonical).allowedDirs;
  }

  /**
   * The allowed-directory test: with only the temporary directory allowed,
   * a file inside it is allowed and a path canonicalising elsewhere is not.
   */
  lemma AllowedDirExample(tmp: PathBuf, file: string, other: PathBuf, canonicalize: PathBuf -> Option<PathBuf>)
    requires canonicalize(tmp) == Some(tmp)
    requires canonicalize(tmp + [file]) == Some(tmp + [file])
    requires canonicalize(other) == Some(other) && !PathStartsWith(other, tmp)
    ensures var c := WithAllowedDir(New(), "", canonicalize(tmp));
      IsPathAllowed(c, tmp + [file], canonicalize) && !IsPathAllowed(c, other, canonicalize)
  {
    var c := WithAllowedDir(New(), "", canonicalize(tmp));
    assert c.allowedDirs == {tmp};
    assert (tmp + [file])[..|tmp|] == tmp;
  }

  // -----------------------------------------------------------------------
  // Command check

  /** `BLOCKED_COMMANDS`. */
  const BlockedCommands: seq<string> := [
    "rm -rf", "rm-rf", "rmdir /s", "dd", "mkfs", "format", ":(){ :|:& };:",
    "chmod -r 777", "chmod -r 000", "chown -r", "iptables", "ufw disable",
    "shutdown", "reboot", "halt", "poweroff", "init 0", "init 6"]

  /** No entry of `blocked`, lowercased, occurs in `lower`. */
  function NoneBlocked(lower: string, blocked: seq<string>): (r: bool)
    ensures r <==> forall k :: 0 <= k < |blocked| ==> !Contains(lower, ToLower(blocked[k]))
  {
    if blocked == [] then true
    else if Contains(lower, ToLower(blocked[0])) then false
    else NoneBlocked(lower, blocked[1..])
  }

  /** `is_command_allowed`: false exactly when the lowercased command contains a lowercased blocklist entry. */
  function IsCommandAllowed(command: string): (r: bool)
    ensures r <==> forall k :: 0 <= k < |BlockedCommands| ==>
      !Contains(ToLower(command), ToLower(BlockedCommands[k]))
  {
    NoneBlocked(ToLower(command), BlockedCommands)
  }

  /** Rejection is kept under embedding: any text around a rejected command is rejected too. */
  lemma RejectionMonotone(a: string, command: string, b: string)
    requires !IsCommandAllowed(command)
    ensures !IsCommandAllowed(a + command + b)
  {
    var k :| 0 <= k < |BlockedCommands| && Contains(ToLower(command), ToLower(BlockedCommands[k]));
    ToLowerAppend(a + command, b);
    ToLowerAppend(a, command);
    ContainsEmbedded(ToLower(a), ToLower(command), ToLower(b), ToLower(BlockedCommands[k]));
  }

  /** A text none of whose characters is the `j`-th of `t` cannot contain `t`. */
  lemma MissingCharNotContained(s: string, t: string, j: nat)
    requires j < |t| && forall i :: 0 <= i < |s| ==> s[i] != t[j]
    ensures !Contains(s, t)
  {
    forall i | 0 <= i ensures !OccursAt(s, t, i) {
      if i + |t| <= |s| {
        assert s[i..i + |t|][j] == s[i + j];
      }
    }
    ContainsIffOccurs(s, t);
  }

  predicate NoCapitals(s: string)
  {
    forall i :: 0 <= i < |s| ==> !('A' <= s[i] <= 'Z')
  }

  lemma LowercaseFixed(s: string)
    requires NoCapitals(s)
    ensures ToLower(s) == s
  {
  }

  /**
   * A command is allowed when, for each blocklist entry, `misses` names a
   * character of the entry that the command lacks.
   */
  lemma AllowedByWitness(command: string, misses: seq<nat>)
    requires NoCapitals(command)
    requires |misses| == |BlockedCommands|
    requires forall k :: 0 <= k < |BlockedCommands| ==>
      (misses[k] < |BlockedCommands[k]| && BlockedCommands[k][misses[k]] !in command)
    ensures IsCommandAllowed(command)
  {
    LowercaseFixed(command);
    forall k | 0 <= k < |BlockedCommands|
      ensures !Contains(ToLower(command), ToLower(BlockedCommands[k]))
    {
      BlockedLowercase(k);
      MissingCharNotContained(command, BlockedCommands[k], misses[k]);
    }
  }

  lemma BlockedLowercase(k: nat)
    requires k < |BlockedCommands|
    ensures ToLower(BlockedCommands[k]) == BlockedCommands[k]
  {
    LowercaseFixed(BlockedCommands[k]);
  }

  // Each entry of `misses` below indexes a character of the matching
  // blocklist entry that the command does not contain.

  /** "ls -la", an accepted command of the blocklist test. */
  lemma ListingAllowed(command: string)
    requires command == "ls -la"
    ensures IsCommandAllowed(command)
  {
    AllowedByWitness(command, [0, 0, 0, 0, 1, 0, 0, 0, 0, 0, 0, 0, 1, 0, 0, 0, 0, 0]);
  }

  /** "git status", an accepted command of the blocklist test. */
  lemma GitStatusAllowed(command: string)
    requires command == "git status"
    ensures IsCommandAllowed(command)
  {
    AllowedByWitness(command, [0, 0, 0, 0, 1, 0, 0, 0, 0, 0, 1, 1, 1, 0, 0, 0, 1, 1]);
  }

  /** "cargo test", an accepted command of the blocklist test. */
  lemma CargoTestAllowed(command: string)
    requires command == "cargo test"
    ensures IsCommandAllowed(command)
  {
    AllowedByWitness(command, [1, 1, 1, 0, 1, 0, 0, 1, 1, 1, 0, 0, 1, 2, 0, 0, 0, 0]);
  }

  /** A blocklist entry found at a known index rejects the command. */
  lemma RejectedAt(command: string, k: nat, i: nat)
    requires k < |BlockedCommands| && OccursAt(ToLower(command), BlockedCommands[k], i)
    ensures !IsCommandAllowed(command)
  {
    BlockedLowercase(k);
    OccursAtContains(ToLower(command), BlockedCommands[k], i);
  }

  /** Upper case does not slip past the blocklist. */
  lemma UppercaseRmRejected(command: string)
    requires command == "RM -RF /"
    ensures !IsCommandAllowed(command)
  {
    assert ToLower(command)[0..6] == "rm -rf";
    RejectedAt(command, 0, 0);
  }

  /** Every blocklist entry, the fork bomb among them, is itself rejected. */
  lemma EntryRejected(k: nat)
    requires k < |BlockedCommands|
    ensures !IsCommandAllowed(BlockedCommands[k])
  {
    var e := BlockedCommands[k];
    BlockedLowercase(k);
    assert e[0..|e|] == e;
    RejectedAt(e, k, 0);
  }

  /** "chmod -R 777 /" matches the lowercased entry "chmod -r 777". */
  lemma ChmodRejected(command: string)
    requires command == "chmod -R 777 /"
    ensures !IsCommandAllowed(command)
  {
    ChmodLowered(command);
    assert BlockedCommands[7] == "chmod -r 777";
    RejectedAt(command, 7, 0);
  }

  lemma ChmodLowered(command: string)
    requires command == "chmod -R 777 /"
    ensures OccursAt(ToLower(command), "chmod -r 777", 0)
  {
    assert ToLower(command)[0..12] == "chmod -r 777";
  }

  /** Matching is by substring: "git add ." is rejected for the "dd" inside it. */
  lemma GitAddRejected(command: string)
    requires command == "git add ."
    ensures !IsCommandAllowed(command)
  {
    LowercaseFixed(command);
    assert command[5..7] == "dd";
    RejectedAt(command, 3, 5);
  }
}

=== FILE: Sources.dfy ===
// The content sources of a gia request, in the order they were gathered
// (the `ContentSource` enum of gia/src/cli.rs).

module Sources {
  datatype ContentSource =
    | CommandLinePrompt(prompt: string)
    | AudioRecording(audioPath: string)
    | ClipboardText(clipText: string)
    | StdinText(stdinText: string)
    | TextFile(filePath: string, content: string)
    | ImageFile(imagePath: string)
    | ClipboardImage
    | RoleDefinition(name: string, definition: string, isTask: bool)
}

=== FILE: ToolImpls.dfy ===
// The built-in tools of gia (gia/src/tools/implementations.rs). Each tool's
// `execute` is a chain of guards followed by one effect; the effects' outcomes
// (file metadata and contents, directory listings, environment variables,
// HTTP search responses, the user's confirmation, the spawned command's
// output) are parameters, so each execute is a function of its arguments,
// the security policy and those outcomes. Error texts are the display text
// the executor shows: the outermost context of the error.

module ToolImpls {
  import opened Base
  import opened Json
  import opened Security
  import opened Registry

  // -----------------------------------------------------------------------
  // Descriptors

  function StringProperty(description: string): Json
  {
    Obj2("type", Str("string"), "description", Str(description))
  }

  function ObjectSchema(properties: map<string, Json>, required: seq<string>): Json
  {
    var reqs := seq(|required|, i requires 0 <= i < |required| => Str(required[i]));
    if required == [] then Obj2("type", Str("object"), "properties", Object(properties))
    else Object(map["type" := Str("object"), "properties" := Object(properties), "required" := Array(reqs)])
  }

  const ReadFileToolDescriptor: Tool := Tool("read_file",
    "Read the contents of a text file from the filesystem. Returns the file content as a string. "
    + "Use this when you need to examine file contents.",
    ObjectSchema(map["filepath" := StringProperty(
      "The path to the file to read (absolute or relative to current directory)")], ["filepath"]))

  const WriteFileToolDescriptor: Tool := Tool("write_file",
    "Write content to a file on the filesystem. Creates the file if it doesn't exist, overwrites if it does. "
    + "Use this when you need to save or update file contents.",
    ObjectSchema(map["filepath" := StringProperty("The path where to write the file"),
                     "content" := StringProperty("The content to write to the file")], ["filepath", "content"]))

  const ListDirectoryToolDescriptor: Tool := Tool("list_directory",
    "List files and directories in a given path. Returns a list of entries with file/directory indicators. "
    + "Use this to explore directory structures.",
    ObjectSchema(map["path" := StringProperty(
      "The directory path to list (defaults to current directory if not specified)")], []))

  const SearchWebToolDescriptor: Tool := Tool("search_web",
    "Search the web for information using a search query. Returns a summary of search results. "
    + "Use this when you need current information or web resources.",
    ObjectSchema(map["query" := StringProperty("The search query to execute")], ["query"]))

  const ExecuteCommandToolDescriptor: Tool := Tool("execute_command",
    "Execute a shell command (bash, cmd, powershell, zsh). Use this to run command-line tools like git, gh, npm, cargo, etc. "
    + "Returns stdout/stderr and exit code.",
    ObjectSchema(map["command" := StringProperty("The command to execute (e.g., 'git status', 'gh pr list', 'npm test')"),
                     "working_directory" := StringProperty(
                       "Optional working directory for command execution (defaults to allowed directory)")], ["command"]))

  // -----------------------------------------------------------------------
  // Shared guards and texts

  function AccessDenied(path: string): string
  {
    "Access denied: " + path + " is outside allowed directories"
  }

  function InvalidArguments(tool: string): string
  {
    "Invalid arguments for " + tool
  }

  /** Whether the policy admits the path given as text. */
  predicate PathAllowed(ctx: SecurityContext, path: string, canonicalize: PathBuf -> Option<PathBuf>)
  {
    IsPathAllowed(ctx, Components(path), canonicalize)
  }

  /**
   * A required string field of the arguments, read from a JSON object. The
   * derived deserializer also reads a struct from an array of its fields;
   * that form is not modelled.
   */
  function RequiredString(args: Json, key: string): (r: Option<string>)
    ensures r.Some? <==> args.Object? && key in args.members && args.members[key].Str?
    ensures r.Some? ==> r.value == args.members[key].s
  {
    if args.Object? && key in args.members && args.members[key].Str? then Some(args.members[key].s) else None
  }

  // -----------------------------------------------------------------------
  // read_file

  function FileTooLarge(size: nat, max: nat): string
  {
    "File too large: " + NatToString(size) + " bytes (max: " + NatToString(max) + ")"
  }

  /**
   * `ReadFileTool::execute`: parse, path check, size check against the
   * policy's limit, read; on success the contents under a header naming the
   * path. `size` and `contents` are the outcomes of reading the metadata and
   * the file.
   */
  function ReadFile(args: Json, ctx: SecurityContext, canonicalize: PathBuf -> Option<PathBuf>,
                    size: Result<nat, string>, contents: Result<string, string>): (r: Result<string, string>)
    ensures RequiredString(args, "filepath").None? ==> r == Err(InvalidArguments("read_file"))
    ensures RequiredString(args, "filepath").Some? ==>
      var p := RequiredString(args, "filepath").value;
      (!PathAllowed(ctx, p, canonicalize) ==> r == Err(AccessDenied(p)))
      && (PathAllowed(ctx, p, canonicalize) && size.Ok? && size.value > ctx.maxFileSize ==>
            r == Err(FileTooLarge(size.value, ctx.maxFileSize)))
      && (r.Ok? <==> PathAllowed(ctx, p, canonicalize) && size.Ok? && size.value <= ctx.maxFileSize && contents.Ok?)
      && (r.Ok? ==> r.value == "Contents of " + p + ":\n\n" + contents.value)
  {
    match RequiredString(args, "filepath")
    case None => Err(InvalidArguments("read_file"))
    case Some(p) =>
      if !PathAllowed(ctx, p, canonicalize) then Err(AccessDenied(p))
      else match size
        case Err(_) => Err("Failed to access file: " + p)
        case Ok(n) =>
          if n > ctx.maxFileSize then Err(FileTooLarge(n, ctx.maxFileSize))
          else match contents
            case Err(_) => Err("Failed to read file: " + p)
            case Ok(text) => Ok("Contents of " + p + ":\n\n" + text)
  }

  /** A denied path is refused whatever the file system would have answered. */
  lemma ReadDeniedBeforeAccess(args: Json, ctx: SecurityContext, canonicalize: PathBuf -> Option<PathBuf>,
                               size1: Result<nat, string>, contents1: Result<string, string>,
                               size2: Result<nat, string>, contents2: Result<string, string>)
    requires RequiredString(args, "filepath").Some?
    requires !PathAllowed(ctx, RequiredString(args, "filepath").value, canonicalize)
    ensures ReadFile(args, ctx, canonicalize, size1, contents1) == ReadFile(args, ctx, canonicalize, size2, contents2)
    ensures StartsWith(ReadFile(args, ctx, canonicalize, size1, contents1).error, "Access denied")
  {
    var p := RequiredString(args, "filepath").value;
    StartsWithConcat("Access denied", ": " + p + " is outside allowed directories");
    assert AccessDenied(p) == "Access denied" + (": " + p + " is outside allowed directories");
  }

  /** A successful read returns the file's text intact, at the end of the output. */
  lemma ReadShowsContents(args: Json, ctx: SecurityContext, canonicalize: PathBuf -> Option<PathBuf>,
                          size: Result<nat, string>, contents: Result<string, string>)
    requires ReadFile(args, ctx, canonicalize, size, contents).Ok?
    ensures EndsWith(ReadFile(args, ctx, canonicalize, size, contents).value, contents.value)
    ensures Contains(ReadFile(args, ctx, canonicalize, size, contents).value, contents.value)
  {
    var p := RequiredString(args, "filepath").value;
    EndsWithConcat("Contents of " + p + ":\n\n", contents.value);
    ContainsEmbedded("Contents of " + p + ":\n\n", contents.value, [], contents.value) by {
      assert StartsWith(contents.value, contents.value);
    }
    assert "Contents of " + p + ":\n\n" + contents.value + [] == "Contents of " + p + ":\n\n" + contents.value;
  }

  /** With the default policy, a file of more than 10 MiB is refused as too large. */
  lemma DefaultLimitRefusesLargeFile(args: Json, canonicalize: PathBuf -> Option<PathBuf>, n: nat,
                                     contents: Result<string, string>)
    requires RequiredString(args, "filepath").Some? && n > 10485760
    ensures ReadFile(args, New(), canonicalize, Ok(n), contents) == Err(FileTooLarge(n, 10485760))
  {
  }

  // -----------------------------------------------------------------------
  // write_file

  /**
   * `WriteFileTool::execute`: parse, path check, create the parent
   * directories, write; on success a report of the byte count. `mkdirs`
   * and `write` are the failures of those two effects, if any.
   */
  function WriteFile(args: Json, ctx: SecurityContext, canonicalize: PathBuf -> Option<PathBuf>,
                     mkdirs: Option<string>, write: Option<string>): (r: Result<string, string>)
    ensures RequiredString(args, "filepath").None? || RequiredString(args, "content").None? ==>
      r == Err(InvalidArguments("write_file"))
    ensures RequiredString(args, "filepath").Some? && RequiredString(args, "content").Some? ==>
      var p := RequiredString(args, "filepath").value;
      var c := RequiredString(args, "content").value;
      (!PathAllowed(ctx, p, canonicalize) ==> r == Err(AccessDenied(p)))
      && (r.Ok? <==> PathAllowed(ctx, p, canonicalize) && mkdirs.None? && write.None?)
      && (r.Ok? ==> r.value == "Successfully wrote " + NatToString(Utf8Len(c)) + " bytes to " + p)
  {
    match (RequiredString(args, "filepath"), RequiredString(args, "content"))
    case (Some(p), Some(c)) =>
      if !PathAllowed(ctx, p, canonicalize) then Err(AccessDenied(p))
      else if mkdirs.Some? then Err("Failed to create parent directories")
      else if write.Some? then Err("Failed to write file: " + p)
      else Ok("Successfully wrote " + NatToString(Utf8Len(c)) + " bytes to " + p)
    case _ => Err(InvalidArguments("write_file"))
  }

  /** A denied path is refused before any directory is created or byte written. */
  lemma WriteDeniedBeforeAccess(args: Json, ctx: SecurityContext, canonicalize: PathBuf -> Option<PathBuf>,
                                mkdirs1: Option<string>, write1: Option<string>,
                                mkdirs2: Option<string>, write2: Option<string>)
    requires RequiredString(args, "filepath").Some? && RequiredString(args, "content").Some?
    requires !PathAllowed(ctx, RequiredString(args, "filepath").value, canonicalize)
    ensures WriteFile(args, ctx, canonicalize, mkdirs1, write1) == WriteFile(args, ctx, canonicalize, mkdirs2, write2)
    ensures WriteFile(args, ctx, canonicalize, mkdirs1, write1).Err?
  {
  }

  /**
   * Under the default policy a write that succeeds reports the byte count,
   * which for ASCII content is its number of characters.
   */
  lemma WriteReportsBytes(p: string, c: string, canonicalize: PathBuf -> Option<PathBuf>)
    requires IsAscii(c)
    ensures WriteFile(Obj2("filepath", Str(p), "content", Str(c)), New(), canonicalize, None, None)
      == Ok("Successfully wrote " + NatToString(|c|) + " bytes to " + p)
  {
    var args := Obj2("filepath", Str(p), "content", Str(c));
    assert RequiredString(args, "filepath") == Some(p);
    assert RequiredString(args, "content") == Some(c);
    Utf8LenAscii(c);
  }

  // -----------------------------------------------------------------------
  // list_directory

  /** One directory entry as the listing sees it. */
  datatype DirItem = DirItem(name: string, isDir: bool)

  /** The path argument; "." when it is missing or the arguments do not parse. */
  function ListPath(args: Json): (r: string)
    ensures RequiredString(args, "path").Some? ==> r == RequiredString(args, "path").value
    ensures RequiredString(args, "path").None? ==> r == "."
  {
    match RequiredString(args, "path")
    case Some(p) => p
    case None => "."
  }

  function ItemLabel(e: DirItem): string
  {
    (if e.isDir then "\U{1F4C1}" else "\U{1F4C4}") + " " + e.name
  }

  function ItemLabels(items: seq<DirItem>): (r: seq<string>)
    ensures |r| == |items|
    ensures forall i :: 0 <= i < |items| ==> r[i] == ItemLabel(items[i])
  {
    seq(|items|, i requires 0 <= i < |items| => ItemLabel(items[i]))
  }

  /**
   * `ListDirectoryTool::execute`: path check, open the directory, read its
   * entries; on success their labels sorted, one per line, under a header.
   * `dirOpened` says whether the directory could be opened and `entries` is
   * the outcome of reading it.
   */
  function ListDirectory(args: Json, ctx: SecurityContext, canonicalize: PathBuf -> Option<PathBuf>,
                         dirOpened: bool, entries: Result<seq<DirItem>, string>): (r: Result<string, string>)
    ensures !PathAllowed(ctx, ListPath(args), canonicalize) ==> r == Err(AccessDenied(ListPath(args)))
    ensures r.Ok? <==> PathAllowed(ctx, ListPath(args), canonicalize) && dirOpened && entries.Ok?
    ensures r.Ok? ==>
      r.value == "Contents of " + ListPath(args) + ":\n\n" + Join(SortLex(ItemLabels(entries.value)), "\n")
  {
    var p := ListPath(args);
    if !PathAllowed(ctx, p, canonicalize) then Err(AccessDenied(p))
    else if !dirOpened then Err("Failed to read directory: " + p)
    else match entries
      case Err(e) => Err(e)
      case Ok(items) => Ok("Contents of " + p + ":\n\n" + Join(SortLex(ItemLabels(items)), "\n"))
  }

  /** The listing does not depend on the order the directory yields its entries in. */
  lemma ListingOrderIrrelevant(args: Json, ctx: SecurityContext, canonicalize: PathBuf -> Option<PathBuf>,
                               items1: seq<DirItem>, items2: seq<DirItem>)
    requires multiset(ItemLabels(items1)) == multiset(ItemLabels(items2))
    ensures ListDirectory(args, ctx, canonicalize, true, Ok(items1)) == ListDirectory(args, ctx, canonicalize, true, Ok(items2))
  {
    SortedUnique(SortLex(ItemLabels(items1)), SortLex(ItemLabels(items2)));
  }

  /** Every entry's name appears in a successful listing. */
  lemma ListingShowsEveryName(args: Json, ctx: SecurityContext, canonicalize: PathBuf -> Option<PathBuf>,
                              items: seq<DirItem>, i: nat)
    requires i < |items|
    requires ListDirectory(args, ctx, canonicalize, true, Ok(items)).Ok?
    ensures Contains(ListDirectory(args, ctx, canonicalize, true, Ok(items)).value, items[i].name)
  {
    ListingContainsName(ListPath(args), items, i);
  }

  lemma ListingContainsName(p: string, items: seq<DirItem>, i: nat)
    requires i < |items|
    ensures Contains("Contents of " + p + ":\n\n" + Join(SortLex(ItemLabels(items)), "\n"), items[i].name)
  {
    var labels := ItemLabels(items);
    var sorted := SortLex(labels);
    assert labels[i] in multiset(sorted);
    var k :| 0 <= k < |sorted| && sorted[k] == labels[i];
    JoinContainsEach(sorted, "\n", k);
    var prefix := (if items[i].isDir then "\U{1F4C1}" else "\U{1F4C4}") + " ";
    assert labels[i] == prefix + items[i].name + [];
    ContainsEmbedded(prefix, items[i].name, [], items[i].name) by {
      assert StartsWith(items[i].name, items[i].name);
    }
    ContainsTransitive(Join(sorted, "\n"), labels[i], items[i].name);
    var header := "Contents of " + p + ":\n\n";
    ContainsEmbedded(header, Join(sorted, "\n"), [], items[i].name);
    assert header + Join(sorted, "\n") + [] == header + Join(sorted, "\n");
  }

  /** Containment is transitive. */
  lemma ContainsTransitive(s: string, t: string, u: string)
    requires Contains(s, t) && Contains(t, u)
    ensures Contains(s, u)
  {
    ContainsIffOccurs(s, t);
    ContainsIffOccurs(t, u);
    ContainsIffOccurs(s, u);
    var i :| OccursAt(s, t, i);
    var j :| OccursAt(t, u, j);
    assert s[i..i + |t|] == t;
    assert t[j..j + |u|] == u;
    forall k | 0 <= k < |u| ensures s[i + j + k] == u[k] {
      assert s[i + j + k] == s[i..i + |t|][j + k] == t[j + k] == t[j..j + |u|][k];
    }
    assert s[i + j..i + j + |u|] == u;
    assert OccursAt(s, u, i + j);
  }

  /** Arguments that are not an object with a string "path" list the current directory. */
  lemma UnparsableArgumentsListCurrentDirectory(args: Json)
    requires !args.Object? || "path" !in args.members || !args.members["path"].Str?
    ensures ListPath(args) == "."
  {
  }

  // -----------------------------------------------------------------------
  // search_web

  datatype SearchProvider = DuckDuckGo | Brave(apiKey: string)

  const BraveKeyVariable: string := "GIA_BRAVE_API_KEY"
  const BraveKeyMissing: string := BraveKeyVariable + " not set (required for Brave search)"

  /**
   * `SearchProvider::from_env`, given the values of GIA_SEARCH_API and
   * GIA_BRAVE_API_KEY: exactly "brave" selects Brave and needs the key;
   * anything else, or no value, selects DuckDuckGo.
   */
  function SearchProviderFromEnv(searchApi: Option<string>, braveKey: Option<string>): (r: Result<SearchProvider, string>)
    ensures searchApi != Some("brave") ==> r == Ok(DuckDuckGo)
    ensures searchApi == Some("brave") && braveKey.None? ==> r == Err(BraveKeyMissing)
    ensures searchApi == Some("brave") && braveKey.Some? ==> r == Ok(Brave(braveKey.value))
  {
    if searchApi == Some("brave") then
      match braveKey
      case None => Err(BraveKeyMissing)
      case Some(k) => Ok(Brave(k))
    else Ok(DuckDuckGo)
  }

  /** The provider tests: unset gives DuckDuckGo; "brave" without a key errs naming the variable. */
  lemma SearchProviderExamples()
    ensures SearchProviderFromEnv(None, None) == Ok(DuckDuckGo)
    ensures SearchProviderFromEnv(Some("brave"), None).Err?
    ensures Contains(SearchProviderFromEnv(Some("brave"), None).error, BraveKeyVariable)
    ensures SearchProviderFromEnv(Some("brave"), Some("test_key")) == Ok(Brave("test_key"))
  {
    StartsWithConcat(BraveKeyVariable, " not set (required for Brave search)");
    OccursAtContains(BraveKeyMissing, BraveKeyVariable, 0);
  }

  /** A DuckDuckGo related topic: an item, or a group of nested topics. */
  datatype RelatedTopic = Topic(text: string, firstUrl: string) | Topics(topics: seq<RelatedTopic>)

  datatype DuckDuckGoResponse = DuckDuckGoResponse(
    abstractText: string, abstractUrl: string, relatedTopics: seq<RelatedTopic>, heading: string)

  datatype BraveResult = BraveResult(title: string, description: string, url: string)

  /**
   * `extract_topic_info`: an item with non-empty text and URL, or for a
   * group what its first nested topic gives.
   */
  function ExtractTopicInfo(t: RelatedTopic): (r: Option<(string, string)>)
    ensures r.Some? ==> r.value.0 != [] && r.value.1 != []
    ensures t.Topic? ==> (r.Some? <==> t.text != [] && t.firstUrl != [])
    ensures t.Topic? && r.Some? ==> r.value == (t.text, t.firstUrl)
    decreases t
  {
    match t
    case Topic(text, url) => if text != [] && url != [] then Some((text, url)) else None
    case Topics(ts) => if ts == [] then None else ExtractTopicInfo(ts[0])
  }

  /** Only the first nested topic of a group is looked at; the rest never count. */
  lemma OnlyFirstNestedTopic(first: RelatedTopic, rest: seq<RelatedTopic>, other: seq<RelatedTopic>)
    ensures ExtractTopicInfo(Topics([first] + rest)) == ExtractTopicInfo(first)
    ensures ExtractTopicInfo(Topics([first] + rest)) == ExtractTopicInfo(Topics([first] + other))
  {
  }

  /** The usable items of a topic list, in order. */
  function Extracted(ts: seq<RelatedTopic>): (r: seq<(string, string)>)
    ensures |r| <= |ts|
  {
    if ts == [] then []
    else
      var last := ExtractTopicInfo(ts[|ts| - 1]);
      Extracted(ts[..|ts| - 1]) + (if last.Some? then [last.value] else [])
  }

  lemma {:induction false} ExtractedPrefix(ts: seq<RelatedTopic>, i: nat)
    requires i <= |ts|
    ensures |Extracted(ts[..i])| <= |Extracted(ts)|
    ensures Extracted(ts[..i]) == Extracted(ts)[..|Extracted(ts[..i])|]
    decreases |ts| - i
  {
    if i < |ts| {
      ExtractedPrefix(ts, i + 1);
      assert ts[..i + 1][..i] == ts[..i];
    } else {
      assert ts[..i] == ts;
    }
  }

  lemma ExtractedStep(ts: seq<RelatedTopic>, i: nat)
    requires i < |ts|
    ensures Extracted(ts[..i + 1]) == Extracted(ts[..i])
      + (if ExtractTopicInfo(ts[i]).Some? then [ExtractTopicInfo(ts[i]).value] else [])
  {
    assert ts[..i + 1][..i] == ts[..i];
  }

  /** Every usable item has non-empty text and URL. */
  lemma {:induction false} ExtractedNonEmpty(ts: seq<RelatedTopic>, k: nat)
    requires k < |Extracted(ts)|
    ensures Extracted(ts)[k].0 != [] && Extracted(ts)[k].1 != []
    decreases |ts|
  {
    if k < |Extracted(ts[..|ts| - 1])| {
      ExtractedNonEmpty(ts[..|ts| - 1], k);
    }
  }

  function SearchHeader(query: string): string
  {
    "Search results for '" + query + "':\n\n"
  }

  const NoDetailedResults: string := "No detailed results found. Try different keywords.\n"
  const NoSearchResults: string := "No search results found. Try different keywords.\n"
  const MaxListedResults: nat := 5

  function TopicEntry(n: nat, item: (string, string)): string
  {
    NatToString(n) + ". " + item.0 + "\n   " + item.1 + "\n\n"
  }

  /** The first `n` items, numbered from 1. */
  function TopicEntries(items: seq<(string, string)>, n: nat): string
    requires n <= |items|
  {
    if n == 0 then [] else TopicEntries(items, n - 1) + TopicEntry(n, items[n - 1])
  }

  lemma {:induction false} TopicEntriesPrefix(xs: seq<(string, string)>, ys: seq<(string, string)>, n: nat)
    requires n <= |xs| && n <= |ys| && xs[..n] == ys[..n]
    ensures TopicEntries(xs, n) == TopicEntries(ys, n)
  {
    if n > 0 {
      assert xs[n - 1] == xs[..n][n - 1] == ys[n - 1];
      assert xs[..n - 1] == xs[..n][..n - 1];
      assert ys[..n - 1] == ys[..n][..n - 1];
      TopicEntriesPrefix(xs, ys, n - 1);
    }
  }

  function Shown(k: nat): nat
  {
    if k < MaxListedResults then k else MaxListedResults
  }

  function HeadingPart(resp: DuckDuckGoResponse): string
  {
    if resp.heading != [] then "## " + resp.heading + "\n\n" else []
  }

  function SourceLine(resp: DuckDuckGoResponse): string
  {
    if resp.abstractUrl != [] then "Source: " + resp.abstractUrl + "\n\n" else []
  }

  /** The abstract with its source line; empty when there is no abstract. */
  function AbstractPart(resp: DuckDuckGoResponse): string
  {
    if resp.abstractText != [] then resp.abstractText + "\n" + SourceLine(resp) else []
  }

  /** The related items: the first five usable ones, numbered from 1. */
  function RelatedPart(resp: DuckDuckGoResponse): string
  {
    var items := Extracted(resp.relatedTopics);
    if resp.relatedTopics != [] then RelatedHeader + TopicEntries(items, Shown(|items|)) else []
  }

  const RelatedHeader: string := "### Related Information:\n\n"

  function NoDetailedPart(resp: DuckDuckGoResponse): string
  {
    if resp.abstractText == [] && resp.relatedTopics == [] then NoDetailedResults else []
  }

  /** The text `format_duckduckgo_results` produces. */
  function DuckDuckGoText(resp: DuckDuckGoResponse, query: string): string
  {
    SearchHeader(query) + HeadingPart(resp) + AbstractPart(resp) + RelatedPart(resp) + NoDetailedPart(resp)
  }

  /**
   * `format_duckduckgo_results`: the header, the heading and abstract when
   * present, then the usable related items, counting only those and
   * stopping at five.
   */
  method FormatDuckDuckGoResults(resp: DuckDuckGoResponse, query: string) returns (r: string)
    ensures r == DuckDuckGoText(resp, query)
  {
    r := SearchHeader(query);
    if resp.heading != [] {
      r := r + ("## " + resp.heading + "\n\n");
    }
    if resp.abstractText != [] {
      r := r + (resp.abstractText + "\n");
      if resp.abstractUrl != [] {
        r := r + ("Source: " + resp.abstractUrl + "\n\n");
      }
    }
    assert r == SearchHeader(query) + HeadingPart(resp) + AbstractPart(resp);
    ghost var beforeTopics := r;
    if resp.relatedTopics != [] {
      r := r + RelatedHeader;
      r := AppendRelatedItems(r, resp.relatedTopics);
      AppendAssoc(beforeTopics, RelatedHeader, TopicEntries(Extracted(resp.relatedTopics), Shown(|Extracted(resp.relatedTopics)|)));
    }
    assert r == beforeTopics + RelatedPart(resp);
    if resp.abstractText == [] && resp.relatedTopics == [] {
      r := r + NoDetailedResults;
    }
  }

  /**
   * The related-items loop of `format_duckduckgo_results`: it skips the
   * unusable topics, numbers the usable ones from 1 and stops after five.
   */
  method AppendRelatedItems(prefix: string, topics: seq<RelatedTopic>) returns (r: string)
    ensures r == prefix + TopicEntries(Extracted(topics), Shown(|Extracted(topics)|))
  {
    r := prefix;
    var count := 0;
    var i := 0;
    while i < |topics|
      invariant 0 <= i <= |topics|
      invariant count == |Extracted(topics[..i])| <= MaxListedResults
      invariant r == prefix + TopicEntries(Extracted(topics[..i]), count)
    {
      if count >= MaxListedResults {
        break;
      }
      ghost var done := Extracted(topics[..i]);
      var info := ExtractTopicInfo(topics[i]);
      ExtractedStep(topics, i);
      if info.Some? {
        TopicEntryAppended(done, info.value);
        AppendAssoc(prefix, TopicEntries(done, count), TopicEntry(count + 1, info.value));
        count := count + 1;
        r := r + TopicEntry(count, info.value);
      } else {
        assert Extracted(topics[..i + 1]) == done;
      }
      i := i + 1;
    }
    ghost var items := Extracted(topics);
    ExtractedPrefix(topics, i);
    assert topics[..|topics|] == topics;
    assert count == Shown(|items|);
    TopicEntriesPrefix(Extracted(topics[..i]), items, count);
  }

  /** Each of the first five usable items appears, numbered consecutively from 1. */
  lemma {:induction false} TopicEntryShown(items: seq<(string, string)>, n: nat, k: nat)
    requires n <= |items| && k < n
    ensures Contains(TopicEntries(items, n), TopicEntry(k + 1, items[k]))
  {
    if k == n - 1 {
      var e := TopicEntry(n, items[n - 1]);
      ContainsEmbedded(TopicEntries(items, n - 1), e, [], e) by {
        assert StartsWith(e, e);
      }
      assert TopicEntries(items, n - 1) + e + [] == TopicEntries(items, n);
    } else {
      TopicEntryShown(items, n - 1, k);
      ContainsEmbedded([], TopicEntries(items, n - 1), TopicEntry(n, items[n - 1]), TopicEntry(k + 1, items[k]));
      assert [] + TopicEntries(items, n - 1) + TopicEntry(n, items[n - 1]) == TopicEntries(items, n);
    }
  }

  /** Related topics past the fifth usable one never change the text. */
  lemma DuckDuckGoIgnoresLaterTopics(resp: DuckDuckGoResponse, query: string, more: seq<RelatedTopic>)
    requires |Extracted(resp.relatedTopics)| >= MaxListedResults
    ensures DuckDuckGoText(resp, query) == DuckDuckGoText(resp.(relatedTopics := resp.relatedTopics + more), query)
  {
    var ts := resp.relatedTopics;
    var all := ts + more;
    assert all[..|ts|] == ts;
    ExtractedPrefix(all, |ts|);
    TopicEntriesPrefix(Extracted(ts), Extracted(all), MaxListedResults);
  }

  /** Without an abstract and without related topics the text ends with the no-results hint. */
  lemma DuckDuckGoEmptyHint(resp: DuckDuckGoResponse, query: string)
    requires resp.abstractText == [] && resp.relatedTopics == []
    ensures EndsWith(DuckDuckGoText(resp, query), NoDetailedResults)
  {
    assert DuckDuckGoText(resp, query) == SearchHeader(query) + HeadingPart(resp) + NoDetailedResults;
    EndsWithConcat(SearchHeader(query) + HeadingPart(resp), NoDetailedResults);
  }

  function TitleLine(n: nat, res: BraveResult): string
  {
    NatToString(n) + ". " + res.title + "\n"
  }

  /** The description line, empty when there is no description. */
  function DescriptionLine(res: BraveResult): string
  {
    if res.description != [] then "   " + res.description + "\n" else []
  }

  function UrlLine(res: BraveResult): string
  {
    "   " + res.url + "\n\n"
  }

  function BraveEntry(n: nat, res: BraveResult): string
  {
    TitleLine(n, res) + DescriptionLine(res) + UrlLine(res)
  }

  /** The first `n` results, numbered from 1. */
  function BraveEntries(results: seq<BraveResult>, n: nat): string
    requires n <= |results|
  {
    if n == 0 then [] else BraveEntries(results, n - 1) + BraveEntry(n, results[n - 1])
  }

  /** The text `format_brave_results` produces. */
  function BraveText(results: seq<BraveResult>, query: string): string
  {
    SearchHeader(query)
    + if results == [] then NoSearchResults
      else TopResultsHeader + BraveEntries(results, Shown(|results|))
  }

  const TopResultsHeader: string := "### Top Results:\n\n"

  /**
   * `format_brave_results`: the header and, with no results, the hint;
   * otherwise the first five results numbered from 1, each with its title,
   * its description when non-empty, and its URL.
   */
  method FormatBraveResults(results: seq<BraveResult>, query: string) returns (r: string)
    ensures r == BraveText(results, query)
  {
    r := SearchHeader(query);
    if results == [] {
      r := r + NoSearchResults;
      return;
    }
    r := r + TopResultsHeader;
    r := AppendBraveEntries(r, results);
    AppendAssoc(SearchHeader(query), TopResultsHeader, BraveEntries(results, Shown(|results|)));
  }

  /** The result loop of `format_brave_results`: the first five, numbered from 1. */
  method AppendBraveEntries(prefix: string, results: seq<BraveResult>) returns (r: string)
    ensures r == prefix + BraveEntries(results, Shown(|results|))
  {
    r := prefix;
    var n := if |results| < MaxListedResults then |results| else MaxListedResults;
    var i := 0;
    while i < n
      invariant 0 <= i <= n
      invariant r == prefix + BraveEntries(results, i)
    {
      var res := results[i];
      var entry := TitleLine(i + 1, res);
      if res.description != [] {
        entry := entry + DescriptionLine(res);
      }
      entry := entry + UrlLine(res);
      assert entry == BraveEntry(i + 1, res);
      r := r + entry;
      BraveEntriesStep(results, i);
      AppendAssoc(prefix, BraveEntries(results, i), BraveEntry(i + 1, results[i]));
      i := i + 1;
    }
  }

  lemma BraveEntriesStep(results: seq<BraveResult>, i: nat)
    requires i < |results|
    ensures BraveEntries(results, i + 1) == BraveEntries(results, i) + BraveEntry(i + 1, results[i])
  {
  }

  /** Numbering one more item extends the listing by that item's entry. */
  lemma TopicEntryAppended(done: seq<(string, string)>, item: (string, string))
    ensures TopicEntries(done + [item], |done| + 1) == TopicEntries(done, |done|) + TopicEntry(|done| + 1, item)
  {
    TopicEntriesPrefix(done, done + [item], |done|);
  }

  lemma TopicEntriesStep(items: seq<(string, string)>, i: nat)
    requires i < |items|
    ensures TopicEntries(items, i + 1) == TopicEntries(items, i) + TopicEntry(i + 1, items[i])
  {
  }

  lemma {:induction false} BraveEntriesPrefix(xs: seq<BraveResult>, ys: seq<BraveResult>, n: nat)
    requires n <= |xs| && n <= |ys| && xs[..n] == ys[..n]
    ensures BraveEntries(xs, n) == BraveEntries(ys, n)
  {
    if n > 0 {
      assert xs[n - 1] == xs[..n][n - 1] == ys[n - 1];
      assert xs[..n - 1] == xs[..n][..n - 1];
      assert ys[..n - 1] == ys[..n][..n - 1];
      BraveEntriesPrefix(xs, ys, n - 1);
    }
  }

  /** At most five results are listed: later ones never change the text. */
  lemma BraveListsAtMostFive(results: seq<BraveResult>, query: string)
    requires |results| > MaxListedResults
    ensures BraveText(results, query) == BraveText(results[..MaxListedResults], query)
  {
    BraveEntriesPrefix(results, results[..MaxListedResults], MaxListedResults);
  }

  /** A description line is present exactly when the description is non-empty. */
  lemma BraveDescriptionLine(n: nat, res: BraveResult)
    ensures res.description == [] ==> BraveEntry(n, res) == TitleLine(n, res) + UrlLine(res)
    ensures res.description != [] ==>
      Contains(BraveEntry(n, res), "   " + res.description + "\n")
  {
    if res.description != [] {
      var d := DescriptionLine(res);
      ContainsEmbedded(TitleLine(n, res), d, UrlLine(res), d) by {
        assert StartsWith(d, d);
      }
    }
  }

  /** The query length limit, in bytes. */
  const MaxQueryBytes: nat := 500

  /**
   * `SearchWebTool::execute`: disabled check, parse, length check, choose
   * the provider from the environment values, search. `duck` and `brave`
   * are the outcomes of fetching and parsing each provider's response.
   */
  function SearchWeb(args: Json, ctx: SecurityContext, searchApi: Option<string>, braveKey: Option<string>,
                     duck: Result<DuckDuckGoResponse, string>, brave: Result<seq<BraveResult>, string>): (r: Result<string, string>)
    ensures !ctx.allowWebSearch ==> r == Err("Web search is disabled")
    ensures ctx.allowWebSearch && RequiredString(args, "query").None? ==> r == Err(InvalidArguments("search_web"))
    ensures ctx.allowWebSearch && RequiredString(args, "query").Some? ==>
      var q := RequiredString(args, "query").value;
      (Utf8Len(q) > MaxQueryBytes ==> r == Err("Search query too long (max 500 characters)"))
      && (Utf8Len(q) <= MaxQueryBytes ==>
            match SearchProviderFromEnv(searchApi, braveKey)
            case Err(e) => r == Err(e)
            case Ok(DuckDuckGo) => r == (if duck.Ok? then Ok(DuckDuckGoText(duck.value, q)) else Err(duck.error))
            case Ok(Brave(_)) => r == (if brave.Ok? then Ok(BraveText(brave.value, q)) else Err(brave.error)))
  {
    if !ctx.allowWebSearch then Err("Web search is disabled")
    else match RequiredString(args, "query")
      case None => Err(InvalidArguments("search_web"))
      case Some(q) =>
        if Utf8Len(q) > MaxQueryBytes then Err("Search query too long (max 500 characters)")
        else match SearchProviderFromEnv(searchApi, braveKey)
          case Err(e) => Err(e)
          case Ok(DuckDuckGo) => if duck.Ok? then Ok(DuckDuckGoText(duck.value, q)) else Err(duck.error)
          case Ok(Brave(_)) => if brave.Ok? then Ok(BraveText(brave.value, q)) else Err(brave.error)
  }

  /** The disabled test: the flag is checked before the arguments or the environment are looked at. */
  lemma SearchDisabledFirst(args: Json, searchApi: Option<string>, braveKey: Option<string>,
                            duck: Result<DuckDuckGoResponse, string>, brave: Result<seq<BraveResult>, string>)
    ensures SearchWeb(args, WithAllowWebSearch(New(), false), searchApi, braveKey, duck, brave)
      == Err("Web search is disabled")
  {
  }

  /** The length test: 501 ASCII characters are refused, even with no usable provider. */
  lemma LongQueryRefused(q: string, searchApi: Option<string>,
                         duck: Result<DuckDuckGoResponse, string>, brave: Result<seq<BraveResult>, string>)
    requires |q| == 501 && forall i :: 0 <= i < |q| ==> q[i] == 'a'
    ensures SearchWeb(Object(map["query" := Str(q)]), New(), searchApi, None, duck, brave)
      == Err("Search query too long (max 500 characters)")
  {
    Utf8LenAscii(q);
  }

  // -----------------------------------------------------------------------
  // execute_command

  /** What the spawned command produced: its decoded output streams and exit code, if any. */
  datatype CommandOutput = CommandOutput(stdout: string, stderr: string, exitCode: Option<int>)

  const CommandDisabled: string := "Command execution is disabled. Use --allow-command-execution to enable."
  const CommandCancelled: string := "Command execution cancelled by user"

  function IntToString(n: int): (r: string)
  {
    if n < 0 then "-" + NatToString(-n) else NatToString(n)
  }

  function CommandLine(command: string): string
  {
    "Command: " + command + "\n"
  }

  function StatusLines(workingDir: string, exitCode: Option<int>): string
  {
    "Working directory: " + workingDir + "\n"
    + "Exit code: " + IntToString(if exitCode.Some? then exitCode.value else -1) + "\n\n"
  }

  /** A labelled output stream; empty when the stream is. */
  function StreamSection(heading: string, stream: string): string
  {
    if stream != [] then heading + stream + "\n" else []
  }

  const StdoutLabel: string := "=== STDOUT ===\n"
  const StderrLabel: string := "=== STDERR ===\n"
  const NoOutputLine: string := "(No output)\n"

  function NoOutputPart(out: CommandOutput): string
  {
    if out.stdout == [] && out.stderr == [] then NoOutputLine else []
  }

  /** The report of a finished command. */
  function FormatCommandOutput(command: string, workingDir: string, out: CommandOutput): string
  {
    CommandLine(command) + StatusLines(workingDir, out.exitCode)
    + StreamSection(StdoutLabel, out.stdout) + StreamSection(StderrLabel, out.stderr)
    + NoOutputPart(out)
  }

  /**
   * The report opens with the command line and closes with the standard
   * error section when there is error output, else with the standard output
   * section when there is output, else with the no-output line.
   */
  lemma CommandReportShape(command: string, workingDir: string, out: CommandOutput)
    ensures StartsWith(FormatCommandOutput(command, workingDir, out), CommandLine(command))
    ensures out.stdout == [] && out.stderr == [] ==> EndsWith(FormatCommandOutput(command, workingDir, out), NoOutputLine)
    ensures out.stderr != [] ==> EndsWith(FormatCommandOutput(command, workingDir, out), StderrLabel + out.stderr + "\n")
    ensures out.stderr == [] && out.stdout != [] ==>
      EndsWith(FormatCommandOutput(command, workingDir, out), StdoutLabel + out.stdout + "\n")
  {
    var head := CommandLine(command);
    var status := StatusLines(workingDir, out.exitCode);
    var outs := StreamSection(StdoutLabel, out.stdout);
    var errs := StreamSection(StderrLabel, out.stderr);
    var none := NoOutputPart(out);
    var r := FormatCommandOutput(command, workingDir, out);
    assert r == head + status + outs + errs + none;
    assert r == head + (status + outs + errs + none);
    StartsWithConcat(head, status + outs + errs + none);
    if out.stdout == [] && out.stderr == [] {
      EndsWithConcat(head + status + outs + errs, none);
    } else if out.stderr != [] {
      assert none == [] && r == head + status + outs + errs;
      EndsWithConcat(head + status + outs, errs);
    } else {
      assert none == [] && errs == [] && r == head + status + outs;
      EndsWithConcat(head + status, outs);
    }
  }

  /** The command's output streams are both found in the report. */
  lemma ReportKeepsStreams(command: string, workingDir: string, out: CommandOutput)
    ensures Contains(FormatCommandOutput(command, workingDir, out), out.stdout)
    ensures Contains(FormatCommandOutput(command, workingDir, out), out.stderr)
  {
    var r := FormatCommandOutput(command, workingDir, out);
    var head := CommandLine(command) + StatusLines(workingDir, out.exitCode);
    var outs := StreamSection(StdoutLabel, out.stdout);
    var errs := StreamSection(StderrLabel, out.stderr);
    var none := NoOutputPart(out);
    assert r == head + outs + errs + none;
    StreamInSection(StdoutLabel, out.stdout);
    StreamInSection(StderrLabel, out.stderr);
    ContainsEmbedded(head, outs, errs + none, out.stdout);
    assert head + outs + (errs + none) == r;
    ContainsEmbedded(head + outs, errs, none, out.stderr);
  }

  lemma StreamInSection(heading: string, stream: string)
    ensures Contains(StreamSection(heading, stream), stream)
  {
    if stream != [] {
      ContainsEmbedded(heading, stream, "\n", stream) by {
        assert StartsWith(stream, stream);
      }
    } else {
      assert StartsWith(StreamSection(heading, stream), stream);
    }
  }

  /** The working directory argument: absent or null means none; any other non-string fails to parse. */
  function WorkingDirArg(args: Json): (r: Result<Option<string>, string>)
    requires args.Object?
  {
    if "working_directory" !in args.members || args.members["working_directory"].Null? then Ok(None)
    else if args.members["working_directory"].Str? then Ok(Some(args.members["working_directory"].s))
    else Err(InvalidArguments("execute_command"))
  }

  /**
   * `ExecuteCommandTool::execute`: disabled check, parse, blocklist,
   * working directory (the argument, else the current directory `cwd`) and
   * its path check, confirmation when the policy asks for it, then the run.
   * `confirmation` is the user's answer and `run` the outcome of running.
   */
  function ExecuteCommand(args: Json, ctx: SecurityContext, canonicalize: PathBuf -> Option<PathBuf>,
                          cwd: Result<string, string>, confirmation: Result<bool, string>,
                          run: Result<CommandOutput, string>): (r: Result<string, string>)
    ensures !ctx.allowCommandExecution ==> r == Err(CommandDisabled)
    ensures (ctx.allowCommandExecution && RequiredString(args, "command").Some? && args.Object?
      && WorkingDirArg(args).Ok?) ==>
      var c := RequiredString(args, "command").value;
      (!IsCommandAllowed(c) ==> r == Err("Command blocked for security reasons: " + c))
      && (r.Ok? && r.value != CommandCancelled ==>
            IsCommandAllowed(c) && (!ctx.confirmCommands || (confirmation.Ok? && confirmation.value)) && run.Ok?)
  {
    if !ctx.allowCommandExecution then Err(CommandDisabled)
    else match RequiredString(args, "command")
      case None => Err(InvalidArguments("execute_command"))
      case Some(c) =>
        match WorkingDirArg(args)
        case Err(e) => Err(e)
        case Ok(wdArg) =>
          if !IsCommandAllowed(c) then Err("Command blocked for security reasons: " + c)
          else
            var wd := if wdArg.Some? then Ok(wdArg.value) else cwd;
            match wd
            case Err(e) => Err(e)
            case Ok(dir) =>
              if !PathAllowed(ctx, dir, canonicalize) then Err(AccessDenied(dir))
              else if ctx.confirmCommands && confirmation.Err? then Err(confirmation.error)
              else if ctx.confirmCommands && confirmation == Ok(false) then Ok(CommandCancelled)
              else match run
                case Err(e) => Err(e)
                case Ok(out) => Ok(FormatCommandOutput(c, dir, out))
  }

  /** A declined confirmation cancels without running: the run's outcome never matters. */
  lemma DeclinedRunsNothing(args: Json, ctx: SecurityContext, canonicalize: PathBuf -> Option<PathBuf>,
                            cwd: Result<string, string>, run1: Result<CommandOutput, string>,
                            run2: Result<CommandOutput, string>)
    requires ctx.allowCommandExecution && ctx.confirmCommands
    ensures ExecuteCommand(args, ctx, canonicalize, cwd, Ok(false), run1)
      == ExecuteCommand(args, ctx, canonicalize, cwd, Ok(false), run2)
  {
  }

  /**
   * The blocklist is checked before the working directory and the
   * confirmation: a blocked command is refused whatever those would be.
   */
  lemma BlockedBeforeDirectory(args: Json, ctx: SecurityContext, canonicalize: PathBuf -> Option<PathBuf>,
                               cwd: Result<string, string>, confirmation: Result<bool, string>,
                               run: Result<CommandOutput, string>)
    requires ctx.allowCommandExecution && args.Object? && WorkingDirArg(args).Ok?
    requires RequiredString(args, "command").Some? && !IsCommandAllowed(RequiredString(args, "command").value)
    ensures ExecuteCommand(args, ctx, canonicalize, cwd, confirmation, run)
      == Err("Command blocked for security reasons: " + RequiredString(args, "command").value)
  {
  }

  /**
   * The working directory is checked before the user is asked: a denied
   * directory is refused whatever the answer would be.
   */
  lemma DirectoryBeforeConfirmation(args: Json, ctx: SecurityContext, canonicalize: PathBuf -> Option<PathBuf>,
                                    dir: string, c1: Result<bool, string>, c2: Result<bool, string>,
                                    run: Result<CommandOutput, string>)
    requires ctx.allowCommandExecution && args.Object? && WorkingDirArg(args) == Ok(Some(dir))
    requires RequiredString(args, "command").Some? && IsCommandAllowed(RequiredString(args, "command").value)
    requires !PathAllowed(ctx, dir, canonicalize)
    ensures ExecuteCommand(args, ctx, canonicalize, Err(""), c1, run) == Err(AccessDenied(dir))
    ensures ExecuteCommand(args, ctx, canonicalize, Err(""), c1, run)
      == ExecuteCommand(args, ctx, canonicalize, Err(""), c2, run)
  {
  }

  /** With the default policy every command is refused as disabled. */
  lemma DefaultPolicyRefusesCommands(args: Json, canonicalize: PathBuf -> Option<PathBuf>,
                                     cwd: Result<string, string>, confirmation: Result<bool, string>,
                                     run: Result<CommandOutput, string>)
    ensures ExecuteCommand(args, New(), canonicalize, cwd, confirmation, run) == Err(CommandDisabled)
  {
  }
}
